=== FILE: README.md ===
# Text-to-speech data pipeline, modelled in Dafny

This project models the core of LAION-AI's Text-to-speech data pipeline:

- **The runner.** A processor registry (`Runner`) declares named processing stages. It builds them lazily and drops them after use.
- **The two recipes.** `YoutubeRunner` and `ASR2TTSRunner` chain stages over one metadata dict: download, wav conversion, voice activity detection (VAD), a per-segment enhancement loop, and a per-segment super-resolution loop that copies chunks out.
- **The pure logic the recipes rely on:**
  - the webrtc VAD interval arithmetic (framing, gap merge, greedy min-silence/max-duration merge, tail split, boundary smoothing) and the pyannote record assembly;
  - silence chunking metadata;
  - the `Base` module class (choice validation, target binding, dispatch, `save_to_file` slicing and path choice);
  - wav path conversion, encoder choice and the channel rule;
  - the denoiser's namespace construction, model selection and file naming;
  - the downloader's file-name sanitising and routing;
  - the generic helpers (`default`, `get_obj_from_str`, `freeze`, `NestedNamespace`);
  - the dotted-key JSON flattener.

Python values are the `Json` datatype. Dicts are insertion-ordered association lists, and `Put` models `d[k] = v`. Exceptions are `Exc` values inside `Result.Err`, named after the Python exception class.

Everything the code delegates to is a parameter of the model:

- the import system, each processor's behaviour, `time.time()` (a clock indexed by reading), `uuid4()`;
- which constructors and factories raise, and with what exception (a map from the processor name or the factory to its exception);
- the audio-info lookup, the webrtc classifier, pytube's saved path, `torch.load`, `json.dumps` and `round(x, 1)`.

Nothing is written to disk. The paths the code would write to are part of each model's result.

Modules, one per source component:

- `Wrappers`, `Text`, `Json`, `Paths`: shared definitions;
- `Helpers`, `Data`;
- `Registry`, `Pipelines`, `Runners`;
- `Audio`, `Common`, `Chunking`, `VadUtils`, `Vad`;
- `DenoiserUtils`, `Denoiser`, `Downloader`.

## Model

| member | source | states |
|---|---|---|
| Registry.Declare | manager/runner.py:41-53 | One declaration succeeds exactly when the name is allowed and not yet declared, the target imports, and an eager class has `args` and a constructor that does not raise. A raising constructor fails the declaration with its own exception. The new slot holds an instance for an eager class and the imported object otherwise. |
| Registry.DeclaredConsistent | manager/runner.py:41-53 | Declaring a new allowed name keeps the registry invariant: every slot matches its import and its loaded flag. It also keeps the initial lazy/eager slot state. |
| Registry.BuildPrefix | manager/runner.py:41-53 | After the first `n` declarations, the runner exists exactly when those declarations are admissible, eager constructors included. It is then consistent, in its initial state, and keeps the constructor faults it was given. |
| Registry.Build | manager/runner.py:34-53 | `Runner(configs, lazy_load)` succeeds exactly when every name is allowed, no name repeats, every target imports, and each eager class has `args` and a constructor that does not raise. The slots are exactly the declared names. A lazy runner holds every slot unloaded; an eager one has loaded exactly the class targets. A configuration without `processors` declares none. |
| Registry.LoadFrom | manager/runner.py:61-75 | The loop of `load_processors` from declaration `i` on. It succeeds exactly when no later slot due for construction has a raising constructor, and otherwise fails with the exception of the first such slot in declaration order. On success every selected slot still holding a class gets an instance built after the call; every other slot is kept. |
| Registry.Load | manager/runner.py:55-75 | Without `lazy_load` or `reload` nothing changes. Otherwise the load fails exactly when a selected slot due for construction has a raising constructor, with the first one's exception. On success each selected slot holding a class is constructed and every other slot is kept; the invariant, the names and the imports are preserved. |
| Registry.LoadIdempotent | manager/runner.py:55-75 | A successful load settles its selection, so a second load (with or without `reload`) succeeds and changes nothing. A loaded slot holds an instance, which `inspect.isclass` rejects. |
| Registry.LoadNamed | manager/runner.py:55-75 | Loading one name fails exactly when a lazy runner holds an unbuilt class under it whose constructor raises, and then with that constructor's exception. |
| Registry.OffloadFrom | manager/runner.py:81-88 | The loop of `offload_processors` from declaration `i` on resets exactly the selected later slots to their imported objects. |
| Registry.Offload | manager/runner.py:77-88 | Exactly the selected slots hold their imported object again, unloaded. Every other slot and the construction counter are unchanged. |
| Registry.Resolve | manager/runner.py:90-95 | A reference whose text before the first `.` is not a declared processor fails with `AssertionError`. A declared one resolves exactly when its load succeeds: a lazy runner holding a class whose constructor raises fails with that exception. The object returned is that slot after loading, and only loading happened. |
| Registry.ResolveLoads | manager/runner.py:90-95 | Resolution touches only the named slot. A lazy runner constructs it when it holds a class; otherwise the runner is unchanged. |
| Registry.ResolveQualified | manager/runner.py:90-95 | `x.y` resolves exactly when `x` does, to the same runner and object. |
| Registry.ResolveTwice | manager/runner.py:90-95 | Resolving the same reference again returns the same object and leaves the runner unchanged. |
| Registry.RunDag | manager/runner.py:111-113 | An undeclared prefix fails with `AssertionError`. A success is the resolved runner together with the processor's own answer to the keyword arguments. |
| Registry.Cleanup | manager/runner.py:115-118 | An eager runner is unchanged. A lazy runner resets the slot with exactly that name and keeps every other slot. |
| Registry.OffloadThenResolveIsFresh | manager/runner.py:77-95 | After a lazy runner drops a class processor, resolving it succeeds exactly when its constructor does not raise, and otherwise fails with that exception. On success it builds an instance of that class whose serial differs from every instance the runner held before. |
| Registry.CleanupQualifiedIsNoop | manager/runner.py:115-118 | `cleanup_dag` on a dotted reference leaves every slot as it was, because offloading matches whole names. |
| Registry.AllowedHaveNoDot | manager/runner.py:22-32 | Every declared name is allowed and holds no `.`. |
| Registry.UnlistedNeverResolves | manager/runner.py:42-44 | A reference whose prefix is not an allowed name is never declared, so it always fails to resolve with `AssertionError`. |
| Pipelines.SegArgs | manager/runner.py:150-156 | The per-segment keyword arguments. The denoise/enhancement loops pass `filepath` with `save_to_file=True`; superres passes `enhancement`. `save_dir` is `<cache>/<stage>/<basename of filepath>`. A segment without `filepath` gives `KeyError`; a non-dict gives `TypeError`. |
| Pipelines.FanOut | manager/runner.py:146-161 | A loop over `n` segments that returns has one state, call, result and time per segment. It reads the clock exactly `2n` times. |
| Pipelines.FanOutLast | manager/runner.py:146-161 | A completed loop is the loop over all but the last segment followed by one iteration on the last. |
| Pipelines.FanOutAdds | manager/runner.py:150-161 | The last iteration calls the stage once, from the state the previous call left. It merges the result and its elapsed time into the last segment and adds that time to the total. |
| Pipelines.FanOutAddsCall | manager/runner.py:150-160 | The last segment's call uses the arguments read from that segment and the state left by the previous call. Its result is merged into that segment. |
| Pipelines.FanOutAddsTime | manager/runner.py:150-161 | The last iteration adds one time, measured from the clock tick the prefix left, to the total. The earlier times are kept. |
| Pipelines.FanOutFirstFails | manager/runner.py:146-156 | When the first segment's stage call fails, the loop fails with that call's exception. |
| Pipelines.FanOutKeeps | manager/runner.py:158-160 | The last iteration leaves the records of every earlier segment unchanged. |
| Pipelines.CalledKeeps | manager/runner.py:146-161 | A call recorded by the prefix of a loop stays recorded, unchanged, after the last iteration. |
| Pipelines.FanOutTimesNonNegative | manager/runner.py:150-161 | With a clock that never goes back, every per-segment time and the total are non-negative. |
| Pipelines.FanOutBadSegmentFails | manager/runner.py:150-156 | A segment whose arguments cannot be read makes the whole loop fail. |
| Pipelines.FanOutFailingStage | manager/runner.py:146-156 | A stage that always fails lets a loop succeed exactly when there are no segments. |
| Pipelines.RunStage | manager/runner.py:111-113 | A stage call succeeds exactly when resolution and the processor succeed. Its result is the processor's answer. An undeclared stage fails with `AssertionError`. |
| Pipelines.UnlistedStageFails | manager/runner.py:90-95 | A stage outside the allow-list fails with `AssertionError` on every runner. |
| Pipelines.TimedStage | manager/runner.py:130-141 | A timed stage succeeds exactly when its stage call does. It reads the clock twice and keeps the runner's declarations. The runner it leaves is the one the call left, with the stage cleaned up by `Registry.Cleanup`. |
| Pipelines.TimedStageStores | manager/runner.py:139-140 | On a dict with distinct keys, the stage result is stored under the stage name and the elapsed time under `<stage>_proc_time`. Keys stay distinct; every other key is unchanged. |
| Pipelines.Iterate | manager/runner.py:146-147 | `for x in v`: a list yields its items, a dict its keys, a string its characters. `None`, booleans and numbers raise `TypeError`. |
| Pipelines.Segments | manager/runner.py:146-147 | The loop iterates `metadata["voice_activity_detection"]["voice_activity"]`: the segments read are exactly what iterating that value gives. Reading it requires the VAD entry to be a dict, and a missing VAD entry raises `KeyError`. |
| Pipelines.WriteBackReads | manager/runner.py:158-160 | Segments written back into a listed VAD entry read back as those segments. Everything outside the VAD entry is untouched. |
| Pipelines.WriteBackUnlisted | manager/runner.py:146-160 | When the segments are not a list, the loop's updates reach nothing in the dict. |
| Pipelines.Loop | manager/runner.py:143-163 | A fan-out loop succeeds exactly when the segments can be read and the loop completes. Its fan-out is that loop's, and it reads the clock twice per segment. The runner it leaves is the one the last call left, with the stage cleaned up by `Registry.Cleanup`. |
| Pipelines.LoopCalls | manager/runner.py:146-161 | The loop calls the stage once per segment, in list order. Each call starts from the runner the previous call left and uses the arguments read from its own segment. Call `v`'s result and time go into segment `v` alone; the list keeps its length. |
| Pipelines.LoopTimes | manager/runner.py:150-162 | Segment `v`'s time spans clock readings `2v` and `2v+1` after the loop starts. The stored total is the sum of the per-segment times. |
| Pipelines.LoopStores | manager/runner.py:158-162 | On listed segments, the updated segments stay in place and the total time is stored under `<key>_proc_time`. No other key changes. |
| Pipelines.LoopUnlistedStage | manager/runner.py:200-212 | A loop whose stage is not allowed succeeds only on an empty segment list. When the first segment's arguments can be read, it fails at resolution. |
| Pipelines.LoopKeepsUnique | manager/runner.py:158-162 | A loop keeps a dict's keys distinct and changes no key except `<key>_proc_time` and the VAD entry. |
| Pipelines.MergeStores | manager/runner.py:158-160 | `va.update({key: out, timeKey: t})` on a segment with distinct keys stores both values and keeps every other entry. |
| Pipelines.LoopEmptyStaysEmpty | manager/runner.py:203-219 | A loop over no segments leaves no segments for the next loop. |
| Runners.Unpack2 | manager/runner.py:175-177 | `metadata, status = ...` succeeds exactly when the value iterates to two items. A wrong count is `ValueError`; a non-iterable is `TypeError`. |
| Runners.Received | manager/runner.py:175-183 | The downloader's answer is accepted only as a dict with a truthy status. |
| Runners.ReceivedStatus | manager/runner.py:180-183 | A false status fails with the `AttributeError` of `logger.erro`. A true one sets `success` to false and leaves every other key. |
| Runners.Download | manager/runner.py:174-183 | The download step succeeds exactly when the downloader stage runs and its answer is accepted. The metadata is that answer's, and the runner is the stage's with `downloader` cleaned up. |
| Runners.ScratchDir | manager/runner.py:172 | The scratch directory ends in the fresh uuid text and, for a relative uuid, lies inside `<cache>/tmp`. |
| Runners.Prepare | manager/runner.py:172-198 | The steps before the first loop succeed only after the download and the wav conversion succeed. A failed download or conversion is raised as is. A prepared run has read the clock twice and keeps the runner's declarations. |
| Runners.WavPath | manager/runner.py:185 | `convert2wav(metadata["audio"])` for a string audio path. A missing `audio` is `KeyError`. |
| Runners.Transcode | manager/runner.py:185-198 | The transcode step succeeds exactly when the wav conversion and the VAD stage on the converted path succeed. |
| Runners.FinalDir | manager/runner.py:222-224 | The final directory is `<cache>/final/<basename of file, every . replaced by _>`. It exists exactly when `file` is a string. |
| Runners.Keep | manager/runner.py:245-249 | The chunk entry keeps exactly the entries of the segment whose key is listed. |
| Runners.Chunks | manager/runner.py:245-249 | `chunk_metadata` has one entry per segment. |
| Runners.Copies | manager/runner.py:244 | One copy per segment. |
| Runners.Superres | manager/runner.py:222-253 | The superres step succeeds exactly when the final directory can be built and the superres loop succeeds. It then copies each segment's result into that directory, one copy and one chunk entry per segment. |
| Runners.Enhance | manager/runner.py:200-253 | The two loops run in sequence: the run succeeds exactly when the enhancement loop succeeds and the superres step succeeds from the step it left. |
| Runners.Asr2Tts | manager/runner.py:171-259 | `ASR2TTSRunner.__call__` as written: a run that succeeds removes the scratch directory and has no segment, chunk or copy, because the enhancement loop asks for an unlisted processor. |
| Runners.Asr2TtsIntended | manager/runner.py:171-259 | The corrected recipe, with `denoise_audio` as the enhancement processor: a run that succeeds has prepared the audio and removes the scratch directory. It has one copy and one chunk per superresolved segment. |
| Runners.Asr2TtsWith | manager/runner.py:171-259 | The ASR recipe succeeds exactly when the preparation (download, wav conversion, VAD stage) succeeds and both loops then succeed from the step it left. Its removed directory is the scratch directory. |
| Runners.FailedDownloadRaises | manager/runner.py:180-183 | A false download status ends the run with `AttributeError`, whatever the later stages would do. |
| Runners.EnhancementUnlisted | manager/runner.py:22-32 | `enhancement` is not an allowed processor name. |
| Runners.AsWrittenYieldsNoChunks | manager/runner.py:200-212 | As written, a completed ASR run has an empty segment list and copies out no chunk. |
| Runners.EnhanceYieldsNoChunks | manager/runner.py:200-251 | The loop half of the above: loops over `enhancement` complete only on empty segment lists. |
| Runners.AsWrittenFailsOnSegments | manager/runner.py:200-212 | As written, a VAD result whose first segment has a readable `filepath` makes the ASR run fail at resolution. |
| Runners.TranscodeStores | manager/runner.py:185-197 | On distinct keys, the transcode step stores the wav path under `audio` and the VAD result under its stage name. Keys stay distinct. |
| Runners.SuperresSucceeds | manager/runner.py:227-253 | A completed superres step reports `success` true and keeps keys distinct. |
| Runners.EnhanceSucceeds | manager/runner.py:200-253 | The same for both loops together. |
| Runners.CompletedRunSucceeds | manager/runner.py:171-259 | A run that returns reports `success` true, with distinct keys when the downloaded dict had them. |
| Runners.ScratchDirShape | manager/runner.py:172 | The scratch directory is a non-empty path without a trailing separator. |
| Runners.FinalDirUnder | manager/runner.py:222-224 | The final directory lies inside the scratch directory. |
| Runners.OutputsUnder | manager/runner.py:244-257 | Every chunk copy and both JSON files lie inside the scratch directory. |
| Runners.SuperresOutputsRemoved | manager/runner.py:222-258 | The superres step writes only inside the directory that `rmtree` removes. |
| Runners.AsrOutputsRemoved | manager/runner.py:222-258 | A completed ASR run writes its final directory, both JSON files and every chunk copy inside the scratch directory, which it removes at the end. |
| Runners.ChunkFileInjective | manager/runner.py:244-245 | Different segment indices give different `chunk_<v>.wav` names. |
| Runners.ChunksUnique | manager/runner.py:245-249 | The chunk metadata has distinct keys. |
| Runners.ChunkEntryDropsStop | manager/runner.py:245-249 | A chunk entry keeps `start` and `duration` but nothing under `stop`, which is where VAD records a segment's end. |
| Runners.SuperresMerged | manager/runner.py:240-249 | A merged superres segment holds the stage's result, and its kept chunk entries are the pre-merge ones. |
| Runners.SuperresChunks | manager/runner.py:240-249 | Segment `v`'s copy takes the superres result just merged into it to `chunk_<v>.wav` in the final directory. Its chunk entry holds the segment's kept keys; entries have distinct names. |
| Runners.EnhancedSegment | manager/runner.py:215-237 | After enhancement merged into a segment, superres reads that result as its input and the unchanged `filepath` for its directory. |
| Runners.EnhancedLookups | manager/runner.py:215-216 | A merged enhanced segment holds the result under `enhancement` and keeps `filepath`. |
| Runners.SuperresArgs | manager/runner.py:234-238 | The superres arguments of an enhanced segment are its enhanced audio and its stage directory. |
| Runners.EnhanceChains | manager/runner.py:203-243 | With listed dict segments, superres call `v` takes the audio that enhancement call `v` returned, and both loops visit every segment. |
| Runners.ChainAt | manager/runner.py:215-237 | The previous property at a single index. |
| Runners.AsrIntendedChains | manager/runner.py:171-259 | With the registered `denoise_audio` in the enhancement loop, every VAD segment is enhanced, its enhanced audio is what superres receives, and it is copied out as one chunk. |
| Runners.YoutubeFrom | manager/runner.py:130-164 | The YouTube stages from `metadata` succeed exactly when `metadata` is a dict holding `audio`, the VAD stage on that audio succeeds and the denoise loop then completes. A non-dict raises `TypeError`. |
| Runners.VideoWav | manager/runner.py:128 | `convert2wav(file_metadata["video"])` for a dict holding a string `video`. |
| Runners.Youtube | manager/runner.py:125-164 | As written, every YouTube run fails, whatever the processors do. |
| Runners.YoutubeIntended | manager/runner.py:125-164 | The intended recipe succeeds exactly when the video converts and the stages succeed on the metadata holding the wav path under `audio`. |
| Runners.YoutubeFromStores | manager/runner.py:133-163 | The VAD stage reads the stored audio path. The result keeps keys distinct, holds both stage times and leaves every unwritten key as it was. |
| Runners.YoutubeIntendedStores | manager/runner.py:125-164 | The intended recipe keeps the file metadata, adds the wav path under `audio`, and hands that path to VAD. |
| Audio.SupportedNonEmpty | modules/audio.py:48 | Every supported suffix is a lowercase `.`-led extension of at least four characters, with no other `.` and no separator. |
| Paths.NameDropsDot | modules/audio.py:47 | As `pathlib` does, a trailing `/.` changes neither a path's name nor its suffix, so `x.mp3/.` has suffix `.mp3`. |
| Paths.NameOfJoin | modules/audio.py:47 | The name of `<dir>/<name>` is `name`, for a separator-free name other than `.`. |
| Audio.Convert2Wav | modules/audio.py:46-59 | A path fails with `NotImplementedError` exactly when its lowercased suffix is not supported. A `.wav` suffix returns the path unchanged. |
| Audio.Convert2WavOfName | modules/audio.py:47-59 | A file `<stem><ext>` anywhere is accepted exactly when its lowercased `ext` is supported. A `.wav` file is answered as is. |
| Audio.Convert2WavEndsInWav | modules/audio.py:53-57 | With a lowercase supported extension, the answer ends in `.wav`. |
| Audio.Convert2WavUpperCaseUnchanged | modules/audio.py:47-57 | A path holding its lowercased suffix nowhere, such as `.MP3`, is answered unchanged. |
| Audio.Convert2WavRewritesDirectory | modules/audio.py:54 | `b.mp3/a.mp3` is answered as `b.wav/a.wav`: the directory name is rewritten too. |
| Audio.Convert2WavIntended | modules/audio.py:46-59 | The intended conversion has the same acceptance and errors, and the same answer for `.wav`. |
| Audio.Convert2WavIntendedOfName | modules/audio.py:53-57 | The intended conversion turns `<dir>/<stem><ext>` into `<dir>/<stem>.wav`. |
| Audio.Convert2WavIntendedKeepsDirectory | modules/audio.py:54 | On `b.mp3/a.mp3`, the intended conversion keeps the directory and gives `b.mp3/a.wav`. |
| Audio.SaveAudioEncoder | modules/audio.py:25-30 | The MP3 encoder is used exactly when the lowercased suffix is `.mp3`, with the given bitrate; otherwise WAV with the given bit depth. |
| Audio.SaveAudioOfName | modules/audio.py:26-30 | The encoder choice ignores case and directory. |
| Audio.MeanRow | modules/audio.py:17 | The channel mean has one sample per column. |
| Audio.ConvertChannels | modules/audio.py:15-18 | A matching channel count is unchanged. Otherwise the result has exactly `channels` rows, each the channel mean. |
| Audio.MeanOfEqualRows | modules/audio.py:17 | The mean of identical rows is that row. |
| Audio.ConvertChannelsIdempotent | modules/audio.py:15-18 | Converting twice to the same count is converting once. |
| Audio.MonoIsCopied | modules/audio.py:15-18 | Widening mono audio copies its row into every channel. |
| Common.BuildParts | modules/common.py:35-40 | Every entry but `target` is called. The build succeeds exactly when they are all callable and none of the calls raises. Otherwise the error is `TypeError` or the raising factory's exception. The parts are exactly those entries, built. |
| Common.Construct | modules/common.py:30-44 | An unknown choice fails with `AssertionError`. A choice that is neither dict nor partial fails with `NotImplementedError`. A dict choice builds a dict model exactly when its parts build. A partial builds a single model unless its factory raises, and then fails with that exception. |
| Common.BindTarget | modules/common.py:55-61 | A `str` target becomes the bound method or fails with `AttributeError`. Any other choice is unchanged. |
| Common.PostInit | modules/common.py:54-61 | The table keeps its keys. It succeeds exactly when every entry binds, and then holds each bound entry; any failure is `AttributeError`. |
| Common.PostInitBindsAll | modules/common.py:54-61 | After success no target is left unbound, and entries without a `str` target are kept. |
| Common.Init | modules/common.py:20-52 | `__init__` succeeds exactly when construction for the ASCII-lowercased choice and `__post__init__` succeed. A failed construction, a raising factory included, leaves the table as it was and passes its exception on. |
| Common.InitIgnoresCase | modules/common.py:30-33 | Choices equal after ASCII lowercasing construct identically. |
| Common.Call | modules/common.py:67-79 | Neither `audio_path` nor `audio` gives `AssertionError`. A single model dispatches to `predict`; a dict model calls the callable class-level target of its choice. |
| Common.BoundAfterPostInit | modules/common.py:54-61 | After `__post__init__`, the choice maps to the same dict with its target bound to the constructing instance. |
| Common.SecondInstanceCallsFirst | modules/common.py:54-61 | A second instance leaves the class-level table as the first left it, and its calls reach the method bound to the first instance. |
| Common.PostInitIdempotent | modules/common.py:54-61 | On a fully bound table, `__post__init__` changes nothing and raises nothing. |
| Common.DictAfterBind | modules/common.py:34-40 | The bound table still builds the choice as a dict model. |
| Common.InitOnBound | modules/common.py:20-61 | Construction from a fully bound table leaves the table unchanged. |
| Common.MeanLastAxis | modules/common.py:83-85 | Averaging the last axis keeps the first two dimensions. |
| Common.ClampIndex | modules/common.py:87-93 | A slice bound is clamped to `[0, n]`. A bound in range is kept; a negative bound `i` with `-i <= n` becomes `n + i`; one further back becomes 0; one past the end becomes `n`. |
| Common.Slice | modules/common.py:87-93 | A Python slice never yields more elements than its sequence. |
| Common.SliceWithin | modules/common.py:87-93 | Slicing with `lo <= hi` keeps exactly the elements between the clamped bounds. |
| Common.SavePathChoice | modules/common.py:101-105 | A `save_dir` with an extension is the file. Otherwise the file is `<uuid>.wav` inside it, written as WAV. |
| Common.SavePath | modules/common.py:101-105 | A `save_dir` with an extension is the path itself. Otherwise the path ends in `<uuid>.wav`, inside `save_dir`. |
| Common.Clip | modules/common.py:81-99 | The saved tensor is always two-dimensional. |
| Common.ClipLength | modules/common.py:87-93 | A one-dimensional clip keeps `min(stop, len - start)` samples from `start`. |
| Common.ClipKeepsTooMuch | modules/common.py:87-93 | Clipping samples 10 to 20 of 100 keeps 20 samples, not 10. |
| Common.ClipCutsChannels | modules/common.py:87-93 | On a mono `(1, samples)` tensor, any positive start cut keeps nothing. |
| Common.SaveToFile | modules/common.py:95-106 | The saved path is the `save_path` choice. A missing `save_dir` is created as given, so one with an extension is created at the file path. The saved tensor is two-dimensional. The encoder is MP3 at 320 kbps exactly when the lowercased suffix is `.mp3`, and 16-bit WAV otherwise. |
| Common.SaveToFileMakesFileDir | modules/common.py:95-105 | A `save_dir` with an extension is created as a directory and then used as the file path. |
| Common.ClipIntended | modules/common.py:81-99 | The intended clip is always two-dimensional. |
| Common.IntendedClip | modules/common.py:87-93 | The intended clip of each channel is exactly samples `start` to `stop`. |
| Common.IntendedClipVec | modules/common.py:87-99 | The intended one-dimensional clip is the single row `v[start:stop]`. |
| Common.IntendedDirHoldsFile | modules/common.py:95-105 | The intended directory is a proper prefix of the saved path, never the file. |
| Chunking.ChunkingConstruct | modules/chunking.py:13-19 | Construction succeeds exactly for `pydub_chunking` in any ASCII case, whatever the factories would raise, because that choice has no parts to build. It builds an empty model dict. |
| Chunking.ChunkNameShape | modules/chunking.py:57-59 | A chunk name is a relative, separator-free file name. |
| Chunking.ChunkPath | modules/chunking.py:57-60 | A chunk's path ends in its `<stem>_chunk_<idx>.wav` name, and so in `.wav`. |
| Chunking.ChunkPathShape | modules/chunking.py:57-60 | A saved chunk is named `<stem>_chunk_<idx>.wav` and lies inside `save_dir`. |
| Chunking.ChunkPathsDistinct | modules/chunking.py:57-60 | Different chunks never share a file. |
| Chunking.ChunkTotalStep | modules/chunking.py:40 | Appending a chunk adds its duration to the total. |
| Chunking.ChunkBySilence | modules/chunking.py:21-51 | Failure happens exactly when saving is asked for without `save_dir` and there is a chunk, and it is `KeyError("save_dir")`. Otherwise: one entry per chunk, in order, with a filepath exactly when saving; the total is the sum of the durations; the audio length is reported. |
| Chunking.Call | modules/chunking.py:66-71 | A missing `audio_path` gives `AssertionError`. Otherwise the result is that of `chunk_by_silence`. It fails with `KeyError("save_dir")` exactly when saving without `save_dir` on a non-empty chunk list. Each entry is the chunk's metadata, with a file exactly when saving, and the total audio duration is the audio length. |
| VadUtils.ReadWave | modules/vad_utils.py:5-17 | Only mono audio with 2-byte samples at 16000, 22050, 32000 or 48000 Hz is read; anything else is `AssertionError`. The result is the data and the rate. |
| VadUtils.ReadWaveChecksChannelsFirst | modules/vad_utils.py:10-15 | A multi-channel file fails on the channel check whatever its width and rate. |
| VadUtils.CountedFrameFits | modules/vad_utils.py:39 | Every counted frame ends strictly before the data does. |
| VadUtils.CountCharacterized | modules/vad_utils.py:39-42 | The frame count is the one whose last frame ends before the data, where one more frame would not. |
| VadUtils.Frames | modules/vad_utils.py:29-42 | There is one frame per counted position. |
| VadUtils.FrameGenerator | modules/vad_utils.py:29-42 | A zero rate divides by zero. Otherwise the frames yielded are exactly `Frames`: the `k`-th holds bytes `k*n` to `(k+1)*n` and starts at `k` frame durations, in exact arithmetic. |
| VadUtils.FramesTile | modules/vad_utils.py:35-42 | The frames' bytes, concatenated, are the leading part of the data: contiguous, non-overlapping, from offset 0. |
| VadUtils.ExactFitDropped | modules/vad_utils.py:39 | Data of exactly `m` frames yields `m - 1` frames. |
| VadUtils.SpeechSpans | modules/vad_utils.py:57-60 | Every span is that of a speech frame, from its timestamp to timestamp plus duration. There are none exactly when no frame is speech. |
| VadUtils.SpeechSpansAppend | modules/vad_utils.py:57-60 | The spans of two runs of frames in sequence are the first run's spans followed by the second's, so spans keep frame order. |
| VadUtils.SpeechSpansSingle | modules/vad_utils.py:57-60 | One frame gives exactly its own span when it is speech and nothing otherwise. With the append lemma, there is one span per speech frame, in frame order. |
| VadUtils.GapStarts | modules/vad_utils.py:64-69 | A new merged segment starts at span `k` exactly when it begins more than `gap` after the previous span ends. |
| VadUtils.MergeGaps | modules/vad_utils.py:62-69 | The merge loop computes exactly the functional gap merge `Merged`. |
| VadUtils.MergedShape | modules/vad_utils.py:62-71 | No speech gives no segments. Otherwise there are no more segments than spans, the first starts at the first span and the last ends at the last. |
| VadUtils.MergedSeparated | modules/vad_utils.py:64-69 | Consecutive merged segments are more than `gap` apart. |
| VadUtils.MergedEndpoints | modules/vad_utils.py:64-69 | Each merged segment starts at some span's start and ends at some span's end. |
| VadUtils.VadAudioSegment | modules/vad_utils.py:45-71 | Failure happens exactly on the header checks. Otherwise the result is the gap merge of the speech spans of the frames. |
| VadUtils.SilenceGivesNothing | modules/vad_utils.py:62-63 | Audio with no speech frame gives no segments. |
| Vad.GreedyStarts | modules/vad.py:104-120 | Every merged group but the first splits from the one before it. No segment inside a group splits from the group's start. |
| Vad.GreedyMerge | modules/vad.py:104-120 | The merge loop computes exactly the functional greedy merge `Greedy`. |
| Vad.GreedyShape | modules/vad.py:104-120 | The merge never adds segments. It starts where the first segment starts and ends where the last ends. |
| Vad.GreedyBoundary | modules/vad.py:111-117 | Between two merged segments there is a gap above `min_silence`, and their combined duration exceeds `max_duration`. |
| Vad.GreedyJoinsShortGaps | modules/vad.py:111-113 | A gap of at most `min_silence` never starts a new merged segment. |
| Vad.GreedyKeepsOrder | modules/vad.py:104-120 | Segments in time order merge into segments in time order. |
| Vad.TailSplit | modules/vad.py:122-125 | A last segment of at most `min_duration` shares the span from the previous start to its own end, cut at the midpoint. Otherwise nothing changes. With a single such segment, `IndexError`. |
| Vad.Pin | modules/vad.py:130-131 | The first entry starts at 0 and the last ends at `dur`; the inner bounds are kept. |
| Vad.Smooth | modules/vad.py:134-144 | One segment fails with `IndexError`. Otherwise adjacent entries share their boundary and the outer bounds are kept. |
| Vad.WebrtcEntries | modules/vad.py:146-165 | There is one entry per bound, rounded, with `duration` equal to `stop - start`. The filepath is `<path>_split/<name>_<i+1>.wav` exactly when `save_to_file`. |
| Vad.Telescopes | modules/vad.py:152-153 | For tiling entries, `va_duration` is the last stop minus the first start, in exact arithmetic. |
| Vad.Finish | modules/vad.py:102-171 | Post-processing fails only with `IndexError`. |
| Vad.FinishTiles | modules/vad.py:104-171 | A finished report has at least two entries tiling from `round(0)` to `round(dur)`, with `va_duration` their difference in exact arithmetic. Each entry has a file exactly when `save_to_file`. |
| Vad.FinishFailsOnOneSegment | modules/vad.py:122-139 | When the merge yields one segment, post-processing fails. |
| Vad.OneSegmentMergesToOne | modules/vad.py:104-120 | A single speech segment merges to itself. |
| Vad.SplitPathsDistinct | modules/vad.py:156-159 | Different entries are cut to different files. |
| Vad.SplitPath | modules/vad.py:156-159 | Entry `i`'s split file ends in `_<i+1>.wav`. |
| Vad.SplitPathIsUnder | modules/vad.py:128-159 | Every split file lies inside the `_split` directory. |
| Vad.VadWithWebrtc | modules/vad.py:87-171 | A failed conversion or no speech gives `None`. Header checks fail with `AssertionError`. Otherwise the result is the post-processing of the merged segments. |
| Vad.SmoothIntended | modules/vad.py:134-144 | The intended smoothing keeps one entry per segment. It agrees with the as-written smoothing wherever that succeeds. |
| Vad.TailSplitIntended | modules/vad.py:122-125 | The intended tail split keeps one segment per segment and keeps a single segment whole. It agrees with the as-written split wherever that succeeds. |
| Vad.FinishIntended | modules/vad.py:102-171 | The intended post-processing reports the audio length as the total duration. It agrees with the as-written post-processing wherever that succeeds. |
| Vad.FinishIntendedTiles | modules/vad.py:122-153 | The intended post-processing tiles `round(0)` to `round(dur)` for any segment count, one included. |
| Vad.PyannoteEntries | modules/vad.py:45-66 | There is one entry per speech span, rounded, with `duration` equal to `stop - start`. The filepath is the `save_to_file` path exactly when saving. |
| Vad.PyannoteSaveDir | modules/vad.py:38-43 | A non-empty `save_dir` keyword is used as given. Otherwise the directory lies inside `<cache>/tmp/vad` and ends in the audio file's stem. |
| Vad.VadWithPyannote | modules/vad.py:32-71 | There is one entry per span. `va_duration` is the sum of the durations, and the total duration is the audio length. |
| Vad.PyannoteRecords | modules/vad.py:38-66 | Each saved entry is a fresh `<uuid>.wav` in the save directory, or the directory itself when it has an extension. |
| Vad.PyannoteDurationSum | modules/vad.py:45-66 | `va_duration` is the sum of the rounded span lengths. |
| DenoiserUtils.Url | modules/denoiser_utils.py:10-14 | Every checkpoint URL extends the published root. |
| DenoiserUtils.ArchOf | modules/denoiser_utils.py:17-48 | `dns48` has hidden 48. The other variants have hidden 64, and only `valentini_nc` is non-causal with stride 2 and resample 2. All run at 16000 Hz. |
| DenoiserUtils.Pretrained | modules/denoiser_utils.py:17-48 | A variant built from `hub_dir` fetches its weights exactly when `hub_dir` is truthy, from its URL with `model_dir` None on the CPU. |
| DenoiserUtils.Attr | modules/denoiser_utils.py:83 | Reading a namespace attribute succeeds exactly when it is present; otherwise `AttributeError`. |
| DenoiserUtils.FromPackage | modules/denoiser_utils.py:85-91 | A loaded package yields a deserialised model or an error. |
| DenoiserUtils.Choice | modules/denoiser_utils.py:92-105 | The priority is `dns64`, `master64`, `valentini_nc`, then `dns48`. Each flag is read only when the earlier ones are false, so failure is exactly a missing flag that gets read. |
| DenoiserUtils.GetModel | modules/denoiser_utils.py:79-107 | A missing `model_path` gives `AttributeError`. A truthy one deserialises a package. A falsy one builds the chosen variant from `hub_dir`. |
| DenoiserUtils.ModelPathWins | modules/denoiser_utils.py:83-91 | A truthy `model_path` decides the model alone: no flag or `hub_dir` is read. |
| DenoiserUtils.MissingValentiniNc | modules/denoiser_utils.py:100 | With falsy `model_path`, `dns64` and `master64`, a namespace without `valentini_nc` fails reading it. |
| DenoiserUtils.PackageCases | modules/denoiser_utils.py:85-91 | A package without `model` is deserialised whole. With `best_state`, the model gets it as `state` and keeps its other keys; without it, the model is used as is. |
| Denoiser.HubDir | modules/denoiser.py:25 | `hub_dir` is a non-empty path ending with `model_choice`. A truthy non-string `cache_dir` is `TypeError`. |
| Denoiser.Namespace | modules/denoiser.py:26-29 | On distinct keyword arguments the namespace has distinct keys, and each key holds its last assignment. |
| Denoiser.NamespaceHolds | modules/denoiser.py:26-29 | The namespace holds `model_path` None, the hub directory, each of the four flags, and every other keyword argument unchanged. |
| Denoiser.LoadWith | modules/denoiser.py:24-34 | `load_model` succeeds exactly when `hub_dir` can be computed. Its target is `apply_denoiser`. |
| Denoiser.LoadModel | modules/denoiser.py:24-34 | The `load_model` method succeeds exactly when the hub directory can be computed from `model_choice` and `cache_dir`. |
| Denoiser.LoadModelStores | modules/denoiser.py:24-34 | The namespace holds `model_path` None, `hub_dir`, and `model_choice.endswith(key)` under each of `master64`, `dns64`, `valentini` and `dns48`. The other keyword arguments are kept. |
| Denoiser.AtMostOneFlag | modules/denoiser.py:28-29 | No flag name ends with another, so at most one flag is true. |
| Denoiser.NoFlagEndsAnother | modules/denoiser.py:28 | None of `master64`, `dns64`, `valentini` and `dns48` ends with another of them. |
| Denoiser.LoadedModelFails | modules/denoiser.py:28-32 | A choice ending in neither `dns64` nor `master64` gives a namespace on which `get_model` raises `AttributeError("valentini_nc")`. |
| Denoiser.LoadModelIntended | modules/denoiser.py:24-34 | The intended `load_model` fails exactly as the written one does. |
| Denoiser.IntendedSelects | modules/denoiser.py:24-34 | With `valentini_nc` set, `get_model` builds the variant that the choice's suffix names, by priority, and fetches its weights. |
| Denoiser.SelectsFrom | modules/denoiser.py:26-29 | A namespace with `model_path` None, a non-empty `hub_dir` and boolean flags builds the first variant whose flag is set, in priority order, and fetches its weights. |
| Denoiser.DenoisedPathOfName | modules/denoiser.py:54-58 | A file `<x><ext>` anywhere is saved as `<x>_denoised.wav` directly inside `save_dir`. |
| Denoiser.DenoisedPath | modules/denoiser.py:54-58 | The saved file's path ends in `<stem>_denoised.wav`, and so in `.wav`. |
| Denoiser.SaveDir | modules/denoiser.py:75 | A truthy `save_dir` is used as given, whatever its type. Otherwise the directory is `<cache>/tmp/denoiser`. The result is always truthy. |
| Denoiser.Call | modules/denoiser.py:50-90 | Neither input gives `AssertionError`. Saving reads the audio info and then denoises, and the denoiser's exception passes through. A non-string save directory raises `TypeError` only after denoising, in `save_to_file`. Saving returns the path `<stem>_denoised.wav` in the save directory and reports the sample rate. Otherwise the denoised tensor is returned, moved to the CPU exactly when `offload`. |
| Downloader.Filter | manager/downloader.py:29 | The result holds exactly the input's letters, digits and spaces (and `_` in the intended class), and it is no longer than the input. |
| Downloader.FilterSingle | manager/downloader.py:29 | One character comes out as itself when it is in the class, and is dropped otherwise. |
| Downloader.FilterAppend | manager/downloader.py:29 | The filter of a concatenation is the concatenation of the filters, so the kept characters keep their order and their repeats. |
| Downloader.Underscored | manager/downloader.py:30 | Every space becomes `_`; every other character is kept. |
| Downloader.SanitizeWith | manager/downloader.py:29-30 | A sanitised root is no longer than the root, and holds no space and no separator. |
| Downloader.Sanitize | manager/downloader.py:29-30 | As written, only ASCII letters, digits and `_` remain, and an `_` remains exactly when the root had a space. |
| Downloader.SanitizedAlphabet | manager/downloader.py:29-30 | A sanitised root holds only ASCII letters, digits and `_`. It holds `_` exactly when the root had a space, or a kept `_`. |
| Downloader.SanitizeFixedIff | manager/downloader.py:29-30 | As written, sanitising a sanitised root changes it exactly when the root held a space. |
| Downloader.SanitizeTwice | manager/downloader.py:29-30 | `x y` sanitises to `x_y`, which sanitises to `xy`. |
| Downloader.SanitizeIntendedIdempotent | manager/downloader.py:29-30 | Keeping `_`, sanitising is idempotent. |
| Downloader.SanitizeAgrees | manager/downloader.py:29-30 | On roots without `_`, both sanitisations agree. |
| Downloader.Split | manager/downloader.py:27 | `os.path.split` gives the head and the separator-free tail. |
| Downloader.SplitOfJoin | manager/downloader.py:27-33 | Splitting `<dir>/<name>` gives back `dir` and `name`. |
| Downloader.RenamedStaysInDirectory | manager/downloader.py:27-33 | The renamed video stays in its directory, with a sanitised root and the kept extension. |
| Downloader.RenamedWith | manager/downloader.py:27-33 | The renamed path ends in the sanitised root followed by the original extension, and so in that extension. |
| Downloader.FromYoutube | manager/downloader.py:21-37 | The metadata holds the renamed `video` and the `source` URL; the status is true. |
| Downloader.FromUrl | manager/downloader.py:39-43 | The metadata holds `file` as `<save_dir>/<uuid>.zip` and the `source` URL; the status is true. |
| Downloader.UrlAlwaysZip | manager/downloader.py:40-43 | The URL download's file always ends in `.zip` and is named `<uuid>.zip`. |
| Downloader.Extraction | manager/downloader.py:66-67 | The archive is extracted exactly when the status is true and `file` is a string ending in `.zip`, and then into `save_dir`. |
| Downloader.FindFrom | manager/downloader.py:61 | The first index at or after `from` holding one of the characters, or the length. |
| Downloader.AfterScheme | manager/downloader.py:61 | The text after a valid scheme is a suffix of the URL. |
| Downloader.Netloc | manager/downloader.py:61-62 | The network location is a substring of the URL. |
| Downloader.NetlocRouteImpliesWalkRoute | manager/downloader.py:52-62 | A URL that `download_file` routes to YouTube is also routed there by `walk_files`. |
| Downloader.WalkRouteWiderThanNetloc | manager/downloader.py:52-62 | `https://<host>/youtube.com` contains `youtube.com` but its netloc is `host`, so the two routings differ. |
| Downloader.NetlocOf | manager/downloader.py:61 | The network location of `https://<host><path>` is the host. |
| Downloader.HasSource | manager/downloader.py:60 | `"source" in metadata` for a dict, string or list; any other value is `TypeError`. |
| Downloader.NonStrSource | manager/downloader.py:61 | `urlparse` on a non-string source: a falsy one raises `TypeError`, a truthy one `AttributeError`. |
| Downloader.DownloadFile | manager/downloader.py:59-68 | No source gives `None`. A non-string source fails in `urlparse`: `TypeError` when it is falsy, `AttributeError` otherwise. A string source always fails with `TypeError`, naming the helper it was routed to, because of the extra `save_dir` argument. |
| Downloader.DownloadFileIntended | manager/downloader.py:59-68 | YouTube sources give the YouTube metadata without extraction. URL sources give the URL metadata, extracted where the `.zip` test says. A non-string source fails in `urlparse` as written: `TypeError` when falsy, `AttributeError` otherwise. |
| Downloader.IntendedUrlExtracts | manager/downloader.py:63-67 | The intended URL download always extracts into `save_dir`. |
| Downloader.UrlExtracts | manager/downloader.py:66-67 | The `.zip` test passes on every URL download. |
| Downloader.SaveDirOf | manager/downloader.py:71-72 | `None` becomes `<cache>/tmp/downloads`; any other value is kept. |
| Downloader.Call | manager/downloader.py:70-73 | `__call__` equals `download_file` on the metadata, whatever `save_dir` is. |
| Downloader.WalkFiles | manager/downloader.py:49-57 | Without configs, `AttributeError("sources")`. Otherwise the walk of the sources. |
| Downloader.WalkWith | manager/downloader.py:50-57 | Leading YouTube sources are yielded; the first other source stops the walk with a `TypeError` naming `download_from_url`. |
| Downloader.WalkFilesYields | manager/downloader.py:49-57 | The walk yields the YouTube metadata of its leading `youtube.com` sources. It ends normally exactly when all sources name YouTube; otherwise it stops with `TypeError` at the first one that does not. |
| Helpers.Default | utils/helpers.py:37-38 | `v` when it is not None; otherwise `d()` for a callable `d`, else `d`. |
| Helpers.SplitObjPath | utils/helpers.py:44 | The split succeeds exactly when there is a `.`. The parts rejoin to the input, and the name holds no `.`. |
| Helpers.GetObjFromStr | utils/helpers.py:43-48 | The lookup succeeds exactly when the split and the import do, and then yields the imported attribute. |
| Helpers.SplitObjPathOfJoin | utils/helpers.py:44 | Splitting `module.name` gives back `module` and `name` for a dot-free name. |
| Helpers.Freeze | utils/helpers.py:51-52 | Non-containers are unchanged. A list becomes a tuple of the same length. A dict becomes a frozenset holding `(k, freeze(v))` for each entry. |
| Helpers.FreezePairs | utils/helpers.py:52 | A pair is in a frozen dict exactly when some entry has that key and freezes to that value. |
| Helpers.FreezeLookup | utils/helpers.py:52 | For a dict with unique keys, the only pair of key `k` in its frozen image is `(k, freeze(d[k]))`. |
| Helpers.FreezeListElements | utils/helpers.py:52 | Each element of a frozen list is the frozen element, in order. |
| Helpers.FreezeIgnoresOrder | utils/helpers.py:52 | Dicts with the same entries freeze alike, whatever their order. |
| Helpers.Convert | utils/helpers.py:20-23 | A value converts exactly when no list inside it holds a list. The result mirrors the value: `Leaf` for a scalar, a namespace for a dict, a tuple of the same length for a list. |
| Helpers.ToNamespace | utils/helpers.py:18-24 | Conversion succeeds exactly when no list element is a list. The attributes are the earlier ones plus the keys. An earlier attribute whose key does not occur is kept. With unique keys, each key's attribute mirrors its value. |
| Helpers.SetAttrStep | utils/helpers.py:24 | One `setattr` of the loop keeps the key set, the untouched attributes and the mirrored values. |
| Helpers.ElementsToNs | utils/helpers.py:23 | A list converts exactly when no element is a list. The result is a tuple of the same length whose element `k` mirrors element `k`: dicts become namespaces and scalars stay. |
| Helpers.NestedNamespace | utils/helpers.py:17-24 | `NestedNamespace(d)` succeeds exactly when no list value holds a list. It has one attribute per key and mirrors `d` as a whole. |
| Helpers.NestedNamespaceAttr | utils/helpers.py:19-24 | With unique keys, a scalar attribute is the value itself, a dict attribute is a namespace over its keys, and a list attribute is a tuple of the same length. |
| Data.ChildKey | utils/data.py:11 | A truthy parent gives `parent.key`. An empty parent gives `key`. |
| Data.Store | utils/data.py:17-21 | Storing a scalar keeps the dict flat and its keys distinct. The key is appended when new, and it maps to the value. |
| Data.NormalizeFields | utils/data.py:8-21 | Flattening keeps earlier keys, keeps the dict flat and distinct, and adds only keys under the parent. |
| Data.NormalizeEntry | utils/data.py:10-21 | The same for one entry. |
| Data.NormalizeItems | utils/data.py:23-25 | A top-level list flattens exactly when all its items are dicts; otherwise it raises `AttributeError("items")`. |
| Data.Flatten | utils/data.py:23-27 | Flattening succeeds exactly on a dict or a list of dicts, and otherwise raises `AttributeError("items")`. It gives a flat dict with distinct keys. |
| Data.SplitColumns | utils/data.py:29-35 | Every key lands in a column list: in the records for a list value, in meta otherwise. Every listed key comes from such an entry, and the two lists together are as long as the data, so each entry is listed once. |
| Data.NormalizeJson | utils/data.py:23-47 | A flattening error is raised by `normalize_json`, and it is `AttributeError("items")`. |
| Data.FlattenedHasNoRecords | utils/data.py:13-35 | A flattened dict has no record path; every key is meta. |
| Data.NormalizeJsonAlwaysRaises | utils/data.py:23-47 | `normalize_json` always raises. It raises `AttributeError` on an input that is neither a dict nor a list of dicts. It raises `ValueError` from `pd.concat([])` otherwise, a list of dicts included. |
| Data.LastScalarWins | utils/data.py:20-21 | A scalar written last wins its flattened key. |
| Data.OnlyFirstDictCounts | utils/data.py:16-19 | Of a list of dicts only the first is flattened. |
| Data.NestedKeysAreDotted | utils/data.py:11-21 | For any keys `a`, `b` and scalar `v`, `{a: {b: v}}` flattens to `{"a.b": v}`, or to `{b: v}` when `a` is empty. |

## Left out

- File and process I/O is not performed:
  - ffmpeg calls, `torchaudio` load/save, lameenc;
  - `shutil.copy`, `rmtree`, `makedirs`, `mkdir`, JSON writes;
  - zip extraction (`unzip_file`), `wget`, pytube, `os.rename`, `os.remove`.
  
  The model computes the paths these calls use.
- `settings.CACHE_DIR`, `time.time()`, `uuid4()`, the import system, the audio-info lookup, the webrtc classifier, pyannote's timeline, pydub's chunks, `torch.load`, `json.dumps` and `round(x, 1)` are parameters.
- `Registry`: configuration loading (`load_configs`, `merge_configs`) is not modelled; the processors list is given directly. `get_obj_from_str` with `reload=True` is not modelled; the import is taken to yield the same object each time. `refactor_dag_name_with_ordinal` is not modelled: it is unused, reads an undefined attribute and returns nothing.
- Pipelines and Runners: aliasing is modelled only as its effect. The loops re-read the updated segment and write the segments back only when they are held as a list. `tqdm` output and logging are not modelled.
- `Runners.Youtube`: states failure on every input, not which exception each input raises.
- `Registry.LoadFrom`: when a constructor raises part-way through `load_processors`, the model returns only the exception. The slots already rebuilt by then belong to a runner object the caller no longer sees, and that state is not modelled.
- `Registry.Load`: as for `Registry.LoadFrom`, a failed load does not model the slots built before the raising constructor.
- Registry and Common construction faults are fixed per processor name and per factory: the same constructor raises the same exception every time, because its arguments are fixed by the configuration.
- Audio numerics are not modelled: normalisation, resampling, MP3 clamping and scaling, `get_duration` and `convert_and_trim_ffmpeg`.
- `get_audio_info`, `convert2wav_ffmpeg` and `trim_audio_ffmpeg` are called but not defined in `modules/audio.py`. They are not part of this model, and their results are parameters.
- `modules/denoiser.py` imports an `audio_ops` module that does not exist. It is not part of this model.
- `DenoiseAudio.__init__` calls `Base.__init__` without `model_choice` and would raise `TypeError`. It is not modelled.
- `apply_denoiser` is not modelled. It reads an undefined `self.dry` and the attributes of a `partial`.
- `DenoiseAudio.predict` is not modelled; `Denoiser.Call` takes the denoised audio as a parameter.
- The Demucs network and `deserialize_model` are not modelled. A built model is described by the arguments it was built from.
- `Denoiser.Call`: the model-versus-predict dispatch is folded into the `denoise` parameter.
- `Downloader.__init__` and `configs` loading are not modelled. `walk_files` receives the sources list.
- The `save_dir` that `walk_files` computes from `self.configs.get` is unused by the calls that follow. It is not modelled.
- `Downloader.Netloc`: does not model `urlsplit` stripping leading control characters and tabs or newlines, nor its bracket validation of IPv6 hosts.
- `VadUtils.FrameGenerator`: requires a non-zero frame size on non-empty data, because the source loop never ends there.
- `Vad.VadWithWebrtc`: `dur` is the audio length the info lookup reports. The `<path>_convert.wav` name and the removal of that file are not modelled. VAD runs with the default gap of 0.5 s and 10 ms frames, as the source calls it.
- `Common.MeanLastAxis`: an empty row averages to 0 rather than torch's NaN.
- `Text.Lower`: maps ASCII `A`-`Z` only. Python's `str.lower` maps all of Unicode and can change the length (`"İ".lower()` has two characters). This affects every choice lookup below.
- `Common.Init`: lowercases the choice in ASCII only, as `Text.Lower` does.
- `Common.InitIgnoresCase`: states case-insensitivity for ASCII case only.
- `Chunking.ChunkingConstruct`: accepts `pydub_chunking` in any ASCII case only; a non-ASCII choice whose Unicode lowercase is `pydub_chunking` is not covered.
- `VadUtils.FrameGenerator`: the bytes per frame are the exact `rate * ms * 2 / 1000`, rounded down. The source computes `int(sample_rate * (frame_duration_ms / 1000.0) * 2)` in floating point, which can come out one byte lower (rate 750 at 18 ms gives 26, not 27). The two agree for 10, 20 and 30 ms at the rates `read_wave` accepts.
- `VadUtils.FrameGenerator`: timestamps and durations are exact reals. The source accumulates `timestamp += duration` in floating point, which drifts; the model has no rounding.
- `Vad.Telescopes`: `va_duration` is an exact sum. The source sums floats and may differ from the last stop minus the first start by rounding.
- `Vad.FinishTiles`: the boundary midpoints and the `va_duration` sum are exact reals, with no floating-point rounding. `round(x, 1)` is a parameter.
- `Common.Clip`: `round(t * sr)` is a parameter, so the start and stop samples are given as integers.
- `Helpers.Freeze`: a frozenset of pairs is modelled as the set of frozen pairs. Hashability of the frozen values is not modelled.
- `Helpers.NestedNamespace`: a `SimpleNamespace` is modelled as a map from attribute names to converted values. Object identity is not modelled, and the per-key value statement assumes distinct keys, as a Python dict has.
- `make_hash`, `generate_oid` and `SpecialExclusionBaseModel` are not modelled: they are hashing, ObjectId and pydantic glue outside the pipeline's logic.
- The `pandas` frame that `normalize_json` would build is not modelled; `Data.NormalizeJsonAlwaysRaises` shows it is never reached.
- `Data.NormalizeJson`: its own contract states the flattening failure. The `ValueError` of every flattenable input is stated in `Data.NormalizeJsonAlwaysRaises`.

## Findings

| source | as written | input that shows it | evidently intended | confidence | as-written member | corrected member |
|---|---|---|---|---|---|---|
| modules/audio.py:54 | `audio_path.replace(ext, ".wav")` rewrites every occurrence of the suffix text | `b.mp3/a.mp3` gives `b.wav/a.wav` | replace only the file's suffix, giving `b.mp3/a.wav` | not executed | Audio.Convert2WavRewritesDirectory | Audio.Convert2WavIntendedKeepsDirectory |
| modules/common.py:87-93 | the stop cut slices the already start-cut tensor along the first axis | 100 samples, start 10, stop 20 keep 20 samples; a mono `(1, n)` tensor cut at start 1 keeps nothing | one slice `audio[..., start:stop]` along the sample axis | not executed | Common.ClipKeepsTooMuch | Common.IntendedClip |
| modules/common.py:95-105 | `os.makedirs(save_dir)` runs even when `save_dir` names the file | `save_dir = "out/x.wav"` creates a directory `out/x.wav` and then writes to it | create the directory holding the file | not executed | Common.SaveToFileMakesFileDir | Common.IntendedDirHoldsFile |
| modules/vad.py:122-139 | the tail split and the smoothing index a neighbour that one segment lacks | a single speech segment raises `IndexError` | keep the single segment whole as `[0, dur]` | not executed | Vad.FinishFailsOnOneSegment | Vad.FinishIntendedTiles |
| manager/runner.py:128 | `metadata` is bound to the string `convert2wav` returns | any file metadata: `metadata["audio"]` at line 135 indexes a string | store the wav path under `audio` in the file's metadata | not executed | Runners.Youtube | Runners.YoutubeIntendedStores |
| manager/runner.py:200 | the enhancement loop asks for processor `enhancement`, which is not allowed | any VAD result with a segment fails at resolution | use the registered `denoise_audio` processor, as the YouTube recipe does | not executed | Runners.AsWrittenYieldsNoChunks | Runners.AsrIntendedChains |
| modules/denoiser.py:28 | `load_model` sets `valentini` but `get_model` reads `valentini_nc` | `model_choice = "dns48"` raises `AttributeError("valentini_nc")` | set `valentini_nc` from the `valentini` suffix | not executed | Denoiser.LoadedModelFails | Denoiser.IntendedSelects |
| manager/downloader.py:29-30 | the character class drops `_`, so sanitising is not idempotent | `"a b"` gives `"a_b"`, which gives `"ab"` | keep `_` in the class | not executed | Downloader.SanitizeTwice | Downloader.SanitizeIntendedIdempotent |
| manager/downloader.py:63-65 | both helpers take one URL but are passed `save_dir` as well | any metadata with a `source` raises `TypeError` | pass the save directory to the helpers' downloads | not executed | Downloader.DownloadFile | Downloader.DownloadFileIntended |

=== FILE: audio.dfy ===
/** The path and shape rules of `modules/audio.py`: which files
    `convert2wav` accepts and what path it answers, which encoder
    `save_audio` picks, and the channel rule of `convert_channels`.

    The ffmpeg, torchaudio and lameenc calls themselves are not modelled;
    an audio tensor is a sequence of channel rows of samples.
 */
module Audio {
  import opened Wrappers
  import opened Text
  import opened Paths

  /** The suffixes `convert2wav` accepts, already lowercased. */
  const SupportedExts: seq<string> := [".sph", ".wav", ".mp3", ".flac", ".ogg", ".mp4"]

  /** Every supported suffix is a lowercase, `.`-led extension of at least
      four characters with no other `.` and no separator. */
  lemma SupportedNonEmpty(ext: string)
    requires ext in SupportedExts
    ensures |ext| >= 4 && ext[0] == '.' && '.' !in ext[1..] && Sep !in ext
    ensures forall i :: 0 <= i < |ext| ==> 'a' <= ext[i] <= 'z' || ext[i] == '.' || IsDigit(ext[i])
  {
  }

  lemma SupportedIsLower(ext: string)
    requires ext in SupportedExts
    ensures Lower(ext) == ext
  {
    SupportedNonEmpty(ext);
    LowerOfLower(ext);
  }

  /** `convert2wav(audio_path)`: the path the converted file is written to.
      A supported suffix other than `.wav` is replaced, as text, at every
      place it occurs in the path. */
  function Convert2Wav(p: string): (r: Result<string>)
    ensures r.Err? <==> Lower(Suffix(p)) !in SupportedExts
    ensures r.Err? ==> r.exc.NotImplementedError?
    ensures r.Ok? && Lower(Suffix(p)) == ".wav" ==> r.value == p
  {
    var ext := Lower(Suffix(p));
    if ext !in SupportedExts then Err(NotImplementedError("Audio format " + ext + " is not supported"))
    else if ext != ".wav" then
      SupportedNonEmpty(ext);
      Ok(ReplaceAll(p, ext, ".wav"))
    else Ok(p)
  }

  /** A file `<stem><ext>` in any directory is accepted exactly when its
      extension, lowercased, is supported; a `.wav` file is answered as
      is. */
  lemma Convert2WavOfName(dir: string, stem: string, ext: string)
    requires Sep !in stem && stem != ""
    requires |ext| >= 2 && ext[0] == '.' && '.' !in ext[1..] && Sep !in ext
    ensures Convert2Wav(Join(dir, stem + ext)).Ok? <==> Lower(ext) in SupportedExts
    ensures Lower(ext) == ".wav" ==> Convert2Wav(Join(dir, stem + ext)) == Ok(Join(dir, stem + ext))
  {
    SuffixOfName(dir, stem, ext);
  }

  /** With a lowercase supported extension, the answered path ends in
      `.wav`. */
  lemma Convert2WavEndsInWav(dir: string, stem: string, ext: string)
    requires Sep !in stem && stem != ""
    requires |ext| >= 2 && ext[0] == '.' && '.' !in ext[1..] && Sep !in ext
    requires Lower(ext) == ext && ext in SupportedExts
    ensures Convert2Wav(Join(dir, stem + ext)).Ok?
    ensures EndsWith(Convert2Wav(Join(dir, stem + ext)).value, ".wav")
  {
    var p := Join(dir, stem + ext);
    SuffixOfName(dir, stem, ext);
    assert (stem + ext)[|stem + ext| - |ext|..] == ext;
    EndsWithTrans(p, stem + ext, ext);
    if ext != ".wav" {
      ReplaceKeepsEnding(p, ext, ".wav");
    }
  }

  /** A path holding its lowercased suffix nowhere (an upper-case `.MP3`,
      say) is answered unchanged, although no wav file is written there. */
  lemma Convert2WavUpperCaseUnchanged(p: string)
    requires Lower(Suffix(p)) in SupportedExts && !Contains(p, Lower(Suffix(p)))
    ensures Convert2Wav(p) == Ok(p)
  {
    var ext := Lower(Suffix(p));
    SupportedNonEmpty(ext);
    if ext != ".wav" {
      ReplaceAbsent(p, ext, ".wav");
    }
  }

  /** A file `<y><ext>` in a directory named `<x><ext>`, such as
      `b.mp3/a.mp3`. */
  function Nested(x: char, y: char, ext: string): string {
    [x] + ext + [Sep] + [y] + ext
  }

  lemma NestedShape(x: char, y: char, ext: string)
    requires x != Sep && y != Sep && |ext| >= 2 && ext[0] == '.' && '.' !in ext[1..] && Sep !in ext
    ensures Nested(x, y, ext) == Join([x] + ext, [y] + ext)
    ensures Suffix(Nested(x, y, ext)) == ext
    ensures Collapse(Nested(x, y, ext)) == Nested(x, y, ext)
  {
    NestedIsJoin(x, y, ext);
    SuffixOfName([x] + ext, [y], ext);
    CollapseOfJoin([x] + ext, [y] + ext);
  }

  lemma NestedIsJoin(x: char, y: char, ext: string)
    requires y != Sep && |ext| >= 2 && Sep !in ext
    ensures Nested(x, y, ext) == Join([x] + ext, [y] + ext)
  {
    var dir := [x] + ext;
    assert dir[|dir| - 1] == ext[|ext| - 1];
    assert ([y] + ext)[0] == y;
    assert Join(dir, [y] + ext) == dir + [Sep] + ([y] + ext);
  }

  /** Replacing `pat` in `x pat / y pat` rewrites both occurrences. */
  lemma ReplaceTwice(x: char, y: char, pat: string, rep: string)
    requires |pat| > 0 && x != pat[0] && y != pat[0] && Sep != pat[0]
    ensures ReplaceAll(Nested(x, y, pat), pat, rep) == Nested(x, y, rep)
  {
    var t4 := pat + "";
    assert t4 == pat;
    ReplaceAllAtPattern("", pat, rep);
    var r4 := ReplaceAll(t4, pat, rep);
    assert r4 == rep;
    var t3 := [y] + t4;
    ReplaceAllKeeps(y, t4, pat, rep);
    var t2 := [Sep] + t3;
    ReplaceAllKeeps(Sep, t3, pat, rep);
    var t1 := pat + t2;
    ReplaceAllAtPattern(t2, pat, rep);
    var t0 := [x] + t1;
    ReplaceAllKeeps(x, t1, pat, rep);
    Regroup([x], pat, [Sep], [y], t4);
    Regroup([x], rep, [Sep], [y], r4);
  }

  /** The written conversion also rewrites a directory name holding the
      suffix: `b.mp3/a.mp3` is answered as `b.wav/a.wav`. */
  lemma Convert2WavRewritesDirectory(x: char, y: char, ext: string)
    requires x != Sep && y != Sep && x != '.' && y != '.'
    requires ext in SupportedExts && ext != ".wav"
    ensures Convert2Wav(Nested(x, y, ext)) == Ok(Nested(x, y, ".wav"))
  {
    SupportedNonEmpty(ext);
    SupportedIsLower(ext);
    NestedShape(x, y, ext);
    ReplaceTwice(x, y, ext, ".wav");
  }

  lemma SuffixWithinStripped(p: string)
    ensures |Suffix(p)| <= |Collapse(p)|
  {
    SuffixWithinName(p);
    NameWithinStripped(p);
  }

  lemma SuffixWithinName(p: string)
    ensures |Suffix(p)| <= |Name(p)|
  {
  }

  lemma NameWithinStripped(p: string)
    ensures |Name(p)| <= |Collapse(p)|
  {
  }

  /** `PurePath(p).with_suffix(rep)` for a path whose suffix has `n`
      characters: the text before the suffix, trailing separators dropped,
      then `rep`. */
  function WithSuffix(p: string, n: nat, rep: string): string
    requires n <= |Collapse(p)|
  {
    var base := Collapse(p);
    base[..|base| - n] + rep
  }

  /** The path `convert2wav` evidently means: the input with its suffix
      alone replaced by `.wav`. A `.wav` input is still answered
      unchanged. */
  function Convert2WavIntended(p: string): (r: Result<string>)
    ensures r.Err? <==> Lower(Suffix(p)) !in SupportedExts
    ensures r.Err? ==> r.exc.NotImplementedError?
    ensures r.Ok? && Lower(Suffix(p)) == ".wav" ==> r.value == p
  {
    var ext := Lower(Suffix(p));
    if ext !in SupportedExts then Err(NotImplementedError("Audio format " + ext + " is not supported"))
    else if ext != ".wav" then
      SuffixWithinStripped(p);
      Ok(WithSuffix(p, |Suffix(p)|, ".wav"))
    else Ok(p)
  }

  /** The intended conversion turns `<dir>/<stem><ext>` into
      `<dir>/<stem>.wav`, whatever the directory holds. */
  lemma Convert2WavIntendedOfName(dir: string, stem: string, ext: string)
    requires Sep !in stem && stem != ""
    requires |ext| >= 2 && ext[0] == '.' && '.' !in ext[1..] && Sep !in ext
    requires Lower(ext) in SupportedExts && Lower(ext) != ".wav"
    ensures Convert2WavIntended(Join(dir, stem + ext)) == Ok(Join(dir, stem + ".wav"))
  {
    SuffixLengthAndCase(dir, stem, ext);
    IntendedIsWithSuffix(Join(dir, stem + ext));
    WithSuffixOfName(dir, stem, ext, ".wav");
  }

  lemma SuffixLengthAndCase(dir: string, stem: string, ext: string)
    requires Sep !in stem && stem != ""
    requires |ext| >= 2 && ext[0] == '.' && '.' !in ext[1..] && Sep !in ext
    ensures |Suffix(Join(dir, stem + ext))| == |ext|
    ensures Lower(Suffix(Join(dir, stem + ext))) == Lower(ext)
  {
    SuffixOfName(dir, stem, ext);
  }

  /** `with_suffix` on `<dir>/<stem><ext>` gives `<dir>/<stem><rep>`. */
  lemma WithSuffixOfName(dir: string, stem: string, ext: string, rep: string)
    requires Sep !in stem && stem != ""
    requires |ext| >= 2 && ext[0] == '.' && '.' !in ext[1..] && Sep !in ext
    ensures |ext| <= |Collapse(Join(dir, stem + ext))|
    ensures WithSuffix(Join(dir, stem + ext), |ext|, rep) == Join(dir, stem + rep)
  {
    var p := Join(dir, stem + ext);
    CollapseOfJoin(dir, stem + ext);
    WithSuffixOfStripped(p, rep, |ext|);
    JoinedPair(dir, stem, ext, rep);
    ReplaceEnding(p, Join(dir, ""), stem, ext, rep);
  }

  lemma JoinedPair(dir: string, stem: string, ext: string, rep: string)
    requires stem != "" && stem[0] != Sep
    ensures Join(dir, stem + ext) == Join(dir, "") + (stem + ext)
    ensures Join(dir, stem + rep) == Join(dir, "") + (stem + rep)
  {
    NotSepLed(stem, ext);
    NotSepLed(stem, rep);
    JoinAppends(dir, stem + ext);
    JoinAppends(dir, stem + rep);
  }

  lemma IntendedIsWithSuffix(p: string)
    requires Lower(Suffix(p)) in SupportedExts && Lower(Suffix(p)) != ".wav"
    ensures |Suffix(p)| <= |Collapse(p)|
    ensures Convert2WavIntended(p) == Ok(WithSuffix(p, |Suffix(p)|, ".wav"))
  {
    SuffixWithinStripped(p);
  }

  lemma WithSuffixOfStripped(p: string, rep: string, n: nat)
    requires Collapse(p) == p && n <= |p|
    ensures WithSuffix(p, n, rep) == p[..|p| - n] + rep
  {
  }

  /** A supported suffix other than `.wav` is a lowercase, `.`-led
      extension with no other `.`. */
  lemma SupportedOther(ext: string)
    requires ext in SupportedExts && ext != ".wav"
    ensures |ext| >= 2 && ext[0] == '.' && '.' !in ext[1..] && Sep !in ext
    ensures Lower(ext) in SupportedExts && Lower(ext) != ".wav"
  {
    SupportedNonEmpty(ext);
    SupportedIsLower(ext);
  }

  /** On the input where the written conversion rewrites a directory, the
      intended one keeps it. */
  lemma Convert2WavIntendedKeepsDirectory(x: char, y: char, ext: string)
    requires x != Sep && y != Sep && x != '.' && y != '.'
    requires ext in SupportedExts && ext != ".wav"
    ensures Convert2WavIntended(Nested(x, y, ext)) == Ok(Join([x] + ext, [y] + ".wav"))
  {
    SupportedOther(ext);
    NestedIsJoin(x, y, ext);
    Convert2WavIntendedOfName([x] + ext, [y], ext);
  }

  /** The encoder `save_audio` hands a tensor to. */
  datatype Encoder = Mp3(bitrate: nat) | Wav(bitsPerSample: nat)

  /** `save_audio(wav, path, sr, bitrate, bits_per_sample)`: the encoder and
      its setting. */
  function SaveAudioEncoder(path: string, bitrate: nat, bitsPerSample: nat): (e: Encoder)
    ensures e.Mp3? <==> Lower(Suffix(path)) == ".mp3"
    ensures e.Mp3? ==> e.bitrate == bitrate
    ensures e.Wav? ==> e.bitsPerSample == bitsPerSample
  {
    if Lower(Suffix(path)) == ".mp3" then Mp3(bitrate) else Wav(bitsPerSample)
  }

  /** The choice ignores case and the directory: a file `<stem><ext>`
      anywhere is encoded as MP3 exactly when `ext` lowercases to `.mp3`. */
  lemma SaveAudioOfName(dir: string, stem: string, ext: string, bitrate: nat, bits: nat)
    requires Sep !in stem && stem != ""
    requires |ext| >= 2 && ext[0] == '.' && '.' !in ext[1..] && Sep !in ext
    ensures SaveAudioEncoder(Join(dir, stem + ext), bitrate, bits).Mp3? <==> Lower(ext) == ".mp3"
  {
    SuffixOfName(dir, stem, ext);
  }

  /** An audio tensor: one row of samples per channel. */
  type Tensor = seq<seq<real>>

  predicate Rectangular(wav: Tensor) {
    forall i :: 0 <= i < |wav| ==> |wav[i]| == |wav[0]|
  }

  function ColumnSum(wav: Tensor, j: nat): real
    requires Rectangular(wav) && (|wav| > 0 ==> j < |wav[0]|)
  {
    if |wav| == 0 then 0.0
    else
      assert Rectangular(wav[..|wav| - 1]);
      ColumnSum(wav[..|wav| - 1], j) + wav[|wav| - 1][j]
  }

  /** `wav.mean(dim=0)`: the sample-wise mean of the channels. */
  function MeanRow(wav: Tensor): (m: seq<real>)
    requires Rectangular(wav) && |wav| > 0
    ensures |m| == |wav[0]|
  {
    seq(|wav[0]|, j requires 0 <= j < |wav[0]| => ColumnSum(wav, j) / (|wav| as real))
  }

  /** `convert_channels(wav, channels)`. */
  function ConvertChannels(wav: Tensor, channels: nat): (r: Tensor)
    requires Rectangular(wav) && |wav| > 0
    ensures |wav| == channels ==> r == wav
    ensures |r| == channels && Rectangular(r)
    ensures |wav| != channels ==> forall i :: 0 <= i < |r| ==> r[i] == MeanRow(wav)
  {
    if |wav| != channels then seq(channels, _ => MeanRow(wav)) else wav
  }

  /** Every row of a tensor with identical rows is their mean. */
  lemma MeanOfEqualRows(wav: Tensor)
    requires |wav| > 0 && forall i :: 0 <= i < |wav| ==> wav[i] == wav[0]
    ensures Rectangular(wav) && MeanRow(wav) == wav[0]
  {
    var n := |wav| as real;
    var m := MeanRow(wav);
    forall j | 0 <= j < |wav[0]|
      ensures m[j] == wav[0][j]
    {
      ColumnSumOfEqualRows(wav, j);
      assert m[j] == ColumnSum(wav, j) / n;
      DivCancel(n, wav[0][j]);
    }
  }

  lemma DivCancel(n: real, x: real)
    requires n > 0.0
    ensures (n * x) / n == x
  {
  }

  lemma {:induction false} ColumnSumOfEqualRows(wav: Tensor, j: nat)
    requires forall i :: 0 <= i < |wav| ==> wav[i] == wav[0]
    requires |wav| > 0 ==> j < |wav[0]|
    ensures Rectangular(wav) && ColumnSum(wav, j) == (|wav| as real) * (if |wav| == 0 then 0.0 else wav[0][j])
    decreases |wav|
  {
    if |wav| > 1 {
      var w := wav[..|wav| - 1];
      ColumnSumOfEqualRows(w, j);
    }
  }

  /** Converting twice to the same channel count is converting once. */
  lemma ConvertChannelsIdempotent(wav: Tensor, channels: nat)
    requires Rectangular(wav) && |wav| > 0 && channels > 0
    ensures ConvertChannels(ConvertChannels(wav, channels), channels) == ConvertChannels(wav, channels)
  {
  }

  /** Widening a mono tensor copies its one row into every channel. */
  lemma MonoIsCopied(wav: Tensor, channels: nat)
    requires |wav| == 1
    ensures Rectangular(wav)
    ensures forall i :: 0 <= i < channels ==> ConvertChannels(wav, channels)[i] == wav[0]
  {
    MeanOfEqualRows(wav);
  }
}

=== FILE: chunking.dfy ===
/** `AudioChunking` of `modules/chunking.py`: the per-chunk metadata that
    `chunk_by_silence` assembles, the names `save_to_file` gives the
    chunks, and the guard of `__call__`.

    pydub's `split_on_silence` is the parameter `chunks` (each chunk is
    known by its duration and frame rate), `get_audio_info(..).length` is
    `length`, and writing a chunk is left out: only its path is computed.
 */
module Chunking {
  import opened Wrappers
  import opened Text
  import opened Paths
  import Common

  /** `MODEL_CHOICES`: one dict choice whose only entry is its target. */
  const ChunkingChoices: Common.Table :=
    [("pydub_chunking", Common.DictChoice([("target", Common.Name("chunk_by_silence"))]))]

  /** Construction accepts `pydub_chunking` in any (ASCII) case and builds
      an empty model dict, since the target is not constructed: no factory
      is called, so no factory fault can surface. */
  lemma ChunkingConstruct(choice: string, faults: map<Common.Value, Exc>)
    ensures Common.Construct(ChunkingChoices, Lower(choice), faults).Ok? <==> Lower(choice) == "pydub_chunking"
    ensures Lower(choice) == "pydub_chunking" ==>
      Common.Construct(ChunkingChoices, Lower(choice), faults) == Ok(Common.DictModel([]))
  {
    var es := [("target", Common.Name("chunk_by_silence"))];
    if Lower(choice) == "pydub_chunking" {
      assert Common.Get(ChunkingChoices, Lower(choice)) == Some(Common.DictChoice(es));
      assert Common.BuildParts(es, faults) == Ok([]) by {
        assert es[1..] == [];
      }
    } else {
      assert Common.Get(ChunkingChoices, Lower(choice)) == None by {
        assert ChunkingChoices[0].0 != Lower(choice);
      }
    }
  }

  /** One chunk from `split_on_silence`. */
  datatype Chunk = Chunk(durationSeconds: real, frameRate: nat)

  /** One entry of `audio_chunks`. */
  datatype ChunkMeta = ChunkMeta(duration: real, filepath: Option<string>, sampleRate: nat)

  /** What `chunk_by_silence` returns. */
  datatype ChunkReport = ChunkReport(audioChunks: seq<ChunkMeta>, totalChunkDuration: real, totalAudioDuration: real)

  /** The file `save_to_file` writes chunk `idx` of `audioPath` to:
      `<stem>_chunk_<idx>.wav` inside `saveDir`. */
  function ChunkPath(saveDir: string, audioPath: string, idx: nat): (p: string)
    ensures EndsWith(p, ChunkName(audioPath, idx)) && EndsWith(p, ".wav")
  {
    var name := ChunkName(audioPath, idx);
    assert EndsWith(name, ".wav") by { assert name[|name| - 4..] == ".wav"; }
    EndsWithTrans(Join(saveDir, name), name, ".wav");
    Join(saveDir, name)
  }

  function ChunkName(audioPath: string, idx: nat): string {
    Stem(audioPath) + "_chunk_" + NatToString(idx) + ".wav"
  }

  /** The chunk names are relative, separator-free file names. */
  lemma ChunkNameShape(audioPath: string, idx: nat)
    ensures Sep !in ChunkName(audioPath, idx)
    ensures !StartsWith(ChunkName(audioPath, idx), [Sep])
  {
    var stem, digits := Stem(audioPath), NatToString(idx);
    var base := stem + "_chunk_";
    assert base[..|base| - 1] == stem + "_chunk";
    assert Sep !in base[..|base| - 1];
    NamePrefix(base, digits);
    assert Sep !in digits by {
      forall i | 0 <= i < |digits| ensures digits[i] != Sep { assert IsDigit(digits[i]); }
    }
    assert Sep !in base;
    assert Sep !in base + digits;
  }

  /** A saved chunk keeps the chunk name as its file name and lies inside
      the save directory. */
  lemma ChunkPathShape(saveDir: string, audioPath: string, idx: nat)
    requires saveDir != "" && saveDir[|saveDir| - 1] != Sep
    ensures Basename(ChunkPath(saveDir, audioPath, idx)) == ChunkName(audioPath, idx)
    ensures IsUnder(ChunkPath(saveDir, audioPath, idx), saveDir)
  {
    ChunkNameShape(audioPath, idx);
    BasenameOfJoin(saveDir, ChunkName(audioPath, idx));
    JoinIsUnder(saveDir, ChunkName(audioPath, idx));
  }

  /** Different chunks of one input never share a file. */
  lemma ChunkPathsDistinct(saveDir: string, audioPath: string, i: nat, j: nat)
    requires ChunkPath(saveDir, audioPath, i) == ChunkPath(saveDir, audioPath, j)
    ensures i == j
  {
    ChunkNameShape(audioPath, i);
    ChunkNameShape(audioPath, j);
    JoinCancel(saveDir, ChunkName(audioPath, i), ChunkName(audioPath, j));
    NameCancel(Stem(audioPath) + "_chunk_", NatToString(i), NatToString(j), ".wav");
    NatToStringInjective(i, j);
  }

  /** The metadata of chunk `i`; `saveDir` is the directory chunks are
      saved to, or `None` when they are not saved. */
  function EntryOf(chunks: seq<Chunk>, i: nat, audioPath: string, saveDir: Option<string>): ChunkMeta
    requires i < |chunks|
  {
    ChunkMeta(chunks[i].durationSeconds,
      if saveDir.Some? then Some(ChunkPath(saveDir.value, audioPath, i)) else None,
      chunks[i].frameRate)
  }

  /** The chunk durations added up in order. */
  function ChunkTotal(es: seq<ChunkMeta>): real {
    if |es| == 0 then 0.0 else ChunkTotal(es[..|es| - 1]) + es[|es| - 1].duration
  }

  /** A chunk list that is the concatenation of two adds up to the sum of
      their totals. */
  lemma {:induction false} ChunkTotalAppend(a: seq<ChunkMeta>, b: seq<ChunkMeta>)
    ensures ChunkTotal(a + b) == ChunkTotal(a) + ChunkTotal(b)
    decreases |b|
  {
    if |b| == 0 {
      assert a + b == a;
    } else {
      var b' := b[..|b| - 1];
      assert (a + b)[..|a + b| - 1] == a + b';
      ChunkTotalAppend(a, b');
    }
  }

  /** Appending one entry adds its duration. */
  lemma ChunkTotalStep(es: seq<ChunkMeta>, m: ChunkMeta)
    ensures ChunkTotal(es + [m]) == ChunkTotal(es) + m.duration
  {
    assert (es + [m])[..|es|] == es;
  }

  /** Whether `kwargs` asks for the chunks to be saved: `"save_to_file"`
      is present (`Some`) with a truthy value. */
  predicate Saving(saveToFile: Option<bool>) {
    saveToFile.Some? && saveToFile.value
  }

  /** `chunk_by_silence(audio_path, **kwargs)` over the chunks of the
      input. When saving, each chunk reads `kwargs["save_dir"]`, so a
      missing `"save_dir"` (`None`) raises `KeyError` at the first chunk. */
  method ChunkBySilence(audioPath: string, chunks: seq<Chunk>, length: real,
                        saveToFile: Option<bool>, saveDir: Option<string>)
    returns (r: Result<ChunkReport>)
    ensures r.Err? <==> Saving(saveToFile) && saveDir.None? && |chunks| > 0
    ensures r.Err? ==> r.exc == KeyError("save_dir")
    ensures r.Ok? ==> |r.value.audioChunks| == |chunks|
    ensures r.Ok? ==> forall i :: 0 <= i < |chunks| ==>
      r.value.audioChunks[i] == EntryOf(chunks, i, audioPath, if Saving(saveToFile) then saveDir else None)
    ensures r.Ok? ==> r.value.totalChunkDuration == ChunkTotal(r.value.audioChunks)
    ensures r.Ok? ==> r.value.totalAudioDuration == length
  {
    var dir: Option<string> := if Saving(saveToFile) then saveDir else None;
    var chunkList: seq<ChunkMeta> := [];
    var total := 0.0;
    var i := 0;
    while i < |chunks|
      invariant 0 <= i <= |chunks|
      invariant |chunkList| == i
      invariant forall j :: 0 <= j < i ==> chunkList[j] == EntryOf(chunks, j, audioPath, dir)
      invariant total == ChunkTotal(chunkList)
      invariant i > 0 ==> !(Saving(saveToFile) && saveDir.None?)
    {
      if Saving(saveToFile) && saveDir.None? {
        return Err(KeyError("save_dir"));
      }
      var meta := EntryOf(chunks, i, audioPath, dir);
      total := total + meta.duration;
      ChunkTotalStep(chunkList, meta);
      chunkList := chunkList + [meta];
      i := i + 1;
    }
    return Ok(ChunkReport(chunkList, total, length));
  }

  /** `__call__(audio_path, **kwargs)`: `audio_path` must be given
      (`AssertionError` otherwise); the result is that of
      `chunk_by_silence`. */
  method Call(audioPath: Option<string>, chunks: seq<Chunk>, length: real,
              saveToFile: Option<bool>, saveDir: Option<string>)
    returns (r: Result<ChunkReport>)
    ensures audioPath.None? ==> r.Err? && r.exc.AssertionError?
    ensures audioPath.Some? && r.Ok? ==> |r.value.audioChunks| == |chunks|
    ensures audioPath.Some? && r.Ok? ==> r.value.totalChunkDuration == ChunkTotal(r.value.audioChunks)
    ensures audioPath.Some? ==> (r.Err? <==> Saving(saveToFile) && saveDir.None? && |chunks| > 0)
    ensures audioPath.Some? && r.Ok? ==> forall i :: 0 <= i < |chunks| ==>
      (r.value.audioChunks[i].filepath.Some? <==> Saving(saveToFile))
    ensures audioPath.Some? && r.Err? ==> r.exc == KeyError("save_dir")
    ensures audioPath.Some? && r.Ok? ==> forall i :: 0 <= i < |chunks| ==>
      r.value.audioChunks[i] == EntryOf(chunks, i, audioPath.value, if Saving(saveToFile) then saveDir else None)
    ensures audioPath.Some? && r.Ok? ==> r.value.totalAudioDuration == length
  {
    if audioPath.None? {
      return Err(AssertionError("audio_path is required"));
    }
    r := ChunkBySilence(audioPath.value, chunks, length, saveToFile, saveDir);
  }
}

=== FILE: common.dfy ===
/** `Base`, the class every processing module of `modules/` extends: the
    model-choice check and construction of `__init__`, the class-level
    target binding of `__post__init__`, the dispatch of `__call__`, and the
    slicing and path choice of `save_to_file`.

    Constructed objects and bound methods are opaque values. The keyword
    arguments handed to each factory, `uuid4()`, the existence test of the
    save directory and `round(t * sr)` are parameters; nothing is written.
    Whether a factory raises is the parameter `faults`: the exception that
    calling each failing factory with the keyword arguments raises.
 */
module Common {
  import opened Wrappers
  import opened Text
  import opened Paths
  import Audio

  /** A value stored in a dict model choice. */
  datatype Value =
    | Factory(id: nat)
    | Name(s: string)
    | Bound(name: string, owner: nat)
    | Plain

  /** Classes, partials and bound methods can be called; a `str` cannot. */
  predicate Callable(v: Value) {
    v.Factory? || v.Bound?
  }

  /** An entry of `MODEL_CHOICES`: a dict of factories (and a `"target"`),
      a `functools.partial`, or anything else. */
  datatype Choice = DictChoice(entries: seq<(string, Value)>) | PartialChoice(id: nat) | OtherChoice

  /** `MODEL_CHOICES`, in insertion order. */
  type Table = seq<(string, Choice)>

  /** The object `value(**kwargs)` returns, known by the callable that made it. */
  datatype Obj = Built(maker: Value)

  /** `self.model`: a dict of built parts, or the one built object. */
  datatype Model = DictModel(parts: seq<(string, Obj)>) | SingleModel(obj: Obj)

  /** A constructed module: its identity, lowercased choice and model. */
  datatype Instance = Instance(id: nat, modelChoice: string, model: Model)

  /** The index of key `k` in an insertion-ordered dict, or -1. */
  function IndexOfKey<V>(t: seq<(string, V)>, k: string): (i: int)
    ensures -1 <= i < |t|
    ensures i >= 0 ==> t[i].0 == k
    ensures forall j :: 0 <= j < |t| && (i < 0 || j < i) ==> t[j].0 != k
  {
    if |t| == 0 then -1
    else if t[0].0 == k then 0
    else
      var i := IndexOfKey(t[1..], k);
      assert forall j :: 1 <= j < |t| ==> t[1..][j - 1] == t[j];
      if i < 0 then -1 else i + 1
  }

  /** `d.get(k)`. */
  function Get<V>(t: seq<(string, V)>, k: string): (r: Option<V>)
    ensures r.None? <==> forall j :: 0 <= j < |t| ==> t[j].0 != k
    ensures r.Some? ==> exists j :: 0 <= j < |t| && t[j] == (k, r.value)
  {
    var i := IndexOfKey(t, k);
    if i < 0 then None else Some(t[i].1)
  }

  /** Dicts with the same keys at the same places find a key at the same place. */
  lemma {:induction false} IndexOfSameKeys<V>(t: seq<(string, V)>, u: seq<(string, V)>, k: string)
    requires |t| == |u| && forall j :: 0 <= j < |t| ==> t[j].0 == u[j].0
    ensures IndexOfKey(t, k) == IndexOfKey(u, k)
    decreases |t|
  {
    if |t| > 0 && t[0].0 != k {
      assert forall j :: 0 <= j < |t| - 1 ==> t[1..][j].0 == u[1..][j].0 by {
        assert forall j :: 0 <= j < |t| - 1 ==> t[1..][j] == t[j + 1] && u[1..][j] == u[j + 1];
      }
      IndexOfSameKeys(t[1..], u[1..], k);
    }
  }

  /** The loop over a dict choice in `__init__`: every entry but
      `"target"` is called, in order; calling a value that is not callable
      raises `TypeError`, and a factory that raises stops the loop. */
  function BuildParts(es: seq<(string, Value)>, faults: map<Value, Exc>): (r: Result<seq<(string, Obj)>>)
    ensures r.Ok? <==> forall i :: 0 <= i < |es| && es[i].0 != "target" ==> Callable(es[i].1) && es[i].1 !in faults
    ensures r.Err? ==> r.exc.TypeError? || r.exc in faults.Values
    ensures r.Ok? ==> forall i :: 0 <= i < |es| && es[i].0 != "target" ==> (es[i].0, Built(es[i].1)) in r.value
    ensures r.Ok? ==> forall p :: p in r.value ==> p.0 != "target" && (p.0, p.1.maker) in es
    decreases |es|
  {
    if |es| == 0 then Ok([])
    else
      assert forall i :: 1 <= i < |es| ==> es[1..][i - 1] == es[i];
      if es[0].0 == "target" then BuildParts(es[1..], faults)
      else if !Callable(es[0].1) then Err(TypeError("object is not callable"))
      else if es[0].1 in faults then Err(faults[es[0].1])
      else
        var rest :- BuildParts(es[1..], faults);
        Ok([(es[0].0, Built(es[0].1))] + rest)
  }

  /** Model construction in `__init__` for the already lowercased choice. */
  function Construct(t: Table, mc: string, faults: map<Value, Exc>): (r: Result<Model>)
    ensures Get(t, mc).None? ==> r.Err? && r.exc.AssertionError?
    ensures Get(t, mc).Some? && r.Err? ==> r.exc.TypeError? || r.exc.NotImplementedError? || r.exc in faults.Values
    ensures Get(t, mc) == Some(OtherChoice) ==> r.Err? && r.exc.NotImplementedError?
    ensures r.Ok? <==>
      Get(t, mc).Some? && ((Get(t, mc).value.PartialChoice? && Factory(Get(t, mc).value.id) !in faults)
      || (Get(t, mc).value.DictChoice? && BuildParts(Get(t, mc).value.entries, faults).Ok?))
    ensures r.Ok? ==> (r.value.DictModel? <==> Get(t, mc).value.DictChoice?)
    ensures r.Err? && Get(t, mc).Some? && Get(t, mc).value.PartialChoice? ==> r.exc == faults[Factory(Get(t, mc).value.id)]
  {
    var c: Option<Choice> := Get(t, mc);
    match c
    case None => Err(AssertionError("Unrecognized model choice " + mc))
    case Some(DictChoice(es)) =>
      var parts :- BuildParts(es, faults);
      Ok(DictModel(parts))
    case Some(PartialChoice(f)) =>
      if Factory(f) in faults then Err(faults[Factory(f)]) else Ok(SingleModel(Built(Factory(f))))
    case Some(OtherChoice) => Err(NotImplementedError("Not sure how to handle this model choice"))
  }

  /** `__post__init__` on one entry: a `str` target becomes the method of
      that name bound to `owner`; `getattr` fails on a missing name. */
  function BindTarget(c: Choice, owner: nat, methods: set<string>): (r: Result<Choice>)
    ensures r.Err? ==> r.exc.AttributeError?
    ensures !HasNameTarget(c) ==> r == Ok(c)
    ensures r.Ok? ==> !HasNameTarget(r.value)
  {
    match c
    case DictChoice(es) =>
      var i := IndexOfKey(es, "target");
      if i < 0 then Ok(c)
      else if !es[i].1.Name? then Ok(c)
      else if es[i].1.s !in methods then Err(AttributeError(es[i].1.s))
      else
        var es' := es[i := ("target", Bound(es[i].1.s, owner))];
        IndexOfSameKeys(es, es', "target");
        Ok(DictChoice(es'))
    case _ => Ok(c)
  }

  /** The choice is a dict whose `"target"` is still a method name. */
  predicate HasNameTarget(c: Choice) {
    c.DictChoice? && Get(c.entries, "target").Some? && Get(c.entries, "target").value.Name?
  }

  /** No entry of the table has an unbound target. */
  predicate AllBound(t: Table) {
    forall i :: 0 <= i < |t| ==> !HasNameTarget(t[i].1)
  }

  /** `__post__init__`: every entry in order, rewriting the class-level
      table in place. On an `AttributeError` the entries before the failing
      one stay rewritten. */
  function PostInit(t: Table, owner: nat, methods: set<string>): (r: (Table, Option<Exc>))
    ensures |r.0| == |t| && forall i :: 0 <= i < |t| ==> r.0[i].0 == t[i].0
    ensures r.1.None? <==> forall i :: 0 <= i < |t| ==> BindTarget(t[i].1, owner, methods).Ok?
    ensures r.1.None? ==> forall i :: 0 <= i < |t| ==> r.0[i].1 == BindTarget(t[i].1, owner, methods).value
    ensures r.1.Some? ==> r.1.value.AttributeError?
    decreases |t|
  {
    if |t| == 0 then ([], None)
    else
      assert forall i :: 1 <= i < |t| ==> t[1..][i - 1] == t[i];
      match BindTarget(t[0].1, owner, methods)
      case Err(e) => (t, Some(e))
      case Ok(c) =>
        var rest := PostInit(t[1..], owner, methods);
        ([(t[0].0, c)] + rest.0, rest.1)
  }

  /** A successful `__post__init__` leaves no target unbound, and leaves
      every entry without a `str` target as it was. */
  lemma PostInitBindsAll(t: Table, owner: nat, methods: set<string>)
    requires PostInit(t, owner, methods).1.None?
    ensures AllBound(PostInit(t, owner, methods).0)
    ensures forall i :: 0 <= i < |t| && !HasNameTarget(t[i].1) ==> PostInit(t, owner, methods).0[i] == t[i]
  {
  }

  /** Once every target is bound, `__post__init__` changes nothing, for
      any instance: the binding stays with the instance that made it. */
  lemma {:induction false} PostInitIdempotent(t: Table, owner: nat, methods: set<string>)
    requires AllBound(t)
    ensures PostInit(t, owner, methods) == (t, None)
    decreases |t|
  {
    if |t| > 0 {
      assert forall i :: 0 <= i < |t| - 1 ==> t[1..][i] == t[i + 1];
      PostInitIdempotent(t[1..], owner, methods);
      assert BindTarget(t[0].1, owner, methods) == Ok(t[0].1);
      assert [(t[0].0, t[0].1)] + t[1..] == t;
    }
  }

  /** What `__init__` leaves behind: the instance or the exception, and the
      class-level table (which persists across instances). */
  datatype Outcome = Outcome(inst: Result<Instance>, table: Table)

  /** `Base.__init__(model_choice, **kwargs)` run by instance `id` whose
      class defines the methods `methods`. */
  function Init(t: Table, choice: string, id: nat, methods: set<string>, faults: map<Value, Exc>): (o: Outcome)
    ensures o.inst.Ok? ==>
      Construct(t, Lower(choice), faults).Ok? && o.inst.value == Instance(id, Lower(choice), Construct(t, Lower(choice), faults).value)
    ensures o.inst.Ok? <==> Construct(t, Lower(choice), faults).Ok? && PostInit(t, id, methods).1.None?
    ensures Construct(t, Lower(choice), faults).Err? ==> o == Outcome(Err(Construct(t, Lower(choice), faults).exc), t)
    ensures Construct(t, Lower(choice), faults).Ok? ==> o.table == PostInit(t, id, methods).0
  {
    var mc := Lower(choice);
    var m := Construct(t, mc, faults);
    if m.Err? then Outcome(Err(m.exc), t)
    else
      var post := PostInit(t, id, methods);
      if post.1.Some? then Outcome(Err(post.1.value), post.0)
      else Outcome(Ok(Instance(id, mc, m.value)), post.0)
  }

  /** The choice is looked up lowercased: the case of the argument does
      not matter. */
  lemma InitIgnoresCase(t: Table, a: string, b: string, id: nat, methods: set<string>, faults: map<Value, Exc>)
    requires Lower(a) == Lower(b)
    ensures Init(t, a, id, methods, faults) == Init(t, b, id, methods, faults)
  {
  }

  /** Where `__call__` sends the arguments. */
  datatype Dispatch = ToTarget(target: Value) | ToPredict

  /** `__call__(audio_path, audio)`: one of them must be given; a dict
      model calls the class-level target of its choice, any other model
      calls `predict`. */
  function Call(inst: Instance, t: Table, hasPath: bool, hasAudio: bool): (r: Result<Dispatch>)
    ensures !hasPath && !hasAudio ==> r.Err? && r.exc.AssertionError?
    ensures (hasPath || hasAudio) && inst.model.SingleModel? ==> r == Ok(ToPredict)
    ensures r.Ok? && r.value.ToTarget? ==> inst.model.DictModel? && Callable(r.value.target)
    ensures r.Ok? && r.value.ToTarget? ==>
      Get(t, inst.modelChoice).Some? && Get(t, inst.modelChoice).value.DictChoice?
      && Get(Get(t, inst.modelChoice).value.entries, "target") == Some(r.value.target)
  {
    if !(hasPath || hasAudio) then Err(AssertionError("Either audio_path or audio tensor is required"))
    else if inst.model.SingleModel? then Ok(ToPredict)
    else
      match Get(t, inst.modelChoice)
      case None => Err(KeyError(inst.modelChoice))
      case Some(c) =>
        if !c.DictChoice? then Err(TypeError("object is not subscriptable"))
        else
          match Get(c.entries, "target")
          case None => Err(KeyError("target"))
          case Some(v) => if Callable(v) then Ok(ToTarget(v)) else Err(TypeError("object is not callable"))
  }

  /** The entry `choice` of the table is a dict with a `str` target. */
  predicate NamedTarget(t: Table, mc: string, name: string) {
    Get(t, mc).Some? && Get(t, mc).value.DictChoice?
    && Get(Get(t, mc).value.entries, "target") == Some(Name(name))
  }

  /** The dict of `choice` with its target bound to `owner`. */
  function Rebound(es: seq<(string, Value)>, name: string, owner: nat): seq<(string, Value)>
    requires IndexOfKey(es, "target") >= 0
  {
    es[IndexOfKey(es, "target") := ("target", Bound(name, owner))]
  }

  /** The table after a successful `__post__init__` maps the choice to the
      same dict with its target bound to `owner`. */
  lemma BoundAfterPostInit(t: Table, mc: string, name: string, owner: nat, methods: set<string>)
    requires NamedTarget(t, mc, name) && PostInit(t, owner, methods).1.None?
    ensures IndexOfKey(Get(t, mc).value.entries, "target") >= 0
    ensures Get(PostInit(t, owner, methods).0, mc) == Some(DictChoice(Rebound(Get(t, mc).value.entries, name, owner)))
  {
    var u := PostInit(t, owner, methods).0;
    IndexOfSameKeys(t, u, mc);
    var i := IndexOfKey(t, mc);
    assert BindTarget(t[i].1, owner, methods) == Ok(DictChoice(Rebound(t[i].1.entries, name, owner)));
  }

  /** Rebinding keeps the target key where it was and binds it. */
  lemma ReboundTarget(es: seq<(string, Value)>, name: string, owner: nat)
    requires IndexOfKey(es, "target") >= 0
    ensures Get(Rebound(es, name, owner), "target") == Some(Bound(name, owner))
  {
    IndexOfSameKeys(es, Rebound(es, name, owner), "target");
  }

  /** Rebinding the target does not change which parts can be built. */
  lemma ReboundBuilds(es: seq<(string, Value)>, name: string, owner: nat, faults: map<Value, Exc>)
    requires IndexOfKey(es, "target") >= 0
    ensures BuildParts(Rebound(es, name, owner), faults).Ok? == BuildParts(es, faults).Ok?
  {
    var es1 := Rebound(es, name, owner);
    assert forall i :: 0 <= i < |es| && es[i].0 != "target" ==> es1[i] == es[i];
  }

  /** The first instance of a class binds the targets; a second instance
      `b` of the same class, constructed afterwards, leaves the table as it
      is and dispatches its calls to the method bound to the first
      instance `a`. */
  lemma SecondInstanceCallsFirst(t: Table, choice: string, name: string, a: nat, b: nat, methods: set<string>, faults: map<Value, Exc>)
    requires NamedTarget(t, Lower(choice), name)
    requires Init(t, choice, a, methods, faults).inst.Ok?
    ensures var t1 := Init(t, choice, a, methods, faults).table;
      var o := Init(t1, choice, b, methods, faults);
      o.inst.Ok? && o.table == t1 && Call(o.inst.value, t1, true, false) == Ok(ToTarget(Bound(name, a)))
  {
    var mc := Lower(choice);
    var t1 := PostInit(t, a, methods).0;
    var es := Get(t, mc).value.entries;
    BoundAfterPostInit(t, mc, name, a, methods);
    ReboundTarget(es, name, a);
    DictAfterBind(t, mc, name, a, methods, faults);
    PostInitBindsAll(t, a, methods);
    InitOnBound(t1, choice, b, methods, faults);
  }

  /** The bound table still builds the choice, as a dict model. */
  lemma DictAfterBind(t: Table, mc: string, name: string, a: nat, methods: set<string>, faults: map<Value, Exc>)
    requires NamedTarget(t, mc, name) && PostInit(t, a, methods).1.None? && Construct(t, mc, faults).Ok?
    ensures var m := Construct(PostInit(t, a, methods).0, mc, faults); m.Ok? && m.value.DictModel?
  {
    var es := Get(t, mc).value.entries;
    BoundAfterPostInit(t, mc, name, a, methods);
    ReboundBuilds(es, name, a, faults);
  }

  /** Constructing from a table whose targets are all bound leaves it as it is. */
  lemma InitOnBound(t: Table, choice: string, b: nat, methods: set<string>, faults: map<Value, Exc>)
    requires AllBound(t) && Construct(t, Lower(choice), faults).Ok?
    ensures Init(t, choice, b, methods, faults) == Outcome(Ok(Instance(b, Lower(choice), Construct(t, Lower(choice), faults).value)), t)
  {
    PostInitIdempotent(t, b, methods);
  }

  /** An audio tensor of one, two or three dimensions. */
  datatype Array = Vec(v: seq<real>) | Mat(m: seq<seq<real>>) | Cube(c: seq<seq<seq<real>>>)

  function Sum(xs: seq<real>): real {
    if |xs| == 0 then 0.0 else Sum(xs[..|xs| - 1]) + xs[|xs| - 1]
  }

  /** `torch.mean` of a row (an empty row gives NaN in torch, 0 here). */
  function Mean(xs: seq<real>): real {
    if |xs| == 0 then 0.0 else Sum(xs) / (|xs| as real)
  }

  /** `torch.mean(audio, dim=-1)` on a three-dimensional tensor. */
  function MeanLastAxis(c: seq<seq<seq<real>>>): (m: seq<seq<real>>)
    ensures |m| == |c| && forall i :: 0 <= i < |c| ==> |m[i]| == |c[i]|
  {
    seq(|c|, i requires 0 <= i < |c| => seq(|c[i]|, j requires 0 <= j < |c[i]| => Mean(c[i][j])))
  }

  /** A Python slice bound against a length `n`: negative counts from the
      end, and the result is clamped to `[0, n]`. */
  function ClampIndex(i: int, n: nat): (c: nat)
    ensures c <= n
    ensures 0 <= i <= n ==> c == i
    ensures i > n ==> c == n
    ensures i < 0 && -i <= n ==> c == n + i
    ensures n + i < 0 ==> c == 0
  {
    if i < 0 then (if n + i < 0 then 0 else n + i) else if i > n then n else i
  }

  /** `s[lo:hi]` with either bound possibly omitted. */
  function Slice<T>(s: seq<T>, lo: Option<int>, hi: Option<int>): (r: seq<T>)
    ensures |r| <= |s|
  {
    var a := if lo.None? then 0 else ClampIndex(lo.value, |s|);
    var b := if hi.None? then |s| else ClampIndex(hi.value, |s|);
    if a <= b then s[a..b] else []
  }

  /** Slicing with non-negative bounds `lo <= hi` keeps the elements from
      `lo` up to `hi`, both clamped to the length. */
  lemma SliceWithin<T>(s: seq<T>, lo: nat, hi: nat)
    requires lo <= hi
    ensures var a := if lo <= |s| then lo else |s|;
      var b := if hi <= |s| then hi else |s|;
      Slice(s, Some(lo), Some(hi)) == s[a..b]
  {
  }

  /** Indexing or slicing `audio[...]` acts on the first axis. */
  function SliceFirst(a: Array, lo: Option<int>, hi: Option<int>): Array {
    match a
    case Vec(v) => Vec(Slice(v, lo, hi))
    case Mat(m) => Mat(Slice(m, lo, hi))
    case Cube(c) => Cube(Slice(c, lo, hi))
  }

  /** The path `save_to_file` writes to: `save_dir` itself when it has an
      extension, else a fresh `<uuid>.wav` inside it. */
  function SavePath(saveDir: string, uuid: string): (p: string)
    ensures SplitExt(saveDir).1 != "" ==> p == saveDir
    ensures SplitExt(saveDir).1 == "" ==> EndsWith(p, uuid + ".wav") && EndsWith(p, ".wav")
  {
    if SplitExt(saveDir).1 != "" then saveDir
    else
      var name := uuid + ".wav";
      assert EndsWith(name, ".wav") by { assert name[|name| - 4..] == ".wav"; }
      EndsWithTrans(Join(saveDir, name), name, ".wav");
      Join(saveDir, name)
  }

  /** The text of a `uuid4()`: 36 hexadecimal digits and hyphens. */
  predicate UuidText(u: string) {
    |u| == 36 && forall i :: 0 <= i < |u| ==> IsDigit(u[i]) || 'a' <= u[i] <= 'f' || u[i] == '-'
  }

  /** A save directory without an extension receives a file named by the
      uuid with suffix `.wav`, which `save_audio` writes as WAV; one with an
      extension is the file. */
  lemma SavePathChoice(saveDir: string, uuid: string)
    requires UuidText(uuid)
    ensures SplitExt(saveDir).1 != "" ==> SavePath(saveDir, uuid) == saveDir
    ensures SplitExt(saveDir).1 == "" ==> Basename(SavePath(saveDir, uuid)) == uuid + ".wav"
    ensures SplitExt(saveDir).1 == "" ==> Audio.SaveAudioEncoder(SavePath(saveDir, uuid), 320, 16) == Audio.Wav(16)
  {
    if SplitExt(saveDir).1 == "" {
      assert Sep !in uuid + ".wav" by {
        assert forall i :: 0 <= i < |uuid| ==> uuid[i] != Sep;
      }
      BasenameOfJoin(saveDir, uuid + ".wav");
      assert Sep !in uuid by {
        assert forall i :: 0 <= i < |uuid| ==> uuid[i] != Sep;
      }
      Audio.SaveAudioOfName(saveDir, uuid, ".wav", 320, 16);
    }
  }

  /** The tensor `save_to_file` saves, as written, given
      `round(start_dur * sr)` and `round(stop_dur * sr)`: a
      three-dimensional tensor is averaged over its last axis, the start
      cut and then the stop cut slice the first axis, and a
      one-dimensional result gains a leading axis. */
  function Clip(audio: Array, startSample: Option<int>, stopSample: Option<int>): (w: Array)
    ensures w.Mat?
  {
    var a1 := if audio.Cube? then Mat(MeanLastAxis(audio.c)) else audio;
    var a2 := if startSample.Some? then SliceFirst(a1, startSample, None) else a1;
    var a3 := if stopSample.Some? then SliceFirst(a2, None, stopSample) else a2;
    if a3.Vec? then Mat([a3.v]) else a3
  }

  /** What `save_to_file` does: the directory it creates (if any), the
      path it returns, and the tensor and encoder it saves with. */
  datatype Saved = Saved(madeDir: Option<string>, path: string, wav: Array, encoder: Audio.Encoder)

  /** `save_to_file(audio, sr, save_dir, start_dur, stop_dur)` as written:
      `save_dir` is created when missing, whatever its shape. */
  function SaveToFile(audio: Array, saveDir: string, startSample: Option<int>, stopSample: Option<int>, dirExists: bool, uuid: string): (w: Saved)
    ensures w.path == SavePath(saveDir, uuid) && w.wav.Mat?
    ensures !dirExists ==> w.madeDir == Some(saveDir)
    ensures SplitExt(saveDir).1 != "" && !dirExists ==> w.madeDir == Some(w.path)
    ensures SplitExt(saveDir).1 == "" ==> EndsWith(w.path, ".wav")
    ensures w.encoder.Mp3? <==> Lower(Suffix(w.path)) == ".mp3"
    ensures w.encoder.Mp3? ==> w.encoder.bitrate == 320
    ensures w.encoder.Wav? ==> w.encoder.bitsPerSample == 16
  {
    var path := SavePath(saveDir, uuid);
    Saved(if dirExists then None else Some(saveDir), path, Clip(audio, startSample, stopSample), Audio.SaveAudioEncoder(path, 320, 16))
  }

  /** The stop cut counts from the start cut: a one-dimensional clip keeps
      `min(stop, len - start)` samples from `start` on. */
  lemma ClipLength(v: seq<real>, start: nat, stop: nat)
    requires start <= |v|
    ensures var k := if stop <= |v| - start then stop else |v| - start;
      Clip(Vec(v), Some(start), Some(stop)) == Mat([v[start..start + k]])
  {
    var a2 := Slice(v, Some(start), None);
    assert a2 == v[start..];
    var k := if stop <= |v| - start then stop else |v| - start;
    assert Slice(a2, None, Some(stop)) == a2[..k];
    assert a2[..k] == v[start..start + k];
  }

  /** A clip of samples 10 to 20 of a 100-sample signal keeps 20 samples. */
  lemma ClipKeepsTooMuch(v: seq<real>)
    requires |v| == 100
    ensures |Clip(Vec(v), Some(10), Some(20)).m[0]| == 20
  {
    ClipLength(v, 10, 20);
  }

  /** On a `(channels, samples)` tensor the cuts select channels: a mono
      recording cut at any positive start sample keeps nothing. */
  lemma ClipCutsChannels(row: seq<real>, start: nat, stop: Option<int>)
    requires start >= 1
    ensures Clip(Mat([row]), Some(start), stop) == Mat([])
  {
    assert Slice([row], Some(start), None) == [];
  }

  /** A save directory with an extension is created as a directory and
      then written to as the file. */
  lemma SaveToFileMakesFileDir(audio: Array, saveDir: string, start: Option<int>, stop: Option<int>, uuid: string)
    requires SplitExt(saveDir).1 != ""
    ensures var r := SaveToFile(audio, saveDir, start, stop, false, uuid); r.madeDir == Some(r.path)
  {
  }

  /** `os.path.dirname(p)`: the head before the last separator, without
      trailing separators unless it is made of them only. */
  function Dirname(p: string): (d: string)
    ensures |d| <= LastIndexOf(p, Sep) + 1 && d == p[..|d|]
  {
    var head := p[..LastIndexOf(p, Sep) + 1];
    var stripped := StripTrailingSeps(head);
    if stripped == "" then head else stripped
  }

  /** `audio[..., start:stop]`: the cut along the sample axis. */
  function SliceSamples(a: Array, lo: Option<int>, hi: Option<int>): Array {
    match a
    case Vec(v) => Vec(Slice(v, lo, hi))
    case Mat(m) => Mat(seq(|m|, i requires 0 <= i < |m| => Slice(m[i], lo, hi)))
    case Cube(c) => Cube(c)
  }

  /** The tensor as evidently intended: both cuts along the sample axis,
      as one slice. */
  function ClipIntended(audio: Array, startSample: Option<int>, stopSample: Option<int>): (w: Array)
    ensures w.Mat?
  {
    var a1 := if audio.Cube? then Mat(MeanLastAxis(audio.c)) else audio;
    var a2 := SliceSamples(a1, startSample, stopSample);
    if a2.Vec? then Mat([a2.v]) else a2
  }

  /** The directory to create as evidently intended: the one holding the
      file when `save_dir` names the file. */
  function MadeDirIntended(saveDir: string, dirExists: bool): Option<string> {
    var target := if SplitExt(saveDir).1 != "" then Dirname(saveDir) else saveDir;
    if dirExists || target == "" then None else Some(target)
  }

  /** `save_to_file` as evidently intended. */
  function SaveToFileIntended(audio: Array, saveDir: string, startSample: Option<int>, stopSample: Option<int>, dirExists: bool, uuid: string): Saved
  {
    var path := SavePath(saveDir, uuid);
    Saved(MadeDirIntended(saveDir, dirExists), path, ClipIntended(audio, startSample, stopSample), Audio.SaveAudioEncoder(path, 320, 16))
  }

  /** The intended clip of each channel is exactly the samples from
      `start` to `stop` when they lie within the recording. */
  lemma IntendedClip(m: seq<seq<real>>, start: nat, stop: nat)
    requires start <= stop && forall i :: 0 <= i < |m| ==> stop <= |m[i]|
    ensures var w := ClipIntended(Mat(m), Some(start), Some(stop));
      |w.m| == |m| && forall i :: 0 <= i < |m| ==> w.m[i] == m[i][start..stop] && |w.m[i]| == stop - start
  {
    var w := ClipIntended(Mat(m), Some(start), Some(stop));
    forall i | 0 <= i < |m| ensures w.m[i] == m[i][start..stop] {
      SliceWithin(m[i], start, stop);
    }
  }

  /** A one-dimensional clip keeps `stop - start` samples. */
  lemma IntendedClipVec(v: seq<real>, start: nat, stop: nat)
    requires start <= stop <= |v|
    ensures ClipIntended(Vec(v), Some(start), Some(stop)) == Mat([v[start..stop]])
  {
    SliceWithin(v, start, stop);
  }

  /** The intended directory never is the file: it is a proper prefix of
      the saved path. */
  lemma IntendedDirHoldsFile(saveDir: string, dirExists: bool, uuid: string)
    requires UuidText(uuid)
    ensures var d := MadeDirIntended(saveDir, dirExists); var p := SavePath(saveDir, uuid);
      d.Some? ==> d.value != p && StartsWith(p, d.value)
  {
    var d := MadeDirIntended(saveDir, dirExists);
    if d.Some? {
      var ext := SplitExt(saveDir).1;
      if ext != "" {
        DirnameOfFile(saveDir);
      } else {
        JoinedUnder(saveDir, uuid);
      }
    }
  }

  /** A path with an extension has its dirname as a proper prefix. */
  lemma DirnameOfFile(p: string)
    requires SplitExt(p).1 != ""
    ensures |Dirname(p)| < |p| && StartsWith(p, Dirname(p))
  {
    var ext := SplitExt(p).1;
    assert p[|p| - 1] == ext[|ext| - 1];
    assert p[|p| - 1] != Sep;
  }

  /** The uuid file joined under a non-empty directory lies under it. */
  lemma JoinedUnder(dir: string, uuid: string)
    requires UuidText(uuid) && dir != ""
    ensures var p := Join(dir, uuid + ".wav"); |dir| < |p| && StartsWith(p, dir)
  {
    var name := uuid + ".wav";
    NotSepLedWav(uuid);
    JoinAppends(dir, name);
    var p := Join(dir, name);
    assert p == Join(dir, "") + name;
    assert p[..|dir|] == dir;
  }

  lemma NotSepLedWav(uuid: string)
    requires UuidText(uuid)
    ensures !StartsWith(uuid + ".wav", [Sep])
  {
    assert (uuid + ".wav")[0] == uuid[0];
  }
}

=== FILE: data.dfy ===
/** `normalize_json` of `utils/data.py`: a nested dict is flattened into one
    dict with dotted keys, whose keys are then split into record columns
    (list values) and meta columns (everything else) for `pandas`.

    `json.dumps` is the parameter `dumps`. The `pandas` frame that would be
    built from the split is not modelled; see `NormalizeJsonAlwaysRaises`
    for why it is never reached.
 */
module Data {
  import opened Wrappers
  import opened Text
  import opened Json

  /** The key `_normalize` writes for `key` under `parent_key`: dotted when
      the parent key is truthy (`None` and `""` are both written `""`). */
  function ChildKey(parent: string, key: string): (k: string)
    ensures parent != "" ==> StartsWith(k, parent + ".") && EndsWith(k, key)
    ensures parent == "" ==> k == key
  {
    if parent != "" then parent + "." + key else key
  }

  /** A value `_normalize` may store: neither a dict nor a list. */
  predicate IsScalar(v: Json) {
    !v.Obj? && !v.List?
  }

  /** Every stored value is a scalar. */
  predicate Flat(fs: Fields) {
    forall i :: 0 <= i < |fs| ==> IsScalar(fs[i].1)
  }

  /** Every key added on top of `acc` lies under `parent`. */
  predicate NewKeysUnder(r: Fields, acc: Fields, parent: string) {
    parent != "" ==> forall k :: k in Keys(r) && k !in Keys(acc) ==> StartsWith(k, parent + ".")
  }

  lemma PrefixOfChild(k: string, parent: string, key: string)
    requires parent != "" && StartsWith(k, ChildKey(parent, key) + ".")
    ensures StartsWith(k, parent + ".")
  {
    var c := ChildKey(parent, key);
    assert k[..|parent| + 1] == (c + ".")[..|parent| + 1] == c[..|parent| + 1] == parent + ".";
  }

  lemma PutLookupSelf(acc: Fields, k: string, v: Json)
    ensures UniqueKeys(acc) ==> UniqueKeys(Put(acc, k, v)) && Lookup(Put(acc, k, v), k) == Some(v)
  {
    if UniqueKeys(acc) {
      LookupPut(acc, k, v, k);
    }
  }

  /** One stored entry: `updated_data[k] = v` for a scalar (or dumped) `v`. */
  function Store(acc: Fields, k: string, v: Json): (r: Fields)
    requires IsScalar(v)
    ensures Flat(acc) ==> Flat(r)
    ensures UniqueKeys(acc) ==> UniqueKeys(r)
    ensures Keys(r) == if k in Keys(acc) then Keys(acc) else Keys(acc) + [k]
    ensures UniqueKeys(acc) ==> Lookup(r, k) == Some(v)
  {
    PutKeys(acc, k, v);
    PutValues(acc, k, v);
    PutLookupSelf(acc, k, v);
    var r := Put(acc, k, v);
    assert forall i :: 0 <= i < |r| ==> r[i] in r;
    r
  }

  /** `_normalize(obj, parent_key)` for the entries of `fs` from index `i`
      on, writing into `acc`. */
  function NormalizeFields(fs: Fields, i: nat, parent: string, dumps: seq<Json> -> string, acc: Fields): (r: Fields)
    requires i <= |fs|
    ensures Flat(acc) ==> Flat(r)
    ensures UniqueKeys(acc) ==> UniqueKeys(r)
    ensures forall k :: k in Keys(acc) ==> k in Keys(r)
    ensures NewKeysUnder(r, acc, parent)
    decreases Obj(fs), 0, |fs| - i
  {
    if i == |fs| then acc
    else NormalizeFields(fs, i + 1, parent, dumps, NormalizeEntry(fs[i].0, fs[i].1, parent, dumps, acc))
  }

  /** One entry `key: value` of the loop in `_normalize`: a dict value is
      flattened under the dotted key, a list whose first element is a dict
      is flattened from that first element only, any other list is stored
      as its `json.dumps` text, and any other value is stored as is. */
  function NormalizeEntry(key: string, value: Json, parent: string, dumps: seq<Json> -> string, acc: Fields): (r: Fields)
    ensures Flat(acc) ==> Flat(r)
    ensures UniqueKeys(acc) ==> UniqueKeys(r)
    ensures forall k :: k in Keys(acc) ==> k in Keys(r)
    ensures NewKeysUnder(r, acc, parent)
    decreases value, 1, 0
  {
    var k := ChildKey(parent, key);
    var r :=
      match value
      case Obj(sub) => NormalizeFields(sub, 0, k, dumps, acc)
      case List(xs) =>
        if xs == [] || !xs[0].Obj? then Store(acc, k, Str(dumps(xs)))
        else
          assert xs[0] in xs;
          NormalizeFields(xs[0].fields, 0, k, dumps, acc)
      case _ => Store(acc, k, value);
    assert NewKeysUnder(r, acc, parent) by {
      if parent != "" {
        forall k' | k' in Keys(r) && k' !in Keys(acc) ensures StartsWith(k', parent + ".") {
          if k' != k {
            assert StartsWith(k', k + ".");
            PrefixOfChild(k', parent, key);
          }
        }
      }
    }
    r
  }

  /** `_normalize` applied to every item of a top-level list, in order;
      an item that is not a dict has no `.items()`. */
  function NormalizeItems(xs: seq<Json>, j: nat, parent: string, dumps: seq<Json> -> string, acc: Fields): (r: Result<Fields>)
    requires j <= |xs|
    ensures r.Ok? <==> forall k :: j <= k < |xs| ==> xs[k].Obj?
    ensures r.Err? ==> r.exc == AttributeError("items")
    ensures r.Ok? && Flat(acc) ==> Flat(r.value)
    ensures r.Ok? && UniqueKeys(acc) ==> UniqueKeys(r.value)
    decreases |xs| - j
  {
    if j == |xs| then Ok(acc)
    else if !xs[j].Obj? then Err(AttributeError("items"))
    else NormalizeItems(xs, j + 1, parent, dumps, NormalizeFields(xs[j].fields, 0, parent, dumps, acc))
  }

  /** The `updated_data` that `normalize_json(obj, parent_key)` builds. */
  function Flatten(obj: Json, parent: string, dumps: seq<Json> -> string): (r: Result<Fields>)
    ensures r.Ok? <==> obj.Obj? || (obj.List? && forall k :: 0 <= k < |obj.items| ==> obj.items[k].Obj?)
    ensures r.Ok? ==> Flat(r.value) && UniqueKeys(r.value)
    ensures r.Err? ==> r.exc == AttributeError("items")
  {
    match obj
    case List(xs) => NormalizeItems(xs, 0, parent, dumps, [])
    case Obj(fs) => Ok(NormalizeFields(fs, 0, parent, dumps, []))
    case _ => Err(AttributeError("items"))
  }

  /** The split of the flattened keys: list-valued keys become record
      paths, the rest meta columns, both in key order. */
  function SplitColumns(data: Fields): (r: (seq<string>, seq<string>))
    ensures |r.0| + |r.1| == |data|
    ensures forall k :: k in r.0 ==> exists i | 0 <= i < |data| :: data[i].0 == k && data[i].1.List?
    ensures forall k :: k in r.1 ==> exists i | 0 <= i < |data| :: data[i].0 == k && !data[i].1.List?
    ensures forall i | 0 <= i < |data| :: data[i].0 in (if data[i].1.List? then r.0 else r.1)
  {
    if |data| == 0 then ([], [])
    else
      var (records, meta) := SplitColumns(data[1..]);
      assert forall k :: k in records ==> exists i | 0 <= i < |data| :: data[i].0 == k && data[i].1.List? by {
        forall k | k in records ensures exists i | 0 <= i < |data| :: data[i].0 == k && data[i].1.List? {
          var i :| 0 <= i < |data| - 1 && data[1..][i].0 == k && data[1..][i].1.List?;
          assert data[i + 1] == data[1..][i];
        }
      }
      assert forall k :: k in meta ==> exists i | 0 <= i < |data| :: data[i].0 == k && !data[i].1.List? by {
        forall k | k in meta ensures exists i | 0 <= i < |data| :: data[i].0 == k && !data[i].1.List? {
          var i :| 0 <= i < |data| - 1 && data[1..][i].0 == k && !data[1..][i].1.List?;
          assert data[i + 1] == data[1..][i];
        }
      }
      if data[0].1.List? then ([data[0].0] + records, meta)
      else (records, [data[0].0] + meta)
  }

  /** `normalize_json(obj, parent_key)` up to the frame construction: the
      record paths and meta columns it hands to `pd.json_normalize`, or the
      exception it raises. With no record path the list of frames is empty
      and `pd.concat([])` raises `ValueError`. */
  function NormalizeJson(obj: Json, parent: string, dumps: seq<Json> -> string): (r: Result<(seq<string>, seq<string>)>)
    ensures Flatten(obj, parent, dumps).Err? ==> r.Err? && r.exc == AttributeError("items")
  {
    var data :- Flatten(obj, parent, dumps);
    var (records, meta) := SplitColumns(data);
    if records == [] then Err(ValueError("No objects to concatenate"))
    else Ok((records, meta))
  }

  /** A flattened dict holds no list, so every key is a meta column and
      there is no record path. */
  lemma FlattenedHasNoRecords(obj: Json, parent: string, dumps: seq<Json> -> string)
    requires Flatten(obj, parent, dumps).Ok?
    ensures SplitColumns(Flatten(obj, parent, dumps).value).0 == []
    ensures |SplitColumns(Flatten(obj, parent, dumps).value).1| == |Flatten(obj, parent, dumps).value|
  {
    FlatHasNoRecords(Flatten(obj, parent, dumps).value);
  }

  lemma {:induction false} FlatHasNoRecords(data: Fields)
    requires Flat(data)
    ensures SplitColumns(data).0 == []
  {
    if |data| > 0 {
      assert Flat(data[1..]) by {
        assert forall i :: 0 <= i < |data| - 1 ==> data[1..][i] == data[i + 1];
      }
      FlatHasNoRecords(data[1..]);
    }
  }

  /** Hence `normalize_json` raises on every input: `AttributeError` when
      the input is not a dict (or a list of dicts), `ValueError` from
      `pd.concat` otherwise. */
  lemma NormalizeJsonAlwaysRaises(obj: Json, parent: string, dumps: seq<Json> -> string)
    ensures NormalizeJson(obj, parent, dumps).Err?
    ensures Flatten(obj, parent, dumps).Ok? ==> NormalizeJson(obj, parent, dumps).exc.ValueError?
    ensures Flatten(obj, parent, dumps).Err? ==> NormalizeJson(obj, parent, dumps).exc.AttributeError?
  {
    if Flatten(obj, parent, dumps).Ok? {
      FlattenedHasNoRecords(obj, parent, dumps);
    }
  }

  /** The flattening is a left fold over the entries: normalizing `fs + t`
      is normalizing `t` on top of the result for `fs`. */
  lemma {:induction false} NormalizeAppend(fs: Fields, t: Fields, i: nat, parent: string, dumps: seq<Json> -> string, acc: Fields)
    requires i <= |fs|
    ensures NormalizeFields(fs + t, i, parent, dumps, acc)
         == NormalizeFields(t, 0, parent, dumps, NormalizeFields(fs, i, parent, dumps, acc))
    decreases |fs| - i
  {
    if i == |fs| {
      NormalizeShift(fs, t, 0, parent, dumps, acc);
    } else {
      var next := NormalizeEntry(fs[i].0, fs[i].1, parent, dumps, acc);
      NormalizeStep(fs, i, parent, dumps, acc);
      assert (fs + t)[i] == fs[i];
      NormalizeStep(fs + t, i, parent, dumps, acc);
      NormalizeAppend(fs, t, i + 1, parent, dumps, next);
    }
  }

  /** One turn of the loop over the entries. */
  lemma NormalizeStep(fs: Fields, i: nat, parent: string, dumps: seq<Json> -> string, acc: Fields)
    requires i < |fs|
    ensures NormalizeFields(fs, i, parent, dumps, acc)
         == NormalizeFields(fs, i + 1, parent, dumps, NormalizeEntry(fs[i].0, fs[i].1, parent, dumps, acc))
  {
  }

  /** Entries from index `|fs| + j` of `fs + t` are the entries of `t` from `j`. */
  lemma {:induction false} NormalizeShift(fs: Fields, t: Fields, j: nat, parent: string, dumps: seq<Json> -> string, acc: Fields)
    requires j <= |t|
    ensures NormalizeFields(fs + t, |fs| + j, parent, dumps, acc) == NormalizeFields(t, j, parent, dumps, acc)
    decreases |t| - j
  {
    if j < |t| {
      assert (fs + t)[|fs| + j] == t[j];
      NormalizeShift(fs, t, j + 1, parent, dumps, NormalizeEntry(t[j].0, t[j].1, parent, dumps, acc));
    }
  }

  /** A scalar entry written after everything else wins: its flattened
      key maps to its own value, whatever the earlier entries wrote there. */
  lemma LastScalarWins(fs: Fields, key: string, v: Json, parent: string, dumps: seq<Json> -> string)
    requires IsScalar(v)
    ensures Lookup(Flatten(Obj(fs + [(key, v)]), parent, dumps).value, ChildKey(parent, key)) == Some(v)
  {
    NormalizeAppend(fs, [(key, v)], 0, parent, dumps, []);
    var before := NormalizeFields(fs, 0, parent, dumps, []);
    assert NormalizeFields([(key, v)], 0, parent, dumps, before)
        == NormalizeFields([(key, v)], 1, parent, dumps, NormalizeEntry(key, v, parent, dumps, before));
  }

  /** Of a list of dicts only the first is flattened; the rest are dropped. */
  lemma OnlyFirstDictCounts(key: string, d: Fields, rest: seq<Json>, parent: string, dumps: seq<Json> -> string)
    ensures Flatten(Obj([(key, List([Obj(d)] + rest))]), parent, dumps)
         == Flatten(Obj([(key, Obj(d))]), parent, dumps)
  {
    var k := ChildKey(parent, key);
    var l := [(key, List([Obj(d)] + rest))];
    var o := [(key, Obj(d))];
    assert NormalizeEntry(key, List([Obj(d)] + rest), parent, dumps, [])
        == NormalizeFields(d, 0, k, dumps, [])
        == NormalizeEntry(key, Obj(d), parent, dumps, []);
    assert NormalizeFields(l, 0, parent, dumps, []) == NormalizeFields(l, 1, parent, dumps, NormalizeEntry(key, List([Obj(d)] + rest), parent, dumps, []));
    assert NormalizeFields(o, 0, parent, dumps, []) == NormalizeFields(o, 1, parent, dumps, NormalizeEntry(key, Obj(d), parent, dumps, []));
  }

  /** A nested dict becomes dotted keys: `{a: {b: v}}` flattens to
      `{"a.b": v}` for any scalar `v` (to `{b: v}` when `a` is empty). */
  lemma NestedKeysAreDotted(a: string, b: string, v: Json, dumps: seq<Json> -> string)
    requires IsScalar(v)
    ensures Flatten(Obj([(a, Obj([(b, v)]))]), "", dumps) == Ok([(if a != "" then a + "." + b else b, v)])
  {
    var k := if a != "" then a + "." + b else b;
    assert ChildKey("", a) == a;
    assert ChildKey(a, b) == k;
    assert Store([], k, v) == [(k, v)];
    assert NormalizeEntry(b, v, a, dumps, []) == [(k, v)];
    assert NormalizeFields([(b, v)], 0, a, dumps, []) == [(k, v)];
    assert NormalizeEntry(a, Obj([(b, v)]), "", dumps, []) == [(k, v)];
    assert NormalizeFields([(a, Obj([(b, v)]))], 1, "", dumps, [(k, v)]) == [(k, v)];
    assert NormalizeFields([(a, Obj([(b, v)]))], 0, "", dumps, []) == [(k, v)];
  }
}

=== FILE: denoiser.dfy ===
/** `DenoiseAudio` of `modules/denoiser.py`: the namespace `load_model`
    prepares for `get_model`, the name of a saved denoised file, and what
    `__call__` returns.

    `settings.CACHE_DIR` is the parameter `cacheRoot`; `get_audio_info` is
    the parameter `info` and the denoising itself the parameter `denoise`.
    The audio tensor is a type parameter: no numerics are modelled.
 */
module Denoiser {
  import opened Wrappers
  import opened Text
  import opened Json
  import opened Paths
  import DenoiserUtils

  /** The attribute names `load_model` writes and `get_model` reads. */
  const Master64: string := "master64"
  const Dns64: string := "dns64"
  const Valentini: string := "valentini"
  const Dns48: string := "dns48"
  const ValentiniNc: string := "valentini_nc"
  const HubDirKey: string := "hub_dir"
  const ModelPathKey: string := "model_path"

  /** The four flag names, in the order `load_model` sets them. */
  const FlagKeys: seq<string> := [Master64, Dns64, Valentini, Dns48]

  /** The attribute names are pairwise different. */
  lemma KeysApart()
    ensures Dns48 != Dns64 && Dns48 != Master64 && Dns48 != HubDirKey && Dns48 != ModelPathKey
    ensures Dns48 != Valentini && Dns48 != ValentiniNc
    ensures Dns64 != Master64 && Dns64 != HubDirKey && Dns64 != ModelPathKey && Dns64 != Valentini && Dns64 != ValentiniNc
    ensures Master64 != HubDirKey && Master64 != ModelPathKey && Master64 != Valentini && Master64 != ValentiniNc
    ensures HubDirKey != ModelPathKey && HubDirKey != Valentini && HubDirKey != ValentiniNc
    ensures ModelPathKey != Valentini && ModelPathKey != ValentiniNc && Valentini != ValentiniNc
  {
    assert Dns48[3] != Dns64[3];
    assert |Master64| == 8 && |HubDirKey| == 7 && |ModelPathKey| == 10 && |Dns64| == 5 && |Dns48| == 5;
    assert |Valentini| == 9 && |ValentiniNc| == 12;
  }

  /** What `load_model` returns: the namespace the deferred `get_model`
      call will receive, and the method name the model is applied through. */
  datatype Loaded = Loaded(args: Fields, target: string)

  /** `osp.join(cache_dir or settings.CACHE_DIR, "weights", "denoiser", model_choice)`. */
  function HubDir(modelChoice: string, cacheDir: Json, cacheRoot: string): (r: Result<string>)
    ensures !Truthy(cacheDir) ==> r == Ok(Join(Join(Join(cacheRoot, "weights"), "denoiser"), modelChoice))
    ensures Truthy(cacheDir) ==> (r.Ok? <==> cacheDir.Str?)
    ensures Truthy(cacheDir) && cacheDir.Str? ==> r == Ok(Join(Join(Join(cacheDir.s, "weights"), "denoiser"), modelChoice))
    ensures r.Ok? ==> r.value != "" && EndsWith(r.value, modelChoice)
  {
    var base :- if Truthy(cacheDir) then
      if cacheDir.Str? then Ok(cacheDir.s) else Err(TypeError("expected str, bytes or os.PathLike object"))
    else Ok(cacheRoot);
    var d := Join(Join(base, "weights"), "denoiser");
    assert |d| >= |"denoiser"|;
    Ok(Join(d, modelChoice))
  }

  /** The four flags `load_model` sets, in order. */
  datatype FlagValues = FlagValues(master64: bool, dns64: bool, valentini: bool, dns48: bool)

  /** `model_choice.endswith(key)` for each flag name. */
  function FlagsOf(modelChoice: string): FlagValues {
    FlagValues(EndsWith(modelChoice, Master64), EndsWith(modelChoice, Dns64),
               EndsWith(modelChoice, Valentini), EndsWith(modelChoice, Dns48))
  }

  /** `{**kwargs, "model_path": None, "hub_dir": hub_dir}` followed by the
      four flag assignments in order; the third flag is stored under
      `valentiniAttr`. */
  function Namespace(kwargs: Fields, hub: string, f: FlagValues, valentiniAttr: string): (a: Fields)
    ensures UniqueKeys(kwargs) ==> UniqueKeys(a)
    ensures UniqueKeys(kwargs) ==> forall k :: Lookup(a, k) == Expected(kwargs, hub, f, valentiniAttr, k)
  {
    var a0 := Put(kwargs, ModelPathKey, Null);
    var a1 := Put(a0, HubDirKey, Str(hub));
    var a2 := Put(a1, Master64, Bool(f.master64));
    var a3 := Put(a2, Dns64, Bool(f.dns64));
    var a4 := Put(a3, valentiniAttr, Bool(f.valentini));
    var a5 := Put(a4, Dns48, Bool(f.dns48));
    if !UniqueKeys(kwargs) then a5
    else
      LookupPutAll(kwargs, ModelPathKey, Null);
      LookupPutAll(a0, HubDirKey, Str(hub));
      LookupPutAll(a1, Master64, Bool(f.master64));
      LookupPutAll(a2, Dns64, Bool(f.dns64));
      LookupPutAll(a3, valentiniAttr, Bool(f.valentini));
      LookupPutAll(a4, Dns48, Bool(f.dns48));
      a5
  }

  /** The value each key of the namespace holds: the last assignment to it
      wins, and a key never assigned keeps its keyword argument. */
  function Expected(kwargs: Fields, hub: string, f: FlagValues, valentiniAttr: string, k: string): Option<Json> {
    if k == Dns48 then Some(Bool(f.dns48))
    else if k == valentiniAttr then Some(Bool(f.valentini))
    else if k == Dns64 then Some(Bool(f.dns64))
    else if k == Master64 then Some(Bool(f.master64))
    else if k == HubDirKey then Some(Str(hub))
    else if k == ModelPathKey then Some(Null)
    else Lookup(kwargs, k)
  }

  /** The namespace holds `None` under `model_path`, the hub directory under
      `hub_dir`, each of the four flags under its attribute, and every other
      keyword argument unchanged. */
  lemma NamespaceHolds(kwargs: Fields, hub: string, f: FlagValues, valentiniAttr: string)
    requires UniqueKeys(kwargs)
    requires valentiniAttr != Master64 && valentiniAttr != Dns64 && valentiniAttr != Dns48
    requires valentiniAttr != HubDirKey && valentiniAttr != ModelPathKey
    ensures var args := Namespace(kwargs, hub, f, valentiniAttr);
      && UniqueKeys(args)
      && Lookup(args, ModelPathKey) == Some(Null)
      && Lookup(args, HubDirKey) == Some(Str(hub))
      && Lookup(args, Master64) == Some(Bool(f.master64))
      && Lookup(args, Dns64) == Some(Bool(f.dns64))
      && Lookup(args, valentiniAttr) == Some(Bool(f.valentini))
      && Lookup(args, Dns48) == Some(Bool(f.dns48))
      && forall k :: k != Master64 && k != Dns64 && k != valentiniAttr && k != Dns48 && k != HubDirKey && k != ModelPathKey ==>
           Lookup(args, k) == Lookup(kwargs, k)
  {
    KeysApart();
  }

  /** `DenoiseAudio.load_model(model_choice, cache_dir, **kwargs)`, with the
      `valentini` flag stored under `valentiniAttr`. */
  function LoadWith(valentiniAttr: string, modelChoice: string, cacheDir: Json, kwargs: Fields,
                    cacheRoot: string): (r: Result<Loaded>)
    ensures r.Ok? <==> HubDir(modelChoice, cacheDir, cacheRoot).Ok?
    ensures r.Ok? ==> r.value.target == "apply_denoiser"
  {
    var hub :- HubDir(modelChoice, cacheDir, cacheRoot);
    Ok(Loaded(Namespace(kwargs, hub, FlagsOf(modelChoice), valentiniAttr), "apply_denoiser"))
  }

  /** `load_model` as written: the flag is stored as `valentini`. */
  function LoadModel(modelChoice: string, cacheDir: Json, kwargs: Fields, cacheRoot: string): (r: Result<Loaded>)
    ensures r.Ok? <==> HubDir(modelChoice, cacheDir, cacheRoot).Ok?
  {
    LoadWith(Valentini, modelChoice, cacheDir, kwargs, cacheRoot)
  }

  /** `load_model` stores `None` under `model_path`, the hub directory
      under `hub_dir`, `model_choice.endswith(key)` under each flag name,
      and keeps every other keyword argument. */
  lemma LoadModelStores(modelChoice: string, cacheDir: Json, kwargs: Fields, cacheRoot: string)
    requires UniqueKeys(kwargs) && LoadModel(modelChoice, cacheDir, kwargs, cacheRoot).Ok?
    ensures var args := LoadModel(modelChoice, cacheDir, kwargs, cacheRoot).value.args;
      && UniqueKeys(args)
      && Lookup(args, ModelPathKey) == Some(Null)
      && Lookup(args, HubDirKey) == Some(Str(HubDir(modelChoice, cacheDir, cacheRoot).value))
      && Lookup(args, Master64) == Some(Bool(EndsWith(modelChoice, Master64)))
      && Lookup(args, Dns64) == Some(Bool(EndsWith(modelChoice, Dns64)))
      && Lookup(args, Valentini) == Some(Bool(EndsWith(modelChoice, Valentini)))
      && Lookup(args, Dns48) == Some(Bool(EndsWith(modelChoice, Dns48)))
      && forall k :: k !in FlagKeys && k != ModelPathKey && k != HubDirKey ==> Lookup(args, k) == Lookup(kwargs, k)
  {
    var hub := HubDir(modelChoice, cacheDir, cacheRoot).value;
    var f := FlagsOf(modelChoice);
    var args := Namespace(kwargs, hub, f, Valentini);
    assert LoadModel(modelChoice, cacheDir, kwargs, cacheRoot) == Ok(Loaded(args, "apply_denoiser"));
    KeysApart();
    NamespaceHolds(kwargs, hub, f, Valentini);
    assert forall k :: k !in FlagKeys ==> k != Master64 && k != Dns64 && k != Valentini && k != Dns48;
  }

  /** No flag name is a suffix of another, so at most one flag is set. */
  lemma AtMostOneFlag(modelChoice: string, i: nat, j: nat)
    requires i < j < |FlagKeys|
    ensures !(EndsWith(modelChoice, FlagKeys[i]) && EndsWith(modelChoice, FlagKeys[j]))
  {
    if EndsWith(modelChoice, FlagKeys[i]) && EndsWith(modelChoice, FlagKeys[j]) {
      var a, b := FlagKeys[i], FlagKeys[j];
      if |a| <= |b| {
        SuffixesNest(modelChoice, a, b);
        NoFlagEndsAnother(i, j);
      } else {
        SuffixesNest(modelChoice, b, a);
        NoFlagEndsAnother(j, i);
      }
    }
  }

  /** No flag name ends with a different one. */
  lemma NoFlagEndsAnother(i: nat, j: nat)
    requires i < |FlagKeys| && j < |FlagKeys| && i != j
    ensures !EndsWith(FlagKeys[j], FlagKeys[i])
  {
    var a, b := FlagKeys[i], FlagKeys[j];
    assert Master64[7] == '4' && Dns64[4] == '4' && Valentini[8] == 'i' && Dns48[4] == '8';
    assert Master64[6] == '6' && Dns64[3] == '6' && Master64[3] == 't' && Dns64[0] == 'd';
    assert |Master64| == 8 && |Dns64| == 5 && |Valentini| == 9 && |Dns48| == 5;
    assert a[|a| - 1] != b[|b| - 1] || |a| > |b| || a[0] != b[|b| - |a|];
  }

  /** As written, a choice ending in neither `dns64` nor `master64` gives a
      namespace on which `get_model` fails: `load_model` sets `valentini`
      but `get_model` reads `valentini_nc`. */
  lemma LoadedModelFails(modelChoice: string, cacheDir: Json, kwargs: Fields, cacheRoot: string,
                         load: Json -> Result<Json>)
    requires UniqueKeys(kwargs) && !HasKey(kwargs, ValentiniNc)
    requires !EndsWith(modelChoice, Dns64) && !EndsWith(modelChoice, Master64)
    requires LoadModel(modelChoice, cacheDir, kwargs, cacheRoot).Ok?
    ensures DenoiserUtils.GetModel(LoadModel(modelChoice, cacheDir, kwargs, cacheRoot).value.args, load)
              == Err(AttributeError(ValentiniNc))
  {
    var hub := HubDir(modelChoice, cacheDir, cacheRoot).value;
    var f := FlagsOf(modelChoice);
    KeysApart();
    NamespaceHolds(kwargs, hub, f, Valentini);
    var args := Namespace(kwargs, hub, f, Valentini);
    assert Lookup(args, ValentiniNc) == Lookup(kwargs, ValentiniNc);
    DenoiserUtils.MissingValentiniNc(args, load);
  }

  /** `load_model` as evidently intended: the `valentini` suffix sets the
      `valentini_nc` attribute that `get_model` reads. */
  function LoadModelIntended(modelChoice: string, cacheDir: Json, kwargs: Fields, cacheRoot: string): (r: Result<Loaded>)
    ensures r.Ok? <==> HubDir(modelChoice, cacheDir, cacheRoot).Ok?
  {
    LoadWith(ValentiniNc, modelChoice, cacheDir, kwargs, cacheRoot)
  }

  /** The variant a model choice names, by the `get_model` priority. */
  function VariantFor(modelChoice: string): DenoiserUtils.Variant {
    if EndsWith(modelChoice, Dns64) then DenoiserUtils.Dns64
    else if EndsWith(modelChoice, Master64) then DenoiserUtils.Master64
    else if EndsWith(modelChoice, Valentini) then DenoiserUtils.ValentiniNc
    else DenoiserUtils.Dns48
  }

  /** With the intended attribute name, `get_model` builds the variant the
      choice's suffix names and fetches its weights, since the hub directory
      is never empty. */
  lemma IntendedSelects(modelChoice: string, cacheDir: Json, kwargs: Fields, cacheRoot: string,
                        load: Json -> Result<Json>)
    requires UniqueKeys(kwargs)
    requires LoadModelIntended(modelChoice, cacheDir, kwargs, cacheRoot).Ok?
    ensures var hub := HubDir(modelChoice, cacheDir, cacheRoot).value;
      DenoiserUtils.GetModel(LoadModelIntended(modelChoice, cacheDir, kwargs, cacheRoot).value.args, load)
        == Ok(DenoiserUtils.Pretrained(VariantFor(modelChoice), Str(hub)))
    ensures DenoiserUtils.GetModel(LoadModelIntended(modelChoice, cacheDir, kwargs, cacheRoot).value.args, load)
              .value.weights.Some?
  {
    var hub := HubDir(modelChoice, cacheDir, cacheRoot).value;
    var f := FlagsOf(modelChoice);
    KeysApart();
    NamespaceHolds(kwargs, hub, f, ValentiniNc);
    SelectsFrom(Namespace(kwargs, hub, f, ValentiniNc), hub, f, load);
  }

  /** A namespace with a `None` `model_path` and the three flags `get_model`
      reads builds the variant the flags name, fetching its weights. */
  lemma SelectsFrom(args: Fields, hub: string, f: FlagValues, load: Json -> Result<Json>)
    requires hub != ""
    requires Lookup(args, ModelPathKey) == Some(Null) && Lookup(args, HubDirKey) == Some(Str(hub))
    requires Lookup(args, Dns64) == Some(Bool(f.dns64)) && Lookup(args, Master64) == Some(Bool(f.master64))
    requires Lookup(args, ValentiniNc) == Some(Bool(f.valentini))
    ensures var v := if f.dns64 then DenoiserUtils.Dns64 else if f.master64 then DenoiserUtils.Master64
                     else if f.valentini then DenoiserUtils.ValentiniNc else DenoiserUtils.Dns48;
      && DenoiserUtils.GetModel(args, load) == Ok(DenoiserUtils.Pretrained(v, Str(hub)))
      && DenoiserUtils.GetModel(args, load).value.weights.Some?
  {
  }

  /** The file-name suffix of a saved denoised file. */
  const DenoisedSuffix: string := "_denoised.wav"

  /** `f"{stem}_denoised.wav"` inside `save_dir`. */
  function DenoisedPath(saveDir: string, audioPath: string): (p: string)
    ensures EndsWith(p, Stem(audioPath) + DenoisedSuffix) && EndsWith(p, ".wav")
  {
    var name := Stem(audioPath) + DenoisedSuffix;
    assert EndsWith(name, DenoisedSuffix) by { assert name[|name| - |DenoisedSuffix|..] == DenoisedSuffix; }
    DenoisedSuffixShape();
    EndsWithTrans(name, DenoisedSuffix, ".wav");
    EndsWithTrans(Join(saveDir, name), name, ".wav");
    Join(saveDir, name)
  }

  lemma DenoisedSuffixShape()
    ensures Sep !in DenoisedSuffix && EndsWith(DenoisedSuffix, ".wav")
  {
    assert DenoisedSuffix[9..] == ".wav";
  }

  /** A file `<x><ext>` in any directory is saved as `<x>_denoised.wav`
      directly inside `save_dir`. */
  lemma DenoisedPathOfName(saveDir: string, dir: string, x: string, ext: string)
    requires Sep !in x && (exists k | 0 <= k < |x| :: x[k] != '.')
    requires |ext| > 0 && ext[0] == '.' && '.' !in ext[1..] && Sep !in ext
    ensures DenoisedPath(saveDir, Join(dir, x + ext)) == Join(saveDir, x + DenoisedSuffix)
    ensures Basename(DenoisedPath(saveDir, Join(dir, x + ext))) == x + DenoisedSuffix
    ensures EndsWith(DenoisedPath(saveDir, Join(dir, x + ext)), ".wav")
  {
    StemOfJoin(dir, x, ext);
    var name := x + DenoisedSuffix;
    DenoisedSuffixShape();
    assert Sep !in name;
    BasenameOfJoin(saveDir, name);
    assert EndsWith(name, DenoisedSuffix);
    EndsWithTrans(name, DenoisedSuffix, ".wav");
    EndsWithTrans(Join(saveDir, name), name, ".wav");
  }

  /** `kwargs.get("save_dir") or osp.join(settings.CACHE_DIR, "tmp", "denoiser")`:
      the value is kept as it is, whatever its type; only `save_to_file`
      later needs it to be a path. */
  function SaveDir(kwargs: Fields, cacheRoot: string): (d: Json)
    ensures Lookup(kwargs, "save_dir").Some? && Truthy(Lookup(kwargs, "save_dir").value) ==>
      d == Lookup(kwargs, "save_dir").value
    ensures !(Lookup(kwargs, "save_dir").Some? && Truthy(Lookup(kwargs, "save_dir").value)) ==>
      d == Str(Join(Join(cacheRoot, "tmp"), "denoiser"))
    ensures Truthy(d)
  {
    var d := Lookup(kwargs, "save_dir").GetOr(Null);
    if Truthy(d) then d
    else
      var dflt := Join(Join(cacheRoot, "tmp"), "denoiser");
      assert |dflt| >= |"denoiser"| by { assert EndsWith(dflt, "denoiser"); }
      Str(dflt)
  }

  /** What `__call__` returns: the saved file's path (with the sample rate
      it was written at), or the denoised tensor and whether it was moved to
      the CPU. */
  datatype Output<T> = Saved(path: string, sampleRate: nat) | Returned(audio: T, onCpu: bool)

  /** `DenoiseAudio.__call__`. Saving reads the audio information and
      picks the directory before denoising, but the directory and the
      audio path are only used as paths by `save_to_file`, after
      denoising: a directory or path that is not a `str` raises there. */
  function Call<T>(audioPath: Option<string>, audio: Option<T>, saveToFile: bool, offload: bool, kwargs: Fields,
                   cacheRoot: string, info: Option<string> -> Result<nat>, denoise: Result<T>): (r: Result<Output<T>>)
    ensures audioPath.None? && audio.None? ==> r.Err? && r.exc.AssertionError?
    ensures saveToFile && r.Ok? ==>
      && audioPath.Some? && info(audioPath).Ok? && SaveDir(kwargs, cacheRoot).Str? && denoise.Ok?
      && r.value == Saved(DenoisedPath(SaveDir(kwargs, cacheRoot).s, audioPath.value), info(audioPath).value)
    ensures saveToFile && audioPath.Some? ==>
      (r.Ok? <==> info(audioPath).Ok? && denoise.Ok? && SaveDir(kwargs, cacheRoot).Str?)
    ensures saveToFile && (audioPath.Some? || audio.Some?) && info(audioPath).Ok? && denoise.Err? ==>
      r == Err(denoise.exc)
    ensures saveToFile && (audioPath.Some? || audio.Some?) && info(audioPath).Ok? && denoise.Ok? && !SaveDir(kwargs, cacheRoot).Str? ==>
      r.Err? && r.exc.TypeError?
    ensures !saveToFile ==>
      && (r.Ok? <==> (audioPath.Some? || audio.Some?) && denoise.Ok?)
      && (r.Ok? ==> r.value == Returned(denoise.value, offload))
  {
    if audioPath.None? && audio.None? then Err(AssertionError("Either audio_path or audio tensor is required"))
    else if saveToFile then
      var sr :- info(audioPath);
      var dir := SaveDir(kwargs, cacheRoot);
      var t :- denoise;
      if !dir.Str? then Err(TypeError("expected str, bytes or os.PathLike object"))
      else if audioPath.None? then Err(TypeError("expected str, bytes or os.PathLike object, not NoneType"))
      else Ok(Saved(DenoisedPath(dir.s, audioPath.value), sr))
    else
      var t :- denoise;
      Ok(Returned(t, offload))
  }
}

=== FILE: denoiser_utils.dfy ===
/** Model selection of `modules/denoiser_utils.py`: which Demucs
    denoiser `get_model` builds from an `argparse.Namespace`, with which
    architecture, and whether it fetches pretrained weights.

    The namespace is a dict of attributes (`Json.Fields`); reading an
    attribute it lacks raises `AttributeError`. `torch.load` is the
    parameter `load`; `deserialize_model` and the Demucs network are not
    part of this model, so a built model is described by the arguments it
    was built from.
 */
module DenoiserUtils {
  import opened Wrappers
  import opened Json
  import Text

  const Root: string := "https://dl.fbaipublicfiles.com/adiyoss/denoiser/"

  /** The four published checkpoints. */
  datatype Variant = Dns48 | Dns64 | Master64 | ValentiniNc

  /** Where a checkpoint's weights are downloaded from. */
  function Url(v: Variant): (u: string)
    ensures |u| > |Root| && u[..|Root|] == Root
  {
    match v
    case Dns48 => Root + "dns48-11decc9d8e3f0998.th"
    case Dns64 => Root + "dns64-a7761ff99a7d5bb6.th"
    case Master64 => Root + "master64-8a5dfb4bb92753dd.th"
    case ValentiniNc => Root + "valentini_nc-93fc4337.th"
  }

  /** The keyword arguments `Demucs` receives; `None` leaves the
      network's own default in place. */
  datatype Arch = Arch(hidden: nat, causal: Option<bool>, stride: Option<nat>, resample: Option<nat>, sampleRate: nat)

  /** The architecture table of the four variant constructors. */
  function ArchOf(v: Variant): (a: Arch)
    ensures a.sampleRate == 16000
    ensures a.hidden == 48 <==> v == Dns48
    ensures a.hidden == 64 <==> v != Dns48
    ensures a.causal.Some? <==> v == ValentiniNc
    ensures a.causal == Some(false) <==> v == ValentiniNc
    ensures v == ValentiniNc <==> a.stride == Some(2) && a.resample == Some(2)
    ensures v != ValentiniNc ==> a.stride.None? && a.resample.None?
  {
    match v
    case Dns48 => Arch(48, None, None, None, 16000)
    case Dns64 => Arch(64, None, None, None, 16000)
    case Master64 => Arch(64, None, None, None, 16000)
    case ValentiniNc => Arch(64, Some(false), Some(2), Some(2), 16000)
  }

  /** `torch.hub.load_state_dict_from_url(url, model_dir=..., map_location="cpu")`. */
  datatype Fetch = Fetch(url: string, modelDir: Option<string>, mapLocation: string)

  /** A built model: a pretrained-architecture Demucs with the weights it
      fetched, if any, or a model deserialised from a local package. */
  datatype Model =
    | Demucs(variant: Variant, arch: Arch, weights: Option<Fetch>)
    | Deserialized(pkg: Json)

  /** `dns48(args.hub_dir)` and its siblings: `hub_dir` lands in the
      positional `pretrained` parameter, so weights are fetched exactly when
      it is truthy, and `model_dir` keeps its default `None`. */
  function Pretrained(v: Variant, hubDir: Json): (m: Model)
    ensures m.Demucs? && m.variant == v && m.arch == ArchOf(v)
    ensures m.weights.Some? <==> Truthy(hubDir)
    ensures m.weights.Some? ==> m.weights.value == Fetch(Url(v), None, "cpu")
  {
    Demucs(v, ArchOf(v), if Truthy(hubDir) then Some(Fetch(Url(v), None, "cpu")) else None)
  }

  /** `args.<name>` on a namespace. */
  function Attr(args: Fields, name: string): (r: Result<Json>)
    ensures r.Ok? <==> HasKey(args, name)
    ensures r.Ok? ==> Some(r.value) == Lookup(args, name)
    ensures r.Err? ==> r.exc == AttributeError(name)
  {
    match Lookup(args, name)
    case Some(v) => Ok(v)
    case None => Err(AttributeError(name))
  }

  /** The local-package branch: a dict package holding `model` is
      unwrapped, with `best_state` installed as the model's `state` when
      present; any other dict is deserialised whole. For a list or a
      string, `"model" in pkg` tests items or substrings, and indexing it
      by a string then raises. */
  function FromPackage(pkg: Json): (r: Result<Model>)
    ensures r.Ok? ==> r.value.Deserialized?
  {
    match pkg
    case Obj(fs) =>
      if HasKey(fs, "model") then
        var inner := Lookup(fs, "model").value;
        if HasKey(fs, "best_state") then
          var updated :- SetKey(inner, "state", Lookup(fs, "best_state").value);
          Ok(Deserialized(updated))
        else Ok(Deserialized(inner))
      else Ok(Deserialized(pkg))
    case List(xs) =>
      if Str("model") in xs then Err(TypeError("list indices must be integers")) else Ok(Deserialized(pkg))
    case Str(s) =>
      if Text.Contains(s, "model") then Err(TypeError("string indices must be integers")) else Ok(Deserialized(pkg))
    case _ => Err(TypeError("argument is not iterable"))
  }

  /** The flag branches in order: `dns64`, `master64`, `valentini_nc`,
      otherwise `dns48`; each flag is read only when every earlier one was
      false. */
  function Choice(args: Fields): (r: Result<Variant>)
    ensures Flag(args, "dns64") ==> r == Ok(Dns64)
    ensures HasKey(args, "dns64") && !Flag(args, "dns64") && Flag(args, "master64") ==> r == Ok(Master64)
    ensures (HasKey(args, "dns64") && HasKey(args, "master64") && !Flag(args, "dns64") && !Flag(args, "master64")
             && Flag(args, "valentini_nc")) ==> r == Ok(ValentiniNc)
    ensures r == Ok(Dns48) <==>
      && HasKey(args, "dns64") && HasKey(args, "master64") && HasKey(args, "valentini_nc")
      && !Flag(args, "dns64") && !Flag(args, "master64") && !Flag(args, "valentini_nc")
    ensures r.Err? <==>
      || !HasKey(args, "dns64")
      || (!Flag(args, "dns64") && !HasKey(args, "master64"))
      || (!Flag(args, "dns64") && !Flag(args, "master64") && !HasKey(args, "valentini_nc"))
    ensures r.Err? ==> r.exc.AttributeError?
  {
    var dns64 :- Attr(args, "dns64");
    if Truthy(dns64) then Ok(Dns64)
    else
      var master64 :- Attr(args, "master64");
      if Truthy(master64) then Ok(Master64)
      else
        var valentini :- Attr(args, "valentini_nc");
        if Truthy(valentini) then Ok(ValentiniNc)
        else Ok(Dns48)
  }

  /** The namespace has attribute `name` and it is truthy. */
  predicate Flag(args: Fields, name: string) {
    Lookup(args, name).Some? && Truthy(Lookup(args, name).value)
  }

  /** `get_model(args)`. */
  function GetModel(args: Fields, load: Json -> Result<Json>): (r: Result<Model>)
    ensures !HasKey(args, "model_path") ==> r == Err(AttributeError("model_path"))
    ensures Flag(args, "model_path") && r.Ok? ==> r.value.Deserialized?
    ensures HasKey(args, "model_path") && !Flag(args, "model_path") ==>
      && (r.Ok? <==> Choice(args).Ok? && HasKey(args, "hub_dir"))
      && (r.Ok? ==> r.value == Pretrained(Choice(args).value, Lookup(args, "hub_dir").value))
      && (r.Err? ==> r.exc.AttributeError?)
  {
    var modelPath :- Attr(args, "model_path");
    if Truthy(modelPath) then
      var pkg :- load(modelPath);
      FromPackage(pkg)
    else
      var v :- Choice(args);
      var hubDir :- Attr(args, "hub_dir");
      Ok(Pretrained(v, hubDir))
  }

  /** A truthy `model_path` decides the model alone: no flag and no
      `hub_dir` is read, and the result is a deserialised package. */
  lemma ModelPathWins(args: Fields, other: Fields, load: Json -> Result<Json>)
    requires Lookup(args, "model_path") == Lookup(other, "model_path")
    requires Flag(args, "model_path")
    ensures GetModel(args, load) == GetModel(other, load)
    ensures GetModel(args, load).Ok? ==> GetModel(args, load).value.Deserialized?
  {
  }

  /** With `model_path`, `dns64` and `master64` all falsy, a namespace
      without `valentini_nc` fails reading it. */
  lemma MissingValentiniNc(args: Fields, load: Json -> Result<Json>)
    requires HasKey(args, "model_path") && HasKey(args, "dns64") && HasKey(args, "master64")
    requires !Flag(args, "model_path") && !Flag(args, "dns64") && !Flag(args, "master64")
    requires !HasKey(args, "valentini_nc")
    ensures GetModel(args, load) == Err(AttributeError("valentini_nc"))
  {
  }

  /** A dict package holding a dict `model` and a `best_state` becomes that
      model with `state` set to `best_state`; one without `model` is
      deserialised whole. */
  lemma PackageCases(pkg: Json)
    requires pkg.Obj?
    ensures !HasKey(pkg.fields, "model") ==> FromPackage(pkg) == Ok(Deserialized(pkg))
    ensures var inner := Lookup(pkg.fields, "model");
      HasKey(pkg.fields, "best_state") && inner.Some? && inner.value.Obj? && UniqueKeys(inner.value.fields) ==>
        && FromPackage(pkg).Ok?
        && FromPackage(pkg).value.pkg.Obj?
        && Lookup(FromPackage(pkg).value.pkg.fields, "state") == Lookup(pkg.fields, "best_state")
        && forall k :: k != "state" ==> Lookup(FromPackage(pkg).value.pkg.fields, k) == Lookup(inner.value.fields, k)
    ensures var inner := Lookup(pkg.fields, "model");
      !HasKey(pkg.fields, "best_state") && inner.Some? ==> FromPackage(pkg) == Ok(Deserialized(inner.value))
  {
    var inner := Lookup(pkg.fields, "model");
    if HasKey(pkg.fields, "best_state") && inner.Some? && inner.value.Obj? && UniqueKeys(inner.value.fields) {
      LookupPutAll(inner.value.fields, "state", Lookup(pkg.fields, "best_state").value);
    }
  }
}

=== FILE: downloader.dfy ===
/** `Downloader` of `manager/downloader.py`: the file name a YouTube
    download is renamed to, the metadata each helper returns, the routing of
    `download_file` and `walk_files`, and the default save directory.

    Network transfers are left to parameters: `saved` is the path pytube
    wrote the video to, `uuid` the fresh `uuid4()` text.
 */
module Downloader {
  import opened Wrappers
  import opened Text
  import opened Json
  import opened Paths

  /** The characters `re.sub(r"[^a-zA-Z0-9 ]", "", root)` keeps; the
      intended class also keeps `_`. */
  predicate Kept(c: char, keepUnderscore: bool) {
    IsLetter(c) || IsDigit(c) || c == ' ' || (keepUnderscore && c == '_')
  }

  /** The regular-expression substitution: drop every character outside
      the class, keeping the order of the rest. */
  function Filter(s: string, keepUnderscore: bool): (r: string)
    ensures |r| <= |s|
    ensures forall c :: c in r <==> c in s && Kept(c, keepUnderscore)
  {
    if |s| == 0 then ""
    else
      var rest := Filter(s[1..], keepUnderscore);
      assert forall c :: c in s <==> c == s[0] || c in s[1..];
      if Kept(s[0], keepUnderscore) then [s[0]] + rest else rest
  }

  /** One character is kept or dropped on its own. */
  lemma FilterSingle(c: char, keepUnderscore: bool)
    ensures Filter([c], keepUnderscore) == if Kept(c, keepUnderscore) then [c] else []
  {
    assert [c][1..] == [];
  }

  /** The filter works piecewise, so the kept characters keep their order
      and their repetitions. */
  lemma {:induction false} FilterAppend(a: string, b: string, keepUnderscore: bool)
    ensures Filter(a + b, keepUnderscore) == Filter(a, keepUnderscore) + Filter(b, keepUnderscore)
  {
    if |a| > 0 {
      assert (a + b)[0] == a[0];
      assert (a + b)[1..] == a[1..] + b;
      FilterAppend(a[1..], b, keepUnderscore);
    } else {
      assert a + b == b;
    }
  }

  /** A text made of kept characters passes the filter unchanged. */
  lemma {:induction false} FilterKeepsAll(s: string, keepUnderscore: bool)
    requires forall i :: 0 <= i < |s| ==> Kept(s[i], keepUnderscore)
    ensures Filter(s, keepUnderscore) == s
  {
    if |s| > 0 {
      FilterKeepsAll(s[1..], keepUnderscore);
    }
  }

  /** A text holding a dropped character comes out strictly shorter. */
  lemma {:induction false} FilterDrops(s: string, keepUnderscore: bool, i: nat)
    requires i < |s| && !Kept(s[i], keepUnderscore)
    ensures |Filter(s, keepUnderscore)| < |s|
  {
    if i > 0 {
      FilterDrops(s[1..], keepUnderscore, i - 1);
    }
  }

  /** Without `_` in the text, adding `_` to the class changes nothing. */
  lemma {:induction false} FilterWithoutUnderscore(s: string)
    requires '_' !in s
    ensures Filter(s, false) == Filter(s, true)
  {
    if |s| > 0 {
      assert s[0] != '_';
      FilterWithoutUnderscore(s[1..]);
    }
  }

  /** `s.replace(" ", "_")`, character by character. */
  function Underscored(s: string): (r: string)
    ensures |r| == |s|
    ensures forall i :: 0 <= i < |s| ==> r[i] == if s[i] == ' ' then '_' else s[i]
  {
    seq(|s|, i requires 0 <= i < |s| => if s[i] == ' ' then '_' else s[i])
  }

  /** The character-by-character form is `str.replace` with a one-space
      pattern. */
  lemma {:induction false} UnderscoredIsReplace(s: string)
    ensures Underscored(s) == ReplaceAll(s, " ", "_")
  {
    if |s| > 0 {
      UnderscoredIsReplace(s[1..]);
      assert Underscored(s) == [Underscored(s)[0]] + Underscored(s[1..]);
      if s[0] == ' ' {
        assert s[..1] == " ";
      } else {
        assert s[..1] != " " by { assert s[..1][0] != ' '; }
      }
    }
  }

  /** Lines 29-30 of `download_from_youtube`, with or without `_` in the
      kept class. */
  function SanitizeWith(root: string, keepUnderscore: bool): (r: string)
    ensures |r| <= |root| && ' ' !in r && Sep !in r
  {
    var f := Filter(root, keepUnderscore);
    assert forall i :: 0 <= i < |f| ==> Kept(f[i], keepUnderscore) by {
      forall i | 0 <= i < |f| ensures Kept(f[i], keepUnderscore) { assert f[i] in f; }
    }
    Underscored(f)
  }

  /** The sanitisation as written: only ASCII letters, digits and `_`
      remain, and an `_` remains exactly when the root had a space. */
  function Sanitize(root: string): (r: string)
    ensures forall i :: 0 <= i < |r| ==> IsLetter(r[i]) || IsDigit(r[i]) || r[i] == '_'
    ensures '_' in r <==> ' ' in root
  {
    SanitizedAlphabet(root, false);
    SanitizeWith(root, false)
  }

  /** The sanitisation as evidently intended: `_` is kept. */
  function SanitizeIntended(root: string): string {
    SanitizeWith(root, true)
  }

  /** A sanitised root holds only ASCII letters, digits and `_`; it has an
      `_` exactly where the root had a space, or a kept `_`. */
  lemma SanitizedAlphabet(root: string, keepUnderscore: bool)
    ensures forall i :: 0 <= i < |SanitizeWith(root, keepUnderscore)| ==>
      var c := SanitizeWith(root, keepUnderscore)[i]; IsLetter(c) || IsDigit(c) || c == '_'
    ensures '_' in SanitizeWith(root, keepUnderscore) <==> ' ' in root || (keepUnderscore && '_' in root)
  {
    var f := Filter(root, keepUnderscore);
    var r := SanitizeWith(root, keepUnderscore);
    forall i | 0 <= i < |r|
      ensures IsLetter(r[i]) || IsDigit(r[i]) || r[i] == '_'
    {
      assert f[i] in f;
    }
    if '_' in r {
      var i :| 0 <= i < |r| && r[i] == '_';
      assert f[i] in f;
    }
    if ' ' in root {
      assert ' ' in f;
      var i :| 0 <= i < |f| && f[i] == ' ';
      assert r[i] == '_';
    } else if keepUnderscore && '_' in root {
      assert '_' in f;
      var i :| 0 <= i < |f| && f[i] == '_';
      assert r[i] == '_';
    }
  }

  /** As written, sanitising a sanitised root changes it exactly when the
      original root held a space: the `_` the space became is dropped by the
      second pass. */
  lemma SanitizeFixedIff(root: string)
    ensures Sanitize(Sanitize(root)) == Sanitize(root) <==> ' ' !in root
  {
    var r := Sanitize(root);
    SanitizedAlphabet(root, false);
    if ' ' in root {
      var i :| 0 <= i < |r| && r[i] == '_';
      FilterDrops(r, false, i);
    } else {
      FilterKeepsAll(r, false);
      assert ' ' !in r;
      assert Underscored(r) == r;
    }
  }

  /** The smallest case: for letters `x` and `y` (as in `"a b"`), `x y`
      sanitises to `x_y`, which sanitises to `xy`. */
  lemma SanitizeTwice(x: char, y: char)
    requires IsLetter(x) && IsLetter(y)
    ensures Sanitize([x, ' ', y]) == [x, '_', y]
    ensures Sanitize([x, '_', y]) == [x, y]
  {
    SanitizeSpace(x, y);
    SanitizeUnderscore(x, y);
  }

  /** The first half: the space becomes `_`. */
  lemma SanitizeSpace(x: char, y: char)
    requires IsLetter(x) && IsLetter(y)
    ensures Sanitize([x, ' ', y]) == [x, '_', y]
  {
    FilterKeepsAll([x, ' ', y], false);
    SanitizeOfFiltered([x, ' ', y], [x, ' ', y]);
    assert Underscored([x, ' ', y]) == [x, '_', y];
  }

  /** The second half: the `_` is dropped. */
  lemma SanitizeUnderscore(x: char, y: char)
    requires IsLetter(x) && IsLetter(y)
    ensures Sanitize([x, '_', y]) == [x, y]
  {
    assert [x, '_', y] == [x] + ['_'] + [y];
    FilterAppend([x] + ['_'], [y], false);
    FilterAppend([x], ['_'], false);
    FilterSingle(x, false);
    FilterSingle('_', false);
    FilterSingle(y, false);
    SanitizeOfFiltered([x, '_', y], [x, y]);
    assert Underscored([x, y]) == [x, y];
  }

  /** Sanitising is underscoring what the filter keeps. */
  lemma SanitizeOfFiltered(root: string, f: string)
    requires Filter(root, false) == f
    ensures Sanitize(root) == Underscored(f)
  {
  }

  /** With `_` kept, sanitising is idempotent. */
  lemma SanitizeIntendedIdempotent(root: string)
    ensures SanitizeIntended(SanitizeIntended(root)) == SanitizeIntended(root)
  {
    var r := SanitizeIntended(root);
    SanitizedAlphabet(root, true);
    FilterKeepsAll(r, true);
    assert ' ' !in r;
    assert Underscored(r) == r;
  }

  /** On a root without `_` the intended sanitisation agrees with the one
      as written. */
  lemma SanitizeAgrees(root: string)
    requires '_' !in root
    ensures SanitizeIntended(root) == Sanitize(root)
  {
    FilterWithoutUnderscore(root);
  }

  /** `os.path.split(p)`: the text after the last separator, and the text
      before it with trailing separators dropped unless it is all
      separators. */
  function Split(p: string): (r: (string, string))
    ensures Sep !in r.1 && EndsWith(p, r.1)
  {
    var i := LastIndexOf(p, Sep) + 1;
    var head := p[..i];
    var tail := p[i..];
    assert p[|p| - |tail|..] == tail;
    var stripped := StripTrailingSeps(head);
    (if stripped == "" then head else stripped, tail)
  }

  /** Splitting `<dir>/<name>` gives back `dir` and `name`. */
  lemma SplitOfJoin(dir: string, name: string)
    requires dir != "" && dir[|dir| - 1] != Sep && Sep !in name
    ensures Split(dir + [Sep] + name) == (dir, name)
  {
    var p := dir + [Sep] + name;
    LastIndexOfJoined(dir, Sep, name);
    assert p[..|dir| + 1] == dir + [Sep];
    assert p[|dir| + 1..] == name;
    assert KeepBelow(dir + [Sep], |dir| + 1) == |dir|;
  }

  /** Lines 27-33: the renamed path, with the extension kept and the root
      sanitised. */
  function RenamedWith(saved: string, keepUnderscore: bool): (p: string)
    ensures var (root, ext) := SplitExt(Split(saved).1); EndsWith(p, SanitizeWith(root, keepUnderscore) + ext) && EndsWith(p, ext)
  {
    var (directory, filename) := Split(saved);
    var (fileRoot, ext) := SplitExt(filename);
    var name := SanitizeWith(fileRoot, keepUnderscore) + ext;
    assert EndsWith(name, ext) by { assert name[|name| - |ext|..] == ext; }
    EndsWithTrans(Join(directory, name), name, ext);
    Join(directory, name)
  }

  /** The downloaded video stays in its directory under a name whose root
      is sanitised and whose extension is kept. */
  lemma RenamedStaysInDirectory(dir: string, name: string)
    requires dir != "" && dir[|dir| - 1] != Sep && Sep !in name
    ensures var (root, ext) := SplitExt(name);
      RenamedWith(dir + [Sep] + name, false) == dir + [Sep] + Sanitize(root) + ext
  {
    SplitOfJoin(dir, name);
    var (root, ext) := SplitExt(name);
    SanitizedAlphabet(root, false);
    var n := Sanitize(root) + ext;
    assert |n| > 0 ==> n[0] != Sep by {
      if |Sanitize(root)| > 0 {
        assert n[0] == Sanitize(root)[0];
      }
    }
  }

  /** The metadata keys the helpers write. */
  const SourceKey: string := "source"
  const VideoKey: string := "video"
  const FileKey: string := "file"

  /** `download_from_youtube(url)`: the metadata names the renamed video and
      the source URL, and the status is always true. */
  function FromYoutube(url: string, saved: string): (r: (Fields, bool))
    ensures r.1 && Lookup(r.0, SourceKey) == Some(Str(url))
    ensures Lookup(r.0, VideoKey) == Some(Str(RenamedWith(saved, false)))
  {
    assert VideoKey[0] != SourceKey[0];
    ([(VideoKey, Str(RenamedWith(saved, false))), (SourceKey, Str(url))], true)
  }

  /** The extension every URL download is saved under. */
  const Zip: string := ".zip"

  /** `download_from_url(url)`: the file is `<save_dir>/<uuid>.zip`, the
      status is always true. */
  function FromUrl(saveDir: string, uuid: string, url: string): (r: (Fields, bool))
    ensures r.1 && Lookup(r.0, SourceKey) == Some(Str(url))
    ensures Lookup(r.0, FileKey) == Some(Str(Join(saveDir, uuid + Zip)))
  {
    assert FileKey[0] != SourceKey[0];
    ([(FileKey, Str(Join(saveDir, uuid + Zip))), (SourceKey, Str(url))], true)
  }

  /** A URL download always names a `.zip` file inside the save directory
      (for a uuid, which has no separator) with a true status, so
      `download_file` would always try to extract it. */
  lemma UrlAlwaysZip(saveDir: string, uuid: string, url: string)
    requires Sep !in uuid
    ensures var (meta, status) := FromUrl(saveDir, uuid, url);
      && status
      && Lookup(meta, FileKey) == Some(Str(Join(saveDir, uuid + Zip)))
      && EndsWith(Join(saveDir, uuid + Zip), Zip)
      && Basename(Join(saveDir, uuid + Zip)) == uuid + Zip
  {
    var name := uuid + Zip;
    assert Sep !in Zip;
    assert Sep !in name;
    assert EndsWith(name, Zip) by { assert name[|name| - |Zip|..] == Zip; }
    EndsWithTrans(Join(saveDir, name), name, Zip);
    BasenameOfJoin(saveDir, name);
  }

  /** The first index at or after `from` holding a character of `cs`, or
      `|s|`. */
  function FindFrom(s: string, from: nat, cs: set<char>): (i: nat)
    requires from <= |s|
    ensures from <= i <= |s|
    ensures i < |s| ==> s[i] in cs
    ensures forall j :: from <= j < i ==> s[j] !in cs
    decreases |s| - from
  {
    if from == |s| then |s| else if s[from] in cs then from else FindFrom(s, from + 1, cs)
  }

  /** `urllib.parse.scheme_chars`. */
  predicate SchemeChar(c: char) {
    IsLetter(c) || IsDigit(c) || c == '+' || c == '-' || c == '.'
  }

  /** The text after the scheme, as `urlsplit` strips it: a scheme is the
      text before the first `:` when it is non-empty, starts with a letter
      and holds only scheme characters. */
  function AfterScheme(url: string): (r: string)
    ensures EndsWith(url, r)
  {
    var i := FindFrom(url, 0, {':'});
    if 0 < i < |url| && IsLetter(url[0]) && forall j :: 0 <= j < i ==> SchemeChar(url[j]) then
      assert url[|url| - |url[i + 1..]|..] == url[i + 1..];
      url[i + 1..]
    else url
  }

  /** `urlparse(url).netloc`: after a scheme, a `//` starts the network
      location, which runs to the first `/`, `?` or `#`. */
  function Netloc(url: string): (r: string)
    ensures Contains(url, r)
  {
    var rest := AfterScheme(url);
    if |rest| >= 2 && rest[..2] == "//" then
      var end := FindFrom(rest, 2, {'/', '?', '#'});
      SliceOfSuffixOccurs(url, rest, 2, end);
      rest[2..end]
    else
      assert OccursAt(url, "", 0);
      ""
  }

  /** A slice of a suffix of a text occurs in the text. */
  lemma SliceOfSuffixOccurs(url: string, rest: string, a: nat, b: nat)
    requires EndsWith(url, rest) && a <= b <= |rest|
    ensures Contains(url, rest[a..b])
  {
    var k := |url| - |rest|;
    assert url[k + a..k + b] == rest[a..b];
    assert OccursAt(url, rest[a..b], k + a);
  }

  /** The text both routing tests look for. */
  const YoutubeHost: string := "youtube.com"

  /** A URL that `download_file` routes to YouTube is also routed there by
      `walk_files`, which tests the whole URL. */
  lemma NetlocRouteImpliesWalkRoute(url: string)
    requires Contains(Netloc(url), YoutubeHost)
    ensures Contains(url, YoutubeHost)
  {
    ContainsTrans(url, Netloc(url), YoutubeHost);
  }

  /** The converse fails: `https://<host>/youtube.com` names YouTube only in
      its path, so `walk_files` routes it to YouTube while `download_file`
      routes it to the URL helper. */
  lemma WalkRouteWiderThanNetloc(host: string)
    requires '/' !in host && '?' !in host && '#' !in host && !Contains(host, YoutubeHost)
    ensures var url := Https + host + "/" + YoutubeHost;
      Contains(url, YoutubeHost) && Netloc(url) == host && !Contains(Netloc(url), YoutubeHost)
  {
    var front := Https + host + "/";
    ContainsAtEnd(front, YoutubeHost);
    NetlocOf(host, "/" + YoutubeHost);
    assert front + YoutubeHost == Https + host + ("/" + YoutubeHost);
  }

  /** A text ends with, and so contains, what is appended to it. */
  lemma ContainsAtEnd(front: string, sub: string)
    ensures Contains(front + sub, sub)
  {
    assert OccursAt(front + sub, sub, |front|) by {
      assert (front + sub)[|front|..|front| + |sub|] == sub;
    }
  }

  /** The scheme and `//` of an `https` URL. */
  const Https: string := "https://"

  /** The network location of `https://<host><path>`, for a path that
      starts with `/` and a host without `/`, `?` or `#`, is the host. */
  lemma NetlocOf(host: string, path: string)
    requires '/' !in host && '?' !in host && '#' !in host
    requires |path| > 0 && path[0] == '/'
    ensures Netloc(Https + host + path) == host
  {
    var url := Https + host + path;
    assert url[..5] == "https" && url[5] == ':';
    FindSkips(url, 0, {':'}, 5);
    assert forall j :: 0 <= j < 5 ==> SchemeChar(url[j]);
    var rest := url[6..];
    assert rest == "//" + host + path;
    assert AfterScheme(url) == rest;
    assert rest[..2] == "//";
    FindSkips(rest, 2, {'/', '?', '#'}, 2 + |host|);
    assert rest[2..2 + |host|] == host;
  }

  /** `FindFrom` stops at the first index holding a character of `cs`. */
  lemma {:induction false} FindSkips(s: string, from: nat, cs: set<char>, to: nat)
    requires from <= to < |s| && s[to] in cs
    requires forall j :: from <= j < to ==> s[j] !in cs
    ensures FindFrom(s, from, cs) == to
    decreases |s| - from
  {
    if from < to {
      FindSkips(s, from + 1, cs, to);
    }
  }

  /** The helper `download_file` routes a source URL to: `true` for
      `download_from_youtube`. */
  predicate RoutesToYoutube(source: string) {
    Contains(Netloc(source), YoutubeHost)
  }

  /** `"source" in metadata` for a dict, a string or a list; any other value
      is not iterable. */
  function HasSource(metadata: Json): (r: Result<bool>)
    ensures metadata.Obj? ==> r == Ok(HasKey(metadata.fields, SourceKey))
    ensures r.Err? <==> !(metadata.Obj? || metadata.Str? || metadata.List?)
  {
    match metadata
    case Obj(fs) => Ok(HasKey(fs, SourceKey))
    case Str(s) => Ok(Contains(s, SourceKey))
    case List(xs) => Ok(Str(SourceKey) in xs)
    case _ => Err(TypeError("argument of type is not iterable"))
  }

  /** The `str` source URL of a dict metadata, when there is one. */
  predicate HasUrl(metadata: Json) {
    metadata.Obj? && Lookup(metadata.fields, SourceKey).Some? && Lookup(metadata.fields, SourceKey).value.Str?
  }

  function Url(metadata: Json): string
    requires HasUrl(metadata)
  {
    Lookup(metadata.fields, SourceKey).value.s
  }

  /** The message Python raises when a one-argument helper is passed a
      second one. */
  function ArityMessage(helper: string): string {
    helper + "() takes 2 positional arguments but 3 were given"
  }

  /** `urlparse(source).netloc` for a source that is not a `str`: a falsy
      one is parsed as empty bytes, whose netloc `b''` the `str` test
      `"youtube.com" in` rejects with `TypeError`; a truthy one has no
      `decode`. */
  function NonStrSource(source: Json): (e: Exc)
    requires !source.Str?
    ensures e.TypeError? <==> !Truthy(source)
    ensures e.AttributeError? <==> Truthy(source)
  {
    if Truthy(source) then AttributeError("decode")
    else TypeError("a bytes-like object is required, not 'str'")
  }

  /** `download_file(metadata, save_dir)` as written: both helpers take the
      URL alone but are passed `save_dir` too, so every source raises a
      `TypeError` naming the helper it was routed to. Without a source
      the call returns `None`. */
  function DownloadFile(metadata: Json): (r: Result<Option<(Fields, bool)>>)
    ensures metadata.Obj? && !HasKey(metadata.fields, SourceKey) ==> r == Ok(None)
    ensures r.Ok? ==> r.value.None?
    ensures HasUrl(metadata) ==>
      r == Err(TypeError(ArityMessage(if RoutesToYoutube(Url(metadata)) then "download_from_youtube" else "download_from_url")))
    ensures metadata.Obj? && Lookup(metadata.fields, SourceKey).Some? && !Lookup(metadata.fields, SourceKey).value.Str? ==>
      r.Err? && (r.exc.TypeError? <==> !Truthy(Lookup(metadata.fields, SourceKey).value))
  {
    var has :- HasSource(metadata);
    if !has then Ok(None)
    else
      var source :- Index(metadata, SourceKey);
      if !source.Str? then Err(NonStrSource(source))
      else if RoutesToYoutube(source.s) then Err(TypeError(ArityMessage("download_from_youtube")))
      else Err(TypeError(ArityMessage("download_from_url")))
  }

  /** What the intended `download_file` produces: the helper's metadata and
      status, and the directory the archive is extracted into, if any. */
  datatype Fetched = Fetched(meta: Fields, status: bool, unzipTo: Option<string>)

  /** `download_file` as evidently intended: each helper saves into
      `save_dir`, and a `.zip` URL download is extracted there. */
  function DownloadFileIntended(metadata: Json, saveDir: string, uuid: string, saved: string): (r: Result<Option<Fetched>>)
    ensures metadata.Obj? && !HasKey(metadata.fields, SourceKey) ==> r == Ok(None)
    ensures HasUrl(metadata) && RoutesToYoutube(Url(metadata)) ==>
      r == Ok(Some(Fetched(FromYoutube(Url(metadata), saved).0, true, None)))
    ensures HasUrl(metadata) && !RoutesToYoutube(Url(metadata)) ==>
      && r.Ok? && r.value.Some?
      && r.value.value.meta == FromUrl(saveDir, uuid, Url(metadata)).0 && r.value.value.status
      && r.value.value.unzipTo == Extraction(r.value.value.meta, true, saveDir)
    ensures metadata.Obj? && Lookup(metadata.fields, SourceKey).Some? && !Lookup(metadata.fields, SourceKey).value.Str? ==>
      r.Err? && (r.exc.TypeError? <==> !Truthy(Lookup(metadata.fields, SourceKey).value))
  {
    var has :- HasSource(metadata);
    if !has then Ok(None)
    else
      var source :- Index(metadata, SourceKey);
      if !source.Str? then Err(NonStrSource(source))
      else if RoutesToYoutube(source.s) then
        var (meta, status) := FromYoutube(source.s, saved);
        Ok(Some(Fetched(meta, status, None)))
      else
        var (meta, status) := FromUrl(saveDir, uuid, source.s);
        Ok(Some(Fetched(meta, status, Extraction(meta, status, saveDir))))
  }

  /** `if status and metadata['file'].endswith('.zip')`: where the archive
      is extracted, if anywhere. */
  function Extraction(meta: Fields, status: bool, saveDir: string): (r: Option<string>)
    ensures r.Some? ==> r.value == saveDir
    ensures r.Some? <==> status && Lookup(meta, FileKey).Some? && Lookup(meta, FileKey).value.Str? && EndsWith(Lookup(meta, FileKey).value.s, Zip)
  {
    match Lookup(meta, FileKey)
    case Some(Str(file)) => if status && EndsWith(file, Zip) then Some(saveDir) else None
    case _ => None
  }

  /** The intended download of a URL source extracts the archive into the
      save directory. */
  lemma IntendedUrlExtracts(metadata: Json, saveDir: string, uuid: string, saved: string)
    requires HasUrl(metadata) && !RoutesToYoutube(Url(metadata))
    ensures DownloadFileIntended(metadata, saveDir, uuid, saved).Ok?
    ensures DownloadFileIntended(metadata, saveDir, uuid, saved).value.value.unzipTo == Some(saveDir)
  {
    UrlExtracts(saveDir, uuid, Url(metadata));
  }

  /** The `.zip` test always passes on a URL download's file. */
  lemma UrlExtracts(saveDir: string, uuid: string, url: string)
    ensures Extraction(FromUrl(saveDir, uuid, url).0, true, saveDir) == Some(saveDir)
  {
    var name := uuid + Zip;
    assert EndsWith(name, Zip) by { assert name[|name| - |Zip|..] == Zip; }
    EndsWithTrans(Join(saveDir, name), name, Zip);
  }

  /** `os.path.join(settings.CACHE_DIR, "tmp", "downloads")` replaces a
      `None` save directory. */
  function SaveDirOf(saveDir: Json, cacheRoot: string): (r: Json)
    ensures saveDir.Null? ==> r == Str(Join(Join(cacheRoot, "tmp"), "downloads"))
    ensures !saveDir.Null? ==> r == saveDir
  {
    if saveDir.Null? then Str(Join(Join(cacheRoot, "tmp"), "downloads")) else saveDir
  }

  /** `Downloader.__call__(metadata, save_dir)`: the save directory only
      reaches the helpers, so the result does not depend on it. */
  function Call(metadata: Json, saveDir: Json, cacheRoot: string): (r: Result<Option<(Fields, bool)>>)
    ensures r == DownloadFile(metadata)
    ensures metadata.Obj? && !HasKey(metadata.fields, SourceKey) ==> r == Ok(None)
  {
    var _ := SaveDirOf(saveDir, cacheRoot);
    DownloadFile(metadata)
  }

  /** What the `walk_files` generator yields before it stops, and the
      exception it stops with, if any. */
  datatype Walk<M> = Walk(yielded: seq<M>, stop: Option<Exc>)

  /** `"youtube.com" in path`, the test `walk_files` routes by. */
  predicate NamesYoutube(path: string) {
    Contains(path, YoutubeHost)
  }

  /** The metadata `download_from_youtube(path)` yields. */
  function YoutubeMeta(path: string, saved: string -> string): Fields {
    FromYoutube(path, saved(path)).0
  }

  /** `walk_files()`: each source naming `youtube.com` anywhere is
      downloaded from YouTube (`saved(path)` is where pytube stores it); the
      first other source raises, because `download_from_url` is passed an
      extra argument. Without configs, reading `sources` raises. */
  function WalkFiles(sources: Option<seq<string>>, saved: string -> string): (w: Walk<Fields>)
    ensures sources.None? ==> w == Walk([], Some(AttributeError("sources")))
    ensures sources.Some? ==> |w.yielded| <= |sources.value|
  {
    match sources
    case None => Walk([], Some(AttributeError("sources")))
    case Some(paths) => WalkWith(paths, (p: string) => YoutubeMeta(p, saved))
  }

  /** The generator over an explicit list of sources, with `fetch` the
      YouTube download of one source. */
  function WalkWith<M>(paths: seq<string>, fetch: string -> M): (w: Walk<M>)
    ensures |w.yielded| <= |paths|
    decreases |paths|
  {
    if |paths| == 0 then Walk([], None)
    else if NamesYoutube(paths[0]) then
      var rest := WalkWith(paths[1..], fetch);
      Walk([fetch(paths[0])] + rest.yielded, rest.stop)
    else Walk([], Some(TypeError(ArityMessage("download_from_url"))))
  }

  /** The generator yields the downloads of the leading sources that name
      `youtube.com`, and stops with a `TypeError` at the first source that
      does not; it runs to the end exactly when every source names
      `youtube.com`. */
  lemma {:induction false} WalkYields<M>(paths: seq<string>, fetch: string -> M)
    ensures var w := WalkWith(paths, fetch);
      && (forall i :: 0 <= i < |w.yielded| ==> NamesYoutube(paths[i]) && w.yielded[i] == fetch(paths[i]))
      && (w.stop.None? <==> forall i :: 0 <= i < |paths| ==> NamesYoutube(paths[i]))
      && (w.stop.None? ==> |w.yielded| == |paths|)
      && (w.stop.Some? ==> |w.yielded| < |paths| && !NamesYoutube(paths[|w.yielded|]) && w.stop.value.TypeError?)
    decreases |paths|
  {
    if |paths| > 0 && NamesYoutube(paths[0]) {
      var tail := paths[1..];
      WalkYields(tail, fetch);
      var rest := WalkWith(tail, fetch);
      var w := WalkWith(paths, fetch);
      assert w.yielded == [fetch(paths[0])] + rest.yielded && w.stop == rest.stop;
      forall i | 1 <= i < |w.yielded|
        ensures NamesYoutube(paths[i]) && w.yielded[i] == fetch(paths[i])
      {
        assert w.yielded[i] == rest.yielded[i - 1] && paths[i] == tail[i - 1];
      }
      if rest.stop.Some? {
        assert paths[|w.yielded|] == tail[|rest.yielded|];
      } else {
        assert forall i :: 1 <= i < |paths| ==> paths[i] == tail[i - 1];
      }
    }
  }

  /** `walk_files` with configs yields the YouTube metadata of its leading
      `youtube.com` sources and stops at the first other one. */
  lemma WalkFilesYields(paths: seq<string>, saved: string -> string)
    ensures var w := WalkFiles(Some(paths), saved);
      && (forall i :: 0 <= i < |w.yielded| ==> NamesYoutube(paths[i]) && w.yielded[i] == YoutubeMeta(paths[i], saved))
      && (w.stop.None? <==> forall i :: 0 <= i < |paths| ==> NamesYoutube(paths[i]))
      && (w.stop.Some? ==> |w.yielded| < |paths| && !NamesYoutube(paths[|w.yielded|]) && w.stop.value.TypeError?)
  {
    var fetch := (p: string) => YoutubeMeta(p, saved);
    WalkYields(paths, fetch);
    var w := WalkWith(paths, fetch);
    assert WalkFiles(Some(paths), saved) == w;
    forall i | 0 <= i < |w.yielded| ensures w.yielded[i] == YoutubeMeta(paths[i], saved) {
      assert w.yielded[i] == fetch(paths[i]);
    }
  }
}

=== FILE: helpers.dfy ===
/** The generic helpers of `utils/helpers.py`. */
module Helpers {
  import opened Wrappers
  import opened Text
  import opened Json

  /** `exists(v)`: `v is not None`. */
  predicate Exists<T>(v: Option<T>) {
    v.Some?
  }

  /** The second argument of `default`: a plain value, or a callable that
      produces one when asked. */
  datatype Fallback<T> = Plain(value: T) | Factory(make: () -> T)

  /** `default(v, d)`: `v` unless it is `None`; then `d()` when `d` is
      callable and `d` itself otherwise. */
  function Default<T>(v: Option<T>, d: Fallback<T>): (r: T)
    ensures Exists(v) ==> r == v.value
    ensures !Exists(v) ==> r == (if d.Factory? then d.make() else d.value)
  {
    match v
    case Some(x) => x
    case None => if d.Factory? then d.make() else d.value
  }

  /** The split `get_obj_from_str` performs: `module, cls =
      string.rsplit(".", 1)`, which raises `ValueError` when there is no
      `.` to split at. */
  function SplitObjPath(path: string): (r: Result<(string, string)>)
    ensures r.Ok? <==> '.' in path
    ensures r.Ok? ==> r.value.0 + "." + r.value.1 == path && '.' !in r.value.1
  {
    match SplitLast(path, '.')
    case Some(parts) => Ok(parts)
    case None => Err(ValueError("not enough values to unpack (expected 2, got 1)"))
  }

  /** `get_obj_from_str(path)`: split, then import the module and read the
      attribute. The import system is the parameter `lookup`, which yields
      `None` when the module or attribute does not exist. */
  function GetObjFromStr<T>(path: string, lookup: (string, string) -> Option<T>): (r: Result<T>)
    ensures r.Ok? <==> SplitObjPath(path).Ok? && lookup(SplitObjPath(path).value.0, SplitObjPath(path).value.1).Some?
    ensures r.Ok? ==> r.value == lookup(SplitObjPath(path).value.0, SplitObjPath(path).value.1).value
  {
    var (modName, name) :- SplitObjPath(path);
    match lookup(modName, name)
    case Some(obj) => Ok(obj)
    case None => Err(Raised("import of " + path))
  }

  /** Splitting is the inverse of writing `module.name`. */
  lemma SplitObjPathOfJoin(modName: string, name: string)
    requires '.' !in name
    ensures SplitObjPath(modName + "." + name) == Ok((modName, name))
  {
    SplitLastOfJoin(modName, '.', name);
  }

  /** The hashable image `freeze` builds: a dict becomes a frozenset of
      (key, frozen value) pairs, a list a tuple, anything else itself. */
  datatype Frozen =
    | Atom(value: Json)
    | FrozenSet(pairs: set<(string, Frozen)>)
    | FrozenTuple(elems: seq<Frozen>)

  predicate IsContainer(j: Json) {
    j.Obj? || j.List?
  }

  /** `freeze(o)`. */
  function Freeze(j: Json): (r: Frozen)
    ensures r.Atom? <==> !IsContainer(j)
    ensures r.Atom? ==> r.value == j
    ensures j.List? ==> r.FrozenTuple? && |r.elems| == |j.items|
    ensures j.Obj? ==> r.FrozenSet?
    ensures j.Obj? ==> forall i | 0 <= i < |j.fields| :: (j.fields[i].0, Freeze(j.fields[i].1)) in r.pairs
    decreases j
  {
    match j
    case Obj(fs) =>
      FrozenSet(set i | 0 <= i < |fs| :: (fs[i].0, Freeze(fs[i].1)))
    case List(xs) => FrozenTuple(seq(|xs|, i requires 0 <= i < |xs| => Freeze(xs[i])))
    case _ => Atom(j)
  }

  /** Each element of a frozen list is the frozen element, in order. */
  lemma FreezeListElements(xs: seq<Json>, i: nat)
    requires i < |xs|
    ensures Freeze(List(xs)).elems[i] == Freeze(xs[i])
  {
  }

  /** A frozen dict holds exactly the pairs of its keys with their frozen
      values. */
  lemma FreezePairs(fs: Fields, k: string, f: Frozen)
    ensures (k, f) in Freeze(Obj(fs)).pairs <==> exists i | 0 <= i < |fs| :: fs[i].0 == k && Freeze(fs[i].1) == f
  {
  }

  /** For a dict (whose keys are unique), the frozen image pairs each key
      with the frozen value `d[k]`, and with nothing else. */
  lemma FreezeLookup(fs: Fields, k: string, f: Frozen)
    requires UniqueKeys(fs) && HasKey(fs, k)
    ensures (k, f) in Freeze(Obj(fs)).pairs <==> f == Freeze(Lookup(fs, k).value)
  {
    var v := Lookup(fs, k).value;
    var i :| 0 <= i < |fs| && fs[i] == (k, v);
    FreezePairs(fs, k, f);
    if (k, f) in Freeze(Obj(fs)).pairs {
      var l :| 0 <= l < |fs| && fs[l].0 == k && Freeze(fs[l].1) == f;
      assert l == i;
    }
  }

  /** Freezing forgets a dict's insertion order: two dicts holding the same
      entries freeze to the same value. */
  lemma FreezeIgnoresOrder(a: Fields, b: Fields)
    requires forall e :: e in a <==> e in b
    ensures Freeze(Obj(a)) == Freeze(Obj(b))
  {
    var pa := set i | 0 <= i < |a| :: (a[i].0, Freeze(a[i].1));
    var pb := set i | 0 <= i < |b| :: (b[i].0, Freeze(b[i].1));
    forall p | p in pa ensures p in pb {
      var i :| 0 <= i < |a| && p == (a[i].0, Freeze(a[i].1));
      assert a[i] in b;
      var j :| 0 <= j < |b| && b[j] == a[i];
      assert p == (b[j].0, Freeze(b[j].1));
    }
    forall p | p in pb ensures p in pa {
      var j :| 0 <= j < |b| && p == (b[j].0, Freeze(b[j].1));
      assert b[j] in a;
      var i :| 0 <= i < |a| && a[i] == b[j];
      assert p == (a[i].0, Freeze(a[i].1));
    }
    assert pa == pb;
  }

  /** What `NestedNamespace` stores as an attribute value. */
  datatype Ns =
    | Leaf(value: Json)
    | Namespace(attrs: map<string, Ns>)
    | NsTuple(elems: seq<Ns>)

  /** The keys of `fs` from index `i` on. */
  function KeySet(fs: Fields, i: nat): set<string>
    requires i <= |fs|
  {
    set j | i <= j < |fs| :: fs[j].0
  }

  /** What a converted value looks like, independently of how the loop
      builds it: a dict becomes a namespace with one attribute per key,
      each holding its converted value; a list becomes a tuple of the same
      length holding the converted elements; anything else is stored
      unchanged. */
  ghost predicate Mirrors(v: Json, n: Ns)
    decreases v
  {
    match v
    case Obj(sub) =>
      n.Namespace? && n.attrs.Keys == KeySet(sub, 0)
      && (UniqueKeys(sub) ==> forall j | 0 <= j < |sub| :: Mirrors(sub[j].1, n.attrs[sub[j].0]))
    case List(xs) =>
      n.NsTuple? && |n.elems| == |xs| && forall k | 0 <= k < |xs| :: Mirrors(xs[k], n.elems[k])
    case _ => n == Leaf(v)
  }

  /** Whether `NestedNamespace` can convert a value: a list element that
      is itself a list is handed to `NestedNamespace`, which calls
      `.items()` on it and fails. */
  predicate ValueConvertible(v: Json)
    decreases v, 1, 0
  {
    match v
    case Obj(sub) => Convertible(sub, 0)
    case List(xs) => ElementsConvertible(xs, 0)
    case _ => true
  }

  /** Whether the dict entries from index `i` on convert. */
  predicate Convertible(fs: Fields, i: nat)
    requires i <= |fs|
    decreases Obj(fs), 0, |fs| - i
  {
    i == |fs| || (ValueConvertible(fs[i].1) && Convertible(fs, i + 1))
  }

  /** Whether the list elements from index `j` on convert. */
  predicate ElementsConvertible(xs: seq<Json>, j: nat)
    requires j <= |xs|
    decreases List(xs), 0, |xs| - j
  {
    j == |xs| || (!xs[j].List? && ValueConvertible(xs[j]) && ElementsConvertible(xs, j + 1))
  }

  /** The conversion of one value: a dict becomes a namespace, a list a
      tuple, anything else is stored as is. */
  function Convert(value: Json): (r: Result<Ns>)
    ensures r.Ok? <==> ValueConvertible(value)
    ensures r.Ok? ==> Mirrors(value, r.value)
    decreases value, 1, 0
  {
    match value
    case Obj(sub) =>
      (match ToNamespace(sub, 0, map[])
       case Ok(attrs) => Ok(Namespace(attrs))
       case Err(e) => Err(e))
    case List(xs) =>
      (match ElementsToNs(xs, 0)
       case Ok(elems) => Ok(NsTuple(elems))
       case Err(e) => Err(e))
    case _ => Ok(Leaf(value))
  }

  /** `NestedNamespace(d)` for the entries of `d` from index `i` on, setting
      attributes into `acc` in order. */
  function ToNamespace(fs: Fields, i: nat, acc: map<string, Ns>): (r: Result<map<string, Ns>>)
    requires i <= |fs|
    ensures r.Ok? <==> Convertible(fs, i)
    ensures r.Ok? ==> r.value.Keys == acc.Keys + KeySet(fs, i)
    ensures r.Ok? ==> forall k | k in acc && k !in KeySet(fs, i) :: r.value[k] == acc[k]
    ensures r.Ok? && UniqueKeys(fs) ==> forall j | i <= j < |fs| :: Mirrors(fs[j].1, r.value[fs[j].0])
    decreases Obj(fs), 0, |fs| - i
  {
    if i == |fs| then Ok(acc)
    else
      match Convert(fs[i].1)
      case Err(e) => Err(e)
      case Ok(v) =>
        var r := ToNamespace(fs, i + 1, acc[fs[i].0 := v]);
        if r.Ok? then SetAttrStep(fs, i, acc, v, r.value); r else r
  }

  /** One `setattr` of the loop, given what the rest of the loop does. */
  lemma SetAttrStep(fs: Fields, i: nat, acc: map<string, Ns>, v: Ns, res: map<string, Ns>)
    requires i < |fs| && Mirrors(fs[i].1, v)
    requires res.Keys == acc[fs[i].0 := v].Keys + KeySet(fs, i + 1)
    requires forall k | k in acc[fs[i].0 := v] && k !in KeySet(fs, i + 1) :: res[k] == acc[fs[i].0 := v][k]
    requires UniqueKeys(fs) ==> forall j | i + 1 <= j < |fs| :: Mirrors(fs[j].1, res[fs[j].0])
    ensures res.Keys == acc.Keys + KeySet(fs, i)
    ensures forall k | k in acc && k !in KeySet(fs, i) :: res[k] == acc[k]
    ensures UniqueKeys(fs) ==> forall j | i <= j < |fs| :: Mirrors(fs[j].1, res[fs[j].0])
  {
    assert KeySet(fs, i) == {fs[i].0} + KeySet(fs, i + 1);
    if UniqueKeys(fs) {
      assert fs[i].0 !in KeySet(fs, i + 1);
      assert res[fs[i].0] == v;
    }
  }

  /** The tuple built from a list value's elements from index `j` on. */
  function ElementsToNs(xs: seq<Json>, j: nat): (r: Result<seq<Ns>>)
    requires j <= |xs|
    ensures r.Ok? <==> ElementsConvertible(xs, j)
    ensures r.Ok? ==> |r.value| == |xs| - j
    ensures r.Ok? ==> forall k | j <= k < |xs| :: Mirrors(xs[k], r.value[k - j])
    decreases List(xs), 0, |xs| - j
  {
    if j == |xs| then Ok([])
    else if xs[j].List? then Err(AttributeError("items"))
    else
      match Convert(xs[j])
      case Err(e) => Err(e)
      case Ok(h) =>
        match ElementsToNs(xs, j + 1)
        case Err(e) => Err(e)
        case Ok(rest) =>
          Ok([h] + rest)
  }

  /** `NestedNamespace(d)`: succeeds exactly when no list value holds a
      list, and then has one attribute per key of `d`. */
  function NestedNamespace(d: Fields): (r: Result<Ns>)
    ensures r.Ok? <==> Convertible(d, 0)
    ensures r.Ok? ==> r.value.Namespace? && r.value.attrs.Keys == set j | 0 <= j < |d| :: d[j].0
    ensures r.Ok? ==> Mirrors(Obj(d), r.value)
  {
    match ToNamespace(d, 0, map[])
    case Ok(attrs) => Ok(Namespace(attrs))
    case Err(e) => Err(e)
  }

  /** Attribute `d[j].0` of `NestedNamespace(d)`, case by case: a scalar
      is stored as is, a dict becomes a namespace over its keys, and a list
      a tuple of the same length. */
  lemma NestedNamespaceAttr(d: Fields, j: nat)
    requires UniqueKeys(d) && NestedNamespace(d).Ok? && j < |d|
    ensures !IsContainer(d[j].1) ==> NestedNamespace(d).value.attrs[d[j].0] == Leaf(d[j].1)
    ensures d[j].1.Obj? ==>
      NestedNamespace(d).value.attrs[d[j].0].Namespace?
      && NestedNamespace(d).value.attrs[d[j].0].attrs.Keys == KeySet(d[j].1.fields, 0)
    ensures d[j].1.List? ==>
      NestedNamespace(d).value.attrs[d[j].0].NsTuple?
      && |NestedNamespace(d).value.attrs[d[j].0].elems| == |d[j].1.items|
  {
    assert Mirrors(d[j].1, NestedNamespace(d).value.attrs[d[j].0]);
  }
}

=== FILE: json.dfy ===
/** Python data values as they flow through the pipeline: `None`, booleans,
    numbers, strings, lists (and tuples) and insertion-ordered dicts.

    A dict is an association list; `Put` models `d[k] = v` (the key keeps
    its position when present, else it is appended), so a dict built only
    through `Put` never repeats a key.
 */
module Json {
  import opened Wrappers

  datatype Json =
    | Null
    | Bool(b: bool)
    | Num(n: real)
    | Str(s: string)
    | List(items: seq<Json>)
    | Obj(fields: seq<(string, Json)>)

  type Fields = seq<(string, Json)>

  function Keys(fs: Fields): (ks: seq<string>)
    ensures |ks| == |fs|
    ensures forall i :: 0 <= i < |fs| ==> ks[i] == fs[i].0
  {
    if |fs| == 0 then [] else [fs[0].0] + Keys(fs[1..])
  }

  predicate HasKey(fs: Fields, k: string) {
    exists i | 0 <= i < |fs| :: fs[i].0 == k
  }

  predicate UniqueKeys(fs: Fields) {
    forall i, j | 0 <= i < j < |fs| :: fs[i].0 != fs[j].0
  }

  /** `d.get(k)`: the value of the last entry for `k` (the only one when
      keys are unique). */
  function Lookup(fs: Fields, k: string): (r: Option<Json>)
    ensures r.None? <==> !HasKey(fs, k)
    ensures r.Some? ==> exists i | 0 <= i < |fs| :: fs[i] == (k, r.value)
  {
    if |fs| == 0 then None
    else
      var last := fs[|fs| - 1];
      if last.0 == k then Some(last.1)
      else
        var r := Lookup(fs[..|fs| - 1], k);
        assert HasKey(fs, k) ==> HasKey(fs[..|fs| - 1], k);
        r
  }

  /** `d[k] = v`. */
  function Put(fs: Fields, k: string, v: Json): (r: Fields)
    ensures HasKey(fs, k) ==> |r| == |fs|
    ensures !HasKey(fs, k) ==> r == fs + [(k, v)]
  {
    if |fs| == 0 then [(k, v)]
    else if fs[0].0 == k then [(k, v)] + fs[1..]
    else
      var rest := Put(fs[1..], k, v);
      assert HasKey(fs, k) <==> HasKey(fs[1..], k);
      [fs[0]] + rest
  }

  /** A key is present exactly when it is among the keys in order. */
  lemma HasKeyIsInKeys(fs: Fields, k: string)
    ensures HasKey(fs, k) <==> k in Keys(fs)
  {
    if k in Keys(fs) {
      var i :| 0 <= i < |fs| && Keys(fs)[i] == k;
    }
  }

  /** `d[k] = v` adds `k` at the end when it is new and otherwise keeps the
      key order. */
  lemma {:induction false} PutKeys(fs: Fields, k: string, v: Json)
    ensures Keys(Put(fs, k, v)) == if k in Keys(fs) then Keys(fs) else Keys(fs) + [k]
    decreases |fs|
  {
    HasKeyIsInKeys(fs, k);
    if |fs| > 0 && fs[0].0 != k {
      PutKeys(fs[1..], k, v);
      HasKeyIsInKeys(fs[1..], k);
      assert Keys(fs) == [fs[0].0] + Keys(fs[1..]);
    }
  }

  /** `d[k] = v` stores nothing but the old entries and `(k, v)`. */
  lemma {:induction false} PutValues(fs: Fields, k: string, v: Json)
    ensures forall e :: e in Put(fs, k, v) ==> e in fs || e == (k, v)
    decreases |fs|
  {
    if |fs| > 0 && fs[0].0 != k {
      PutValues(fs[1..], k, v);
    }
  }

  lemma {:induction false} LookupPut(fs: Fields, k: string, v: Json, k': string)
    requires UniqueKeys(fs)
    ensures UniqueKeys(Put(fs, k, v))
    ensures Lookup(Put(fs, k, v), k') == if k' == k then Some(v) else Lookup(fs, k')
  {
    var r := Put(fs, k, v);
    if HasKey(fs, k) {
      var i :| 0 <= i < |fs| && fs[i].0 == k;
      PutAt(fs, k, v, i);
      assert r == fs[i := (k, v)];
      LookupUpdateAt(fs, i, v);
      if k' != k {
        LookupOtherAt(fs, i, v, k');
      }
    } else {
      assert r == fs + [(k, v)];
      assert Lookup(r, k') == if k' == k then Some(v) else Lookup(fs, k') by {
        assert r[..|r| - 1] == fs;
      }
    }
  }

  /** Looking a key up in a dict with one entry in front. */
  lemma {:induction false} LookupCons(x: (string, Json), t: Fields, k: string)
    ensures Lookup([x] + t, k) == if HasKey(t, k) then Lookup(t, k) else if x.0 == k then Some(x.1) else None
    decreases |t|
  {
    if |t| > 0 {
      var r := [x] + t;
      assert r[..|r| - 1] == [x] + t[..|t| - 1];
      assert HasKey(t, k) <==> t[|t| - 1].0 == k || HasKey(t[..|t| - 1], k);
      LookupCons(x, t[..|t| - 1], k);
    }
  }

  /** `d[k] = v` leaves every other key's value as it was, whether or not
      the keys are distinct. */
  lemma {:induction false} LookupPutOther(fs: Fields, k: string, v: Json, k': string)
    requires k' != k
    ensures Lookup(Put(fs, k, v), k') == Lookup(fs, k')
    decreases |fs|
  {
    if |fs| == 0 {
    } else if fs[0].0 == k {
      LookupCons((k, v), fs[1..], k');
      LookupCons(fs[0], fs[1..], k');
      assert fs == [fs[0]] + fs[1..];
    } else {
      LookupPutOther(fs[1..], k, v, k');
      LookupCons(fs[0], Put(fs[1..], k, v), k');
      LookupCons(fs[0], fs[1..], k');
      assert fs == [fs[0]] + fs[1..];
    }
  }

  /** After `d[k] = v`, looking `k` up answers `v`, or, when `k` occurs
      more than once, what it answered before. */
  lemma {:induction false} LookupPutSame(fs: Fields, k: string, v: Json)
    ensures Lookup(Put(fs, k, v), k) == Some(v) || Lookup(Put(fs, k, v), k) == Lookup(fs, k)
    decreases |fs|
  {
    if |fs| == 0 {
    } else if fs[0].0 == k {
      LookupCons((k, v), fs[1..], k);
      LookupCons(fs[0], fs[1..], k);
      assert fs == [fs[0]] + fs[1..];
    } else {
      LookupPutSame(fs[1..], k, v);
      LookupCons(fs[0], Put(fs[1..], k, v), k);
      LookupCons(fs[0], fs[1..], k);
      assert fs == [fs[0]] + fs[1..];
    }
  }

  /** `LookupPut` for every key at once. */
  lemma LookupPutAll(fs: Fields, k: string, v: Json)
    requires UniqueKeys(fs)
    ensures UniqueKeys(Put(fs, k, v))
    ensures forall k' :: Lookup(Put(fs, k, v), k') == if k' == k then Some(v) else Lookup(fs, k')
  {
    LookupPut(fs, k, v, k);
    forall k' ensures Lookup(Put(fs, k, v), k') == if k' == k then Some(v) else Lookup(fs, k') {
      LookupPut(fs, k, v, k');
    }
  }

  lemma {:induction false} PutAt(fs: Fields, k: string, v: Json, i: nat)
    requires UniqueKeys(fs) && i < |fs| && fs[i].0 == k
    ensures Put(fs, k, v) == fs[i := (k, v)]
    decreases |fs|
  {
    if fs[0].0 != k {
      assert i > 0;
      assert UniqueKeys(fs[1..]);
      PutAt(fs[1..], k, v, i - 1);
      assert [fs[0]] + fs[1..][i - 1 := (k, v)] == fs[i := (k, v)];
    } else {
      assert i == 0;
    }
  }

  lemma {:induction false} LookupUpdateAt(fs: Fields, i: nat, v: Json)
    requires UniqueKeys(fs) && i < |fs|
    ensures UniqueKeys(fs[i := (fs[i].0, v)])
    ensures Lookup(fs[i := (fs[i].0, v)], fs[i].0) == Some(v)
    decreases |fs|
  {
    var r := fs[i := (fs[i].0, v)];
    if i < |fs| - 1 {
      assert r[..|r| - 1] == fs[..|fs| - 1][i := (fs[i].0, v)];
      assert UniqueKeys(fs[..|fs| - 1]);
      LookupUpdateAt(fs[..|fs| - 1], i, v);
    }
  }

  lemma {:induction false} LookupOtherAt(fs: Fields, i: nat, v: Json, k': string)
    requires UniqueKeys(fs) && i < |fs| && k' != fs[i].0
    ensures Lookup(fs[i := (fs[i].0, v)], k') == Lookup(fs, k')
    decreases |fs|
  {
    var r := fs[i := (fs[i].0, v)];
    if i < |fs| - 1 {
      assert r[..|r| - 1] == fs[..|fs| - 1][i := (fs[i].0, v)];
      assert UniqueKeys(fs[..|fs| - 1]);
      LookupOtherAt(fs[..|fs| - 1], i, v, k');
    } else {
      assert r[..|r| - 1] == fs[..|fs| - 1];
    }
  }

  /** `x[key]` for a Python value `x`: a dict answers or raises `KeyError`;
      any other value cannot be indexed by a string (`TypeError`). */
  function Index(x: Json, key: string): (r: Result<Json>)
    ensures r.Ok? <==> x.Obj? && HasKey(x.fields, key)
    ensures r.Ok? ==> Some(r.value) == Lookup(x.fields, key)
    ensures r.Err? && x.Obj? ==> r.exc == KeyError(key)
  {
    match x
    case Obj(fs) =>
      (match Lookup(fs, key)
       case Some(v) => Ok(v)
       case None => Err(KeyError(key)))
    case _ => Err(TypeError("value is not subscriptable by a string key"))
  }

  /** `x[key] = v` for a Python value `x` that must be a dict. */
  function SetKey(x: Json, key: string, v: Json): (r: Result<Json>)
    ensures r.Ok? <==> x.Obj?
    ensures r.Ok? ==> r.value == Obj(Put(x.fields, key, v))
  {
    if x.Obj? then Ok(Obj(Put(x.fields, key, v)))
    else Err(TypeError("item assignment on a non-dict value"))
  }

  /** Python truthiness: `None`, `False`, `0`, and empty strings, lists and
      dicts are false. */
  predicate Truthy(x: Json) {
    match x
    case Null => false
    case Bool(b) => b
    case Num(n) => n != 0.0
    case Str(s) => s != ""
    case List(xs) => xs != []
    case Obj(fs) => fs != []
  }
}

=== FILE: paths.dfy ===
/** POSIX path text operations: `os.path.join`, `os.path.split`,
    `os.path.basename`, `os.path.splitext` and `pathlib.PurePath.suffix`.

    Only the text is modelled; nothing here touches a file system.
 */
module Paths {
  import opened Text

  const Sep: char := '/'

  /** `os.path.join(a, b)` on POSIX: an absolute `b` replaces `a`, and a
      separator is inserted unless `a` is empty or already ends with one. */
  function Join(a: string, b: string): (r: string)
    ensures StartsWith(b, [Sep]) ==> r == b
    ensures !StartsWith(b, [Sep]) && a != "" && a[|a| - 1] != Sep ==> r == a + [Sep] + b
    ensures EndsWith(r, b)
  {
    if |b| > 0 && b[0] == Sep then b
    else if a == "" || a[|a| - 1] == Sep then a + b
    else a + [Sep] + b
  }

  /** Joining a relative name appends it to the joined directory prefix. */
  lemma JoinAppends(dir: string, name: string)
    requires !StartsWith(name, [Sep])
    ensures Join(dir, name) == Join(dir, "") + name
  {
  }

  /** `os.path.basename(p)`, which is also `os.path.split(p)[-1]`. */
  function Basename(p: string): (r: string)
    ensures Sep !in r
    ensures EndsWith(p, r)
    ensures |r| < |p| ==> p[|p| - |r| - 1] == Sep
  {
    var i := LastIndexOf(p, Sep);
    p[i + 1..]
  }

  /** The basename of a separator-free name is the name itself. */
  lemma BasenameOfName(name: string)
    requires Sep !in name
    ensures Basename(name) == name
  {
  }

  /** The basename of a joined path is the joined name. */
  lemma BasenameOfJoin(dir: string, name: string)
    requires Sep !in name && name != ""
    ensures Basename(Join(dir, name)) == name
  {
    var p := Join(dir, name);
    if dir == "" {
      assert p == name;
    } else if dir[|dir| - 1] == Sep {
      var d := dir[..|dir| - 1];
      assert p == d + [Sep] + name;
      LastIndexOfJoined(d, Sep, name);
      assert p[|d| + 1..] == name;
    } else {
      assert p == dir + [Sep] + name;
      LastIndexOfJoined(dir, Sep, name);
      assert p[|dir| + 1..] == name;
    }
  }

  /** The extension search of `os.path.splitext`, starting after the last
      separator: true when some character before `dot` is not a `.`. */
  predicate HasStemBefore(p: string, from: int, dot: int)
    requires 0 <= from <= dot <= |p|
  {
    exists k | from <= k < dot :: p[k] != '.'
  }

  /** `os.path.splitext(p)`: the extension is the text from the last `.`
      when it lies after the last separator and is preceded there by at
      least one character other than `.`; otherwise it is empty. */
  function SplitExt(p: string): (r: (string, string))
    ensures r.0 + r.1 == p
    ensures r.1 == "" || (r.1[0] == '.' && '.' !in r.1[1..] && Sep !in r.1)
  {
    var sepIndex := LastIndexOf(p, Sep);
    var dotIndex := LastIndexOf(p, '.');
    if dotIndex > sepIndex && HasStemBefore(p, sepIndex + 1, dotIndex) then
      assert p == p[..dotIndex] + p[dotIndex..];
      assert forall j :: 1 <= j < |p[dotIndex..]| ==> p[dotIndex..][j] == p[dotIndex + j];
      (p[..dotIndex], p[dotIndex..])
    else (p, "")
  }

  lemma PrefixOfConcat(a: string, b: string)
    ensures StartsWith(a + b, a)
    ensures forall c :: c in a ==> c in a + b
  {
    assert (a + b)[..|a|] == a;
  }

  /** `os.path.splitext(os.path.basename(p))[0]`: the file name without
      its extension. */
  function Stem(p: string): (r: string)
    ensures Sep !in r
    ensures StartsWith(Basename(p), r)
  {
    var name := Basename(p);
    var root := SplitExt(name).0;
    PrefixOfConcat(root, SplitExt(name).1);
    root
  }

  /** A file named `<x><ext>` inside any directory has stem `x`, when `x`
      holds a character other than `.` and `ext` is `.`-led with no other
      `.` (such as `.wav`). */
  lemma StemOfJoin(dir: string, x: string, ext: string)
    requires Sep !in x && (exists k | 0 <= k < |x| :: x[k] != '.')
    requires |ext| > 0 && ext[0] == '.' && '.' !in ext[1..] && Sep !in ext
    ensures Stem(Join(dir, x + ext)) == x
  {
    var name := x + ext;
    assert Sep !in name;
    BasenameOfJoin(dir, name);
    StemOfName(x, ext);
  }

  lemma StemOfName(x: string, ext: string)
    requires Sep !in x && (exists k | 0 <= k < |x| :: x[k] != '.')
    requires |ext| > 0 && ext[0] == '.' && '.' !in ext[1..] && Sep !in ext
    ensures SplitExt(x + ext).0 == x
  {
    var name := x + ext;
    assert Sep !in name;
    DotOfName(x, ext);
    var k :| 0 <= k < |x| && x[k] != '.';
    assert name[k] == x[k];
    assert HasStemBefore(name, 0, |x|);
    assert name[..|x|] == x;
  }

  /** Strip trailing separators, as `pathlib` does when it splits a path
      into parts (a path of separators only keeps nothing). */
  function StripTrailingSeps(p: string): (r: string)
    ensures |r| <= |p| && r == p[..|r|]
  {
    p[..KeepBelow(p, |p|)]
  }

  /** The length of `p[..k]` once its trailing separators are dropped. */
  function KeepBelow(p: string, k: nat): (n: nat)
    requires k <= |p|
    ensures n <= k
  {
    if k == 0 then 0 else if p[k - 1] == Sep then KeepBelow(p, k - 1) else k
  }

  /** Nothing is stripped when the stripped text keeps its length. */
  lemma StripFull(p: string)
    requires |StripTrailingSeps(p)| == |p|
    ensures StripTrailingSeps(p) == p
  {
  }

  /** Strip what `pathlib` drops from the end of a path when it splits
      it into parts: trailing separators and `.` components, so that
      `x.mp3/./` ends in `x.mp3`. */
  function Collapse(p: string): (r: string)
    ensures |r| <= |p| && r == p[..|r|]
  {
    p[..PartsBelow(p, |p|)]
  }

  /** Whether `p[k - 1]` is a separator or a whole `.` component. */
  predicate DroppedAt(p: string, k: nat)
    requires 0 < k <= |p|
  {
    p[k - 1] == Sep || (p[k - 1] == '.' && (k == 1 || p[k - 2] == Sep))
  }

  /** The length of `p[..k]` once what `Collapse` drops is dropped. */
  function PartsBelow(p: string, k: nat): (n: nat)
    requires k <= |p|
    ensures n <= k
    ensures n > 0 ==> !DroppedAt(p, n)
    ensures forall j :: n < j <= k ==> DroppedAt(p, j)
  {
    if k == 0 then 0 else if DroppedAt(p, k) then PartsBelow(p, k - 1) else k
  }

  /** `pathlib.PurePath(p).name`: the last component. */
  function Name(p: string): (r: string)
    ensures Sep !in r
    ensures r != "."
  {
    Basename(Collapse(p))
  }

  /** What `Collapse` keeps of the first `k` characters does not depend on
      what follows them. */
  lemma {:induction false} PartsBelowPrefix(p: string, q: string, k: nat)
    requires k <= |p|
    ensures PartsBelow(p + q, k) == PartsBelow(p, k)
  {
    if k > 0 {
      assert (p + q)[k - 1] == p[k - 1];
      assert k >= 2 ==> (p + q)[k - 2] == p[k - 2];
      assert DroppedAt(p + q, k) == DroppedAt(p, k);
      PartsBelowPrefix(p, q, k - 1);
    }
  }

  /** A trailing `/.` changes neither the name nor the suffix: `x.mp3/.`
      is named `x.mp3`. */
  lemma NameDropsDot(p: string)
    ensures Name(p + [Sep, '.']) == Name(p)
    ensures Suffix(p + [Sep, '.']) == Suffix(p)
  {
    CollapseDropsDot(p);
  }

  lemma CollapseDropsDot(p: string)
    ensures Collapse(p + [Sep, '.']) == Collapse(p)
  {
    var d := p + [Sep, '.'];
    var n := PartsBelow(p, |p|);
    assert DroppedAt(d, |d|);
    assert DroppedAt(d, |d| - 1);
    assert PartsBelow(d, |d|) == PartsBelow(d, |p|);
    PartsBelowPrefix(p, [Sep, '.'], |p|);
    assert d[..n] == p[..n];
  }

  /** A path that ends in neither a separator nor a `.` component ends
      with its name. */
  lemma NameEnds(p: string)
    requires p == "" || !DroppedAt(p, |p|)
    ensures EndsWith(p, Name(p))
  {
    assert Collapse(p) == p;
  }

  /** The text from the last `.` of a separator-free name. */
  lemma SuffixFrom(name: string, i: int)
    requires Sep !in name && 0 < i < |name| - 1 && i == LastIndexOf(name, '.')
    ensures var r := name[i..]; |r| >= 2 && r[0] == '.' && '.' !in r[1..] && Sep !in r
    ensures EndsWith(name, name[i..])
  {
    var r := name[i..];
    assert forall j :: 1 <= j < |r| ==> r[j] == name[i + j];
    assert forall j :: 0 <= j < |r| ==> r[j] in name;
  }

  /** `pathlib.PurePath(p).suffix`: from the last `.` of the name, provided
      it is neither the name's first nor its last character. */
  function Suffix(p: string): (r: string)
    ensures r == "" || (|r| >= 2 && r[0] == '.' && '.' !in r[1..] && Sep !in r)
    ensures r != "" ==> |r| < |Name(p)|
  {
    var name := Name(p);
    var i := LastIndexOf(name, '.');
    if 0 < i < |name| - 1 then
      SuffixFrom(name, i);
      name[i..]
    else ""
  }

  /** A path ending in a separator-free name with a `.`-led extension (one
      more character at least, no further `.`) has that extension as its
      `pathlib` suffix when the name has a non-empty part before it. */
  lemma SuffixOfName(dir: string, stem: string, ext: string)
    requires Sep !in stem && stem != ""
    requires |ext| >= 2 && ext[0] == '.' && '.' !in ext[1..] && Sep !in ext
    ensures Suffix(Join(dir, stem + ext)) == ext
  {
    var p := Join(dir, stem + ext);
    NameOfJoin(dir, stem + ext);
    DotOfName(stem, ext);
  }

  /** The name of a joined path is the joined name. */
  lemma NameOfJoin(dir: string, name: string)
    requires Sep !in name && name != "" && name != "."
    ensures Name(Join(dir, name)) == name
  {
    var p := Join(dir, name);
    BasenameOfJoin(dir, name);
    CollapseOfJoin(dir, name);
  }

  /** A name that starts with a non-separator does not start with one. */
  lemma NotSepLed(stem: string, rest: string)
    requires stem != "" && stem[0] != Sep
    ensures !StartsWith(stem + rest, [Sep])
  {
    assert (stem + rest)[..1] == [stem[0]];
  }

  /** A joined file path has nothing for `pathlib` to drop from its end. */
  lemma CollapseOfJoin(dir: string, name: string)
    requires Sep !in name && name != "" && name != "."
    ensures Collapse(Join(dir, name)) == Join(dir, name)
  {
    var p := Join(dir, name);
    EndsWithLastTwo(p, name);
    CollapseWhole(p);
  }

  /** A path that ends in neither a separator nor a `.` component is kept
      whole. */
  lemma CollapseWhole(p: string)
    requires p != "" && !DroppedAt(p, |p|)
    ensures Collapse(p) == p
  {
  }

  /** A path ending with a separator-free name other than `.` ends in
      neither a separator nor a `.` component. */
  lemma EndsWithLastTwo(p: string, name: string)
    requires EndsWith(p, name) && Sep !in name && name != "" && name != "."
    ensures p != "" && !DroppedAt(p, |p|)
  {
    var k := |p| - |name|;
    assert p[k..] == name;
    assert p[|p| - 1] == name[|name| - 1];
    if |name| >= 2 {
      assert p[|p| - 2] == name[|name| - 2];
    } else {
      assert name == [name[0]];
    }
  }

  /** A joined file path has no trailing separator to strip. */
  lemma StripOfJoin(dir: string, name: string)
    requires Sep !in name && name != ""
    ensures StripTrailingSeps(Join(dir, name)) == Join(dir, name)
  {
    var p := Join(dir, name);
    assert p[|p| - 1] == name[|name| - 1];
  }

  /** The last `.` of `stem + ext` starts `ext`. */
  lemma DotOfName(stem: string, ext: string)
    requires |ext| >= 1 && ext[0] == '.' && '.' !in ext[1..]
    ensures LastIndexOf(stem + ext, '.') == |stem|
    ensures (stem + ext)[|stem|..] == ext
  {
    ConcatSplitsHead(stem, ext);
    LastIndexOfJoined(stem, '.', ext[1..]);
  }

  /** `child` lies strictly inside directory `dir`. */
  predicate IsUnder(child: string, dir: string) {
    StartsWith(child, dir + [Sep])
  }

  /** Joining a relative name onto a directory yields a path inside it. */
  lemma JoinIsUnder(dir: string, name: string)
    requires dir != "" && dir[|dir| - 1] != Sep && !StartsWith(name, [Sep])
    ensures IsUnder(Join(dir, name), dir)
  {
    assert Join(dir, name)[..|dir| + 1] == dir + [Sep];
  }

  /** Being inside a directory survives further joins of relative names. */
  lemma UnderJoin(child: string, dir: string, name: string)
    requires IsUnder(child, dir) && !StartsWith(name, [Sep])
    ensures IsUnder(Join(child, name), dir)
  {
    var r := Join(child, name);
    assert r[..|dir| + 1] == child[..|dir| + 1];
  }

  /** Joining relative names onto one directory is injective. */
  lemma JoinCancel(dir: string, a: string, b: string)
    requires !StartsWith(a, [Sep]) && !StartsWith(b, [Sep])
    requires Join(dir, a) == Join(dir, b)
    ensures a == b
  {
    JoinAppends(dir, a);
    JoinAppends(dir, b);
    var d := Join(dir, "");
    assert a == (d + a)[|d|..];
    assert b == (d + b)[|d|..];
  }

  /** The `<base>_<n>.wav` names are relative. */
  lemma NamePrefix(base: string, num: string)
    requires |base| > 0 && base[|base| - 1] == '_'
    requires Sep !in base[..|base| - 1]
    ensures !StartsWith(base + num + ".wav", [Sep])
  {
    var s := base + num + ".wav";
    assert s[0] == base[0];
    if |base| > 1 {
      assert base[0] in base[..|base| - 1];
    }
  }
}

=== FILE: pipelines.dfy ===
/** The pipeline recipes of `manager/runner.py`: `YoutubeRunner.__call__`
    and `ASR2TTSRunner.__call__`, fixed sequences of stage calls through
    the processor registry over one metadata dict, with fan-out loops that
    call a stage once per voice-activity segment.

    A stage call is `Registry.RunDag` with the parameter `invoke` standing
    for what the resolved processor does; `time.time()` is the parameter
    `now`, read at successive ticks; `uuid4()` is the parameter `uuid`;
    file copies, directory creation, JSON writes and `rmtree` are not
    performed, but the paths they use are part of the result.
 */
module Pipelines {
  import opened Wrappers
  import opened Text
  import opened Json
  import opened Paths
  import Registry
  import Audio

  /** A clock whose readings never go back. */
  ghost predicate Monotone(now: nat -> real) {
    forall i: nat, j: nat :: i <= j ==> now(i) <= now(j)
  }

  const Vad: string := "voice_activity_detection"

  /** `osp.join(cache_dir, dag_name, osp.split(va["filepath"])[-1])`. */
  function StageDir(cache: string, stage: string, filepath: string): string {
    Join(Join(cache, stage), Basename(filepath))
  }

  /** Which keyword arguments a fan-out loop passes for one segment:
      the denoise/enhancement loops pass its `filepath` and ask for a
      saved file, the superres loop passes its `enhancement` result. */
  datatype ArgSpec = FromFilepath | FromEnhancement

  /** The keyword arguments of the stage call for segment `va`, read in
      the order Python evaluates them. */
  function SegArgs(va: Json, stage: string, cache: string, spec: ArgSpec): (r: Result<Fields>)
    ensures r.Ok? ==> va.Obj? && HasKey(va.fields, "filepath")
    ensures r.Ok? ==> Lookup(va.fields, "filepath").value.Str?
    ensures r.Ok? && spec.FromFilepath? ==>
      r.value == [("audio_path", Lookup(va.fields, "filepath").value), ("save_to_file", Bool(true)),
                  ("save_dir", Str(StageDir(cache, stage, Lookup(va.fields, "filepath").value.s)))]
    ensures r.Ok? && spec.FromEnhancement? ==>
      && HasKey(va.fields, "enhancement")
      && r.value == [("audio_path", Lookup(va.fields, "enhancement").value),
                     ("save_dir", Str(StageDir(cache, stage, Lookup(va.fields, "filepath").value.s)))]
    ensures va.Obj? && !HasKey(va.fields, "filepath") ==> r.Err? && r.exc.KeyError?
    ensures !va.Obj? ==> r.Err? && r.exc.TypeError?
  {
    match spec
    case FromFilepath =>
      var fp :- Index(va, "filepath");
      :- Need(fp.Str?, TypeError("expected str, bytes or os.PathLike object"));
      Ok([("audio_path", fp), ("save_to_file", Bool(true)), ("save_dir", Str(StageDir(cache, stage, fp.s)))])
    case FromEnhancement =>
      var src :- Index(va, "enhancement");
      var fp :- Index(va, "filepath");
      :- Need(fp.Str?, TypeError("expected str, bytes or os.PathLike object"));
      Ok([("audio_path", src), ("save_dir", Str(StageDir(cache, stage, fp.s)))])
  }

  /** The time between clock readings `t` and `t + 1`. */
  function Elapsed(now: nat -> real, t: nat): real {
    now(t + 1) - now(t)
  }

  /** The per-segment times added up in order. */
  function Total(times: seq<real>): real {
    if |times| == 0 then 0.0 else Total(times[..|times| - 1]) + times[|times| - 1]
  }

  /** Segment `va` after `va.update({key: out, timeKey: proc})`. */
  function Merge(va: Json, key: string, timeKey: string, out: Json, proc: real): Json
    requires va.Obj?
  {
    Obj(Put(Put(va.fields, key, out), timeKey, Num(proc)))
  }

  /** What a fan-out loop leaves. The call for segment `v` starts from
      `states[v]` and leaves `states[v + 1]`; `segs` are the updated
      segments; `calls`, `outs` and `times` hold, per segment, the
      arguments, the result and the elapsed time; `total` is `total_time`
      and `tick` the next clock reading. */
  datatype Fan<R> = Fan(states: seq<R>, tick: nat, segs: seq<Json>, calls: seq<Fields>,
                        outs: seq<Json>, times: seq<real>, total: real)

  /** A loop record for `n` segments. */
  predicate Shaped<R(==)>(f: Fan<R>, n: nat) {
    |f.states| == n + 1 && |f.segs| == n && |f.calls| == n && |f.outs| == n && |f.times| == n
  }

  /** The loop `for v, va in enumerate(segments)`: for each segment in
      order, read the clock, call the stage (`dag`) with the segment's
      arguments, read the clock again, and merge the result and the
      elapsed time into segment `v`. Any failure ends the recipe. */
  function FanOut<R(==)>(s: R, tick: nat, segs: seq<Json>, argsOf: Json -> Result<Fields>, key: string, timeKey: string,
                     dag: (R, Fields) -> Result<(R, Json)>,
                     now: nat -> real): (res: Result<Fan<R>>)
    ensures res.Ok? ==> Shaped(res.value, |segs|) && res.value.states[0] == s
    ensures res.Ok? ==> res.value.tick == tick + 2 * |segs|
    decreases |segs|
  {
    if |segs| == 0 then Ok(Fan([s], tick, [], [], [], [], 0.0))
    else
      var f :- FanOut(s, tick, segs[..|segs| - 1], argsOf, key, timeKey, dag, now);
      FanStep(f, segs[|segs| - 1], argsOf, key, timeKey, dag, now)
  }

  /** Loop record `g` is `f` after one iteration on segment `va` called
      with `args`. */
  predicate StepOf<R(==)>(f: Fan<R>, g: Fan<R>, va: Json, args: Fields, key: string, timeKey: string,
                      dag: (R, Fields) -> Result<(R, Json)>, now: nat -> real)
    requires |f.states| > 0
  {
    var proc := Elapsed(now, f.tick);
    && va.Obj?
    && |g.states| == |f.states| + 1 && g.states[..|f.states|] == f.states
    && |g.outs| == |f.outs| + 1 && g.outs[..|f.outs|] == f.outs
    && dag(f.states[|f.states| - 1], args) == Ok((g.states[|f.states|], g.outs[|f.outs|]))
    && g.tick == f.tick + 2
    && g.calls == f.calls + [args]
    && g.times == f.times + [proc]
    && g.total == f.total + proc
    && g.segs == f.segs + [Merge(va, key, timeKey, g.outs[|f.outs|], proc)]
  }

  /** One iteration, on the loop record `f` and segment `va`. */
  function FanStep<R(==)>(f: Fan<R>, va: Json, argsOf: Json -> Result<Fields>, key: string, timeKey: string,
                      dag: (R, Fields) -> Result<(R, Json)>, now: nat -> real): (res: Result<Fan<R>>)
    requires |f.states| > 0
    ensures res.Ok? ==> argsOf(va).Ok?
    ensures res.Ok? ==> StepOf(f, res.value, va, argsOf(va).value, key, timeKey, dag, now)
  {
    var args :- argsOf(va);
    var (s', out) :- dag(f.states[|f.states| - 1], args);
    :- Need(va.Obj?, AttributeError("update"));
    var proc := Elapsed(now, f.tick);
    var g := Fan(f.states + [s'], f.tick + 2, f.segs + [Merge(va, key, timeKey, out, proc)],
                 f.calls + [args], f.outs + [out], f.times + [proc], f.total + proc);
    assert g.states[..|f.states|] == f.states && g.outs[..|f.outs|] == f.outs;
    Ok(g)
  }

  /** A loop over a non-empty list is the loop over all but the last
      segment followed by one iteration on the last. */
  lemma FanOutLast<R>(s: R, tick: nat, segs: seq<Json>, argsOf: Json -> Result<Fields>, key: string,
                      timeKey: string, dag: (R, Fields) -> Result<(R, Json)>, now: nat -> real)
    requires |segs| > 0 && FanOut(s, tick, segs, argsOf, key, timeKey, dag, now).Ok?
    ensures var p := FanOut(s, tick, segs[..|segs| - 1], argsOf, key, timeKey, dag, now);
      && p.Ok? && argsOf(segs[|segs| - 1]).Ok?
      && Shaped(p.value, |segs| - 1) && p.value.states[0] == s && p.value.tick == tick + 2 * (|segs| - 1)
      && StepOf(p.value, FanOut(s, tick, segs, argsOf, key, timeKey, dag, now).value, segs[|segs| - 1],
                argsOf(segs[|segs| - 1]).value, key, timeKey, dag, now)
  {
  }

  /** One iteration leaves the records of earlier segments as they were. */
  lemma StepPrefix<R>(p: Fan<R>, f: Fan<R>, va: Json, args: Fields, key: string, timeKey: string,
                      dag: (R, Fields) -> Result<(R, Json)>, now: nat -> real, n: nat, v: nat)
    requires Shaped(p, n) && StepOf(p, f, va, args, key, timeKey, dag, now) && v < n
    ensures f.states[v] == p.states[v] && f.states[v + 1] == p.states[v + 1]
    ensures f.outs[v] == p.outs[v] && f.calls[v] == p.calls[v]
    ensures f.segs[v] == p.segs[v] && f.times[v] == p.times[v]
  {
    assert f.states[..|p.states|][v] == f.states[v];
    assert f.states[..|p.states|][v + 1] == f.states[v + 1];
    assert f.outs[..|p.outs|][v] == f.outs[v];
  }

  /** The record one iteration adds for segment `n`. */
  lemma StepAdds<R>(p: Fan<R>, f: Fan<R>, va: Json, args: Fields, key: string, timeKey: string,
                    dag: (R, Fields) -> Result<(R, Json)>, now: nat -> real, n: nat)
    requires Shaped(p, n) && StepOf(p, f, va, args, key, timeKey, dag, now)
    ensures Shaped(f, n + 1) && va.Obj?
    ensures f.calls[n] == args && f.states[n] == p.states[n]
    ensures dag(f.states[n], args) == Ok((f.states[n + 1], f.outs[n]))
    ensures f.times[n] == Elapsed(now, p.tick) && f.times[..n] == p.times
    ensures f.segs[n] == Merge(va, key, timeKey, f.outs[n], f.times[n])
  {
    assert f.states[..|p.states|][n] == f.states[n];
  }

  /** The record the last iteration of a loop adds, on top of the loop
      over the other segments. */
  lemma FanOutAdds<R>(s: R, tick: nat, segs: seq<Json>, argsOf: Json -> Result<Fields>, key: string,
                      timeKey: string, dag: (R, Fields) -> Result<(R, Json)>, now: nat -> real)
    requires |segs| > 0 && FanOut(s, tick, segs, argsOf, key, timeKey, dag, now).Ok?
    ensures var n := |segs| - 1;
      var p := FanOut(s, tick, segs[..n], argsOf, key, timeKey, dag, now);
      var f := FanOut(s, tick, segs, argsOf, key, timeKey, dag, now).value;
      && p.Ok? && Shaped(p.value, n) && p.value.tick == tick + 2 * n
      && argsOf(segs[n]).Ok? && segs[n].Obj?
      && f.calls[n] == argsOf(segs[n]).value && f.states[n] == p.value.states[n]
      && dag(f.states[n], f.calls[n]) == Ok((f.states[n + 1], f.outs[n]))
      && f.times[n] == Elapsed(now, p.value.tick) && f.times[..n] == p.value.times
      && f.total == p.value.total + f.times[n]
      && f.segs[n] == Merge(segs[n], key, timeKey, f.outs[n], f.times[n])
  {
    var n := |segs| - 1;
    FanOutLast(s, tick, segs, argsOf, key, timeKey, dag, now);
    var p := FanOut(s, tick, segs[..n], argsOf, key, timeKey, dag, now).value;
    var f := FanOut(s, tick, segs, argsOf, key, timeKey, dag, now).value;
    var args := argsOf(segs[n]).value;
    StepAdds(p, f, segs[n], args, key, timeKey, dag, now, n);
    assert dag(f.states[n], f.calls[n]) == dag(f.states[n], args);
    assert p.tick == tick + 2 * n;
  }

  /** The part of `FanOutAdds` about the stage call and the merged record. */
  lemma FanOutAddsCall<R>(s: R, tick: nat, segs: seq<Json>, argsOf: Json -> Result<Fields>, key: string,
                          timeKey: string, dag: (R, Fields) -> Result<(R, Json)>, now: nat -> real)
    requires |segs| > 0 && FanOut(s, tick, segs, argsOf, key, timeKey, dag, now).Ok?
    ensures var n := |segs| - 1;
      var f := FanOut(s, tick, segs, argsOf, key, timeKey, dag, now).value;
      && FanOut(s, tick, segs[..n], argsOf, key, timeKey, dag, now).Ok?
      && segs[n].Obj? && argsOf(segs[n]) == Ok(f.calls[n])
      && dag(f.states[n], f.calls[n]) == Ok((f.states[n + 1], f.outs[n]))
      && f.segs[n] == Merge(segs[n], key, timeKey, f.outs[n], f.times[n])
  {
    FanOutAdds(s, tick, segs, argsOf, key, timeKey, dag, now);
  }

  /** The timing part of `FanOutAdds`, on its own. */
  lemma FanOutAddsTime<R>(s: R, tick: nat, segs: seq<Json>, argsOf: Json -> Result<Fields>, key: string,
                          timeKey: string, dag: (R, Fields) -> Result<(R, Json)>, now: nat -> real)
    requires |segs| > 0 && FanOut(s, tick, segs, argsOf, key, timeKey, dag, now).Ok?
    ensures var n := |segs| - 1;
      var p := FanOut(s, tick, segs[..n], argsOf, key, timeKey, dag, now);
      var f := FanOut(s, tick, segs, argsOf, key, timeKey, dag, now).value;
      && p.Ok? && |p.value.times| == n && |f.times| == n + 1 && p.value.tick == tick + 2 * n
      && f.times[n] == Elapsed(now, p.value.tick) && f.times[..n] == p.value.times
      && f.total == p.value.total + f.times[n]
  {
    FanOutAdds(s, tick, segs, argsOf, key, timeKey, dag, now);
  }

  /** The last iteration of a loop keeps the records of the others. */
  lemma FanOutKeeps<R>(s: R, tick: nat, segs: seq<Json>, argsOf: Json -> Result<Fields>, key: string,
                       timeKey: string, dag: (R, Fields) -> Result<(R, Json)>, now: nat -> real, v: nat)
    requires |segs| > 0 && FanOut(s, tick, segs, argsOf, key, timeKey, dag, now).Ok? && v < |segs| - 1
    ensures var n := |segs| - 1;
      var p := FanOut(s, tick, segs[..n], argsOf, key, timeKey, dag, now);
      var f := FanOut(s, tick, segs, argsOf, key, timeKey, dag, now).value;
      && p.Ok? && Shaped(p.value, n)
      && f.states[v] == p.value.states[v] && f.states[v + 1] == p.value.states[v + 1]
      && f.outs[v] == p.value.outs[v] && f.calls[v] == p.value.calls[v]
      && f.segs[v] == p.value.segs[v] && f.times[v] == p.value.times[v]
  {
    var n := |segs| - 1;
    FanOutLast(s, tick, segs, argsOf, key, timeKey, dag, now);
    var p := FanOut(s, tick, segs[..n], argsOf, key, timeKey, dag, now).value;
    var f := FanOut(s, tick, segs, argsOf, key, timeKey, dag, now).value;
    StepPrefix(p, f, segs[n], argsOf(segs[n]).value, key, timeKey, dag, now, n, v);
  }

  /** Iteration `v` of a loop over `segs` called the stage with the
      arguments read from segment `v`, starting from the state iteration
      `v - 1` left, and merged its output into that segment. */
  predicate Called<R(==)>(segs: seq<Json>, f: Fan<R>, v: nat, argsOf: Json -> Result<Fields>, key: string,
                          timeKey: string, dag: (R, Fields) -> Result<(R, Json)>)
  {
    && v < |segs| && v + 1 < |f.states| && v < |f.calls| && v < |f.outs| && v < |f.segs| && v < |f.times|
    && segs[v].Obj?
    && argsOf(segs[v]) == Ok(f.calls[v])
    && dag(f.states[v], f.calls[v]) == Ok((f.states[v + 1], f.outs[v]))
    && f.segs[v] == Merge(segs[v], key, timeKey, f.outs[v], f.times[v])
  }

  /** A call recorded by a loop's prefix stays recorded after the last iteration. */
  lemma CalledKeeps<R>(s: R, tick: nat, segs: seq<Json>, argsOf: Json -> Result<Fields>, key: string,
                       timeKey: string, dag: (R, Fields) -> Result<(R, Json)>, now: nat -> real, v: nat)
    requires |segs| > 0 && FanOut(s, tick, segs, argsOf, key, timeKey, dag, now).Ok? && v < |segs| - 1
    requires var p := FanOut(s, tick, segs[..|segs| - 1], argsOf, key, timeKey, dag, now);
      p.Ok? && Called(segs[..|segs| - 1], p.value, v, argsOf, key, timeKey, dag)
    ensures Called(segs, FanOut(s, tick, segs, argsOf, key, timeKey, dag, now).value, v, argsOf, key, timeKey, dag)
  {
    FanOutKeeps(s, tick, segs, argsOf, key, timeKey, dag, now, v);
    assert segs[..|segs| - 1][v] == segs[v];
  }

  /** The stage is called once per segment, in list order, each call
      starting from the state the previous one left and made with the
      arguments read from its own segment; segment `v` is merged with the
      result of call `v` and nothing else. */
  lemma {:induction false} FanOutMerges<R>(s: R, tick: nat, segs: seq<Json>, argsOf: Json -> Result<Fields>, key: string,
                                           timeKey: string,
                                           dag: (R, Fields) -> Result<(R, Json)>, now: nat -> real)
    requires FanOut(s, tick, segs, argsOf, key, timeKey, dag, now).Ok?
    ensures var f := FanOut(s, tick, segs, argsOf, key, timeKey, dag, now).value;
      forall v :: 0 <= v < |segs| ==> Called(segs, f, v, argsOf, key, timeKey, dag)
    decreases |segs|
  {
    if |segs| > 0 {
      var n := |segs| - 1;
      FanOutMerges(s, tick, segs[..n], argsOf, key, timeKey, dag, now);
      FanOutLast(s, tick, segs, argsOf, key, timeKey, dag, now);
      var p := FanOut(s, tick, segs[..n], argsOf, key, timeKey, dag, now).value;
      var f := FanOut(s, tick, segs, argsOf, key, timeKey, dag, now).value;
      CalledAfterStep(segs, segs[..n], p, f, argsOf(segs[n]).value, argsOf, key, timeKey, dag, now);
    }
  }

  /** The step of `FanOutMerges`: one iteration on the last segment keeps
      the calls recorded for the others and records its own. */
  lemma CalledAfterStep<R>(segs: seq<Json>, pre: seq<Json>, p: Fan<R>, f: Fan<R>, args: Fields, argsOf: Json -> Result<Fields>,
                           key: string, timeKey: string, dag: (R, Fields) -> Result<(R, Json)>, now: nat -> real)
    requires |segs| > 0 && pre == segs[..|segs| - 1] && Shaped(p, |segs| - 1) && argsOf(segs[|segs| - 1]) == Ok(args)
    requires StepOf(p, f, segs[|segs| - 1], args, key, timeKey, dag, now)
    requires forall v :: 0 <= v < |pre| ==> Called(pre, p, v, argsOf, key, timeKey, dag)
    ensures forall v :: 0 <= v < |segs| ==> Called(segs, f, v, argsOf, key, timeKey, dag)
  {
    var n := |segs| - 1;
    StepAdds(p, f, segs[n], args, key, timeKey, dag, now, n);
    forall v | 0 <= v < |segs| ensures Called(segs, f, v, argsOf, key, timeKey, dag) {
      if v < n {
        assert Called(pre, p, v, argsOf, key, timeKey, dag);
        assert pre[v] == segs[v];
        StepPrefix(p, f, segs[n], args, key, timeKey, dag, now, n, v);
      }
    }
  }

  /** Time `v` is read between the clock readings `2v` and `2v + 1`
      after tick `tick`. */
  predicate TimedFrom(times: seq<real>, tick: nat, now: nat -> real) {
    forall v :: 0 <= v < |times| ==> times[v] == Elapsed(now, tick + 2 * v)
  }

  /** Segment `v`'s time is read between the clock readings `2v` and
      `2v + 1` after the loop starts, and `total_time` is their sum. */
  lemma FanOutTimes<R>(s: R, tick: nat, segs: seq<Json>, argsOf: Json -> Result<Fields>, key: string,
                       timeKey: string,
                       dag: (R, Fields) -> Result<(R, Json)>, now: nat -> real)
    requires FanOut(s, tick, segs, argsOf, key, timeKey, dag, now).Ok?
    ensures var f := FanOut(s, tick, segs, argsOf, key, timeKey, dag, now).value;
      TimedFrom(f.times, tick, now) && f.total == Total(f.times)
  {
    FanOutTimed(s, tick, segs, argsOf, key, timeKey, dag, now);
    FanOutTotal(s, tick, segs, argsOf, key, timeKey, dag, now);
  }

  lemma {:induction false} FanOutTimed<R>(s: R, tick: nat, segs: seq<Json>, argsOf: Json -> Result<Fields>, key: string,
                                          timeKey: string,
                                          dag: (R, Fields) -> Result<(R, Json)>, now: nat -> real)
    requires FanOut(s, tick, segs, argsOf, key, timeKey, dag, now).Ok?
    ensures TimedFrom(FanOut(s, tick, segs, argsOf, key, timeKey, dag, now).value.times, tick, now)
    decreases |segs|
  {
    if |segs| > 0 {
      var n := |segs| - 1;
      FanOutAddsTime(s, tick, segs, argsOf, key, timeKey, dag, now);
      FanOutTimed(s, tick, segs[..n], argsOf, key, timeKey, dag, now);
      TimesExtend(FanOut(s, tick, segs[..n], argsOf, key, timeKey, dag, now).value.times,
                  FanOut(s, tick, segs, argsOf, key, timeKey, dag, now).value.times, tick, now);
    }
  }

  lemma {:induction false} FanOutTotal<R>(s: R, tick: nat, segs: seq<Json>, argsOf: Json -> Result<Fields>, key: string,
                                          timeKey: string,
                                          dag: (R, Fields) -> Result<(R, Json)>, now: nat -> real)
    requires FanOut(s, tick, segs, argsOf, key, timeKey, dag, now).Ok?
    ensures var f := FanOut(s, tick, segs, argsOf, key, timeKey, dag, now).value;
      f.total == Total(f.times)
    decreases |segs|
  {
    if |segs| > 0 {
      var n := |segs| - 1;
      FanOutAddsTime(s, tick, segs, argsOf, key, timeKey, dag, now);
      FanOutTotal(s, tick, segs[..n], argsOf, key, timeKey, dag, now);
      var ft := FanOut(s, tick, segs, argsOf, key, timeKey, dag, now).value.times;
      assert ft[..|ft| - 1] == FanOut(s, tick, segs[..n], argsOf, key, timeKey, dag, now).value.times;
    }
  }

  /** Appending the time read at clock tick `tick + 2n` to `n` times read
      at ticks `tick + 2v` keeps that shape. */
  lemma TimesExtend(pt: seq<real>, ft: seq<real>, tick: nat, now: nat -> real)
    requires TimedFrom(pt, tick, now)
    requires |ft| == |pt| + 1 && ft[..|pt|] == pt && ft[|pt|] == Elapsed(now, tick + 2 * |pt|)
    ensures TimedFrom(ft, tick, now)
  {
    forall v | 0 <= v < |pt| ensures ft[v] == Elapsed(now, tick + 2 * v) {
      assert ft[v] == ft[..|pt|][v];
    }
  }

  /** With a clock that never goes back, every per-segment time and the
      total are non-negative. */
  lemma FanOutTimesNonNegative<R>(s: R, tick: nat, segs: seq<Json>, argsOf: Json -> Result<Fields>, key: string,
                                  timeKey: string,
                                  dag: (R, Fields) -> Result<(R, Json)>, now: nat -> real)
    requires Monotone(now) && FanOut(s, tick, segs, argsOf, key, timeKey, dag, now).Ok?
    ensures var f := FanOut(s, tick, segs, argsOf, key, timeKey, dag, now).value;
      (forall v :: 0 <= v < |segs| ==> f.times[v] >= 0.0) && f.total >= 0.0
  {
    var f := FanOut(s, tick, segs, argsOf, key, timeKey, dag, now).value;
    FanOutTimes(s, tick, segs, argsOf, key, timeKey, dag, now);
    forall v | 0 <= v < |segs| ensures f.times[v] >= 0.0 {
      assert now(tick + 2 * v) <= now(tick + 2 * v + 1);
    }
    TotalNonNegative(f.times);
  }

  lemma {:induction false} TotalNonNegative(times: seq<real>)
    requires forall v :: 0 <= v < |times| ==> times[v] >= 0.0
    ensures Total(times) >= 0.0
    decreases |times|
  {
    if |times| > 0 {
      TotalNonNegative(times[..|times| - 1]);
    }
  }

  /** A segment whose arguments cannot be read ends the loop with an error. */
  lemma FanOutBadSegmentFails<R>(s: R, tick: nat, segs: seq<Json>, argsOf: Json -> Result<Fields>, key: string,
                                 timeKey: string,
                                 dag: (R, Fields) -> Result<(R, Json)>, now: nat -> real, v: nat)
    requires v < |segs| && argsOf(segs[v]).Err?
    ensures FanOut(s, tick, segs, argsOf, key, timeKey, dag, now).Err?
  {
    if FanOut(s, tick, segs, argsOf, key, timeKey, dag, now).Ok? {
      FanOutMerges(s, tick, segs, argsOf, key, timeKey, dag, now);
    }
  }

  /** A stage that always fails lets only an empty segment list through. */
  lemma FanOutFailingStage<R>(s: R, tick: nat, segs: seq<Json>, argsOf: Json -> Result<Fields>, key: string,
                              timeKey: string,
                              dag: (R, Fields) -> Result<(R, Json)>, now: nat -> real)
    requires forall x: R, kw: Fields :: dag(x, kw).Err?
    ensures FanOut(s, tick, segs, argsOf, key, timeKey, dag, now).Ok? <==> |segs| == 0
  {
    if |segs| > 0 && FanOut(s, tick, segs, argsOf, key, timeKey, dag, now).Ok? {
      FanOutMerges(s, tick, segs, argsOf, key, timeKey, dag, now);
    }
  }

  /** A first segment whose arguments can be read, handed to a stage that
      fails, ends the loop with that stage's error. */
  lemma {:induction false} FanOutFirstFails<R>(s: R, tick: nat, segs: seq<Json>, argsOf: Json -> Result<Fields>, key: string,
                                               timeKey: string,
                                               dag: (R, Fields) -> Result<(R, Json)>, now: nat -> real)
    requires |segs| > 0 && argsOf(segs[0]).Ok? && dag(s, argsOf(segs[0]).value).Err?
    ensures FanOut(s, tick, segs, argsOf, key, timeKey, dag, now) == Err(dag(s, argsOf(segs[0]).value).exc)
    decreases |segs|
  {
    var n := |segs| - 1;
    if n > 0 {
      assert segs[..n][0] == segs[0];
      FanOutFirstFails(s, tick, segs[..n], argsOf, key, timeKey, dag, now);
    } else {
      assert segs[..n] == [];
    }
  }

  // Stage calls through the processor registry.

  /** A runner that keeps the registry invariant. */
  type ValidRunner = r: Registry.Runner | Registry.Valid(r) witness Registry.Runner([], true, map[], map[], 0, map[])

  /** `self.run_dag(stage, **kwargs)`: resolve the stage's processor, then
      call it. */
  function RunStage(r: ValidRunner, stage: string, kwargs: Fields,
                    invoke: (Registry.Slot, Fields) -> Result<Json>): (res: Result<(ValidRunner, Json)>)
    ensures Head(stage, '.') !in Registry.Names(r.specs) ==> res.Err? && res.exc.AssertionError?
    ensures res.Ok? <==> Registry.Resolve(r, stage).Ok? && invoke(Registry.Resolve(r, stage).value.1, kwargs).Ok?
    ensures res.Ok? ==> res.value.0 == Registry.Resolve(r, stage).value.0
    ensures res.Ok? ==> invoke(Registry.Resolve(r, stage).value.1, kwargs) == Ok(res.value.1)
  {
    var (r', out) :- Registry.RunDag(r, stage, kwargs, invoke);
    Ok((r', out))
  }

  /** A stage named outside the allow-list fails on every runner. */
  lemma UnlistedStageFails(r: ValidRunner, stage: string, kwargs: Fields,
                           invoke: (Registry.Slot, Fields) -> Result<Json>)
    requires Head(stage, '.') !in Registry.AllowedProcessors
    ensures RunStage(r, stage, kwargs, invoke).Err?
    ensures RunStage(r, stage, kwargs, invoke).exc.AssertionError?
  {
    Registry.UnlistedNeverResolves(r, stage);
  }

  /** The stage call as a loop's `dag`. */
  function Stage(stage: string, invoke: (Registry.Slot, Fields) -> Result<Json>): (ValidRunner, Fields) -> Result<(ValidRunner, Json)>
  {
    (x: ValidRunner, kw: Fields) => RunStage(x, stage, kw, invoke)
  }

  /** The per-segment arguments as a loop's `argsOf`. */
  function ArgsOf(stage: string, cache: string, spec: ArgSpec): Json -> Result<Fields>
  {
    (va: Json) => SegArgs(va, stage, cache, spec)
  }

  /** What a recipe carries from stage to stage: the runner, the next clock
      reading, and the `metadata` dict. */
  datatype Step = Step(r: ValidRunner, tick: nat, meta: Fields)

  /** A timed stage: read the clock, run the stage, store its result under
      the stage name and the elapsed time under `<stage>_proc_time`, and
      clean the stage up. */
  function TimedStage(s: Step, stage: string, kwargs: Fields, invoke: (Registry.Slot, Fields) -> Result<Json>,
                      now: nat -> real): (res: Result<Step>)
    ensures res.Ok? <==> RunStage(s.r, stage, kwargs, invoke).Ok?
    ensures res.Ok? ==> res.value.tick == s.tick + 2
    ensures res.Ok? ==> res.value.r.specs == s.r.specs && res.value.r.lazy == s.r.lazy
    ensures res.Ok? ==> res.value.r == Registry.Cleanup(RunStage(s.r, stage, kwargs, invoke).value.0, stage)
  {
    var (r', out) :- RunStage(s.r, stage, kwargs, invoke);
    var meta := Put(Put(s.meta, stage, out), stage + "_proc_time", Num(Elapsed(now, s.tick)));
    Ok(Step(Registry.Cleanup(r', stage), s.tick + 2, meta))
  }

  /** On a dict with distinct keys, a timed stage stores the stage's
      result and its time, keeps the keys distinct, and leaves every other
      key as it was. */
  lemma TimedStageStores(s: Step, stage: string, kwargs: Fields, invoke: (Registry.Slot, Fields) -> Result<Json>,
                         now: nat -> real)
    requires UniqueKeys(s.meta) && TimedStage(s, stage, kwargs, invoke, now).Ok?
    ensures var m := TimedStage(s, stage, kwargs, invoke, now).value.meta;
      && UniqueKeys(m)
      && Lookup(m, stage) == Some(RunStage(s.r, stage, kwargs, invoke).value.1)
      && Lookup(m, stage + "_proc_time") == Some(Num(Elapsed(now, s.tick)))
      && forall k :: k != stage && k != stage + "_proc_time" ==> Lookup(m, k) == Lookup(s.meta, k)
  {
    var out := RunStage(s.r, stage, kwargs, invoke).value.1;
    assert stage != stage + "_proc_time" by { assert |stage| < |stage + "_proc_time"|; }
    LookupPutAll(s.meta, stage, out);
    LookupPutAll(Put(s.meta, stage, out), stage + "_proc_time", Num(Elapsed(now, s.tick)));
  }

  /** `for va in x`: a list yields its items, a dict its keys and a string
      its characters; other values are not iterable. */
  function Iterate(x: Json): (r: Result<seq<Json>>)
    ensures x.List? ==> r == Ok(x.items)
    ensures x.Obj? ==> r.Ok? && |r.value| == |x.fields| && forall i :: 0 <= i < |x.fields| ==> r.value[i] == Str(x.fields[i].0)
    ensures x.Str? ==> r.Ok? && |r.value| == |x.s| && forall i :: 0 <= i < |x.s| ==> r.value[i] == Str([x.s[i]])
    ensures r.Err? <==> x.Null? || x.Bool? || x.Num?
    ensures r.Err? ==> r.exc.TypeError?
  {
    match x
    case List(items) => Ok(items)
    case Obj(fs) => Ok(seq(|fs|, i requires 0 <= i < |fs| => Str(fs[i].0)))
    case Str(cs) => Ok(seq(|cs|, i requires 0 <= i < |cs| => Str([cs[i]])))
    case _ => Err(TypeError("object is not iterable"))
  }

  /** `metadata["voice_activity_detection"]["voice_activity"]`, iterated. */
  function Segments(meta: Fields): (r: Result<seq<Json>>)
    ensures r.Ok? ==> HasKey(meta, Vad) && Lookup(meta, Vad).value.Obj?
    ensures r.Ok? ==> HasKey(Lookup(meta, Vad).value.fields, "voice_activity")
    ensures !HasKey(meta, Vad) ==> r == Err(KeyError(Vad))
    ensures r.Ok? ==> r == Iterate(Lookup(Lookup(meta, Vad).value.fields, "voice_activity").value)
  {
    var vad :- Index(Obj(meta), Vad);
    var vas :- Index(vad, "voice_activity");
    Iterate(vas)
  }

  /** The segments as a loop leaves them in the dict: when
      `voice_activity` is a list, its elements are the updated segments;
      a loop over any other iterable updates nothing it can reach. */
  function WriteBack(meta: Fields, segs: seq<Json>): Fields {
    match Lookup(meta, Vad)
    case Some(Obj(vf)) =>
      (match Lookup(vf, "voice_activity")
       case Some(List(_)) => Put(meta, Vad, Obj(Put(vf, "voice_activity", List(segs))))
       case _ => meta)
    case _ => meta
  }

  /** The segment list is stored as a list, directly under the VAD result. */
  predicate ListedSegments(meta: Fields) {
    && UniqueKeys(meta)
    && Lookup(meta, Vad).Some? && Lookup(meta, Vad).value.Obj?
    && UniqueKeys(Lookup(meta, Vad).value.fields)
    && Lookup(Lookup(meta, Vad).value.fields, "voice_activity").Some?
    && Lookup(Lookup(meta, Vad).value.fields, "voice_activity").value.List?
  }

  /** Writing segments back and reading them again gives those segments;
      everything outside the VAD entry is untouched. */
  lemma WriteBackReads(meta: Fields, segs: seq<Json>)
    requires ListedSegments(meta)
    ensures ListedSegments(WriteBack(meta, segs))
    ensures Segments(WriteBack(meta, segs)) == Ok(segs)
    ensures forall k :: k != Vad ==> Lookup(WriteBack(meta, segs), k) == Lookup(meta, k)
  {
    var vf := Lookup(meta, Vad).value.fields;
    LookupPutAll(vf, "voice_activity", List(segs));
    LookupPutAll(meta, Vad, Obj(Put(vf, "voice_activity", List(segs))));
  }

  /** A loop over a value that is not a list finds no segment it could
      update, so write-back changes nothing. */
  lemma WriteBackUnlisted(meta: Fields, segs: seq<Json>)
    requires Lookup(meta, Vad).Some? && Lookup(meta, Vad).value.Obj?
    requires Lookup(Lookup(meta, Vad).value.fields, "voice_activity").Some?
    requires !Lookup(Lookup(meta, Vad).value.fields, "voice_activity").value.List?
    ensures WriteBack(meta, segs) == meta
  {
  }

  /** A fan-out loop over the VAD segments: iterate them, call the stage
      once per segment merging its result under `key` and its time under
      `timeKey`, store the total under `<key>_proc_time`, and clean the
      stage up. */
  function Loop(s: Step, stage: string, key: string, timeKey: string, cache: string, spec: ArgSpec,
                invoke: (Registry.Slot, Fields) -> Result<Json>, now: nat -> real): (res: Result<(Step, Fan<ValidRunner>)>)
    ensures res.Ok? <==>
      && Segments(s.meta).Ok?
      && FanOut(s.r, s.tick, Segments(s.meta).value, ArgsOf(key, cache, spec), key, timeKey, Stage(stage, invoke), now).Ok?
    ensures res.Ok? ==>
      res.value.1 == FanOut(s.r, s.tick, Segments(s.meta).value, ArgsOf(key, cache, spec), key, timeKey, Stage(stage, invoke), now).value
    ensures res.Ok? ==> res.value.0.tick == s.tick + 2 * |Segments(s.meta).value|
    ensures res.Ok? ==>
      |res.value.1.states| > 0 && res.value.0.r == Registry.Cleanup(res.value.1.states[|res.value.1.states| - 1], stage)
  {
    var segs :- Segments(s.meta);
    var f :- FanOut(s.r, s.tick, segs, ArgsOf(key, cache, spec), key, timeKey, Stage(stage, invoke), now);
    var last := f.states[|f.states| - 1];
    Ok((Step(Registry.Cleanup(last, stage), f.tick, Put(WriteBack(s.meta, f.segs), key + "_proc_time", Num(f.total))), f))
  }

  /** The loop calls the stage once per segment, in list order, each call
      from the runner the previous call left and with the arguments read
      from its own segment, and merges call `v`'s result and time into
      segment `v` alone; the list keeps its length. */
  lemma LoopCalls(s: Step, stage: string, key: string, timeKey: string, cache: string, spec: ArgSpec,
                  invoke: (Registry.Slot, Fields) -> Result<Json>, now: nat -> real)
    requires Loop(s, stage, key, timeKey, cache, spec, invoke, now).Ok?
    ensures var segs := Segments(s.meta).value;
      var f := Loop(s, stage, key, timeKey, cache, spec, invoke, now).value.1;
      && |f.segs| == |segs| && f.states[0] == s.r
      && forall v :: 0 <= v < |segs| ==>
           && SegArgs(segs[v], key, cache, spec) == Ok(f.calls[v])
           && RunStage(f.states[v], stage, f.calls[v], invoke) == Ok((f.states[v + 1], f.outs[v]))
           && f.segs[v] == Merge(segs[v], key, timeKey, f.outs[v], f.times[v])
  {
    var segs := Segments(s.meta).value;
    var f := Loop(s, stage, key, timeKey, cache, spec, invoke, now).value.1;
    FanOutMerges(s.r, s.tick, segs, ArgsOf(key, cache, spec), key, timeKey, Stage(stage, invoke), now);
    forall v | 0 <= v < |segs|
      ensures && SegArgs(segs[v], key, cache, spec) == Ok(f.calls[v])
              && RunStage(f.states[v], stage, f.calls[v], invoke) == Ok((f.states[v + 1], f.outs[v]))
              && f.segs[v] == Merge(segs[v], key, timeKey, f.outs[v], f.times[v])
    {
      assert Called(segs, f, v, ArgsOf(key, cache, spec), key, timeKey, Stage(stage, invoke));
    }
  }

  /** Segment `v`'s time spans clock readings `2v` and `2v + 1` after the
      loop starts, and the total is their sum. */
  lemma LoopTimes(s: Step, stage: string, key: string, timeKey: string, cache: string, spec: ArgSpec,
                  invoke: (Registry.Slot, Fields) -> Result<Json>, now: nat -> real)
    requires Loop(s, stage, key, timeKey, cache, spec, invoke, now).Ok?
    ensures var f := Loop(s, stage, key, timeKey, cache, spec, invoke, now).value.1;
      && (forall v :: 0 <= v < |f.times| ==> f.times[v] == Elapsed(now, s.tick + 2 * v))
      && f.total == Total(f.times)
  {
    FanOutTimes(s.r, s.tick, Segments(s.meta).value, ArgsOf(key, cache, spec), key, timeKey, Stage(stage, invoke), now);
  }

  /** No `<key>_proc_time` is the VAD entry's name. */
  lemma ProcTimeIsNotVad(key: string)
    ensures key + "_proc_time" != Vad
  {
    var k := key + "_proc_time";
    assert k[|k| - 1] == 'e' && Vad[|Vad| - 1] == 'n';
  }

  /** On a dict whose segments form a list, the loop leaves the updated
      segments in their place, stores the total time under
      `<key>_proc_time`, and changes no other key. */
  lemma LoopStores(s: Step, stage: string, key: string, timeKey: string, cache: string, spec: ArgSpec,
                   invoke: (Registry.Slot, Fields) -> Result<Json>, now: nat -> real)
    requires ListedSegments(s.meta) && Loop(s, stage, key, timeKey, cache, spec, invoke, now).Ok?
    ensures var (s', f) := Loop(s, stage, key, timeKey, cache, spec, invoke, now).value;
      && ListedSegments(s'.meta)
      && Segments(s'.meta) == Ok(f.segs)
      && Lookup(s'.meta, key + "_proc_time") == Some(Num(Total(f.times)))
      && forall k :: k != Vad && k != key + "_proc_time" ==> Lookup(s'.meta, k) == Lookup(s.meta, k)
  {
    var (s', f) := Loop(s, stage, key, timeKey, cache, spec, invoke, now).value;
    LoopTimes(s, stage, key, timeKey, cache, spec, invoke, now);
    ProcTimeIsNotVad(key);
    var w := WriteBack(s.meta, f.segs);
    WriteBackReads(s.meta, f.segs);
    LookupPutAll(w, key + "_proc_time", Num(f.total));
    PutKeepsSegments(w, key + "_proc_time", Num(f.total));
  }

  /** Storing a key other than the VAD entry keeps the segments listed. */
  lemma PutKeepsSegments(meta: Fields, k: string, v: Json)
    requires ListedSegments(meta) && k != Vad
    ensures ListedSegments(Put(meta, k, v)) && Segments(Put(meta, k, v)) == Segments(meta)
  {
    LookupPut(meta, k, v, Vad);
  }

  /** A loop whose stage is outside the allow-list succeeds only on an
      empty segment list; when the first segment's arguments can be read,
      it fails at resolution. */
  lemma LoopUnlistedStage(s: Step, stage: string, key: string, timeKey: string, cache: string, spec: ArgSpec,
                          invoke: (Registry.Slot, Fields) -> Result<Json>, now: nat -> real)
    requires Head(stage, '.') !in Registry.AllowedProcessors && Segments(s.meta).Ok?
    ensures Loop(s, stage, key, timeKey, cache, spec, invoke, now).Ok? <==> Segments(s.meta).value == []
    ensures var segs := Segments(s.meta).value;
      |segs| > 0 && SegArgs(segs[0], key, cache, spec).Ok? ==>
        Loop(s, stage, key, timeKey, cache, spec, invoke, now).Err? &&
        Loop(s, stage, key, timeKey, cache, spec, invoke, now).exc.AssertionError?
  {
    var segs := Segments(s.meta).value;
    var dag := Stage(stage, invoke);
    forall x: ValidRunner, kw: Fields ensures dag(x, kw).Err? {
      UnlistedStageFails(x, stage, kw, invoke);
    }
    FanOutFailingStage(s.r, s.tick, segs, ArgsOf(key, cache, spec), key, timeKey, dag, now);
    if |segs| > 0 && SegArgs(segs[0], key, cache, spec).Ok? {
      var kw := SegArgs(segs[0], key, cache, spec).value;
      UnlistedStageFails(s.r, stage, kw, invoke);
      FanOutFirstFails(s.r, s.tick, segs, ArgsOf(key, cache, spec), key, timeKey, dag, now);
    }
  }

  /** A loop keeps a dict's keys distinct, stores the total time under
      `<key>_proc_time`, and changes no key but that one and the VAD
      entry. */
  lemma LoopKeepsUnique(s: Step, stage: string, key: string, timeKey: string, cache: string, spec: ArgSpec,
                        invoke: (Registry.Slot, Fields) -> Result<Json>, now: nat -> real)
    requires UniqueKeys(s.meta) && Loop(s, stage, key, timeKey, cache, spec, invoke, now).Ok?
    ensures var (s', f) := Loop(s, stage, key, timeKey, cache, spec, invoke, now).value;
      && UniqueKeys(s'.meta)
      && Lookup(s'.meta, key + "_proc_time") == Some(Num(f.total))
      && forall k :: k != Vad && k != key + "_proc_time" ==> Lookup(s'.meta, k) == Lookup(s.meta, k)
  {
    var (s', f) := Loop(s, stage, key, timeKey, cache, spec, invoke, now).value;
    assert s'.meta == Put(WriteBack(s.meta, f.segs), key + "_proc_time", Num(f.total));
    WriteBackStores(s.meta, f.segs, key, f.total);
  }

  /** Writing segments back and storing a time keeps a dict's keys
      distinct and changes no key but the time's and the VAD entry. */
  lemma WriteBackStores(meta: Fields, segs: seq<Json>, key: string, total: real)
    requires UniqueKeys(meta)
    ensures var m := Put(WriteBack(meta, segs), key + "_proc_time", Num(total));
      && UniqueKeys(m)
      && Lookup(m, key + "_proc_time") == Some(Num(total))
      && forall k :: k != Vad && k != key + "_proc_time" ==> Lookup(m, k) == Lookup(meta, k)
  {
    var w := WriteBack(meta, segs);
    assert UniqueKeys(w) && forall k :: k != Vad ==> Lookup(w, k) == Lookup(meta, k) by {
      match Lookup(meta, Vad)
      case Some(Obj(vf)) =>
        LookupPutAll(meta, Vad, Obj(Put(vf, "voice_activity", List(segs))));
      case _ =>
    }
    LookupPutAll(w, key + "_proc_time", Num(total));
  }

  /** Merging into a segment with distinct keys stores the result and the
      time under their keys and keeps every other entry. */
  lemma MergeStores(va: Json, key: string, timeKey: string, out: Json, proc: real)
    requires va.Obj? && UniqueKeys(va.fields) && key != timeKey
    ensures var m := Merge(va, key, timeKey, out, proc).fields;
      && UniqueKeys(m)
      && Lookup(m, key) == Some(out) && Lookup(m, timeKey) == Some(Num(proc))
      && forall k :: k != key && k != timeKey ==> Lookup(m, k) == Lookup(va.fields, k)
  {
    LookupPutAll(va.fields, key, out);
    LookupPutAll(Put(va.fields, key, out), timeKey, Num(proc));
  }

  /** Writing an empty loop's segments back keeps the segment list empty. */
  lemma WriteBackEmpty(meta: Fields)
    requires Segments(meta) == Ok([])
    ensures Segments(WriteBack(meta, [])) == Ok([])
  {
    match Lookup(meta, Vad) {
      case Some(Obj(vf)) =>
        match Lookup(vf, "voice_activity") {
          case Some(List(_)) =>
            var vf' := Put(vf, "voice_activity", List([]));
            LookupPutSame(meta, Vad, Obj(vf'));
            LookupPutSame(vf, "voice_activity", List([]));
          case _ =>
        }
      case _ =>
    }
  }

  /** A loop over no segments leaves no segments for the next loop. */
  lemma LoopEmptyStaysEmpty(s: Step, stage: string, key: string, timeKey: string, cache: string, spec: ArgSpec,
                            invoke: (Registry.Slot, Fields) -> Result<Json>, now: nat -> real)
    requires Segments(s.meta) == Ok([]) && Loop(s, stage, key, timeKey, cache, spec, invoke, now).Ok?
    ensures Segments(Loop(s, stage, key, timeKey, cache, spec, invoke, now).value.0.meta) == Ok([])
  {
    var f := Loop(s, stage, key, timeKey, cache, spec, invoke, now).value.1;
    assert f.segs == [];
    WriteBackEmpty(s.meta);
    ProcTimeIsNotVad(key);
    LookupPutOther(WriteBack(s.meta, []), key + "_proc_time", Num(f.total), Vad);
  }
}

=== FILE: registry.dfy ===
/** The processor registry of `manager/runner.py` (`Runner`): declared
    processors are looked up by name, constructed on demand when the runner
    is lazy, and dropped back to their unconstructed form after use.

    A processor object is either a class (constructed with the declared
    `args`) or some other callable (used as it is). The import system is
    the parameter `lookup`; a constructed object is an `Instance` that
    records its class, its arguments and a serial number telling apart
    separate constructions. Whether a constructor raises is the parameter
    `faults`: the exception that constructing the class of a name raises,
    for the names whose construction fails.
 */
module Registry {
  import opened Wrappers
  import opened Text
  import opened Json
  import Helpers

  /** `Runner.ALLOWED_PROCESSORS`. */
  const AllowedProcessors: seq<string> := [
    "downloader",
    "speaker_diarization",
    "voice_activity_detection",
    "music_separation",
    "denoise_audio",
    "gender_classification",
    "emotion_classification",
    "transcription",
    "superres"
  ]

  /** What `get_obj_from_str(proc.target)` yields. */
  datatype Target = Class(path: string) | Callable(path: string)

  /** One entry of `config.processors`: its `name`, `target` and, when the
      attribute is present, its `args`. */
  datatype ProcSpec = ProcSpec(name: string, target: string, args: Option<Fields>)

  /** An object built by calling a class with keyword arguments. */
  datatype Instance = Instance(cls: Target, args: Option<Fields>, serial: nat)

  /** `processors[name]`: `{"obj": ..., "loaded": ...}`. Unloaded, `obj` is
      what the import yielded; loaded, it is an instance. */
  datatype Slot = Unloaded(obj: Target) | Loaded(instance: Instance)

  /** The `names` argument of `load_processors`/`offload_processors`:
      `None` (every processor) or a list (a single name is wrapped). */
  datatype Selection = All | Named(names: seq<string>)

  /** A runner: the declared processors, the lazy flag, the import result
      for each name, the slots, the number of constructions so far, and
      the exception each failing constructor raises (the same one every
      time, since the arguments of a name are fixed). */
  datatype Runner = Runner(
    specs: seq<ProcSpec>,
    lazy: bool,
    targets: map<string, Target>,
    slots: map<string, Slot>,
    built: nat,
    faults: map<string, Exc>)

  predicate Selected(sel: Selection, name: string) {
    sel.All? || name in sel.names
  }

  function Names(specs: seq<ProcSpec>): set<string> {
    set i | 0 <= i < |specs| :: specs[i].name
  }

  predicate DistinctNames(specs: seq<ProcSpec>) {
    forall i, j | 0 <= i < j < |specs| :: specs[i].name != specs[j].name
  }

  /** `inspect.isclass(processors[name]["obj"])`. */
  predicate IsClassObj(s: Slot) {
    s.Unloaded? && s.obj.Class?
  }

  /** A slot agrees with its import result: unloaded it holds that object,
      loaded it holds an instance of that class built before now. */
  predicate SlotFits(r: Runner, declared: seq<ProcSpec>, name: string)
    requires name in r.slots && name in r.targets
  {
    match r.slots[name]
    case Unloaded(t) => t == r.targets[name]
    case Loaded(inst) =>
      inst.cls == r.targets[name] && inst.cls.Class? && inst.serial < r.built
  }

  /** The registry invariant over the processors declared so far. */
  predicate Consistent(r: Runner, declared: seq<ProcSpec>) {
    && DistinctNames(declared)
    && (forall i :: 0 <= i < |declared| ==> declared[i].name in AllowedProcessors)
    && r.slots.Keys == Names(declared)
    && r.targets.Keys == r.slots.Keys
    && (forall n :: n in r.slots ==> SlotFits(r, declared, n))
  }

  /** The invariant of a constructed runner. */
  predicate Valid(r: Runner) {
    Consistent(r, r.specs)
  }

  /** The conditions under which `Runner.__init__` returns: every name is
      allowed and new, every target imports, and an eagerly loaded class
      has `args` and a constructor that does not raise. */
  predicate Admissible(specs: seq<ProcSpec>, lazy: bool, lookup: (string, string) -> Option<Target>, faults: map<string, Exc>) {
    && DistinctNames(specs)
    && forall i :: 0 <= i < |specs| ==> SpecAdmissible(specs[i], lazy, lookup, faults)
  }

  predicate SpecAdmissible(p: ProcSpec, lazy: bool, lookup: (string, string) -> Option<Target>, faults: map<string, Exc>) {
    && p.name in AllowedProcessors
    && Helpers.GetObjFromStr(p.target, lookup).Ok?
    && (lazy || !Helpers.GetObjFromStr(p.target, lookup).value.Class? || (p.args.Some? && p.name !in faults))
  }

  /** The state `__init__` leaves a slot in: lazy, every slot unloaded;
      eager, a class is constructed and any other callable kept. */
  predicate Initial(r: Runner) {
    forall n :: n in r.slots && n in r.targets ==>
      if r.lazy then r.slots[n] == Unloaded(r.targets[n])
      else (r.slots[n].Loaded? <==> r.targets[n].Class?)
  }

  /** The slot `__init__` creates for a newly imported object. */
  function FirstSlot(r: Runner, p: ProcSpec, obj: Target): Slot {
    if obj.Class? && !r.lazy then Loaded(Instance(obj, p.args, r.built)) else Unloaded(obj)
  }

  /** The runner after a successful declaration of `p` importing `obj`. */
  function Declared(r: Runner, p: ProcSpec, obj: Target): Runner {
    r.(targets := r.targets[p.name := obj],
       slots := r.slots[p.name := FirstSlot(r, p, obj)],
       built := if FirstSlot(r, p, obj).Loaded? then r.built + 1 else r.built)
  }

  /** One iteration of the declaration loop in `__init__`, given the
      result of importing `p.target`. */
  function Declare(r: Runner, p: ProcSpec, imported: Result<Target>): (res: Result<Runner>)
    ensures res.Ok? <==> && p.name in AllowedProcessors && p.name !in r.slots && imported.Ok?
                         && (r.lazy || !imported.value.Class? || (p.args.Some? && p.name !in r.faults))
    ensures res.Ok? ==> res.value == Declared(r, p, imported.value)
    ensures res.Err? && p.name in AllowedProcessors && p.name !in r.slots && imported.Ok? && p.args.Some? ==>
      res.exc == r.faults[p.name]
  {
    if p.name !in AllowedProcessors then Err(AssertionError("Processor " + p.name + " is not supported"))
    else if p.name in r.slots then Err(AssertionError("A processor already exists with the name " + p.name))
    else
      match imported
      case Err(e) => Err(e)
      case Ok(obj) =>
        if obj.Class? && !r.lazy && p.args.None? then Err(AttributeError("args"))
        else if obj.Class? && !r.lazy && p.name in r.faults then Err(r.faults[p.name])
        else Ok(Declared(r, p, obj))
  }

  lemma NamesAppend(b: seq<ProcSpec>, p: ProcSpec)
    ensures Names(b + [p]) == Names(b) + {p.name}
    ensures DistinctNames(b + [p]) <==> DistinctNames(b) && p.name !in Names(b)
  {
    var a := b + [p];
    assert forall i :: 0 <= i < |b| ==> a[i] == b[i];
    assert a[|b|] == p;
    assert Names(a) == Names(b) + {p.name} by {
      forall x | x in Names(a) ensures x in Names(b) + {p.name} {
        var i :| 0 <= i < |a| && a[i].name == x;
        if i < |b| { assert b[i].name == x; }
      }
      forall x | x in Names(b) ensures x in Names(a) {
        var i :| 0 <= i < |b| && b[i].name == x;
        assert a[i].name == x;
      }
    }
    if DistinctNames(a) {
      forall x | x in Names(b) ensures x != p.name {
        var i :| 0 <= i < |b| && b[i].name == x;
        assert a[i].name == x;
      }
    }
  }

  lemma AdmissibleAppend(b: seq<ProcSpec>, p: ProcSpec, lazy: bool, lookup: (string, string) -> Option<Target>, faults: map<string, Exc>)
    ensures Admissible(b + [p], lazy, lookup, faults) <==>
            Admissible(b, lazy, lookup, faults) && SpecAdmissible(p, lazy, lookup, faults) && p.name !in Names(b)
  {
    NamesAppend(b, p);
    var a := b + [p];
    assert forall i :: 0 <= i < |b| ==> a[i] == b[i];
    assert a[|b|] == p;
  }

  /** Declaring a new allowed name keeps the registry invariant. */
  lemma DeclaredConsistent(r: Runner, b: seq<ProcSpec>, p: ProcSpec, obj: Target)
    requires Consistent(r, b) && p.name in AllowedProcessors && p.name !in Names(b)
    ensures Consistent(Declared(r, p, obj), b + [p])
    ensures Initial(r) ==> Initial(Declared(r, p, obj))
  {
    DeclaredKeys(r, b, p, obj);
    AllowedAppend(b, p);
    DeclaredSlotsFit(r, b, p, obj);
    if Initial(r) {
      DeclaredInitial(r, p, obj);
    }
  }

  lemma DeclaredKeys(r: Runner, b: seq<ProcSpec>, p: ProcSpec, obj: Target)
    requires r.slots.Keys == Names(b) && r.targets.Keys == r.slots.Keys
    requires DistinctNames(b) && p.name !in Names(b)
    ensures var r' := Declared(r, p, obj); r'.slots.Keys == Names(b + [p]) && r'.targets.Keys == r'.slots.Keys
    ensures DistinctNames(b + [p])
  {
    NamesAppend(b, p);
  }

  lemma AllowedAppend(b: seq<ProcSpec>, p: ProcSpec)
    requires forall i :: 0 <= i < |b| ==> b[i].name in AllowedProcessors
    requires p.name in AllowedProcessors
    ensures forall i :: 0 <= i < |b + [p]| ==> (b + [p])[i].name in AllowedProcessors
  {
    var a := b + [p];
    assert forall i :: 0 <= i < |b| ==> a[i] == b[i];
    assert a[|b|] == p;
  }

  lemma DeclaredSlotsFit(r: Runner, b: seq<ProcSpec>, p: ProcSpec, obj: Target)
    requires Consistent(r, b)
    ensures var r' := Declared(r, p, obj); forall x :: x in r'.slots ==> x in r'.targets && SlotFits(r', b + [p], x)
  {
    var r' := Declared(r, p, obj);
    forall x | x in r'.slots ensures x in r'.targets && SlotFits(r', b + [p], x) {
      if x != p.name {
        assert SlotFits(r, b, x);
      }
    }
  }

  lemma DeclaredInitial(r: Runner, p: ProcSpec, obj: Target)
    requires Initial(r)
    ensures Initial(Declared(r, p, obj))
  {
  }

  /** The runner after the first `n` declarations of `specs`. */
  function BuildPrefix(specs: seq<ProcSpec>, n: nat, lazy: bool, lookup: (string, string) -> Option<Target>, faults: map<string, Exc>): (r: Result<Runner>)
    requires n <= |specs|
    ensures r.Ok? <==> Admissible(specs[..n], lazy, lookup, faults)
    ensures r.Ok? ==> Consistent(r.value, specs[..n]) && r.value.specs == specs && r.value.lazy == lazy && Initial(r.value)
    ensures r.Ok? ==> r.value.faults == faults
    decreases n
  {
    if n == 0 then
      Ok(Runner(specs, lazy, map[], map[], 0, faults))
    else
      var p := specs[n - 1];
      assert specs[..n] == specs[..n - 1] + [p];
      AdmissibleAppend(specs[..n - 1], p, lazy, lookup, faults);
      match BuildPrefix(specs, n - 1, lazy, lookup, faults)
      case Err(e) => Err(e)
      case Ok(r) =>
        var imported := Helpers.GetObjFromStr(p.target, lookup);
        if imported.Ok? && p.name in AllowedProcessors && p.name !in Names(specs[..n - 1]) then
          DeclaredConsistent(r, specs[..n - 1], p, imported.value);
          Declare(r, p, imported)
        else
          Declare(r, p, imported)
  }

  /** `Runner(configs, lazy_load)`: a configuration without `processors`
      declares none. */
  function Build(processors: Option<seq<ProcSpec>>, lazy: bool, lookup: (string, string) -> Option<Target>, faults: map<string, Exc>): (r: Result<Runner>)
    ensures r.Ok? <==> Admissible(processors.GetOr([]), lazy, lookup, faults)
    ensures r.Ok? ==> Valid(r.value) && Initial(r.value) && r.value.lazy == lazy
    ensures r.Ok? ==> r.value.slots.Keys == Names(processors.GetOr([])) && r.value.faults == faults
  {
    var specs := processors.GetOr([]);
    assert specs[..|specs|] == specs;
    BuildPrefix(specs, |specs|, lazy, lookup, faults)
  }

  /** The guard of the loop in `load_processors`. */
  predicate Due(r: Runner, sel: Selection, reload: bool, name: string)
    requires name in r.slots
  {
    Selected(sel, name) && (!r.slots[name].Loaded? || reload) && IsClassObj(r.slots[name])
  }

  /** Every slot that the guard selects in `r` became an instance of its
      class, built after `r`, with the declared arguments. */
  predicate Constructed(r: Runner, r': Runner, name: string)
    requires name in r.slots && name in r'.slots
  {
    && r.slots[name].Unloaded?
    && r'.slots[name].Loaded?
    && r'.slots[name].instance.cls == r.slots[name].obj
    && r.built <= r'.slots[name].instance.serial < r'.built
  }

  function NamesFrom(specs: seq<ProcSpec>, i: nat): set<string>
    requires i <= |specs|
  {
    set j | i <= j < |specs| :: specs[j].name
  }

  lemma NamesFromStep(specs: seq<ProcSpec>, i: nat)
    requires i < |specs| && DistinctNames(specs)
    ensures NamesFrom(specs, i) == {specs[i].name} + NamesFrom(specs, i + 1)
    ensures specs[i].name !in NamesFrom(specs, i + 1)
    ensures specs[i].name in Names(specs)
  {
    assert forall j :: i + 1 <= j < |specs| ==> specs[j].name != specs[i].name;
  }

  /** Constructing the object of the `i`-th declaration. */
  function Construct(r: Runner, i: nat): Runner
    requires Valid(r) && i < |r.specs|
    requires r.specs[i].name in r.slots && r.slots[r.specs[i].name].Unloaded?
  {
    var p := r.specs[i];
    r.(slots := r.slots[p.name := Loaded(Instance(r.slots[p.name].obj, p.args, r.built))], built := r.built + 1)
  }

  lemma ConstructValid(r: Runner, i: nat)
    requires Valid(r) && i < |r.specs|
    requires r.specs[i].name in r.slots && IsClassObj(r.slots[r.specs[i].name])
    ensures Valid(Construct(r, i))
  {
    var p := r.specs[i];
    var next := Construct(r, i);
    forall x | x in next.slots ensures SlotFits(next, next.specs, x) {
      if x != p.name { assert SlotFits(r, r.specs, x); }
    }
  }

  /** What the loop of `load_processors` does from the `i`-th declaration
      on: every selected slot still holding a class gets an instance built
      after `r`, and nothing else changes. */
  predicate LoadsFrom(r: Runner, r': Runner, i: nat, sel: Selection, reload: bool)
    requires Valid(r) && i <= |r.specs|
  {
    && LoadFrame(r, r')
    && LoadEffect(r, r', i, sel, reload)
    && ((forall n :: n in NamesFrom(r.specs, i) && n in r.slots ==> !Due(r, sel, reload, n)) ==> r' == r)
  }

  /** The parts of the runner a load keeps. */
  predicate LoadFrame(r: Runner, r': Runner) {
    && Valid(r') && r'.specs == r.specs && r'.lazy == r.lazy && r'.targets == r.targets
    && r'.slots.Keys == r.slots.Keys && r.built <= r'.built && r'.faults == r.faults
  }

  predicate LoadEffect(r: Runner, r': Runner, i: nat, sel: Selection, reload: bool)
    requires Valid(r) && i <= |r.specs| && r'.slots.Keys == r.slots.Keys
  {
    forall n :: n in r.slots ==>
      if n in NamesFrom(r.specs, i) && Due(r, sel, reload, n) then Constructed(r, r', n)
      else r'.slots[n] == r.slots[n]
  }

  lemma LoadsFromDone(r: Runner, sel: Selection, reload: bool)
    requires Valid(r)
    ensures LoadsFrom(r, r, |r.specs|, sel, reload)
  {
  }

  lemma LoadsFromConstruct(r: Runner, r': Runner, i: nat, sel: Selection, reload: bool)
    requires Valid(r) && i < |r.specs|
    requires r.specs[i].name in r.slots && Due(r, sel, reload, r.specs[i].name)
    requires Valid(Construct(r, i)) && LoadsFrom(Construct(r, i), r', i + 1, sel, reload)
    ensures LoadsFrom(r, r', i, sel, reload)
  {
    var name := r.specs[i].name;
    NamesFromStep(r.specs, i);
    assert name in NamesFrom(r.specs, i);
    LoadEffectConstruct(r, r', i, sel, reload);
  }

  lemma LoadEffectConstruct(r: Runner, r': Runner, i: nat, sel: Selection, reload: bool)
    requires Valid(r) && i < |r.specs|
    requires r.specs[i].name in r.slots && Due(r, sel, reload, r.specs[i].name)
    requires Valid(Construct(r, i)) && LoadFrame(Construct(r, i), r')
    requires LoadEffect(Construct(r, i), r', i + 1, sel, reload)
    ensures LoadEffect(r, r', i, sel, reload)
  {
    var name := r.specs[i].name;
    var next := Construct(r, i);
    NamesFromStep(r.specs, i);
    forall n | n in r.slots
      ensures if n in NamesFrom(r.specs, i) && Due(r, sel, reload, n) then Constructed(r, r', n)
              else r'.slots[n] == r.slots[n]
    {
      if n == name {
        assert !Due(next, sel, reload, name);
        assert r'.slots[name] == next.slots[name];
      } else {
        assert next.slots[n] == r.slots[n];
        assert Due(next, sel, reload, n) == Due(r, sel, reload, n);
        if n in NamesFrom(r.specs, i + 1) && Due(r, sel, reload, n) {
          assert Constructed(next, r', n);
        }
      }
    }
  }

  lemma LoadsFromSkip(r: Runner, r': Runner, i: nat, sel: Selection, reload: bool)
    requires Valid(r) && i < |r.specs|
    requires r.specs[i].name in r.slots && !Due(r, sel, reload, r.specs[i].name)
    requires LoadsFrom(r, r', i + 1, sel, reload)
    ensures LoadsFrom(r, r', i, sel, reload)
  {
    NamesFromStep(r.specs, i);
    LoadEffectSkip(r, r', i, sel, reload);
  }

  lemma LoadEffectSkip(r: Runner, r': Runner, i: nat, sel: Selection, reload: bool)
    requires Valid(r) && i < |r.specs| && r'.slots.Keys == r.slots.Keys
    requires r.specs[i].name in r.slots && !Due(r, sel, reload, r.specs[i].name)
    requires LoadEffect(r, r', i + 1, sel, reload)
    ensures LoadEffect(r, r', i, sel, reload)
  {
    NamesFromStep(r.specs, i);
    forall n | n in r.slots
      ensures if n in NamesFrom(r.specs, i) && Due(r, sel, reload, n) then Constructed(r, r', n)
              else r'.slots[n] == r.slots[n]
    {
      assert (n in NamesFrom(r.specs, i) && Due(r, sel, reload, n)) == (n in NamesFrom(r.specs, i + 1) && Due(r, sel, reload, n));
    }
  }

  /** A slot the loop of `load_processors` would construct, whose
      constructor raises. */
  predicate Fails(r: Runner, sel: Selection, reload: bool, name: string) {
    name in r.slots && Due(r, sel, reload, name) && name in r.faults
  }

  /** The first declaration from the `i`-th on whose construction raises
      is the `j`-th. */
  predicate FirstFault(r: Runner, sel: Selection, reload: bool, i: nat, j: nat) {
    && i <= j < |r.specs| && Fails(r, sel, reload, r.specs[j].name)
    && forall k :: i <= k < j ==> !Fails(r, sel, reload, r.specs[k].name)
  }

  /** `e` is what the constructor of the first failing declaration from
      the `i`-th on raises. */
  predicate RaisesFirst(r: Runner, sel: Selection, reload: bool, i: nat, e: Exc) {
    exists j :: i <= j < |r.specs| && FirstFault(r, sel, reload, i, j) && r.specs[j].name in r.faults && e == r.faults[r.specs[j].name]
  }

  /** Constructing the `i`-th slot does not change which later slots fail. */
  lemma ConstructKeepsFails(r: Runner, i: nat, sel: Selection, reload: bool)
    requires Valid(r) && i < |r.specs|
    requires r.specs[i].name in r.slots && IsClassObj(r.slots[r.specs[i].name])
    ensures Construct(r, i).specs == r.specs && Construct(r, i).faults == r.faults
    ensures forall j :: i < j < |r.specs| ==>
      Fails(Construct(r, i), sel, reload, r.specs[j].name) == Fails(r, sel, reload, r.specs[j].name)
  {
    var next := Construct(r, i);
    forall j | i < j < |r.specs|
      ensures Fails(next, sel, reload, r.specs[j].name) == Fails(r, sel, reload, r.specs[j].name)
    {
      var n := r.specs[j].name;
      assert n != r.specs[i].name;
      if n in r.slots {
        assert next.slots[n] == r.slots[n];
      }
    }
  }

  /** A step of the loop that leaves the `i`-th slot not failing and the
      later ones failing as before: the loop after it sees no failure
      exactly when the loop from it sees none. */
  lemma KeepsOk(r: Runner, next: Runner, i: nat, sel: Selection, reload: bool)
    requires i < |r.specs| && next.specs == r.specs && !Fails(r, sel, reload, r.specs[i].name)
    requires forall j :: i < j < |r.specs| ==>
      Fails(next, sel, reload, r.specs[j].name) == Fails(r, sel, reload, r.specs[j].name)
    ensures (forall j :: i + 1 <= j < |r.specs| ==> !Fails(next, sel, reload, r.specs[j].name))
            <==> (forall j :: i <= j < |r.specs| ==> !Fails(r, sel, reload, r.specs[j].name))
  {
    if forall j :: i + 1 <= j < |r.specs| ==> !Fails(next, sel, reload, r.specs[j].name) {
      forall j | i <= j < |r.specs| ensures !Fails(r, sel, reload, r.specs[j].name) {
        if j > i {
          assert !Fails(next, sel, reload, r.specs[j].name);
        }
      }
    }
  }

  /** A step of the loop that leaves the `i`-th slot not failing and the
      later ones failing as before keeps the first fault. */
  lemma RaisesFirstStep(r: Runner, next: Runner, i: nat, sel: Selection, reload: bool, e: Exc)
    requires i < |r.specs| && next.specs == r.specs && next.faults == r.faults
    requires !Fails(r, sel, reload, r.specs[i].name)
    requires forall j :: i < j < |r.specs| ==>
      Fails(next, sel, reload, r.specs[j].name) == Fails(r, sel, reload, r.specs[j].name)
    requires RaisesFirst(next, sel, reload, i + 1, e)
    ensures RaisesFirst(r, sel, reload, i, e)
  {
    var j: nat :| i + 1 <= j < |r.specs| && FirstFault(next, sel, reload, i + 1, j) && r.specs[j].name in r.faults && e == r.faults[r.specs[j].name];
    assert Fails(r, sel, reload, r.specs[j].name);
    forall k | i + 1 <= k < j ensures !Fails(r, sel, reload, r.specs[k].name) {
      assert !Fails(next, sel, reload, r.specs[k].name);
    }
    assert FirstFault(r, sel, reload, i, j);
  }

  /** The loop of `load_processors` from the `i`-th declaration on: it
      stops with the exception of the first constructor that raises. */
  function LoadFrom(r: Runner, i: nat, sel: Selection, reload: bool): (res: Result<Runner>)
    requires Valid(r) && i <= |r.specs|
    ensures res.Ok? <==> forall j :: i <= j < |r.specs| ==> !Fails(r, sel, reload, r.specs[j].name)
    ensures res.Ok? ==> LoadsFrom(r, res.value, i, sel, reload)
    ensures res.Err? ==> RaisesFirst(r, sel, reload, i, res.exc)
    decreases |r.specs| - i
  {
    if i == |r.specs| then
      LoadsFromDone(r, sel, reload);
      Ok(r)
    else
      var name := r.specs[i].name;
      NamesFromStep(r.specs, i);
      if Due(r, sel, reload, name) then
        if name in r.faults then
          assert FirstFault(r, sel, reload, i, i);
          Err(r.faults[name])
        else
          ConstructValid(r, i);
          var res := LoadFrom(Construct(r, i), i + 1, sel, reload);
          LoadStepConstruct(r, i, sel, reload, res);
          res
      else
        var res := LoadFrom(r, i + 1, sel, reload);
        LoadStepSkip(r, i, sel, reload, res);
        res
  }

  /** The construct branch of `LoadFrom`: what the loop after the `i`-th
      declaration gives is what the loop from it gives. */
  lemma LoadStepConstruct(r: Runner, i: nat, sel: Selection, reload: bool, res: Result<Runner>)
    requires Valid(r) && i < |r.specs|
    requires r.specs[i].name in r.slots && Due(r, sel, reload, r.specs[i].name) && r.specs[i].name !in r.faults
    requires Valid(Construct(r, i))
    requires res.Ok? <==> forall j :: i + 1 <= j < |r.specs| ==> !Fails(Construct(r, i), sel, reload, r.specs[j].name)
    requires res.Ok? ==> LoadsFrom(Construct(r, i), res.value, i + 1, sel, reload)
    requires res.Err? ==> RaisesFirst(Construct(r, i), sel, reload, i + 1, res.exc)
    ensures res.Ok? <==> forall j :: i <= j < |r.specs| ==> !Fails(r, sel, reload, r.specs[j].name)
    ensures res.Ok? ==> LoadsFrom(r, res.value, i, sel, reload)
    ensures res.Err? ==> RaisesFirst(r, sel, reload, i, res.exc)
  {
    ConstructKeepsFails(r, i, sel, reload);
    assert !Fails(r, sel, reload, r.specs[i].name);
    KeepsOk(r, Construct(r, i), i, sel, reload);
    if res.Ok? {
      LoadsFromConstruct(r, res.value, i, sel, reload);
    } else {
      RaisesFirstStep(r, Construct(r, i), i, sel, reload, res.exc);
    }
  }

  /** The skip branch of `LoadFrom`. */
  lemma LoadStepSkip(r: Runner, i: nat, sel: Selection, reload: bool, res: Result<Runner>)
    requires Valid(r) && i < |r.specs|
    requires r.specs[i].name in r.slots && !Due(r, sel, reload, r.specs[i].name)
    requires res.Ok? <==> forall j :: i + 1 <= j < |r.specs| ==> !Fails(r, sel, reload, r.specs[j].name)
    requires res.Ok? ==> LoadsFrom(r, res.value, i + 1, sel, reload)
    requires res.Err? ==> RaisesFirst(r, sel, reload, i + 1, res.exc)
    ensures res.Ok? <==> forall j :: i <= j < |r.specs| ==> !Fails(r, sel, reload, r.specs[j].name)
    ensures res.Ok? ==> LoadsFrom(r, res.value, i, sel, reload)
    ensures res.Err? ==> RaisesFirst(r, sel, reload, i, res.exc)
  {
    KeepsOk(r, r, i, sel, reload);
    if res.Ok? {
      LoadsFromSkip(r, res.value, i, sel, reload);
    } else {
      RaisesFirstStep(r, r, i, sel, reload, res.exc);
    }
  }

  /** `runner.load_processors(names, reload)`: nothing happens unless the
      runner is lazy or `reload` is set; then every selected slot that
      still holds a class is constructed, in declaration order, until a
      constructor raises. */
  function Load(r: Runner, sel: Selection, reload: bool): (res: Result<Runner>)
    requires Valid(r)
    ensures !(r.lazy || reload) ==> res == Ok(r)
    ensures res.Ok? <==> !(r.lazy || reload) || forall j :: 0 <= j < |r.specs| ==> !Fails(r, sel, reload, r.specs[j].name)
    ensures res.Err? ==> RaisesFirst(r, sel, reload, 0, res.exc)
    ensures res.Ok? ==> LoadFrame(r, res.value) && res.value.slots.Keys == r.slots.Keys
    ensures res.Ok? ==> forall n :: n in r.slots ==>
      if (r.lazy || reload) && Due(r, sel, reload, n) then Constructed(r, res.value, n)
      else res.value.slots[n] == r.slots[n]
    ensures res.Ok? && (forall n :: n in r.slots ==> !Due(r, sel, reload, n)) ==> res.value == r
  {
    if !(r.lazy || reload) then Ok(r)
    else
      assert NamesFrom(r.specs, 0) == Names(r.specs);
      LoadFrom(r, 0, sel, reload)
  }

  /** No selected slot is left holding a class. */
  predicate Settled(r: Runner, sel: Selection) {
    forall n :: n in r.slots && Selected(sel, n) ==> !IsClassObj(r.slots[n])
  }

  /** Loading leaves the selection settled, so a second load (with or
      without `reload`) changes nothing: a loaded slot holds an instance,
      which `inspect.isclass` rejects, so `reload=True` never rebuilds it. */
  lemma LoadIdempotent(r: Runner, sel: Selection, reload: bool, reload': bool)
    requires Valid(r) && (r.lazy || reload) && Load(r, sel, reload).Ok?
    ensures Settled(Load(r, sel, reload).value, sel)
    ensures Load(Load(r, sel, reload).value, sel, reload') == Load(r, sel, reload)
  {
    var r1 := Load(r, sel, reload).value;
    forall n | n in r1.slots && Selected(sel, n) ensures !IsClassObj(r1.slots[n]) {
      if Due(r, sel, reload, n) {
        assert Constructed(r, r1, n);
      }
    }
    if r1.lazy || reload' {
      assert NamesFrom(r1.specs, 0) == Names(r1.specs);
    }
  }

  /** The loop of `offload_processors` from the `i`-th declaration on. */
  function OffloadFrom(r: Runner, i: nat, sel: Selection): (r': Runner)
    requires Valid(r) && i <= |r.specs|
    ensures Valid(r') && r'.specs == r.specs && r'.lazy == r.lazy && r'.targets == r.targets
    ensures r'.slots.Keys == r.slots.Keys && r'.built == r.built && r'.faults == r.faults
    ensures forall n :: n in r.slots ==>
      r'.slots[n] == if n in NamesFrom(r.specs, i) && Selected(sel, n) then Unloaded(r.targets[n]) else r.slots[n]
    decreases |r.specs| - i
  {
    if i == |r.specs| then r
    else
      var p := r.specs[i];
      NamesFromStep(r.specs, i);
      if Selected(sel, p.name) then
        UnloadValid(r, p.name);
        OffloadFrom(Unload(r, p.name), i + 1, sel)
      else
        OffloadFrom(r, i + 1, sel)
  }

  /** Putting the imported object back into the slot of `name`. */
  function Unload(r: Runner, name: string): Runner
    requires name in r.targets
  {
    r.(slots := r.slots[name := Unloaded(r.targets[name])])
  }

  lemma UnloadValid(r: Runner, name: string)
    requires Valid(r) && name in r.slots
    ensures Valid(Unload(r, name))
  {
    var next := Unload(r, name);
    forall x | x in next.slots ensures SlotFits(next, next.specs, x) {
      if x != name { assert SlotFits(r, r.specs, x); }
    }
  }

  /** `runner.offload_processors(names)`: every selected slot holds its
      freshly imported object again (the import yields the same object as
      at declaration); the others are untouched. */
  function Offload(r: Runner, sel: Selection): (r': Runner)
    requires Valid(r)
    ensures Valid(r') && r'.specs == r.specs && r'.lazy == r.lazy && r'.targets == r.targets
    ensures r'.slots.Keys == r.slots.Keys && r'.built == r.built && r'.faults == r.faults
    ensures forall n :: n in r.slots ==>
      r'.slots[n] == if Selected(sel, n) then Unloaded(r.targets[n]) else r.slots[n]
  {
    assert NamesFrom(r.specs, 0) == Names(r.specs);
    OffloadFrom(r, 0, sel)
  }

  /** Loading the one slot `name` without `reload` fails exactly when the
      slot still holds a class whose constructor raises. */
  lemma FailsNamed(r: Runner, name: string)
    requires Valid(r) && name in r.slots
    ensures (forall j :: 0 <= j < |r.specs| ==> !Fails(r, Named([name]), false, r.specs[j].name))
            <==> !(IsClassObj(r.slots[name]) && name in r.faults)
  {
    var sel := Named([name]);
    forall j | 0 <= j < |r.specs| && r.specs[j].name != name ensures !Fails(r, sel, false, r.specs[j].name) {
      assert !Selected(sel, r.specs[j].name);
    }
    assert name in Names(r.specs);
    var j :| 0 <= j < |r.specs| && r.specs[j].name == name;
    assert Fails(r, sel, false, name) <==> IsClassObj(r.slots[name]) && name in r.faults;
  }

  /** Loading the one slot `name` without `reload` raises what its
      constructor raises, when it is constructed. */
  lemma LoadNamed(r: Runner, name: string)
    requires Valid(r) && name in r.slots
    ensures Load(r, Named([name]), false).Ok? <==> !(r.lazy && IsClassObj(r.slots[name]) && name in r.faults)
    ensures Load(r, Named([name]), false).Err? ==> name in r.faults && Load(r, Named([name]), false).exc == r.faults[name]
  {
    var sel := Named([name]);
    FailsNamed(r, name);
    var res := Load(r, sel, false);
    if res.Err? {
      RaisesNamed(r, name, res.exc);
    }
  }

  /** The first fault of a load of the one slot `name` is that slot's. */
  lemma RaisesNamed(r: Runner, name: string, e: Exc)
    requires RaisesFirst(r, Named([name]), false, 0, e)
    ensures name in r.faults && e == r.faults[name]
  {
    var sel := Named([name]);
    var j: nat :| 0 <= j < |r.specs| && FirstFault(r, sel, false, 0, j) && r.specs[j].name in r.faults && e == r.faults[r.specs[j].name];
    var n := r.specs[j].name;
    assert Selected(sel, n);
    assert n in [name];
    assert n == name;
  }

  /** `runner.resolve_dag_processor(name)`: the text before the first `.`
      names the processor, which must be declared; it is loaded (when the
      runner is lazy) and its object returned. A lazy runner whose slot
      still holds a class raises what that class's constructor raises. */
  function Resolve(r: Runner, reference: string): (res: Result<(Runner, Slot)>)
    requires Valid(r)
    ensures var name := Head(reference, '.');
      res.Ok? <==> name in r.slots && !(r.lazy && IsClassObj(r.slots[name]) && name in r.faults)
    ensures Head(reference, '.') !in Names(r.specs) ==> res.Err? && res.exc.AssertionError?
    ensures res.Err? && Head(reference, '.') in r.slots ==>
      Head(reference, '.') in r.faults && res.exc == r.faults[Head(reference, '.')]
    ensures res.Ok? ==> LoadFrame(r, res.value.0) && res.value.1 == res.value.0.slots[Head(reference, '.')]
  {
    var name := Head(reference, '.');
    if name !in r.slots then Err(AssertionError("Processor for dag " + reference + " is not declared"))
    else
      LoadNamed(r, name);
      var r' :- Load(r, Named([name]), false);
      Ok((r', r'.slots[name]))
  }

  /** Resolution touches only the named slot: a lazy runner constructs it
      when it still holds a class, and otherwise the runner is unchanged. */
  lemma ResolveLoads(r: Runner, reference: string)
    requires Valid(r) && Resolve(r, reference).Ok?
    ensures var (r', s) := Resolve(r, reference).value; var name := Head(reference, '.');
      && (forall n :: n in r.slots && n != name ==> r'.slots[n] == r.slots[n])
      && (r.lazy && IsClassObj(r.slots[name]) ==> Constructed(r, r', name))
      && (!(r.lazy && IsClassObj(r.slots[name])) ==> r' == r)
  {
    var name := Head(reference, '.');
    var sel := Named([name]);
    var r' := Load(r, sel, false).value;
    assert Resolve(r, reference).value.0 == r';
    assert forall n :: n in r.slots && n != name ==> !Due(r, sel, false, n);
    if !(r.lazy && IsClassObj(r.slots[name])) {
      assert !r.lazy || !Due(r, sel, false, name);
    }
  }

  /** `runner.run_dag(name, **kwargs)`: the resolved object is called with
      the keyword arguments; `invoke` is what that call does. */
  function RunDag(r: Runner, reference: string, kwargs: Fields, invoke: (Slot, Fields) -> Result<Json>): (res: Result<(Runner, Json)>)
    requires Valid(r)
    ensures Head(reference, '.') !in Names(r.specs) ==> res.Err? && res.exc.AssertionError?
    ensures res.Ok? ==> Resolve(r, reference).Ok? && res.value.0 == Resolve(r, reference).value.0
    ensures res.Ok? ==> Some(res.value.1) == invoke(Resolve(r, reference).value.1, kwargs).ToOption()
  {
    var (r', processor) :- Resolve(r, reference);
    var out :- invoke(processor, kwargs);
    Ok((r', out))
  }

  /** `runner.cleanup_dag(name)`: a lazy runner offloads the processor
      with exactly that name; an eager one does nothing. */
  function Cleanup(r: Runner, name: string): (r': Runner)
    requires Valid(r)
    ensures Valid(r') && r'.specs == r.specs && r'.lazy == r.lazy && r'.targets == r.targets && r'.slots.Keys == r.slots.Keys
    ensures r'.faults == r.faults
    ensures !r.lazy ==> r' == r
    ensures r.lazy ==> forall n :: n in r.slots ==> r'.slots[n] == if n == name then Unloaded(r.targets[n]) else r.slots[n]
  {
    if r.lazy then Offload(r, Named([name])) else r
  }

  /** A qualified reference `x.y` resolves to processor `x`, like `x`. */
  lemma ResolveQualified(r: Runner, x: string, y: string)
    requires Valid(r) && '.' !in x
    ensures Resolve(r, x + "." + y).Ok? == Resolve(r, x).Ok?
    ensures Resolve(r, x).Ok? ==> Resolve(r, x + "." + y).value == Resolve(r, x).value
  {
    HeadOfQualified(x, '.', y);
    assert x + "." + y == x + ['.'] + y;
    assert Head(x, '.') == x by { HeadOfWhole(x, '.'); }
  }

  lemma {:induction false} HeadOfWhole(s: string, c: char)
    requires c !in s
    ensures Head(s, c) == s
  {
    if |s| > 0 {
      assert s[0] in s;
      assert c !in s[1..] by { assert forall i :: 0 <= i < |s| - 1 ==> s[1..][i] == s[i + 1]; }
      HeadOfWhole(s[1..], c);
      assert s == [s[0]] + s[1..];
    }
  }

  /** Resolving again returns the same object and changes nothing: the
      first resolution settled the slot. */
  lemma ResolveTwice(r: Runner, reference: string)
    requires Valid(r) && Resolve(r, reference).Ok?
    ensures var (r1, s1) := Resolve(r, reference).value; Resolve(r1, reference) == Ok((r1, s1))
  {
    var (r1, s1) := Resolve(r, reference).value;
    var name := Head(reference, '.');
    ResolveLoads(r, reference);
    if r.lazy && IsClassObj(r.slots[name]) {
      assert Constructed(r, r1, name);
    }
    assert !(r1.lazy && IsClassObj(r1.slots[name]));
    ResolveLoads(r1, reference);
  }

  /** After a lazy runner drops a class processor, resolving it builds a
      new instance, distinct from every instance the runner held before. */
  lemma OffloadThenResolveIsFresh(r: Runner, name: string)
    requires Valid(r) && r.lazy && name in r.slots && r.targets[name].Class?
    ensures Resolve(Cleanup(r, name), name).Ok? <==> name !in r.faults
    ensures Resolve(Cleanup(r, name), name).Err? ==> name in r.faults && Resolve(Cleanup(r, name), name).exc == r.faults[name]
    ensures var r0 := Cleanup(r, name); Resolve(r0, name).Ok? ==>
      && Resolve(r0, name).value.1.Loaded?
      && Resolve(r0, name).value.1.instance.cls == r.targets[name]
      && forall n :: n in r.slots && r.slots[n].Loaded? ==>
           Resolve(r0, name).value.1.instance.serial != r.slots[n].instance.serial
  {
    var r0 := Cleanup(r, name);
    AllowedHaveNoDot(r, name);
    HeadOfWhole(name, '.');
    if name in r.faults { return; }
    var (r1, s) := Resolve(r0, name).value;
    ResolveLoads(r0, name);
    assert Constructed(r0, r1, name);
    forall n | n in r.slots && r.slots[n].Loaded? ensures s.instance.serial != r.slots[n].instance.serial {
      assert SlotFits(r, r.specs, n);
    }
  }

  /** Declared names are allowed names, none of which holds a `.`. */
  lemma AllowedHaveNoDot(r: Runner, name: string)
    requires Valid(r) && name in r.slots
    ensures '.' !in name && name in AllowedProcessors
  {
    var i :| 0 <= i < |r.specs| && r.specs[i].name == name;
    AllowedAreDotless();
  }

  lemma AllowedAreDotless()
    ensures forall a :: a in AllowedProcessors ==> '.' !in a
  {
    forall a | a in AllowedProcessors ensures '.' !in a {
      var i :| 0 <= i < |AllowedProcessors| && AllowedProcessors[i] == a;
      AllowedDotless(i);
    }
  }

  /** The `i`-th allowed name has no `.`. */
  lemma AllowedDotless(i: nat)
    requires i < |AllowedProcessors|
    ensures '.' !in AllowedProcessors[i]
  {
    if i < 3 { FirstDotless(i); }
    else if i < 6 { MiddleDotless(i); }
    else { LastDotless(i); }
  }

  lemma FirstDotless(i: nat)
    requires i < 3
    ensures '.' !in AllowedProcessors[i]
  {
  }

  lemma MiddleDotless(i: nat)
    requires 3 <= i < 6
    ensures '.' !in AllowedProcessors[i]
  {
  }

  lemma LastDotless(i: nat)
    requires 6 <= i < 9
    ensures '.' !in AllowedProcessors[i]
  {
  }

  /** `cleanup_dag` matches whole names only, so a qualified reference such
      as `superres.1` cleans up nothing even though it resolves. */
  lemma CleanupQualifiedIsNoop(r: Runner, reference: string)
    requires Valid(r) && '.' in reference
    ensures Cleanup(r, reference).slots == r.slots
  {
    forall n | n in r.slots ensures '.' !in n {
      AllowedHaveNoDot(r, n);
    }
  }

  /** A name outside the allow-list, such as `enhancement`, can never be
      declared, so every reference to it fails to resolve. */
  lemma UnlistedNeverResolves(r: Runner, reference: string)
    requires Valid(r) && Head(reference, '.') !in AllowedProcessors
    ensures Resolve(r, reference).Err? && Resolve(r, reference).exc.AssertionError?
  {
    forall n | n in r.slots ensures n in AllowedProcessors {
      AllowedHaveNoDot(r, n);
    }
  }
}

=== FILE: runners.dfy ===
/** The two recipes of `manager/runner.py`: `YoutubeRunner.__call__` and
    `ASR2TTSRunner.__call__`, each a fixed sequence of stage calls over one
    metadata dict.

    `settings.CACHE_DIR` is the parameter `cacheRoot` and `str(uuid4())`
    the parameter `uuid`. The final directory's creation, the chunk copies,
    the two JSON files and the removal of the scratch directory are not
    performed; the run's result names the paths they use.
 */
module Runners {
  import opened Wrappers
  import opened Text
  import opened Json
  import opened Paths
  import Registry
  import Audio
  import opened Pipelines

  /** `osp.join(settings.CACHE_DIR, "tmp", str(uuid4()))`. */
  function ScratchDir(cacheRoot: string, uuid: string): (d: string)
    ensures EndsWith(d, uuid)
    ensures !StartsWith(uuid, [Sep]) ==> IsUnder(d, Join(cacheRoot, "tmp"))
  {
    var tmp := Join(cacheRoot, "tmp");
    EndsWithLast(tmp, "tmp");
    if StartsWith(uuid, [Sep]) then Join(tmp, uuid)
    else JoinIsUnder(tmp, uuid); Join(tmp, uuid)
  }

  /** The keyword arguments of the VAD stage. */
  function VadArgs(audio: Json, cache: string): Fields {
    [("audio_path", audio), ("save_to_file", Bool(true)), ("save_dir", Str(Join(cache, Vad)))]
  }

  /** `a, b = x`: `x` must iterate to exactly two values. */
  function Unpack2(x: Json): (r: Result<(Json, Json)>)
    ensures x.List? && |x.items| == 2 ==> r == Ok((x.items[0], x.items[1]))
    ensures r.Ok? <==> Iterate(x).Ok? && |Iterate(x).value| == 2
    ensures r.Err? ==> (r.exc.ValueError? <==> Iterate(x).Ok?)
    ensures r.Err? && !Iterate(x).Ok? ==> r.exc.TypeError?
  {
    var items :- Iterate(x);
    :- Need(|items| == 2, ValueError("expected 2 values to unpack"));
    Ok((items[0], items[1]))
  }

  // ASR2TTSRunner.__call__

  /** The downloader's keyword arguments. */
  function DownloadArgs(fileMeta: Json, cache: string): Fields {
    [("metadata", fileMeta), ("save_dir", Str(cache))]
  }

  /** What the recipe makes of the downloader's answer: unpack
      `(metadata, status)` and set `success` to false; a false status stops
      the run, with the `AttributeError` that the misspelt `logger.erro`
      raises. */
  function Received(out: Json): (res: Result<Fields>)
    ensures res.Ok? ==> Unpack2(out).Ok? && Unpack2(out).value.0.Obj? && Truthy(Unpack2(out).value.1)
  {
    var (meta, status) :- Unpack2(out);
    :- Need(meta.Obj?, TypeError("object does not support item assignment"));
    var m := Put(meta.fields, "success", Bool(false));
    :- Need(Truthy(status), AttributeError("erro"));
    Ok(m)
  }

  /** A false status fails with `AttributeError`; a true one leaves
      `success` false and every other key of the downloaded dict as it
      was. */
  lemma ReceivedStatus(out: Json, fs: Fields, status: Json)
    requires Unpack2(out) == Ok((Obj(fs), status))
    ensures !Truthy(status) ==> Received(out) == Err(AttributeError("erro"))
    ensures Truthy(status) ==> Received(out).Ok?
    ensures Truthy(status) && UniqueKeys(fs) ==>
      var m := Received(out).value;
      && UniqueKeys(m) && Lookup(m, "success") == Some(Bool(false))
      && forall k :: k != "success" ==> Lookup(m, k) == Lookup(fs, k)
  {
    if UniqueKeys(fs) {
      LookupPutAll(fs, "success", Bool(false));
    }
  }

  /** Run the downloader, take its answer, and clean the stage up. */
  function Download(r: ValidRunner, fileMeta: Json, cache: string,
                    invoke: (Registry.Slot, Fields) -> Result<Json>): (res: Result<(ValidRunner, Fields)>)
    ensures res.Ok? <==>
      && RunStage(r, "downloader", DownloadArgs(fileMeta, cache), invoke).Ok?
      && Received(RunStage(r, "downloader", DownloadArgs(fileMeta, cache), invoke).value.1).Ok?
    ensures res.Ok? ==> res.value.1 == Received(RunStage(r, "downloader", DownloadArgs(fileMeta, cache), invoke).value.1).value
    ensures res.Ok? ==> res.value.0 == Registry.Cleanup(RunStage(r, "downloader", DownloadArgs(fileMeta, cache), invoke).value.0, "downloader")
  {
    var (r1, out) :- RunStage(r, "downloader", DownloadArgs(fileMeta, cache), invoke);
    var m :- Received(out);
    Ok((Registry.Cleanup(r1, "downloader"), m))
  }

  /** `convert2wav(metadata["audio"])`. */
  function WavPath(meta: Fields): (r: Result<string>)
    ensures r.Ok? ==> Lookup(meta, "audio").Some? && Lookup(meta, "audio").value.Str?
    ensures r.Ok? ==> Audio.Convert2Wav(Lookup(meta, "audio").value.s) == Ok(r.value)
    ensures !HasKey(meta, "audio") ==> r == Err(KeyError("audio"))
  {
    var audio :- Index(Obj(meta), "audio");
    :- Need(audio.Str?, TypeError("expected str, bytes or os.PathLike object"));
    Audio.Convert2Wav(audio.s)
  }

  /** Convert the downloaded audio to wav, store the new path under
      `audio`, and run the timed VAD stage on it. */
  function Transcode(r: ValidRunner, meta: Fields, cache: string, tick: nat,
                     invoke: (Registry.Slot, Fields) -> Result<Json>, now: nat -> real): (res: Result<Step>)
    ensures res.Ok? <==> WavPath(meta).Ok? && RunStage(r, Vad, VadArgs(Str(WavPath(meta).value), cache), invoke).Ok?
  {
    var wav :- WavPath(meta);
    TimedStage(Step(r, tick, Put(meta, "audio", Str(wav))), Vad, VadArgs(Str(wav), cache), invoke, now)
  }

  /** Everything before the first fan-out loop. */
  function Prepare(r: ValidRunner, fileMeta: Json, cache: string, tick: nat,
                   invoke: (Registry.Slot, Fields) -> Result<Json>, now: nat -> real): (res: Result<Step>)
    ensures res.Ok? ==> Download(r, fileMeta, cache, invoke).Ok? && WavPath(Download(r, fileMeta, cache, invoke).value.1).Ok?
    ensures res.Ok? ==> res.value.tick == tick + 2 && res.value.r.specs == r.specs && res.value.r.lazy == r.lazy
    ensures Download(r, fileMeta, cache, invoke).Err? ==> res == Err(Download(r, fileMeta, cache, invoke).exc)
    ensures Download(r, fileMeta, cache, invoke).Ok? && WavPath(Download(r, fileMeta, cache, invoke).value.1).Err? ==>
      res == Err(WavPath(Download(r, fileMeta, cache, invoke).value.1).exc)
  {
    var (r1, meta) :- Download(r, fileMeta, cache, invoke);
    Transcode(r1, meta, cache, tick, invoke, now)
  }

  /** `osp.join(cache_dir, "final", filename.replace(".", "_"))` for the
      last `/`-separated piece of `metadata["file"]`. */
  function FinalDir(meta: Fields, cache: string): (r: Result<string>)
    ensures r.Ok? <==> Lookup(meta, "file").Some? && Lookup(meta, "file").value.Str?
    ensures r.Ok? ==> r.value == Join(Join(cache, "final"), ReplaceAll(Basename(Lookup(meta, "file").value.s), ".", "_"))
  {
    var file :- Index(Obj(meta), "file");
    :- Need(file.Str?, AttributeError("split"));
    Ok(Join(Join(cache, "final"), ReplaceAll(Basename(file.s), ".", "_")))
  }

  /** `f"chunk_{v}.wav"`. */
  function ChunkFile(v: nat): string {
    "chunk_" + NatToString(v) + ".wav"
  }

  /** The keys a chunk's metadata keeps. */
  const ChunkKeys: seq<string> := ["start", "end", "duration"]

  /** The entries of `fs` whose key is in `keys`, in order. */
  function Keep(fs: Fields, keys: seq<string>): (r: Fields)
    ensures forall i :: 0 <= i < |r| ==> r[i] in fs && r[i].0 in keys
    ensures forall e :: e in fs && e.0 in keys ==> e in r
    decreases |fs|
  {
    if |fs| == 0 then []
    else (if fs[0].0 in keys then [fs[0]] else []) + Keep(fs[1..], keys)
  }

  /** `chunk_metadata`: per segment, its `start`/`end`/`duration` entries
      under the chunk's file name. */
  function Chunks(segs: seq<Json>): (r: Fields)
    ensures |r| == |segs|
  {
    seq(|segs|, v requires 0 <= v < |segs| =>
      (ChunkFile(v), Obj(if segs[v].Obj? then Keep(segs[v].fields, ChunkKeys) else [])))
  }

  /** The `shutil.copy` calls: per segment, the value it holds under
      `superres` (read from the updated segment), copied to the chunk's file
      in the final directory. */
  function Copies(segs: seq<Json>, dir: string): (r: seq<(Option<Json>, string)>)
    ensures |r| == |segs|
  {
    seq(|segs|, v requires 0 <= v < |segs| =>
      (if segs[v].Obj? then Lookup(segs[v].fields, "superres") else None, Join(dir, ChunkFile(v))))
  }

  /** `osp.join(save_dir, "graph.json")`. */
  function GraphFile(dir: string): string {
    Join(dir, "graph.json")
  }

  /** `osp.join(save_dir, "metadata.json")`. */
  function ChunkIndexFile(dir: string): string {
    Join(dir, "metadata.json")
  }

  /** What an ASR run leaves: the final step, the final directory, the
      copies, the chunk metadata, the directory `rmtree` removes, and the
      records of the enhancement and superres loops. */
  datatype AsrRun = AsrRun(step: Step, finalDir: string, copies: seq<(Option<Json>, string)>, chunks: Fields,
                           removed: string, enhance: Fan<ValidRunner>, superres: Fan<ValidRunner>)

  /** The superres loop and the bookkeeping after it, from the step the
      enhancement loop left: the final directory, the copies, the chunk
      metadata and `success`. */
  function Superres(s3: Step, enh: Fan<ValidRunner>, cache: string,
                    invoke: (Registry.Slot, Fields) -> Result<Json>, now: nat -> real): (res: Result<AsrRun>)
    ensures res.Ok? ==> res.value.removed == cache && res.value.enhance == enh
    ensures res.Ok? ==> |res.value.copies| == |res.value.chunks| == |res.value.superres.segs|
    ensures res.Ok? ==> Shaped(res.value.superres, |res.value.superres.segs|)
    ensures res.Ok? ==> FinalDir(s3.meta, cache) == Ok(res.value.finalDir)
    ensures res.Ok? ==> res.value.copies == Copies(res.value.superres.segs, res.value.finalDir)
    ensures res.Ok? <==>
      FinalDir(s3.meta, cache).Ok? && Loop(s3, "superres", "superres", "superres_proc_time", cache, FromEnhancement, invoke, now).Ok?
  {
    var dir :- FinalDir(s3.meta, cache);
    var (s4, sr) :- Loop(s3, "superres", "superres", "superres_proc_time", cache, FromEnhancement, invoke, now);
    Ok(AsrRun(Step(s4.r, s4.tick, Put(s4.meta, "success", Bool(true))), dir, Copies(sr.segs, dir), Chunks(sr.segs),
              cache, enh, sr))
  }

  /** Both loops, from the step the VAD stage left; the enhancement loop
      calls processor `enhancer` and stores its result under
      `enhancement`. */
  function Enhance(enhancer: string, s2: Step, cache: string,
                   invoke: (Registry.Slot, Fields) -> Result<Json>, now: nat -> real): (res: Result<AsrRun>)
    ensures res.Ok? ==> res.value.removed == cache
    ensures res.Ok? ==> |res.value.copies| == |res.value.chunks| == |res.value.superres.segs|
    ensures res.Ok? ==> Shaped(res.value.enhance, |res.value.enhance.segs|)
    ensures res.Ok? ==> Shaped(res.value.superres, |res.value.superres.segs|)
    ensures res.Ok? <==>
      var l := Loop(s2, enhancer, "enhancement", "enhancement_proc_time", cache, FromFilepath, invoke, now);
      l.Ok? && Superres(l.value.0, l.value.1, cache, invoke, now).Ok?
  {
    var (s3, enh) :- Loop(s2, enhancer, "enhancement", "enhancement_proc_time", cache, FromFilepath, invoke, now);
    Superres(s3, enh, cache, invoke, now)
  }

  /** The ASR recipe with the enhancement loop calling processor
      `enhancer`. */
  function Asr2TtsWith(enhancer: string, r: ValidRunner, fileMeta: Json, cacheRoot: string, uuid: string, tick: nat,
                       invoke: (Registry.Slot, Fields) -> Result<Json>, now: nat -> real): (res: Result<AsrRun>)
    ensures res.Ok? ==> Prepare(r, fileMeta, ScratchDir(cacheRoot, uuid), tick, invoke, now).Ok?
    ensures res.Ok? ==> res.value.removed == ScratchDir(cacheRoot, uuid)
    ensures res.Ok? ==> |res.value.copies| == |res.value.chunks| == |res.value.superres.segs|
    ensures res.Ok? ==> Shaped(res.value.enhance, |res.value.enhance.segs|)
    ensures res.Ok? ==> Shaped(res.value.superres, |res.value.superres.segs|)
    ensures res.Ok? <==>
      var p := Prepare(r, fileMeta, ScratchDir(cacheRoot, uuid), tick, invoke, now);
      p.Ok? && Enhance(enhancer, p.value, ScratchDir(cacheRoot, uuid), invoke, now).Ok?
  {
    var cache := ScratchDir(cacheRoot, uuid);
    var s2 :- Prepare(r, fileMeta, cache, tick, invoke, now);
    Enhance(enhancer, s2, cache, invoke, now)
  }

  /** `ASR2TTSRunner.__call__` as written: the enhancement loop asks for
      processor `enhancement`. */
  function Asr2Tts(r: ValidRunner, fileMeta: Json, cacheRoot: string, uuid: string, tick: nat,
                   invoke: (Registry.Slot, Fields) -> Result<Json>, now: nat -> real): (res: Result<AsrRun>)
    ensures res.Ok? ==> res.value.removed == ScratchDir(cacheRoot, uuid)
    ensures res.Ok? ==> res.value.enhance.segs == [] && res.value.superres.segs == [] && res.value.copies == [] && res.value.chunks == []
  {
    var res := Asr2TtsWith("enhancement", r, fileMeta, cacheRoot, uuid, tick, invoke, now);
    if res.Ok? then
      AsWrittenYieldsNoChunks(r, fileMeta, cacheRoot, uuid, tick, invoke, now);
      res
    else res
  }

  /** The ASR recipe with the enhancement loop calling the registered
      `denoise_audio` processor, as the YouTube recipe does. */
  function Asr2TtsIntended(r: ValidRunner, fileMeta: Json, cacheRoot: string, uuid: string, tick: nat,
                           invoke: (Registry.Slot, Fields) -> Result<Json>, now: nat -> real): (res: Result<AsrRun>)
    ensures res.Ok? ==> Prepare(r, fileMeta, ScratchDir(cacheRoot, uuid), tick, invoke, now).Ok?
    ensures res.Ok? ==> res.value.removed == ScratchDir(cacheRoot, uuid)
    ensures res.Ok? ==> |res.value.copies| == |res.value.chunks| == |res.value.superres.segs|
  {
    Asr2TtsWith("denoise_audio", r, fileMeta, cacheRoot, uuid, tick, invoke, now)
  }

  /** A download whose status is false ends the run with the
      `AttributeError` of `logger.erro`, whatever the later stages would
      do: no later stage runs. */
  lemma FailedDownloadRaises(enhancer: string, r: ValidRunner, fileMeta: Json, cacheRoot: string, uuid: string, tick: nat,
                             invoke: (Registry.Slot, Fields) -> Result<Json>, now: nat -> real, fs: Fields, status: Json)
    requires var dl := RunStage(r, "downloader", DownloadArgs(fileMeta, ScratchDir(cacheRoot, uuid)), invoke);
      dl.Ok? && Unpack2(dl.value.1) == Ok((Obj(fs), status)) && !Truthy(status)
    ensures Asr2TtsWith(enhancer, r, fileMeta, cacheRoot, uuid, tick, invoke, now) == Err(AttributeError("erro"))
  {
    var dl := RunStage(r, "downloader", DownloadArgs(fileMeta, ScratchDir(cacheRoot, uuid)), invoke);
    ReceivedStatus(dl.value.1, fs, status);
  }

  /** `enhancement` is not an allowed processor name. */
  lemma EnhancementUnlisted()
    ensures Head("enhancement", '.') !in Registry.AllowedProcessors
  {
    Registry.HeadOfWhole("enhancement", '.');
    if "enhancement" in Registry.AllowedProcessors {
      var i :| 0 <= i < |Registry.AllowedProcessors| && Registry.AllowedProcessors[i] == "enhancement";
      AllowedLength(i);
      assert false;
    }
  }

  /** No allowed name is as long as `enhancement`. */
  lemma AllowedLength(i: nat)
    requires i < |Registry.AllowedProcessors|
    ensures |Registry.AllowedProcessors[i]| != 11
  {
    if i == 0 {} else if i == 1 {} else if i == 2 {} else if i == 3 {} else if i == 4 {}
    else if i == 5 {} else if i == 6 {} else if i == 7 {} else {}
  }

  /** As written, the ASR recipe can only succeed when the VAD stage found
      no segment: every enhancement call fails to resolve, so a run never
      produces a chunk. */
  lemma AsWrittenYieldsNoChunks(r: ValidRunner, fileMeta: Json, cacheRoot: string, uuid: string, tick: nat,
                                invoke: (Registry.Slot, Fields) -> Result<Json>, now: nat -> real)
    requires Asr2TtsWith("enhancement", r, fileMeta, cacheRoot, uuid, tick, invoke, now).Ok?
    ensures var run := Asr2TtsWith("enhancement", r, fileMeta, cacheRoot, uuid, tick, invoke, now).value;
      run.enhance.segs == [] && run.superres.segs == [] && run.copies == [] && run.chunks == []
  {
    var cache := ScratchDir(cacheRoot, uuid);
    EnhanceYieldsNoChunks(Prepare(r, fileMeta, cache, tick, invoke, now).value, cache, invoke, now);
  }

  /** The loop half of `AsWrittenYieldsNoChunks`. */
  lemma EnhanceYieldsNoChunks(s2: Step, cache: string, invoke: (Registry.Slot, Fields) -> Result<Json>, now: nat -> real)
    requires Enhance("enhancement", s2, cache, invoke, now).Ok?
    ensures var run := Enhance("enhancement", s2, cache, invoke, now).value;
      run.enhance.segs == [] && run.superres.segs == [] && run.copies == [] && run.chunks == []
  {
    EnhancementUnlisted();
    LoopUnlistedStage(s2, "enhancement", "enhancement", "enhancement_proc_time", cache, FromFilepath, invoke, now);
    LoopEmptyStaysEmpty(s2, "enhancement", "enhancement", "enhancement_proc_time", cache, FromFilepath, invoke, now);
  }

  /** As written, a VAD result with a first segment whose `filepath` can be
      read makes the ASR recipe fail at resolution. */
  lemma AsWrittenFailsOnSegments(r: ValidRunner, fileMeta: Json, cacheRoot: string, uuid: string, tick: nat,
                                 invoke: (Registry.Slot, Fields) -> Result<Json>, now: nat -> real)
    requires var p := Prepare(r, fileMeta, ScratchDir(cacheRoot, uuid), tick, invoke, now);
      && p.Ok? && Segments(p.value.meta).Ok? && |Segments(p.value.meta).value| > 0
      && SegArgs(Segments(p.value.meta).value[0], "enhancement", ScratchDir(cacheRoot, uuid), FromFilepath).Ok?
    ensures Asr2Tts(r, fileMeta, cacheRoot, uuid, tick, invoke, now).Err?
    ensures Asr2Tts(r, fileMeta, cacheRoot, uuid, tick, invoke, now).exc.AssertionError?
  {
    var cache := ScratchDir(cacheRoot, uuid);
    var s2 := Prepare(r, fileMeta, cache, tick, invoke, now).value;
    EnhancementUnlisted();
    LoopUnlistedStage(s2, "enhancement", "enhancement", "enhancement_proc_time", cache, FromFilepath, invoke, now);
  }

  /** On a dict with distinct keys, the transcode step stores the wav path
      under `audio`, the VAD result under its stage name, and keeps the
      keys distinct. */
  lemma TranscodeStores(r: ValidRunner, meta: Fields, cache: string, tick: nat,
                        invoke: (Registry.Slot, Fields) -> Result<Json>, now: nat -> real)
    requires UniqueKeys(meta) && Transcode(r, meta, cache, tick, invoke, now).Ok?
    ensures var wav := WavPath(meta).value;
      var m := Transcode(r, meta, cache, tick, invoke, now).value.meta;
      && UniqueKeys(m)
      && Lookup(m, "audio") == Some(Str(wav))
      && Lookup(m, Vad) == Some(RunStage(r, Vad, VadArgs(Str(wav), cache), invoke).value.1)
  {
    var wav := WavPath(meta).value;
    LookupPutAll(meta, "audio", Str(wav));
    var s1 := Step(r, tick, Put(meta, "audio", Str(wav)));
    TimedStageStores(s1, Vad, VadArgs(Str(wav), cache), invoke, now);
    var m := TimedStage(s1, Vad, VadArgs(Str(wav), cache), invoke, now).value.meta;
    assert m == Transcode(r, meta, cache, tick, invoke, now).value.meta;
    assert "audio" != Vad && "audio" != Vad + "_proc_time" by {
      assert |"audio"| < |Vad| < |Vad + "_proc_time"|;
    }
    assert Lookup(m, "audio") == Lookup(s1.meta, "audio");
  }

  /** The superres step reports `success` as true, on a dict that keeps
      distinct keys. */
  lemma SuperresSucceeds(s3: Step, enh: Fan<ValidRunner>, cache: string,
                         invoke: (Registry.Slot, Fields) -> Result<Json>, now: nat -> real)
    requires UniqueKeys(s3.meta) && Superres(s3, enh, cache, invoke, now).Ok?
    ensures var m := Superres(s3, enh, cache, invoke, now).value.step.meta;
      UniqueKeys(m) && Lookup(m, "success") == Some(Bool(true))
  {
    LoopKeepsUnique(s3, "superres", "superres", "superres_proc_time", cache, FromEnhancement, invoke, now);
    var s4 := Loop(s3, "superres", "superres", "superres_proc_time", cache, FromEnhancement, invoke, now).value.0;
    LookupPut(s4.meta, "success", Bool(true), "success");
  }

  lemma EnhanceSucceeds(enhancer: string, s2: Step, cache: string,
                        invoke: (Registry.Slot, Fields) -> Result<Json>, now: nat -> real)
    requires UniqueKeys(s2.meta) && Enhance(enhancer, s2, cache, invoke, now).Ok?
    ensures var m := Enhance(enhancer, s2, cache, invoke, now).value.step.meta;
      UniqueKeys(m) && Lookup(m, "success") == Some(Bool(true))
  {
    LoopKeepsUnique(s2, enhancer, "enhancement", "enhancement_proc_time", cache, FromFilepath, invoke, now);
    var (s3, enh) := Loop(s2, enhancer, "enhancement", "enhancement_proc_time", cache, FromFilepath, invoke, now).value;
    SuperresSucceeds(s3, enh, cache, invoke, now);
  }

  /** A run that completes reports `success` as true, and the dict it
      reports keeps distinct keys, when the downloaded dict had them. */
  lemma CompletedRunSucceeds(enhancer: string, r: ValidRunner, fileMeta: Json, cacheRoot: string, uuid: string, tick: nat,
                             invoke: (Registry.Slot, Fields) -> Result<Json>, now: nat -> real, fs: Fields, status: Json)
    requires var dl := RunStage(r, "downloader", DownloadArgs(fileMeta, ScratchDir(cacheRoot, uuid)), invoke);
      dl.Ok? && Unpack2(dl.value.1) == Ok((Obj(fs), status)) && UniqueKeys(fs)
    requires Asr2TtsWith(enhancer, r, fileMeta, cacheRoot, uuid, tick, invoke, now).Ok?
    ensures var m := Asr2TtsWith(enhancer, r, fileMeta, cacheRoot, uuid, tick, invoke, now).value.step.meta;
      UniqueKeys(m) && Lookup(m, "success") == Some(Bool(true))
  {
    var cache := ScratchDir(cacheRoot, uuid);
    var dl := RunStage(r, "downloader", DownloadArgs(fileMeta, cache), invoke);
    ReceivedStatus(dl.value.1, fs, status);
    var (r1, m1) := Download(r, fileMeta, cache, invoke).value;
    TranscodeStores(r1, m1, cache, tick, invoke, now);
    EnhanceSucceeds(enhancer, Prepare(r, fileMeta, cache, tick, invoke, now).value, cache, invoke, now);
  }

  /** The scratch directory is a nonempty path without a trailing
      separator when the uuid is a nonempty separator-free name. */
  lemma ScratchDirShape(cacheRoot: string, uuid: string)
    requires uuid != "" && Sep !in uuid
    ensures var cache := ScratchDir(cacheRoot, uuid); cache != "" && cache[|cache| - 1] != Sep
  {
    var cache := ScratchDir(cacheRoot, uuid);
    assert EndsWith(cache, uuid);
    assert uuid[|uuid| - 1] in uuid;
    EndsWithLast(cache, uuid);
  }

  /** The final directory lies inside the scratch directory. */
  lemma FinalDirUnder(meta: Fields, cache: string)
    requires cache != "" && cache[|cache| - 1] != Sep && FinalDir(meta, cache).Ok?
    ensures IsUnder(FinalDir(meta, cache).value, cache)
  {
    var name := ReplaceAll(Basename(Lookup(meta, "file").value.s), ".", "_");
    JoinIsUnder(cache, "final");
    UnderJoin(Join(cache, "final"), cache, name);
  }

  /** Every file the run writes into the final directory lies inside the
      scratch directory. */
  lemma OutputsUnder(dir: string, cache: string, segs: seq<Json>)
    requires IsUnder(dir, cache)
    ensures IsUnder(GraphFile(dir), cache) && IsUnder(ChunkIndexFile(dir), cache)
    ensures forall v :: 0 <= v < |segs| ==> IsUnder(Copies(segs, dir)[v].1, cache)
  {
    assert "graph.json"[0] == 'g' && "metadata.json"[0] == 'm';
    UnderJoin(dir, cache, "graph.json");
    UnderJoin(dir, cache, "metadata.json");
    forall v | 0 <= v < |segs|
      ensures IsUnder(Copies(segs, dir)[v].1, cache)
    {
      assert ChunkFile(v)[0] == 'c';
      UnderJoin(dir, cache, ChunkFile(v));
    }
  }

  /** The superres step writes only inside the directory it removes. */
  lemma SuperresOutputsRemoved(s3: Step, enh: Fan<ValidRunner>, cache: string,
                               invoke: (Registry.Slot, Fields) -> Result<Json>, now: nat -> real)
    requires cache != "" && cache[|cache| - 1] != Sep && Superres(s3, enh, cache, invoke, now).Ok?
    ensures var run := Superres(s3, enh, cache, invoke, now).value;
      && IsUnder(run.finalDir, run.removed)
      && IsUnder(GraphFile(run.finalDir), run.removed) && IsUnder(ChunkIndexFile(run.finalDir), run.removed)
      && forall v :: 0 <= v < |run.copies| ==> IsUnder(run.copies[v].1, run.removed)
  {
    var run := Superres(s3, enh, cache, invoke, now).value;
    FinalDirUnder(s3.meta, cache);
    OutputsUnder(run.finalDir, cache, run.superres.segs);
  }

  /** An ASR run writes the final directory, the two JSON files and every
      chunk copy inside the scratch directory that `rmtree` removes at the
      end. */
  lemma AsrOutputsRemoved(enhancer: string, r: ValidRunner, fileMeta: Json, cacheRoot: string, uuid: string, tick: nat,
                          invoke: (Registry.Slot, Fields) -> Result<Json>, now: nat -> real)
    requires uuid != "" && Sep !in uuid
    requires Asr2TtsWith(enhancer, r, fileMeta, cacheRoot, uuid, tick, invoke, now).Ok?
    ensures var run := Asr2TtsWith(enhancer, r, fileMeta, cacheRoot, uuid, tick, invoke, now).value;
      && IsUnder(run.finalDir, run.removed)
      && IsUnder(GraphFile(run.finalDir), run.removed) && IsUnder(ChunkIndexFile(run.finalDir), run.removed)
      && forall v :: 0 <= v < |run.copies| ==> IsUnder(run.copies[v].1, run.removed)
  {
    var cache := ScratchDir(cacheRoot, uuid);
    ScratchDirShape(cacheRoot, uuid);
    var s2 := Prepare(r, fileMeta, cache, tick, invoke, now).value;
    var (s3, enh) := Loop(s2, enhancer, "enhancement", "enhancement_proc_time", cache, FromFilepath, invoke, now).value;
    SuperresOutputsRemoved(s3, enh, cache, invoke, now);
  }

  /** The VAD result can be read as segments, each a dict with distinct
      keys, as a JSON-decoded VAD result is. */
  predicate SegmentOk(meta: Fields) {
    Segments(meta).Ok? && forall v :: 0 <= v < |Segments(meta).value| ==>
      Segments(meta).value[v].Obj? && UniqueKeys(Segments(meta).value[v].fields)
  }

  /** `SegmentOk`, with the segments held as a list directly under the VAD
      result, so that a loop's updates reach the dict. */
  predicate SegmentDicts(meta: Fields) {
    ListedSegments(meta) && SegmentOk(meta)
  }

  /** A chunk's metadata holds exactly the segment's entries for the kept
      keys. */
  lemma {:induction false} LookupKeep(fs: Fields, keys: seq<string>, k: string)
    ensures Lookup(Keep(fs, keys), k) == if k in keys then Lookup(fs, k) else None
    decreases |fs|
  {
    if |fs| > 0 {
      var x, rest := fs[0], fs[1..];
      var t := Keep(rest, keys);
      LookupKeep(rest, keys, k);
      assert fs == [x] + rest;
      LookupCons(x, rest, k);
      assert HasKey(t, k) <==> k in keys && HasKey(rest, k);
      if x.0 in keys {
        assert Keep(fs, keys) == [x] + t;
        LookupCons(x, t, k);
      } else {
        assert Keep(fs, keys) == t;
      }
    }
  }

  /** Storing a key that is not kept changes nothing that is kept. */
  lemma {:induction false} KeepPutOther(fs: Fields, k: string, v: Json, keys: seq<string>)
    requires k !in keys
    ensures Keep(Put(fs, k, v), keys) == Keep(fs, keys)
    decreases |fs|
  {
    if |fs| > 0 && fs[0].0 != k {
      var p := Put(fs, k, v);
      assert p[1..] == Put(fs[1..], k, v);
      KeepPutOther(fs[1..], k, v, keys);
    } else if |fs| > 0 {
      assert Put(fs, k, v)[1..] == fs[1..];
    }
  }

  /** Distinct segment indices have distinct chunk files. */
  lemma ChunkFileInjective(a: nat, b: nat)
    requires ChunkFile(a) == ChunkFile(b)
    ensures a == b
  {
    NameCancel("chunk_", NatToString(a), NatToString(b), ".wav");
    NatToStringInjective(a, b);
  }

  /** The chunk metadata has one entry per chunk file. */
  lemma ChunksUnique(segs: seq<Json>)
    ensures UniqueKeys(Chunks(segs))
  {
    forall i, j | 0 <= i < j < |segs|
      ensures Chunks(segs)[i].0 != Chunks(segs)[j].0
    {
      if ChunkFile(i) == ChunkFile(j) {
        ChunkFileInjective(i, j);
      }
    }
  }

  /** A VAD segment records its end under `stop`, which the chunk entry
      does not keep: the entry holds the segment's `start` and `duration`
      and nothing under `stop`. */
  lemma ChunkEntryDropsStop(fs: Fields)
    ensures Lookup(Keep(fs, ChunkKeys), "start") == Lookup(fs, "start")
    ensures Lookup(Keep(fs, ChunkKeys), "duration") == Lookup(fs, "duration")
    ensures Lookup(Keep(fs, ChunkKeys), StopKey) == None
  {
    LookupKeep(fs, ChunkKeys, "start");
    LookupKeep(fs, ChunkKeys, "duration");
    LookupKeep(fs, ChunkKeys, StopKey);
    StopNotKept();
  }

  /** The key VAD records a segment's end under. */
  const StopKey: string := "stop"

  /** `stop` is not among the kept chunk keys. */
  lemma StopNotKept()
    ensures StopKey !in ChunkKeys
  {
    assert StopKey[2] != ChunkKeys[0][2] && |StopKey| != |ChunkKeys[1]| && |StopKey| != |ChunkKeys[2]|;
  }

  /** A merged superres segment holds the stage's result, and its kept
      entries are those of the segment before the merge. */
  lemma SuperresMerged(va: Json, out: Json, proc: real)
    requires va.Obj? && UniqueKeys(va.fields)
    ensures var m := Merge(va, "superres", "superres_proc_time", out, proc);
      && Lookup(m.fields, "superres") == Some(out)
      && Keep(m.fields, ChunkKeys) == Keep(va.fields, ChunkKeys)
  {
    assert |"superres"| < |"superres_proc_time"|;
    MergeStores(va, "superres", "superres_proc_time", out, proc);
    assert "superres" !in ChunkKeys && "superres_proc_time" !in ChunkKeys;
    KeepPutOther(va.fields, "superres", out, ChunkKeys);
    KeepPutOther(Put(va.fields, "superres", out), "superres_proc_time", Num(proc), ChunkKeys);
  }

  /** Segment `v`'s copy takes the superres result to `chunk_<v>.wav` in
      the final directory, and its chunk entry holds the segment's
      `start`, `end` and `duration`; the chunk entries have distinct
      names. */
  lemma SuperresChunks(s3: Step, enh: Fan<ValidRunner>, cache: string,
                       invoke: (Registry.Slot, Fields) -> Result<Json>, now: nat -> real)
    requires Superres(s3, enh, cache, invoke, now).Ok?
    requires SegmentOk(s3.meta)
    ensures var run := Superres(s3, enh, cache, invoke, now).value;
      var segs := Segments(s3.meta).value;
      && |run.copies| == |segs|
      && UniqueKeys(run.chunks)
      && forall v :: 0 <= v < |segs| ==>
           && run.copies[v] == (Some(run.superres.outs[v]), Join(run.finalDir, ChunkFile(v)))
           && run.chunks[v] == (ChunkFile(v), Obj(Keep(segs[v].fields, ChunkKeys)))
  {
    var run := Superres(s3, enh, cache, invoke, now).value;
    var segs := Segments(s3.meta).value;
    var f := run.superres;
    LoopCalls(s3, "superres", "superres", "superres_proc_time", cache, FromEnhancement, invoke, now);
    ChunksUnique(f.segs);
    forall v | 0 <= v < |segs|
      ensures && run.copies[v] == (Some(f.outs[v]), Join(run.finalDir, ChunkFile(v)))
              && run.chunks[v] == (ChunkFile(v), Obj(Keep(segs[v].fields, ChunkKeys)))
    {
      SuperresMerged(segs[v], f.outs[v], f.times[v]);
    }
  }

  /** A segment's `filepath` text, or "" when it has none. */
  function Filepath(va: Json): string {
    match va
    case Obj(fs) => (match Lookup(fs, "filepath") case Some(Str(p)) => p case _ => "")
    case _ => ""
  }

  /** After the enhancement loop merged its result into a segment with
      distinct keys, the superres loop reads that result as its input and
      the segment's unchanged `filepath` for its directory. */
  lemma EnhancedSegment(va: Json, out: Json, proc: real, cache: string)
    requires va.Obj? && UniqueKeys(va.fields)
    requires Lookup(va.fields, "filepath").Some? && Lookup(va.fields, "filepath").value.Str?
    ensures var m := Merge(va, "enhancement", "enhancement_proc_time", out, proc);
      SegArgs(m, "superres", cache, FromEnhancement)
        == Ok([("audio_path", out), ("save_dir", Str(StageDir(cache, "superres", Filepath(va))))])
  {
    var m := Merge(va, "enhancement", "enhancement_proc_time", out, proc);
    EnhancedLookups(va.fields, out, proc);
    var fp := Lookup(va.fields, "filepath").value;
    assert fp == Str(Filepath(va));
    SuperresArgs(m, out, Filepath(va), cache);
  }

  /** A segment merged by the enhancement loop holds the result under
      `enhancement` and keeps its `filepath`. */
  lemma EnhancedLookups(fs: Fields, out: Json, proc: real)
    requires UniqueKeys(fs)
    ensures var m := Merge(Obj(fs), "enhancement", "enhancement_proc_time", out, proc).fields;
      Lookup(m, "enhancement") == Some(out) && Lookup(m, "filepath") == Lookup(fs, "filepath")
  {
    var p := Put(fs, "enhancement", out);
    assert |"enhancement"| < |"enhancement_proc_time"|;
    assert |"filepath"| < |"enhancement"| < |"enhancement_proc_time"|;
    LookupPut(fs, "enhancement", out, "enhancement");
    LookupPutOther(p, "enhancement_proc_time", Num(proc), "enhancement");
    LookupPutOther(fs, "enhancement", out, "filepath");
    LookupPutOther(p, "enhancement_proc_time", Num(proc), "filepath");
  }

  /** The superres arguments of a segment holding an enhanced file. */
  lemma SuperresArgs(m: Json, out: Json, fp: string, cache: string)
    requires m.Obj? && Lookup(m.fields, "enhancement") == Some(out) && Lookup(m.fields, "filepath") == Some(Str(fp))
    ensures SegArgs(m, "superres", cache, FromEnhancement)
              == Ok([("audio_path", out), ("save_dir", Str(StageDir(cache, "superres", fp)))])
  {
    assert Index(m, "enhancement") == Ok(out);
    assert Index(m, "filepath") == Ok(Str(fp));
    var r := SegArgs(m, "superres", cache, FromEnhancement);
    assert r.Ok?;
    var d := StageDir(cache, "superres", fp);
    assert r.value[0] == ("audio_path", out);
    assert |r.value| == 2;
    assert r.value[1] == ("save_dir", Str(d));
  }

  /** When the VAD result keeps its segments as a list of dicts with
      distinct keys, superres call `v` takes the audio that enhancement
      call `v` returned, and both loops visit every segment. */
  lemma EnhanceChains(enhancer: string, s2: Step, cache: string,
                      invoke: (Registry.Slot, Fields) -> Result<Json>, now: nat -> real)
    requires SegmentDicts(s2.meta) && Enhance(enhancer, s2, cache, invoke, now).Ok?
    ensures var run := Enhance(enhancer, s2, cache, invoke, now).value;
      var segs := Segments(s2.meta).value;
      && |run.enhance.segs| == |segs| && |run.superres.segs| == |segs|
      && forall v :: 0 <= v < |segs| ==>
           run.superres.calls[v]
             == [("audio_path", run.enhance.outs[v]), ("save_dir", Str(StageDir(cache, "superres", Filepath(segs[v]))))]
  {
    var segs := Segments(s2.meta).value;
    var (s3, enh) := Loop(s2, enhancer, "enhancement", "enhancement_proc_time", cache, FromFilepath, invoke, now).value;
    var sr := Loop(s3, "superres", "superres", "superres_proc_time", cache, FromEnhancement, invoke, now).value.1;
    assert Enhance(enhancer, s2, cache, invoke, now).value.superres == sr;
    LoopCalls(s2, enhancer, "enhancement", "enhancement_proc_time", cache, FromFilepath, invoke, now);
    LoopStores(s2, enhancer, "enhancement", "enhancement_proc_time", cache, FromFilepath, invoke, now);
    LoopCalls(s3, "superres", "superres", "superres_proc_time", cache, FromEnhancement, invoke, now);
    assert Segments(s3.meta).value == enh.segs;
    forall v | 0 <= v < |segs|
      ensures sr.calls[v] == [("audio_path", enh.outs[v]), ("save_dir", Str(StageDir(cache, "superres", Filepath(segs[v]))))]
    {
      ChainAt(segs, enh.segs, enh.outs, enh.times, sr.calls, v, cache);
    }
  }

  /** `EnhancedSegment` at one index of the two loops. */
  lemma ChainAt(segs: seq<Json>, merged: seq<Json>, outs: seq<Json>, times: seq<real>, calls: seq<Fields>, v: nat,
                cache: string)
    requires v < |segs| == |merged| && v < |outs| && v < |times| && v < |calls|
    requires segs[v].Obj? && UniqueKeys(segs[v].fields) && SegArgs(segs[v], "enhancement", cache, FromFilepath).Ok?
    requires merged[v] == Merge(segs[v], "enhancement", "enhancement_proc_time", outs[v], times[v])
    requires SegArgs(merged[v], "superres", cache, FromEnhancement) == Ok(calls[v])
    ensures calls[v] == [("audio_path", outs[v]), ("save_dir", Str(StageDir(cache, "superres", Filepath(segs[v]))))]
  {
    EnhancedSegment(segs[v], outs[v], times[v], cache);
  }

  /** With the registered `denoise_audio` processor in the enhancement
      loop, every segment the VAD stage found is enhanced, its enhanced
      audio is what superres receives, and it is copied out as one chunk. */
  lemma AsrIntendedChains(r: ValidRunner, fileMeta: Json, cacheRoot: string, uuid: string, tick: nat,
                          invoke: (Registry.Slot, Fields) -> Result<Json>, now: nat -> real)
    requires var p := Prepare(r, fileMeta, ScratchDir(cacheRoot, uuid), tick, invoke, now);
      p.Ok? && SegmentDicts(p.value.meta)
    requires Asr2TtsIntended(r, fileMeta, cacheRoot, uuid, tick, invoke, now).Ok?
    ensures var cache := ScratchDir(cacheRoot, uuid);
      var segs := Segments(Prepare(r, fileMeta, cache, tick, invoke, now).value.meta).value;
      var run := Asr2TtsIntended(r, fileMeta, cacheRoot, uuid, tick, invoke, now).value;
      && |run.enhance.segs| == |segs| && |run.superres.segs| == |segs| && |run.copies| == |segs|
      && forall v :: 0 <= v < |segs| ==>
           run.superres.calls[v]
             == [("audio_path", run.enhance.outs[v]), ("save_dir", Str(StageDir(cache, "superres", Filepath(segs[v]))))]
  {
    var cache := ScratchDir(cacheRoot, uuid);
    EnhanceChains("denoise_audio", Prepare(r, fileMeta, cache, tick, invoke, now).value, cache, invoke, now);
  }

  // YoutubeRunner.__call__

  /** The YouTube recipe from the value it calls `metadata`: the timed VAD
      stage on `metadata["audio"]`, then the `denoise_audio` loop, which
      stores each result under `denoise_audio` and its time under
      `enhancement_proc_time`. */
  function YoutubeFrom(r: ValidRunner, metadata: Json, cache: string, tick: nat,
                       invoke: (Registry.Slot, Fields) -> Result<Json>, now: nat -> real)
    : (res: Result<(Step, Fan<ValidRunner>)>)
    ensures !metadata.Obj? ==> res.Err? && res.exc.TypeError?
    ensures res.Ok? ==> metadata.Obj? && HasKey(metadata.fields, "audio")
    ensures res.Ok? <==>
      metadata.Obj? && Index(metadata, "audio").Ok? &&
      var s1 := TimedStage(Step(r, tick, metadata.fields), Vad, VadArgs(Index(metadata, "audio").value, cache), invoke, now);
      s1.Ok? && Loop(s1.value, "denoise_audio", "denoise_audio", "enhancement_proc_time", cache, FromFilepath, invoke, now).Ok?
  {
    var audio :- Index(metadata, "audio");
    var s1 :- TimedStage(Step(r, tick, metadata.fields), Vad, VadArgs(audio, cache), invoke, now);
    Loop(s1, "denoise_audio", "denoise_audio", "enhancement_proc_time", cache, FromFilepath, invoke, now)
  }

  /** `file_metadata["video"]`, converted to wav. */
  function VideoWav(fileMeta: Json): (r: Result<string>)
    ensures r.Ok? ==> Index(fileMeta, "video").Ok? && Index(fileMeta, "video").value.Str?
    ensures r.Ok? ==> Audio.Convert2Wav(Index(fileMeta, "video").value.s) == Ok(r.value)
  {
    var video :- Index(fileMeta, "video");
    :- Need(video.Str?, TypeError("expected str, bytes or os.PathLike object"));
    Audio.Convert2Wav(video.s)
  }

  /** `YoutubeRunner.__call__` as written: `metadata` is the string
      `convert2wav` returns. It fails on every input, whatever the
      processors do: a missing or unconvertible `video` raises, and a
      converted one leaves a string that `metadata["audio"]` cannot
      index. */
  function Youtube(r: ValidRunner, fileMeta: Json, cacheRoot: string, uuid: string, tick: nat,
                   invoke: (Registry.Slot, Fields) -> Result<Json>, now: nat -> real)
    : (res: Result<(Step, Fan<ValidRunner>)>)
    ensures res.Err?
    ensures VideoWav(fileMeta).Ok? ==> res.exc.TypeError?
    ensures !VideoWav(fileMeta).Ok? ==> res.exc == VideoWav(fileMeta).exc
  {
    var wav :- VideoWav(fileMeta);
    YoutubeFrom(r, Str(wav), ScratchDir(cacheRoot, uuid), tick, invoke, now)
  }

  /** The YouTube recipe as evidently intended: the wav path is stored
      under `audio` in the file's own metadata dict, as the ASR recipe
      does. */
  function YoutubeIntended(r: ValidRunner, fileMeta: Json, cacheRoot: string, uuid: string, tick: nat,
                           invoke: (Registry.Slot, Fields) -> Result<Json>, now: nat -> real)
    : (res: Result<(Step, Fan<ValidRunner>)>)
    ensures res.Ok? ==> VideoWav(fileMeta).Ok?
    ensures res.Ok? <==>
      VideoWav(fileMeta).Ok? && fileMeta.Obj? &&
      YoutubeFrom(r, Obj(Put(fileMeta.fields, "audio", Str(VideoWav(fileMeta).value))), ScratchDir(cacheRoot, uuid),
                  tick, invoke, now).Ok?
  {
    var wav :- VideoWav(fileMeta);
    YoutubeFrom(r, Obj(Put(fileMeta.fields, "audio", Str(wav))), ScratchDir(cacheRoot, uuid), tick, invoke, now)
  }

  /** On a dict with distinct keys, the VAD stage reads the stored audio
      path, and the result keeps the keys distinct, holds both stage times
      and leaves every key the stages do not write as it was. */
  lemma YoutubeFromStores(r: ValidRunner, fs: Fields, cache: string, tick: nat,
                          invoke: (Registry.Slot, Fields) -> Result<Json>, now: nat -> real)
    requires UniqueKeys(fs) && YoutubeFrom(r, Obj(fs), cache, tick, invoke, now).Ok?
    ensures RunStage(r, Vad, VadArgs(Lookup(fs, "audio").value, cache), invoke).Ok?
    ensures var (s', f) := YoutubeFrom(r, Obj(fs), cache, tick, invoke, now).value;
      && UniqueKeys(s'.meta)
      && Lookup(s'.meta, Vad + "_proc_time") == Some(Num(Elapsed(now, tick)))
      && Lookup(s'.meta, "denoise_audio" + "_proc_time") == Some(Num(f.total))
      && forall k :: k != Vad && k != Vad + "_proc_time" && k != "denoise_audio" + "_proc_time" ==>
           Lookup(s'.meta, k) == Lookup(fs, k)
  {
    var audio := Lookup(fs, "audio").value;
    var s0 := Step(r, tick, fs);
    TimedStageStores(s0, Vad, VadArgs(audio, cache), invoke, now);
    var s1 := TimedStage(s0, Vad, VadArgs(audio, cache), invoke, now).value;
    LoopKeepsUnique(s1, "denoise_audio", "denoise_audio", "enhancement_proc_time", cache, FromFilepath, invoke, now);
    assert |"denoise_audio" + "_proc_time"| < |Vad| < |Vad + "_proc_time"|;
  }

  /** The intended YouTube recipe keeps the file's metadata, adds the wav
      path under `audio`, and hands that path to the VAD stage. */
  lemma YoutubeIntendedStores(r: ValidRunner, fileMeta: Json, cacheRoot: string, uuid: string, tick: nat,
                              invoke: (Registry.Slot, Fields) -> Result<Json>, now: nat -> real)
    requires fileMeta.Obj? && UniqueKeys(fileMeta.fields)
    requires YoutubeIntended(r, fileMeta, cacheRoot, uuid, tick, invoke, now).Ok?
    ensures var wav := VideoWav(fileMeta).value;
      RunStage(r, Vad, VadArgs(Str(wav), ScratchDir(cacheRoot, uuid)), invoke).Ok?
    ensures var wav := VideoWav(fileMeta).value;
      var (s', f) := YoutubeIntended(r, fileMeta, cacheRoot, uuid, tick, invoke, now).value;
      && UniqueKeys(s'.meta)
      && Lookup(s'.meta, "audio") == Some(Str(wav))
      && Lookup(s'.meta, "denoise_audio" + "_proc_time") == Some(Num(f.total))
      && forall k :: k != "audio" && k != Vad && k != Vad + "_proc_time" && k != "denoise_audio" + "_proc_time" ==>
           Lookup(s'.meta, k) == Lookup(fileMeta.fields, k)
  {
    var wav := VideoWav(fileMeta).value;
    var fs := Put(fileMeta.fields, "audio", Str(wav));
    LookupPutAll(fileMeta.fields, "audio", Str(wav));
    YoutubeFromStores(r, fs, ScratchDir(cacheRoot, uuid), tick, invoke, now);
    assert |"audio"| < |"denoise_audio" + "_proc_time"| < |Vad| < |Vad + "_proc_time"|;
  }
}

=== FILE: text.dfy ===
/** The Python `str` operations the model relies on, over `seq<char>`.

    Case mapping is ASCII only (`str.lower` is Unicode-aware in Python; every
    string the core lowercases is an ASCII file suffix or model-choice key).
 */
module Text {
  import opened Wrappers

  predicate IsLetter(c: char) {
    ('a' <= c <= 'z') || ('A' <= c <= 'Z')
  }

  predicate IsDigit(c: char) {
    '0' <= c <= '9'
  }

  function LowerChar(c: char): char {
    if 'A' <= c <= 'Z' then (c as int + 32) as char else c
  }

  /** `s.lower()` restricted to ASCII. */
  function Lower(s: string): (r: string)
    ensures |r| == |s|
    ensures forall i :: 0 <= i < |s| ==> r[i] == LowerChar(s[i])
  {
    if |s| == 0 then "" else [LowerChar(s[0])] + Lower(s[1..])
  }

  /** Text without upper-case letters is its own lower case. */
  lemma LowerOfLower(s: string)
    requires forall i :: 0 <= i < |s| ==> !('A' <= s[i] <= 'Z')
    ensures Lower(s) == s
  {
  }

  lemma LowerIdempotent(s: string)
    ensures Lower(Lower(s)) == Lower(s)
  {
    var a := Lower(Lower(s));
    var b := Lower(s);
    assert forall i :: 0 <= i < |a| ==> a[i] == b[i];
  }

  predicate StartsWith(s: string, prefix: string) {
    |prefix| <= |s| && s[..|prefix|] == prefix
  }

  /** `s.endswith(suffix)`. */
  predicate EndsWith(s: string, suffix: string) {
    |suffix| <= |s| && s[|s| - |suffix|..] == suffix
  }

  /** `sub` occurs in `s` at index `i`. */
  predicate OccursAt(s: string, sub: string, i: int) {
    0 <= i <= |s| - |sub| && s[i..i + |sub|] == sub
  }

  /** `sub in s` for strings. */
  predicate Contains(s: string, sub: string) {
    exists i | 0 <= i <= |s| - |sub| :: OccursAt(s, sub, i)
  }

  /** An occurrence inside an occurrence is an occurrence. */
  lemma ContainsTrans(s: string, t: string, u: string)
    requires Contains(s, t) && Contains(t, u)
    ensures Contains(s, u)
  {
    var i :| 0 <= i <= |s| - |t| && OccursAt(s, t, i);
    var j :| 0 <= j <= |t| - |u| && OccursAt(t, u, j);
    var w := s[i + j..i + j + |u|];
    forall k | 0 <= k < |u|
      ensures w[k] == u[k]
    {
      assert w[k] == s[i + j + k] == t[j + k] == u[k];
    }
    assert w == u;
    assert OccursAt(s, u, i + j);
  }

  /** A text ending in a non-empty suffix ends in that suffix's last
      character. */
  lemma EndsWithLast(s: string, u: string)
    requires EndsWith(s, u) && u != ""
    ensures s != "" && s[|s| - 1] == u[|u| - 1]
  {
    assert s[|s| - |u|..][|u| - 1] == u[|u| - 1];
  }

  /** A suffix of a suffix is a suffix. */
  lemma EndsWithTrans(s: string, t: string, u: string)
    requires EndsWith(s, t) && EndsWith(t, u)
    ensures EndsWith(s, u)
  {
    assert s[|s| - |u|..] == s[|s| - |t|..][|t| - |u|..];
  }

  /** Two suffixes of one string: the shorter is a suffix of the longer. */
  lemma SuffixesNest(s: string, a: string, b: string)
    requires EndsWith(s, a) && EndsWith(s, b) && |a| <= |b|
    ensures EndsWith(b, a)
  {
    assert b[|b| - |a|..] == s[|s| - |a|..];
  }

  /** `s.split(c)[0]`: the text before the first `c`, or all of `s`. */
  function Head(s: string, c: char): (r: string)
    ensures c !in r
    ensures |r| <= |s| && r == s[..|r|]
    ensures |r| < |s| ==> s[|r|] == c
  {
    if |s| == 0 then ""
    else if s[0] == c then ""
    else [s[0]] + Head(s[1..], c)
  }

  lemma {:induction false} HeadOfQualified(x: string, c: char, y: string)
    requires c !in x
    ensures Head(x + [c] + y, c) == x
  {
    var s := x + [c] + y;
    var r := Head(s, c);
    assert s[|x|] == c;
    assert forall i :: 0 <= i < |x| ==> s[i] == x[i] && x[i] != c;
    assert |r| == |x|;
    assert r == s[..|x|] == x;
  }

  /** `s.rfind(c)`: the last index of `c`, or -1. */
  function LastIndexOf(s: string, c: char): (i: int)
    ensures -1 <= i < |s|
    ensures i >= 0 ==> s[i] == c
    ensures forall j :: i < j < |s| ==> s[j] != c
  {
    if |s| == 0 then -1
    else if s[|s| - 1] == c then |s| - 1
    else LastIndexOf(s[..|s| - 1], c)
  }

  /** Appending text without `c` does not move the last `c`. */
  lemma {:induction false} LastIndexOfAppend(s: string, t: string, c: char)
    requires c !in t
    ensures LastIndexOf(s + t, c) == LastIndexOf(s, c)
    decreases |t|
  {
    if |t| > 0 {
      var u := s + t;
      assert u[..|u| - 1] == s + t[..|t| - 1];
      assert u[|u| - 1] == t[|t| - 1];
      LastIndexOfAppend(s, t[..|t| - 1], c);
    } else {
      assert s + t == s;
    }
  }

  /** In `x + [c] + y` with no `c` in `y`, the last `c` is the inserted one. */
  lemma LastIndexOfJoined(x: string, c: char, y: string)
    requires c !in y
    ensures LastIndexOf(x + [c] + y, c) == |x|
  {
    LastIndexOfAppend(x + [c], y, c);
    assert (x + [c])[|x|] == c;
  }

  /** Concatenation regrouped to the left. */
  lemma Regroup(a: string, b: string, c: string, d: string, e: string)
    ensures a + (b + (c + (d + e))) == a + b + c + d + e
  {
  }

  /** Cutting the ending `pat` off `pre + stem + pat` and appending `rep`. */
  lemma ReplaceEnding(s: string, pre: string, stem: string, pat: string, rep: string)
    requires s == pre + (stem + pat)
    ensures |pat| <= |s| && s[..|s| - |pat|] + rep == pre + (stem + rep)
  {
    assert s == (pre + stem) + pat;
    assert s[..|pre + stem|] == pre + stem;
  }

  lemma ConcatSplitsHead(x: string, y: string)
    requires |y| > 0
    ensures x + y == x + [y[0]] + y[1..]
  {
    assert y == [y[0]] + y[1..];
  }

  /** `s.rsplit(c, 1)` when it has two parts. */
  function SplitLast(s: string, c: char): (r: Option<(string, string)>)
    ensures r.None? <==> c !in s
    ensures r.Some? ==> r.value.0 + [c] + r.value.1 == s && c !in r.value.1
  {
    var i := LastIndexOf(s, c);
    if i < 0 then
      assert forall j :: 0 <= j < |s| ==> s[j] != c;
      None
    else
      assert s == s[..i] + [c] + s[i + 1..];
      Some((s[..i], s[i + 1..]))
  }

  /** Splitting at the last separator inverts joining with one. */
  lemma SplitLastOfJoin(x: string, c: char, y: string)
    requires c !in y
    ensures SplitLast(x + [c] + y, c) == Some((x, y))
  {
    var s := x + [c] + y;
    assert s[|x|] == c;
    var r := SplitLast(s, c);
    var (a, b) := r.value;
    assert forall j :: |x| < j < |s| ==> s[j] == y[j - |x| - 1] && y[j - |x| - 1] != c;
    assert |b| == |y|;
    assert b == s[|s| - |b|..] == y;
    assert a == s[..|a|] == x;
  }

  /** `s[:-k]` for `k > 0`: Python yields "" when the string is shorter. */
  function DropLast(s: string, k: nat): (r: string)
    ensures |s| >= k ==> r == s[..|s| - k]
    ensures |s| < k ==> r == ""
  {
    if |s| >= k then s[..|s| - k] else ""
  }

  /** `s.replace(pat, rep)`: every non-overlapping occurrence of `pat`,
      scanned left to right, is replaced by `rep`. */
  function ReplaceAll(s: string, pat: string, rep: string): string
    requires |pat| > 0
    decreases |s|
  {
    if |s| < |pat| then s
    else if s[..|pat|] == pat then rep + ReplaceAll(s[|pat|..], pat, rep)
    else [s[0]] + ReplaceAll(s[1..], pat, rep)
  }

  /** The scan replaces an occurrence at the front of the text. */
  lemma ReplaceAllAtPattern(t: string, pat: string, rep: string)
    requires |pat| > 0
    ensures ReplaceAll(pat + t, pat, rep) == rep + ReplaceAll(t, pat, rep)
  {
    assert (pat + t)[..|pat|] == pat;
    assert (pat + t)[|pat|..] == t;
  }

  /** The scan keeps a front character that cannot start an occurrence. */
  lemma ReplaceAllKeeps(c: char, t: string, pat: string, rep: string)
    requires |pat| > 0 && c != pat[0]
    ensures ReplaceAll([c] + t, pat, rep) == [c] + ReplaceAll(t, pat, rep)
  {
    var s := [c] + t;
    assert s[1..] == t;
    if |s| >= |pat| {
      assert s[..|pat|][0] == c;
    }
  }

  lemma {:induction false} ReplaceAbsent(s: string, pat: string, rep: string)
    requires |pat| > 0 && !Contains(s, pat)
    ensures ReplaceAll(s, pat, rep) == s
    decreases |s|
  {
    if |s| < |pat| {
    } else {
      assert !OccursAt(s, pat, 0);
      forall i | OccursAt(s[1..], pat, i)
        ensures OccursAt(s, pat, i + 1)
      {
        assert s[1..][i..i + |pat|] == s[i + 1..i + 1 + |pat|];
      }
      ReplaceAbsent(s[1..], pat, rep);
    }
  }

  /** Replacing a single character by text without it leaves no such character. */
  lemma {:induction false} ReplaceCharRemoves(s: string, c: char, rep: string)
    requires c !in rep
    ensures c !in ReplaceAll(s, [c], rep)
    decreases |s|
  {
    if |s| < 1 {
    } else if s[..1] == [c] {
      ReplaceCharRemoves(s[1..], c, rep);
    } else {
      assert s[0] != c by { assert s[..1] == [s[0]]; }
      ReplaceCharRemoves(s[1..], c, rep);
    }
  }

  /** A `.`-led pattern with no other `.` cannot overlap itself: a string
      that starts and ends with it is the pattern, or holds two copies. */
  lemma NoSelfOverlap(s: string, pat: string)
    requires |pat| > 0 && pat[0] == '.' && '.' !in pat[1..]
    requires StartsWith(s, pat) && EndsWith(s, pat) && |s| > |pat|
    ensures |s| >= 2 * |pat|
  {
    var k := |s| - |pat|;
    assert s[k] == s[|s| - |pat|..][0] == '.';
  }

  /** Text ending with `u` still does after anything is put in front. */
  lemma EndsWithPrepend(pre: string, t: string, u: string)
    requires EndsWith(t, u)
    ensures EndsWith(pre + t, u)
  {
    assert (pre + t)[|pre + t| - |u|..] == t[|t| - |u|..];
  }

  /** Text ending with `u` still does after a front part no longer than
      the rest is dropped. */
  lemma EndsWithDrop(s: string, k: nat, u: string)
    requires EndsWith(s, u) && k + |u| <= |s|
    ensures EndsWith(s[k..], u)
  {
    assert s[k..][|s| - k - |u|..] == s[|s| - |u|..];
  }

  /** When `s` ends with such a pattern the left-to-right replacement
      reaches the final occurrence, so the result ends with `rep`. */
  lemma {:induction false} ReplaceKeepsEnding(s: string, pat: string, rep: string)
    requires |pat| > 0 && pat[0] == '.' && '.' !in pat[1..]
    requires EndsWith(s, pat)
    ensures EndsWith(ReplaceAll(s, pat, rep), rep)
    decreases |s|
  {
    if s[..|pat|] != pat {
      EndsWithDrop(s, 1, pat);
      ReplaceKeepsEnding(s[1..], pat, rep);
      EndsWithPrepend([s[0]], ReplaceAll(s[1..], pat, rep), rep);
    } else if |s| == |pat| {
      assert ReplaceAll(s, pat, rep) == rep + ReplaceAll("", pat, rep);
    } else {
      NoSelfOverlap(s, pat);
      EndsWithDrop(s, |pat|, pat);
      ReplaceKeepsEnding(s[|pat|..], pat, rep);
      EndsWithPrepend(rep, ReplaceAll(s[|pat|..], pat, rep), rep);
    }
  }

  function DigitChar(d: nat): char
    requires d < 10
  {
    ('0' as int + d) as char
  }

  /** `str(n)` for a non-negative integer, in decimal. */
  function NatToString(n: nat): (r: string)
    ensures |r| > 0
    ensures forall i :: 0 <= i < |r| ==> IsDigit(r[i])
    ensures r[|r| - 1] == DigitChar(n % 10)
    ensures n < 10 <==> |r| == 1
  {
    if n < 10 then [DigitChar(n)] else NatToString(n / 10) + [DigitChar(n % 10)]
  }

  /** Distinct indices have distinct decimal names. */
  lemma {:induction false} NatToStringInjective(a: nat, b: nat)
    requires NatToString(a) == NatToString(b)
    ensures a == b
  {
    var s := NatToString(a);
    assert DigitChar(a % 10) == DigitChar(b % 10);
    assert a % 10 == b % 10;
    if a >= 10 {
      assert b >= 10;
      assert NatToString(a / 10) == s[..|s| - 1] == NatToString(b / 10);
      NatToStringInjective(a / 10, b / 10);
    }
  }

  /** A common prefix and suffix cancel. */
  lemma NameCancel(base: string, x: string, y: string, ext: string)
    requires base + x + ext == base + y + ext
    ensures x == y
  {
    var s := base + x + ext;
    assert x == s[|base|..|s| - |ext|];
    assert y == (base + y + ext)[|base|..|s| - |ext|];
  }

  /** Replacing only brings in characters of the replacement. */
  lemma {:induction false} ReplaceAllChars(s: string, pat: string, rep: string, c: char)
    requires |pat| > 0 && c in ReplaceAll(s, pat, rep)
    ensures c in s || c in rep
    decreases |s|
  {
    if |s| < |pat| {
    } else if s[..|pat|] == pat {
      if c !in rep {
        ReplaceAllChars(s[|pat|..], pat, rep, c);
        assert forall x :: x in s[|pat|..] ==> x in s;
      }
    } else if c != s[0] {
      ReplaceAllChars(s[1..], pat, rep, c);
      assert forall x :: x in s[1..] ==> x in s;
    }
  }
}

=== FILE: vad.dfy ===
/** `VoiceActivityDetection` of `modules/vad.py`: the segment
    post-processing of `vad_with_webrtc` (greedy merge under
    `min_silence`/`max_duration`, the short-tail split, pinning to
    `[0, dur]`, midpoint smoothing, record assembly) and the record
    assembly of `vad_with_pyannote`.

    The ffmpeg conversion is its success flag, `get_audio_info(..).length`
    is `dur`, the pyannote pipeline is the speech timeline it returns, and
    `round(x, 1)` is the parameter `round`. Times are exact reals standing
    in for Python floats: midpoints and sums carry no rounding error.
 */
module Vad {
  import opened Wrappers
  import opened Text
  import opened Paths
  import opened VadUtils
  import Common

  /** Where group `j` of the starts `s` among `n` segments ends (exclusive). */
  function GroupEnd(s: seq<nat>, j: nat, n: nat): nat
    requires j < |s|
  {
    if j + 1 < |s| then s[j + 1] else n
  }

  /** The greedy rule: segment `k` starts a new merged segment when its gap
      to the previous one exceeds `min_silence` and its duration plus that
      of the merged segment so far (from segment `g`) exceeds
      `max_duration`. */
  predicate Splits(segs: seq<Span>, minSilence: real, maxDuration: real, g: nat, k: nat)
    requires g < k < |segs|
  {
    && segs[k].start - segs[k - 1].end > minSilence
    && (segs[k].end - segs[k].start) + (segs[k - 1].end - segs[g].start) > maxDuration
  }

  /** Group `j` of the starts `s` splits from group `j - 1`. */
  predicate StartSplits(segs: seq<Span>, minSilence: real, maxDuration: real, s: seq<nat>, j: nat) {
    1 <= j < |s| && s[j - 1] < s[j] < |segs| && Splits(segs, minSilence, maxDuration, s[j - 1], s[j])
  }

  /** Segment `k`, inside group `j` of the starts `s` among `n`, does not
      split from the group's first segment. */
  predicate InsideJoins(segs: seq<Span>, minSilence: real, maxDuration: real, s: seq<nat>, j: nat, k: nat, n: nat) {
    j < |s| && s[j] < k < GroupEnd(s, j, n) && k < |segs| ==> !Splits(segs, minSilence, maxDuration, s[j], k)
  }

  /** The group starts the greedy merge picks among the first `i` segments:
      every start but the first splits from the group before it, and no
      segment inside a group splits from its group's start. */
  function GreedyStarts(segs: seq<Span>, minSilence: real, maxDuration: real, i: nat): (s: seq<nat>)
    requires 1 <= i <= |segs|
    ensures ValidStarts(s, i)
    ensures forall j :: 1 <= j < |s| ==> StartSplits(segs, minSilence, maxDuration, s, j)
    ensures forall j: nat, k: nat :: InsideJoins(segs, minSilence, maxDuration, s, j, k, i)
    decreases i
  {
    if i == 1 then [0]
    else
      var s := GreedyStarts(segs, minSilence, maxDuration, i - 1);
      var g := s[|s| - 1];
      if Splits(segs, minSilence, maxDuration, g, i - 1) then
        GreedyCutStarts(segs, minSilence, maxDuration, s, i - 1, s + [i - 1], i);
        s + [i - 1]
      else
        GreedyKeepStarts(segs, minSilence, maxDuration, s, i - 1, i);
        s
  }

  lemma GreedyCutStarts(segs: seq<Span>, minSilence: real, maxDuration: real, s: seq<nat>, i: nat, t: seq<nat>, n: nat)
    requires ValidStarts(s, i) && i < |segs| && t == s + [i] && n == i + 1
    requires forall j :: 1 <= j < |s| ==> StartSplits(segs, minSilence, maxDuration, s, j)
    requires forall j: nat, k: nat :: InsideJoins(segs, minSilence, maxDuration, s, j, k, i)
    requires Splits(segs, minSilence, maxDuration, s[|s| - 1], i)
    ensures ValidStarts(t, n)
    ensures forall j :: 1 <= j < |t| ==> StartSplits(segs, minSilence, maxDuration, t, j)
    ensures forall j: nat, k: nat :: InsideJoins(segs, minSilence, maxDuration, t, j, k, n)
  {
    StartsGrow(s, i);
    forall j | 1 <= j < |t| ensures StartSplits(segs, minSilence, maxDuration, t, j) {
      assert t[j - 1] == s[j - 1];
      if j < |s| {
        assert StartSplits(segs, minSilence, maxDuration, s, j);
        assert t[j] == s[j];
      }
    }
    forall j: nat, k: nat ensures InsideJoins(segs, minSilence, maxDuration, t, j, k, n) {
      if j < |s| {
        assert InsideJoins(segs, minSilence, maxDuration, s, j, k, i);
        assert t[j] == s[j];
        assert GroupEnd(t, j, n) == GroupEnd(s, j, i);
      }
    }
  }

  lemma GreedyKeepStarts(segs: seq<Span>, minSilence: real, maxDuration: real, s: seq<nat>, i: nat, n: nat)
    requires ValidStarts(s, i) && i < |segs| && n == i + 1
    requires forall j: nat, k: nat :: InsideJoins(segs, minSilence, maxDuration, s, j, k, i)
    requires !Splits(segs, minSilence, maxDuration, s[|s| - 1], i)
    ensures ValidStarts(s, n)
    ensures forall j: nat, k: nat :: InsideJoins(segs, minSilence, maxDuration, s, j, k, n)
  {
    StartsGrow(s, i);
    forall j: nat, k: nat ensures InsideJoins(segs, minSilence, maxDuration, s, j, k, n) {
      if j + 1 == |s| && k == i {
      } else {
        assert InsideJoins(segs, minSilence, maxDuration, s, j, k, i);
      }
    }
  }

  /** The merged segments of `vad_with_webrtc` as a function of the VAD
      segments. */
  function Greedy(segs: seq<Span>, minSilence: real, maxDuration: real): seq<Span>
    requires |segs| > 0
  {
    Groups(segs, GreedyStarts(segs, minSilence, maxDuration, |segs|), |segs|)
  }

  /** The merge loop (lines 104-120): a gap of at most `min_silence`
      extends the current segment; otherwise it is closed when the
      combined duration would exceed `max_duration`, and extended when not. */
  method GreedyMerge(segs: seq<Span>, minSilence: real, maxDuration: real) returns (out: seq<Span>)
    requires |segs| > 0
    ensures out == Greedy(segs, minSilence, maxDuration)
  {
    var finalList: seq<Span> := [];
    var temp := segs[0];
    var i := 1;
    while i < |segs|
      invariant 1 <= i <= |segs|
      invariant finalList + [temp] == Groups(segs, GreedyStarts(segs, minSilence, maxDuration, i), i)
    {
      var x := segs[i];
      var curDuration := x.end - x.start;
      var tempDuration := temp.end - temp.start;
      // The source's first and last branches both extend the open segment.
      var cut := x.start - temp.end > minSilence && curDuration + tempDuration > maxDuration;
      GreedyLoopStep(segs, minSilence, maxDuration, i, finalList, temp, cut);
      if cut {
        finalList := finalList + [temp];
        temp := x;
      } else {
        temp := Span(temp.start, x.end);
      }
      i := i + 1;
    }
    out := finalList + [temp];
  }

  /** One pass of the merge loop, in either branch. */
  lemma GreedyLoopStep(segs: seq<Span>, minSilence: real, maxDuration: real, i: nat, finalList: seq<Span>, temp: Span, cut: bool)
    requires 1 <= i < |segs|
    requires finalList + [temp] == Groups(segs, GreedyStarts(segs, minSilence, maxDuration, i), i)
    requires cut == (segs[i].start - temp.end > minSilence
                     && (segs[i].end - segs[i].start) + (temp.end - temp.start) > maxDuration)
    ensures cut ==> (finalList + [temp]) + [segs[i]] == Groups(segs, GreedyStarts(segs, minSilence, maxDuration, i + 1), i + 1)
    ensures !cut ==> finalList + [Span(temp.start, segs[i].end)] == Groups(segs, GreedyStarts(segs, minSilence, maxDuration, i + 1), i + 1)
  {
    if cut {
      GreedyLoopCut(segs, minSilence, maxDuration, i, finalList, temp);
    } else {
      GreedyLoopExtend(segs, minSilence, maxDuration, i, finalList, temp);
    }
  }

  /** A segment that does not split from the open one extends it. */
  lemma GreedyLoopExtend(segs: seq<Span>, minSilence: real, maxDuration: real, i: nat, finalList: seq<Span>, temp: Span)
    requires 1 <= i < |segs|
    requires finalList + [temp] == Groups(segs, GreedyStarts(segs, minSilence, maxDuration, i), i)
    requires !(segs[i].start - temp.end > minSilence
               && (segs[i].end - segs[i].start) + (temp.end - temp.start) > maxDuration)
    ensures finalList + [Span(temp.start, segs[i].end)] == Groups(segs, GreedyStarts(segs, minSilence, maxDuration, i + 1), i + 1)
  {
    GreedyTemp(segs, minSilence, maxDuration, i, finalList, temp);
    GreedyStepExtend(segs, minSilence, maxDuration, i);
  }

  /** A segment that splits from the open one closes it and opens its own. */
  lemma GreedyLoopCut(segs: seq<Span>, minSilence: real, maxDuration: real, i: nat, finalList: seq<Span>, temp: Span)
    requires 1 <= i < |segs|
    requires finalList + [temp] == Groups(segs, GreedyStarts(segs, minSilence, maxDuration, i), i)
    requires segs[i].start - temp.end > minSilence
    requires (segs[i].end - segs[i].start) + (temp.end - temp.start) > maxDuration
    ensures (finalList + [temp]) + [segs[i]] == Groups(segs, GreedyStarts(segs, minSilence, maxDuration, i + 1), i + 1)
  {
    GreedyTemp(segs, minSilence, maxDuration, i, finalList, temp);
    GreedyStepCut(segs, minSilence, maxDuration, i);
  }

  /** The open segment runs from its group's first segment to segment
      `i - 1`. */
  lemma GreedyTemp(segs: seq<Span>, minSilence: real, maxDuration: real, i: nat, finalList: seq<Span>, temp: Span)
    requires 1 <= i <= |segs|
    requires finalList + [temp] == Groups(segs, GreedyStarts(segs, minSilence, maxDuration, i), i)
    ensures var s := GreedyStarts(segs, minSilence, maxDuration, i);
      temp == Span(segs[s[|s| - 1]].start, segs[i - 1].end)
    ensures finalList == Groups(segs, GreedyStarts(segs, minSilence, maxDuration, i), i)[..|finalList|]
  {
    var g := Groups(segs, GreedyStarts(segs, minSilence, maxDuration, i), i);
    assert temp == g[|g| - 1];
    assert g[..|finalList|] == finalList;
  }

  lemma GreedyStepExtend(segs: seq<Span>, minSilence: real, maxDuration: real, i: nat)
    requires 1 <= i < |segs|
    requires var s := GreedyStarts(segs, minSilence, maxDuration, i); !Splits(segs, minSilence, maxDuration, s[|s| - 1], i)
    ensures var g := Groups(segs, GreedyStarts(segs, minSilence, maxDuration, i), i); var last := g[|g| - 1];
      Groups(segs, GreedyStarts(segs, minSilence, maxDuration, i + 1), i + 1) == g[..|g| - 1] + [Span(last.start, segs[i].end)]
  {
    var s := GreedyStarts(segs, minSilence, maxDuration, i);
    assert GreedyStarts(segs, minSilence, maxDuration, i + 1) == s;
    GroupsExtend(segs, s, i);
  }

  lemma GreedyStepCut(segs: seq<Span>, minSilence: real, maxDuration: real, i: nat)
    requires 1 <= i < |segs|
    requires var s := GreedyStarts(segs, minSilence, maxDuration, i); Splits(segs, minSilence, maxDuration, s[|s| - 1], i)
    ensures Groups(segs, GreedyStarts(segs, minSilence, maxDuration, i + 1), i + 1)
      == Groups(segs, GreedyStarts(segs, minSilence, maxDuration, i), i) + [segs[i]]
  {
    var s := GreedyStarts(segs, minSilence, maxDuration, i);
    assert GreedyStarts(segs, minSilence, maxDuration, i + 1) == s + [i];
    GroupsCut(segs, s, i);
  }

  /** The merge never adds segments; it begins where the first segment
      begins and ends where the last ends. */
  lemma GreedyShape(segs: seq<Span>, minSilence: real, maxDuration: real)
    requires |segs| > 0
    ensures var out := Greedy(segs, minSilence, maxDuration);
      && 1 <= |out| <= |segs|
      && out[0].start == segs[0].start
      && out[|out| - 1].end == segs[|segs| - 1].end
  {
    GroupsShape(segs, GreedyStarts(segs, minSilence, maxDuration, |segs|), |segs|);
  }

  /** Between two merged segments lies a gap of more than `min_silence`,
      and the first of them plus the segment that opens the next is longer
      than `max_duration`. */
  lemma GreedyBoundary(segs: seq<Span>, minSilence: real, maxDuration: real, j: nat)
    requires |segs| > 0 && j + 1 < |Greedy(segs, minSilence, maxDuration)|
    ensures var out := Greedy(segs, minSilence, maxDuration);
      var k := GreedyStarts(segs, minSilence, maxDuration, |segs|)[j + 1];
      && 0 < k < |segs|
      && out[j + 1].start == segs[k].start
      && out[j + 1].start - out[j].end > minSilence
      && (segs[k].end - segs[k].start) + (out[j].end - out[j].start) > maxDuration
  {
    var s := GreedyStarts(segs, minSilence, maxDuration, |segs|);
    assert StartSplits(segs, minSilence, maxDuration, s, j + 1);
    StartsBoundary(segs, minSilence, maxDuration, s, j);
  }

  /** The boundary before group `j + 1` of any starts, when that group
      splits from group `j`. */
  lemma StartsBoundary(segs: seq<Span>, minSilence: real, maxDuration: real, s: seq<nat>, j: nat)
    requires |segs| > 0 && ValidStarts(s, |segs|) && StartSplits(segs, minSilence, maxDuration, s, j + 1)
    ensures var out := Groups(segs, s, |segs|);
      var k := s[j + 1];
      && 0 < k < |segs| && j + 1 < |out|
      && out[j + 1].start == segs[k].start
      && out[j + 1].start - out[j].end > minSilence
      && (segs[k].end - segs[k].start) + (out[j].end - out[j].start) > maxDuration
  {
    var out := Groups(segs, s, |segs|);
    GroupsShape(segs, s, |segs|);
    var k := s[j + 1];
    assert out[j + 1].start == segs[k].start;
    assert out[j].start == segs[s[j]].start && out[j].end == segs[k - 1].end;
  }

  /** A gap of at most `min_silence` never separates two merged segments:
      such a segment always joins the one before it. */
  lemma GreedyJoinsShortGaps(segs: seq<Span>, minSilence: real, maxDuration: real, k: nat)
    requires 1 <= k < |segs| && segs[k].start - segs[k - 1].end <= minSilence
    ensures k !in GreedyStarts(segs, minSilence, maxDuration, |segs|)
  {
    var s := GreedyStarts(segs, minSilence, maxDuration, |segs|);
    forall j | 0 <= j < |s| ensures s[j] != k {
      if j >= 1 {
        assert StartSplits(segs, minSilence, maxDuration, s, j);
      }
    }
  }

  /** Segments in time order (each ending no later than the next starts)
      merge into segments in time order. */
  lemma GreedyKeepsOrder(segs: seq<Span>, minSilence: real, maxDuration: real, j: nat)
    requires |segs| > 0 && forall k :: 0 <= k < |segs| - 1 ==> segs[k].end <= segs[k + 1].start
    requires j + 1 < |Greedy(segs, minSilence, maxDuration)|
    ensures Greedy(segs, minSilence, maxDuration)[j].end <= Greedy(segs, minSilence, maxDuration)[j + 1].start
  {
    var s := GreedyStarts(segs, minSilence, maxDuration, |segs|);
    GroupsShape(segs, s, |segs|);
    assert s[0] < s[j + 1];
    var k := s[j + 1];
    assert segs[k - 1].end <= segs[k].start;
  }

  /** Lines 122-125: a last segment of at most `min_duration` shares the
      span from the previous segment's start to its own end, cut at the
      midpoint; with one segment `final_list[-2]` raises `IndexError`. */
  function TailSplit(fs: seq<Span>, minDuration: real): (r: Result<seq<Span>>)
    requires |fs| > 0
    ensures r.Err? <==> |fs| == 1 && fs[0].end - fs[0].start <= minDuration
    ensures r.Err? ==> r.exc.IndexError?
    ensures r.Ok? ==> |r.value| == |fs|
    ensures r.Ok? && fs[|fs| - 1].end - fs[|fs| - 1].start > minDuration ==> r.value == fs
    ensures r.Ok? && fs[|fs| - 1].end - fs[|fs| - 1].start <= minDuration ==>
      var n := |fs|; var mean := (fs[n - 2].start + fs[n - 1].end) / 2.0;
      && r.value[..n - 2] == fs[..n - 2]
      && r.value[n - 2] == Span(fs[n - 2].start, mean)
      && r.value[n - 1] == Span(mean, fs[n - 1].end)
  {
    var n := |fs|;
    if fs[n - 1].end - fs[n - 1].start <= minDuration then
      if n < 2 then Err(IndexError("list index out of range"))
      else
        var mean := (fs[n - 2].start + fs[n - 1].end) / 2.0;
        var r := fs[..n - 2] + [Span(fs[n - 2].start, mean), Span(mean, fs[n - 1].end)];
        assert r[..n - 2] == fs[..n - 2];
        Ok(r)
    else Ok(fs)
  }

  /** Lines 130-131: the first segment starts at 0 and the last stops at
      the duration of the audio. */
  function Pin(fs: seq<Span>, dur: real): (r: seq<Span>)
    requires |fs| > 0
    ensures |r| == |fs| && r[0].start == 0.0 && r[|r| - 1].end == dur
    ensures forall i :: 0 < i < |fs| ==> r[i].start == fs[i].start
    ensures forall i :: 0 <= i < |fs| - 1 ==> r[i].end == fs[i].end
  {
    var a := fs[0 := Span(0.0, fs[0].end)];
    a[|a| - 1 := Span(a[|a| - 1].start, dur)]
  }

  /** The start of entry `i` after smoothing: halfway back to the end of
      the segment before (the first keeps its start). */
  function SmoothStart(fs: seq<Span>, i: nat): real
    requires i < |fs|
  {
    if i == 0 then fs[0].start else (fs[i].start + fs[i - 1].end) / 2.0
  }

  /** The end of entry `i` after smoothing: halfway on to the start of the
      segment after (the last keeps its end). */
  function SmoothEnd(fs: seq<Span>, i: nat): real
    requires i < |fs|
  {
    if i == |fs| - 1 then fs[i].end else (fs[i].end + fs[i + 1].start) / 2.0
  }

  /** Lines 134-144: the bounds of every entry. The first iteration reads
      `final_list[1]`, so one segment raises `IndexError`. */
  function Smooth(fs: seq<Span>): (r: Result<seq<(real, real)>>)
    requires |fs| > 0
    ensures r.Err? <==> |fs| == 1
    ensures r.Err? ==> r.exc.IndexError?
    ensures r.Ok? ==> |r.value| == |fs|
    ensures r.Ok? ==> r.value[0].0 == fs[0].start && r.value[|fs| - 1].1 == fs[|fs| - 1].end
    ensures r.Ok? ==> forall i :: 0 <= i < |fs| - 1 ==> r.value[i].1 == r.value[i + 1].0
  {
    if |fs| == 1 then Err(IndexError("list index out of range"))
    else Ok(seq(|fs|, i requires 0 <= i < |fs| => (SmoothStart(fs, i), SmoothEnd(fs, i))))
  }

  /** One entry of `voice_activity`. */
  datatype Meta = Meta(start: real, stop: real, duration: real, filepath: Option<string>)

  /** What `vad_with_webrtc` and `vad_with_pyannote` return. */
  datatype Report = Report(voiceActivity: seq<Meta>, vaDuration: real, totalDuration: real)

  /** `va_duration`: the durations added up in order. */
  function VaDuration(es: seq<Meta>): real {
    if |es| == 0 then 0.0 else VaDuration(es[..|es| - 1]) + es[|es| - 1].duration
  }

  /** The file the `i`-th entry is cut to: `<base>_<i+1>.wav` in the
      directory `<path>_split`, where `<base>` and `<path>` drop the last
      four characters (the extension) of the name and the path. */
  function SplitPath(audioPath: string, i: nat): (p: string)
    ensures EndsWith(p, "_" + NatToString(i + 1) + ".wav") && EndsWith(p, ".wav")
  {
    var tail := "_" + NatToString(i + 1) + ".wav";
    var name := DropLast(Basename(audioPath), 4) + "_" + NatToString(i + 1) + ".wav";
    assert EndsWith(name, tail) by { assert name[|name| - |tail|..] == tail; }
    assert EndsWith(tail, ".wav") by { assert tail[|tail| - 4..] == ".wav"; }
    var p := Join(DropLast(audioPath, 4) + "_split", name);
    EndsWithTrans(p, name, tail);
    EndsWithTrans(p, tail, ".wav");
    p
  }

  /** The entries for the smoothed bounds, rounded by `round`. */
  function WebrtcEntries(bounds: seq<(real, real)>, round: real -> real, save: bool, audioPath: string): (es: seq<Meta>)
    ensures |es| == |bounds|
    ensures forall i :: 0 <= i < |bounds| ==>
      es[i].start == round(bounds[i].0) && es[i].stop == round(bounds[i].1) && es[i].duration == es[i].stop - es[i].start
    ensures forall i :: 0 <= i < |bounds| ==> es[i].filepath == if save then Some(SplitPath(audioPath, i)) else None
  {
    seq(|bounds|, i requires 0 <= i < |bounds| =>
      Meta(round(bounds[i].0), round(bounds[i].1), round(bounds[i].1) - round(bounds[i].0),
        if save then Some(SplitPath(audioPath, i)) else None))
  }

  /** Bounds that tile, rounded the same way, give durations that add up to
      the rounded last end less the rounded first start. */
  lemma {:induction false} Telescopes(es: seq<Meta>)
    requires |es| > 0
    requires forall i :: 0 <= i < |es| ==> es[i].duration == es[i].stop - es[i].start
    requires forall i :: 0 <= i < |es| - 1 ==> es[i].stop == es[i + 1].start
    ensures VaDuration(es) == es[|es| - 1].stop - es[0].start
    decreases |es|
  {
    if |es| > 1 {
      var p := es[..|es| - 1];
      assert forall i :: 0 <= i < |p| ==> p[i] == es[i];
      Telescopes(p);
      assert es[|es| - 2].stop == es[|es| - 1].start;
    } else {
      assert VaDuration(es) == VaDuration(es[..0]) + es[0].duration;
    }
  }

  /** The post-processing after VAD (lines 102-171) on a non-empty segment
      list: merge, tail split, pin, smooth and assemble. */
  function Finish(segs: seq<Span>, dur: real, minSilence: real, minDuration: real, maxDuration: real,
                  save: bool, audioPath: string, round: real -> real): (r: Result<Report>)
    requires |segs| > 0
    ensures r.Err? ==> r.exc.IndexError?
  {
    GreedyShape(segs, minSilence, maxDuration);
    var merged := Greedy(segs, minSilence, maxDuration);
    var split :- TailSplit(merged, minDuration);
    var pinned := Pin(split, dur);
    var bounds :- Smooth(pinned);
    var es := WebrtcEntries(bounds, round, save, audioPath);
    Ok(Report(es, VaDuration(es), dur))
  }

  /** A finished report has at least two entries that tile from the
      rounded 0 to the rounded duration, so `va_duration` is their
      difference; each entry has a file exactly when `save_to_file`. */
  lemma FinishTiles(segs: seq<Span>, dur: real, minSilence: real, minDuration: real, maxDuration: real,
                    save: bool, audioPath: string, round: real -> real)
    requires |segs| > 0
    requires Finish(segs, dur, minSilence, minDuration, maxDuration, save, audioPath, round).Ok?
    ensures var rep := Finish(segs, dur, minSilence, minDuration, maxDuration, save, audioPath, round).value;
      var es := rep.voiceActivity;
      && |es| >= 2 && |es| <= |segs|
      && es[0].start == round(0.0) && es[|es| - 1].stop == round(dur)
      && (forall i :: 0 <= i < |es| - 1 ==> es[i].stop == es[i + 1].start)
      && rep.vaDuration == round(dur) - round(0.0)
      && rep.totalDuration == dur
      && (forall i :: 0 <= i < |es| ==> (es[i].filepath.Some? <==> save))
  {
    GreedyShape(segs, minSilence, maxDuration);
    var merged := Greedy(segs, minSilence, maxDuration);
    var split := TailSplit(merged, minDuration).value;
    var pinned := Pin(split, dur);
    var bounds := Smooth(pinned).value;
    var es := WebrtcEntries(bounds, round, save, audioPath);
    Telescopes(es);
  }

  /** One merged segment makes the post-processing fail. */
  lemma FinishFailsOnOneSegment(segs: seq<Span>, dur: real, minSilence: real, minDuration: real, maxDuration: real,
                                save: bool, audioPath: string, round: real -> real)
    requires |segs| > 0 && |Greedy(segs, minSilence, maxDuration)| == 1
    ensures Finish(segs, dur, minSilence, minDuration, maxDuration, save, audioPath, round).Err?
  {
    var merged := Greedy(segs, minSilence, maxDuration);
    var split := TailSplit(merged, minDuration);
    if split.Ok? {
      assert |Pin(split.value, dur)| == 1;
    }
  }

  /** A single speech segment makes the merge yield one segment. */
  lemma OneSegmentMergesToOne(seg: Span, minSilence: real, maxDuration: real)
    ensures Greedy([seg], minSilence, maxDuration) == [seg]
  {
  }

  /** The split files all lie in the `_split` directory and are distinct. */
  lemma SplitPathsDistinct(audioPath: string, i: nat, j: nat)
    requires SplitPath(audioPath, i) == SplitPath(audioPath, j)
    ensures i == j
  {
    var dir := DropLast(audioPath, 4) + "_split";
    var base := DropLast(Basename(audioPath), 4) + "_";
    BaseHasNoSep(audioPath);
    var a := base + NatToString(i + 1) + ".wav";
    var b := base + NatToString(j + 1) + ".wav";
    NamePrefix(base, NatToString(i + 1));
    NamePrefix(base, NatToString(j + 1));
    JoinCancel(dir, a, b);
    NameCancel(base, NatToString(i + 1), NatToString(j + 1), ".wav");
    NatToStringInjective(i + 1, j + 1);
  }

  /** The name part of the split files has no separator. */
  lemma BaseHasNoSep(audioPath: string)
    ensures var base := DropLast(Basename(audioPath), 4) + "_"; |base| > 0 && base[|base| - 1] == '_' && Sep !in base[..|base| - 1]
  {
    var b := Basename(audioPath);
    var d := DropLast(b, 4);
    var base := d + "_";
    assert base[..|base| - 1] == d;
    assert forall c :: c in d ==> c in b;
  }

  /** Every split file lies inside the `_split` directory. */
  lemma SplitPathIsUnder(audioPath: string, i: nat)
    ensures IsUnder(SplitPath(audioPath, i), DropLast(audioPath, 4) + "_split")
  {
    var dir := DropLast(audioPath, 4) + "_split";
    var base := DropLast(Basename(audioPath), 4) + "_";
    BaseHasNoSep(audioPath);
    NamePrefix(base, NatToString(i + 1));
    JoinIsUnder(dir, base + NatToString(i + 1) + ".wav");
  }

  /** `vad_with_webrtc(audio_path, min_silence, min_duration, max_duration,
      save_to_file)`: nothing when the wav conversion fails or no speech
      is found; the header checks of `read_wave` may fail; otherwise the
      post-processing of the segments. */
  method VadWithWebrtc(audioPath: string, converted: bool, h: WaveHeader, pcm: seq<byte>,
                       isSpeech: (seq<byte>, nat) -> bool, dur: real,
                       minSilence: real, minDuration: real, maxDuration: real,
                       save: bool, round: real -> real)
    returns (r: Result<Option<Report>>)
    ensures !converted ==> r == Ok(None)
    ensures converted && ReadWave(h, pcm).Err? ==> r.Err? && r.exc.AssertionError?
    ensures converted && ReadWave(h, pcm).Ok? ==>
      var segs := Merged(SpeechSpans(Frames(pcm, h.frameRate, 10), isSpeech, h.frameRate), 0.5);
      && (segs == [] ==> r == Ok(None))
      && (segs != [] ==> r == OptionOf(Finish(segs, dur, minSilence, minDuration, maxDuration, save, audioPath, round)))
  {
    if !converted {
      return Ok(None);
    }
    var segments := VadAudioSegment(h, pcm, isSpeech, 0.5, 10);
    if segments.Err? {
      return Err(segments.exc);
    }
    var segs := segments.value;
    if |segs| == 0 {
      return Ok(None);
    }
    var merged := GreedyMerge(segs, minSilence, maxDuration);
    GreedyShape(segs, minSilence, maxDuration);
    var split := TailSplit(merged, minDuration);
    if split.Err? {
      return Err(split.exc);
    }
    var pinned := Pin(split.value, dur);
    var bounds := Smooth(pinned);
    if bounds.Err? {
      return Err(bounds.exc);
    }
    var es := WebrtcEntries(bounds.value, round, save, audioPath);
    return Ok(Some(Report(es, VaDuration(es), dur)));
  }

  /** A report wrapped as the optional value of a call that returned. */
  function OptionOf(r: Result<Report>): Result<Option<Report>> {
    match r
    case Ok(v) => Ok(Some(v))
    case Err(e) => Err(e)
  }

  /** The post-processing as evidently intended for one merged segment:
      it is kept whole, so that `[0, dur]` is its single entry. */
  function TailSplitIntended(fs: seq<Span>, minDuration: real): (r: seq<Span>)
    requires |fs| > 0
    ensures |r| == |fs|
    ensures |fs| == 1 ==> r == fs
    ensures TailSplit(fs, minDuration).Ok? ==> r == TailSplit(fs, minDuration).value
  {
    if |fs| == 1 then fs else TailSplit(fs, minDuration).value
  }

  function SmoothIntended(fs: seq<Span>): (r: seq<(real, real)>)
    requires |fs| > 0
    ensures |r| == |fs|
    ensures Smooth(fs).Ok? ==> r == Smooth(fs).value
  {
    if |fs| == 1 then [(fs[0].start, fs[0].end)] else Smooth(fs).value
  }

  function FinishIntended(segs: seq<Span>, dur: real, minSilence: real, minDuration: real, maxDuration: real,
                          save: bool, audioPath: string, round: real -> real): (rep: Report)
    requires |segs| > 0
    ensures rep.totalDuration == dur
    ensures Finish(segs, dur, minSilence, minDuration, maxDuration, save, audioPath, round).Ok? ==>
      rep == Finish(segs, dur, minSilence, minDuration, maxDuration, save, audioPath, round).value
  {
    GreedyShape(segs, minSilence, maxDuration);
    var merged := Greedy(segs, minSilence, maxDuration);
    var split := TailSplitIntended(merged, minDuration);
    var pinned := Pin(split, dur);
    var bounds := SmoothIntended(pinned);
    var es := WebrtcEntries(bounds, round, save, audioPath);
    Report(es, VaDuration(es), dur)
  }

  /** The intended post-processing never fails and always tiles from the
      rounded 0 to the rounded duration, one segment included. */
  lemma FinishIntendedTiles(segs: seq<Span>, dur: real, minSilence: real, minDuration: real, maxDuration: real,
                            save: bool, audioPath: string, round: real -> real)
    requires |segs| > 0
    ensures var rep := FinishIntended(segs, dur, minSilence, minDuration, maxDuration, save, audioPath, round);
      var es := rep.voiceActivity;
      && 1 <= |es| <= |segs|
      && es[0].start == round(0.0) && es[|es| - 1].stop == round(dur)
      && (forall i :: 0 <= i < |es| - 1 ==> es[i].stop == es[i + 1].start)
      && rep.vaDuration == round(dur) - round(0.0)
  {
    GreedyShape(segs, minSilence, maxDuration);
    var merged := Greedy(segs, minSilence, maxDuration);
    var split := TailSplitIntended(merged, minDuration);
    var pinned := Pin(split, dur);
    var bounds := SmoothIntended(pinned);
    var es := WebrtcEntries(bounds, round, save, audioPath);
    Telescopes(es);
  }

  /** The save directory of `vad_with_pyannote`: the `save_dir` keyword
      when given and non-empty, else `<cache>/tmp/vad/<stem>`. */
  function PyannoteSaveDir(saveDirArg: Option<string>, cacheDir: string, audioPath: string): (d: string)
    ensures saveDirArg.Some? && saveDirArg.value != "" ==> d == saveDirArg.value
    ensures !(saveDirArg.Some? && saveDirArg.value != "") ==>
      IsUnder(d, Join(Join(cacheDir, "tmp"), "vad")) && EndsWith(d, Stem(audioPath))
  {
    if saveDirArg.Some? && saveDirArg.value != "" then saveDirArg.value
    else
      var stem := Stem(audioPath);
      VadDirUnder(Join(Join(cacheDir, "tmp"), "vad"), stem);
      Join(Join(Join(cacheDir, "tmp"), "vad"), stem)
  }

  /** A stem joined onto the `vad` cache directory lies inside it. */
  lemma VadDirUnder(vadDir: string, stem: string)
    requires EndsWith(vadDir, "vad") && Sep !in stem
    ensures IsUnder(Join(vadDir, stem), vadDir) && EndsWith(Join(vadDir, stem), stem)
  {
    EndsWithLast(vadDir, "vad");
    assert !StartsWith(stem, [Sep]) by {
      if stem != [] { assert stem[0] in stem; }
    }
    JoinIsUnder(vadDir, stem);
  }

  /** The entries of `vad_with_pyannote` for the speech timeline: rounded
      bounds, and with `save_to_file` the path `save_to_file` returns
      (given the uuid drawn for each entry). */
  function PyannoteEntries(speech: seq<Span>, round: real -> real, save: bool, saveDir: string, uuids: seq<string>): (es: seq<Meta>)
    requires |uuids| == |speech|
    ensures |es| == |speech|
    ensures forall i :: 0 <= i < |speech| ==>
      es[i].start == round(speech[i].start) && es[i].stop == round(speech[i].end) && es[i].duration == es[i].stop - es[i].start
    ensures forall i :: 0 <= i < |speech| ==> es[i].filepath == if save then Some(Common.SavePath(saveDir, uuids[i])) else None
  {
    seq(|speech|, i requires 0 <= i < |speech| =>
      Meta(round(speech[i].start), round(speech[i].end), round(speech[i].end) - round(speech[i].start),
        if save then Some(Common.SavePath(saveDir, uuids[i])) else None))
  }

  /** `vad_with_pyannote(audio_path, save_to_file, save_dir=...)`. */
  function VadWithPyannote(audioPath: string, speech: seq<Span>, length: real, round: real -> real, save: bool,
                           saveDirArg: Option<string>, cacheDir: string, uuids: seq<string>): (rep: Report)
    requires |uuids| == |speech|
    ensures |rep.voiceActivity| == |speech| && rep.totalDuration == length
    ensures rep.vaDuration == VaDuration(rep.voiceActivity)
  {
    var es := PyannoteEntries(speech, round, save, PyannoteSaveDir(saveDirArg, cacheDir, audioPath), uuids);
    Report(es, VaDuration(es), length)
  }

  /** `va_duration` adds up the rounded lengths of the speech spans, and
      each saved entry names a fresh `<uuid>.wav` inside the save
      directory unless that directory has an extension. */
  lemma PyannoteRecords(audioPath: string, speech: seq<Span>, length: real, round: real -> real, save: bool,
                        saveDirArg: Option<string>, cacheDir: string, uuids: seq<string>, i: nat)
    requires |uuids| == |speech| && i < |speech| && Common.UuidText(uuids[i])
    ensures var rep := VadWithPyannote(audioPath, speech, length, round, save, saveDirArg, cacheDir, uuids);
      var dir := PyannoteSaveDir(saveDirArg, cacheDir, audioPath);
      && rep.voiceActivity[i].duration == round(speech[i].end) - round(speech[i].start)
      && (rep.voiceActivity[i].filepath.Some? <==> save)
      && (save && SplitExt(dir).1 == "" ==> Basename(rep.voiceActivity[i].filepath.value) == uuids[i] + ".wav")
      && (save && SplitExt(dir).1 != "" ==> rep.voiceActivity[i].filepath.value == dir)
  {
    Common.SavePathChoice(PyannoteSaveDir(saveDirArg, cacheDir, audioPath), uuids[i]);
  }

  /** The sum of the pyannote durations over the first entries. */
  lemma {:induction false} PyannoteDurationSum(speech: seq<Span>, round: real -> real, save: bool, saveDir: string, uuids: seq<string>)
    requires |uuids| == |speech|
    ensures VaDuration(PyannoteEntries(speech, round, save, saveDir, uuids)) == RoundedLength(speech, round)
    decreases |speech|
  {
    if |speech| > 0 {
      var n := |speech|;
      var es := PyannoteEntries(speech, round, save, saveDir, uuids);
      var p := PyannoteEntries(speech[..n - 1], round, save, saveDir, uuids[..n - 1]);
      assert es[..n - 1] == p;
      PyannoteDurationSum(speech[..n - 1], round, save, saveDir, uuids[..n - 1]);
    }
  }

  /** The rounded lengths of the spans, added up. */
  function RoundedLength(speech: seq<Span>, round: real -> real): real {
    if |speech| == 0 then 0.0
    else RoundedLength(speech[..|speech| - 1], round) + (round(speech[|speech| - 1].end) - round(speech[|speech| - 1].start))
  }
}

=== FILE: vad_utils.dfy ===
/** The webrtc voice-activity helpers of `modules/vad_utils.py`: the header
    check of `read_wave`, the fixed-size framing of `frame_generator`, and
    the gap merge of `vad_audio_segment`.

    Opening the file is not modelled: `read_wave` receives the header
    fields and the PCM bytes. The webrtc classifier is the parameter
    `isSpeech`. Timestamps are exact reals; the source accumulates them in
    floating point.
 */
module VadUtils {
  import opened Wrappers

  newtype byte = x: int | 0 <= x < 256

  /** The header fields `read_wave` inspects. */
  datatype WaveHeader = WaveHeader(channels: nat, sampleWidth: nat, frameRate: nat)

  /** The sample rates webrtc accepts. */
  const SupportedRates: set<nat> := {16000, 22050, 32000, 48000}

  /** `read_wave(path)`: the PCM data and sample rate of a mono file with
      2-byte samples at a webrtc rate; each header check is an `assert`. */
  function ReadWave(h: WaveHeader, pcm: seq<byte>): (r: Result<(seq<byte>, nat)>)
    ensures r.Ok? <==> h.channels == 1 && h.sampleWidth == 2 && h.frameRate in SupportedRates
    ensures r.Err? ==> r.exc.AssertionError?
    ensures r.Ok? ==> r.value == (pcm, h.frameRate)
  {
    if h.channels != 1 then Err(AssertionError("num_channels == 1"))
    else
      :- Need(h.sampleWidth == 2, AssertionError("sample_width == 2"));
      :- Need(h.frameRate in SupportedRates, AssertionError("sample_rate in (16000, 22050, 32000, 48000)"));
      Ok((pcm, h.frameRate))
  }

  /** The checks run in order: a file with several channels fails on the
      channel check whatever its width and rate. */
  lemma ReadWaveChecksChannelsFirst(h: WaveHeader, pcm: seq<byte>)
    requires h.channels != 1
    ensures ReadWave(h, pcm) == Err(AssertionError("num_channels == 1"))
  {
  }

  /** A `Frame`: its bytes, its start time and its length in seconds. */
  datatype Frame = Frame(bytes: seq<byte>, timestamp: real, duration: real)

  /** `n = int(sample_rate * (frame_duration_ms / 1000.0) * 2)`, the bytes
      per frame. The exact quotient stands in for the float product and its
      truncation; the two agree for 10, 20 and 30 ms at the supported
      rates. */
  function FrameBytes(rate: nat, ms: nat): nat {
    rate * ms * 2 / 1000
  }

  /** `(float(n) / sample_rate) / 2.0`, the seconds per frame. */
  function FrameSeconds(n: nat, rate: nat): real
    requires rate > 0
  {
    (n as real / rate as real) / 2.0
  }

  /** How many frames fit strictly before the end of `len` bytes. */
  function FrameCount(len: nat, n: nat): nat
    requires n > 0
  {
    if len == 0 then 0 else (len - 1) / n
  }

  lemma MulNext(k: nat, n: nat)
    ensures (k + 1) * n == k * n + n
  {
  }

  /** Every counted frame ends strictly before the data does. */
  lemma CountedFrameFits(len: nat, n: nat, k: nat)
    requires n > 0 && k < FrameCount(len, n)
    ensures (k + 1) * n < len
  {
    var c := (len - 1) / n;
    assert len - 1 == c * n + (len - 1) % n;
    assert (k + 1) * n <= c * n by {
      MulMono(k + 1, c, n);
    }
  }

  lemma MulMono(a: nat, b: nat, n: nat)
    requires a <= b
    ensures a * n <= b * n
  {
  }

  /** A frame count is `FrameCount` exactly when the last counted frame
      ends before the data and one more would not. */
  lemma CountCharacterized(len: nat, n: nat, c: nat)
    requires n > 0
    requires c == 0 || c * n < len
    requires c * n + n >= len
    ensures c == FrameCount(len, n)
  {
    if len > 0 {
      var q := (len - 1) / n;
      assert len - 1 == q * n + (len - 1) % n;
      if q < c {
        MulMono(q + 1, c, n);
        MulNext(q, n);
      } else if q > c {
        MulMono(c + 1, q, n);
        MulNext(c, n);
      }
    }
  }

  /** The `k`-th frame: bytes `k*n` up to `(k+1)*n`, starting at `k`
      frame lengths. */
  function FrameAt(audio: seq<byte>, n: nat, d: real, k: nat): Frame
    requires (k + 1) * n <= |audio|
  {
    MulNext(k, n);
    Frame(audio[k * n..(k + 1) * n], k as real * d, d)
  }

  /** The frames `frame_generator` yields, as one sequence. */
  function Frames(audio: seq<byte>, rate: nat, ms: nat): (fs: seq<Frame>)
    requires rate > 0 && FrameBytes(rate, ms) > 0
    ensures |fs| == FrameCount(|audio|, FrameBytes(rate, ms))
  {
    var n := FrameBytes(rate, ms);
    seq(FrameCount(|audio|, n), k requires 0 <= k < FrameCount(|audio|, n) =>
      CountedFrameFits(|audio|, n, k);
      FrameAt(audio, n, FrameSeconds(n, rate), k))
  }

  /** `list(frame_generator(frame_duration_ms, audio, sample_rate))`. The
      loop runs while `offset + n < len(audio)`; a zero rate divides by
      zero. A zero frame size on non-empty data never ends and is not a
      valid call. */
  method FrameGenerator(ms: nat, audio: seq<byte>, rate: nat) returns (r: Result<seq<Frame>>)
    requires rate == 0 || FrameBytes(rate, ms) > 0 || |audio| == 0
    ensures r.Err? <==> rate == 0
    ensures r.Err? ==> r.exc.ZeroDivisionError?
    ensures r.Ok? && FrameBytes(rate, ms) > 0 ==> r.value == Frames(audio, rate, ms)
    ensures r.Ok? && FrameBytes(rate, ms) == 0 ==> r.value == []
  {
    if rate == 0 {
      return Err(ZeroDivisionError("float division by zero"));
    }
    var n := FrameBytes(rate, ms);
    var d := FrameSeconds(n, rate);
    var frames: seq<Frame> := [];
    var offset := 0;
    var timestamp := 0.0;
    if n == 0 {
      return Ok(frames);
    }
    while offset + n < |audio|
      invariant offset == |frames| * n
      invariant |frames| > 0 ==> offset < |audio|
      invariant timestamp == |frames| as real * d
      invariant |frames| <= FrameCount(|audio|, n)
      invariant frames == Frames(audio, rate, ms)[..|frames|]
      decreases |audio| - offset
    {
      ghost var c := |frames|;
      ghost var fs := Frames(audio, rate, ms);
      FramesNext(audio, rate, ms, c);
      var f := Frame(audio[offset..offset + n], timestamp, d);
      assert f == fs[c];
      frames := frames + [f];
      assert frames == fs[..c] + [fs[c]];
      timestamp := timestamp + d;
      offset := offset + n;
    }
    CountCharacterized(|audio|, n, |frames|);
    assert frames == Frames(audio, rate, ms);
    return Ok(frames);
  }

  /** When frame `c` ends strictly before the data does, it is counted, and
      it is the next frame after the first `c`. */
  lemma FramesNext(audio: seq<byte>, rate: nat, ms: nat, c: nat)
    requires rate > 0 && FrameBytes(rate, ms) > 0
    requires c * FrameBytes(rate, ms) + FrameBytes(rate, ms) < |audio|
    ensures var n := FrameBytes(rate, ms); var fs := Frames(audio, rate, ms);
      && c < |fs|
      && fs[c] == Frame(audio[c * n..c * n + n], c as real * FrameSeconds(n, rate), FrameSeconds(n, rate))
      && fs[..c + 1] == fs[..c] + [fs[c]]
  {
    var n := FrameBytes(rate, ms);
    var fs := Frames(audio, rate, ms);
    FitsCounted(|audio|, n, c);
    MulNext(c, n);
    assert fs[..c + 1] == fs[..c] + [fs[c]];
  }

  /** A frame ending strictly before the data is counted. */
  lemma FitsCounted(len: nat, n: nat, c: nat)
    requires n > 0 && c * n + n < len
    ensures c < FrameCount(len, n)
  {
    var q := (len - 1) / n;
    assert len - 1 == q * n + (len - 1) % n;
    if q <= c {
      MulMono(q + 1, c + 1, n);
      MulNext(q, n);
      MulNext(c, n);
    }
  }

  /** A final frame that would end exactly at the end of the data is not
      yielded: `m` whole frames of data give `m - 1` frames. */
  lemma ExactFitDropped(m: nat, n: nat)
    requires m >= 1 && n > 0
    ensures FrameCount(m * n, n) == m - 1
  {
    MulNext(m - 1, n);
    CountCharacterized(m * n, n, m - 1);
  }

  /** The bytes of all frames, in order. */
  function Joined(fs: seq<Frame>): seq<byte>
  {
    if fs == [] then [] else Joined(fs[..|fs| - 1]) + fs[|fs| - 1].bytes
  }

  /** The frames are contiguous and do not overlap: together they are the
      data up to `count * n`, from offset 0. */
  lemma {:induction false} FramesTile(audio: seq<byte>, rate: nat, ms: nat, c: nat)
    requires rate > 0 && FrameBytes(rate, ms) > 0
    requires c <= |Frames(audio, rate, ms)|
    ensures c * FrameBytes(rate, ms) <= |audio|
    ensures Joined(Frames(audio, rate, ms)[..c]) == audio[..c * FrameBytes(rate, ms)]
  {
    var n := FrameBytes(rate, ms);
    var fs := Frames(audio, rate, ms);
    if c == 0 {
    } else {
      FramesTile(audio, rate, ms, c - 1);
      CountedFrameFits(|audio|, n, c - 1);
      MulNext(c - 1, n);
      assert fs[..c][..c - 1] == fs[..c - 1];
      assert fs[c - 1].bytes == audio[(c - 1) * n..c * n];
      assert audio[..(c - 1) * n] + audio[(c - 1) * n..c * n] == audio[..c * n];
    }
  }

  /** A speech interval `[start, end]`. */
  datatype Span = Span(start: real, end: real)

  /** The spans `[timestamp, timestamp + duration]` of the frames the
      classifier marks as speech, in frame order. */
  function SpeechSpans(fs: seq<Frame>, isSpeech: (seq<byte>, nat) -> bool, rate: nat): (r: seq<Span>)
    ensures |r| <= |fs|
    ensures r == [] <==> forall i :: 0 <= i < |fs| ==> !isSpeech(fs[i].bytes, rate)
    ensures forall j :: 0 <= j < |r| ==>
      exists i :: 0 <= i < |fs| && isSpeech(fs[i].bytes, rate) && r[j] == Span(fs[i].timestamp, fs[i].timestamp + fs[i].duration)
  {
    if fs == [] then []
    else
      var rest := SpeechSpans(fs[1..], isSpeech, rate);
      var f := fs[0];
      assert forall i :: 0 <= i < |fs| - 1 ==> fs[1..][i] == fs[i + 1];
      if isSpeech(f.bytes, rate) then [Span(f.timestamp, f.timestamp + f.duration)] + rest
      else
        assert (forall i :: 0 <= i < |fs| ==> !isSpeech(fs[i].bytes, rate))
            <==> (forall i :: 0 <= i < |fs| - 1 ==> !isSpeech(fs[1..][i].bytes, rate));
        rest
  }

  /** The spans of two runs of frames, one after the other, are the spans
      of the first run followed by those of the second. */
  lemma {:induction false} SpeechSpansAppend(a: seq<Frame>, b: seq<Frame>, isSpeech: (seq<byte>, nat) -> bool, rate: nat)
    ensures SpeechSpans(a + b, isSpeech, rate) == SpeechSpans(a, isSpeech, rate) + SpeechSpans(b, isSpeech, rate)
  {
    if a == [] {
      assert a + b == b;
    } else {
      assert (a + b)[1..] == a[1..] + b;
      assert (a + b)[0] == a[0];
      SpeechSpansAppend(a[1..], b, isSpeech, rate);
    }
  }

  /** One frame gives its own span when it is speech and nothing
      otherwise. */
  lemma SpeechSpansSingle(f: Frame, isSpeech: (seq<byte>, nat) -> bool, rate: nat)
    ensures SpeechSpans([f], isSpeech, rate) == if isSpeech(f.bytes, rate) then [Span(f.timestamp, f.timestamp + f.duration)] else []
  {
  }

  /** Start indices of groups of consecutive spans among the first `n`:
      the first is 0 and they increase. */
  predicate ValidStarts(s: seq<nat>, n: nat) {
    && |s| > 0 && s[0] == 0
    && (forall j :: 0 <= j < |s| ==> s[j] < n)
    && (forall a, b :: 0 <= a < b < |s| ==> s[a] < s[b])
  }

  /** Dropping the last group start leaves the starts of the spans before it. */
  lemma StartsDropLast(s: seq<nat>, n: nat)
    requires ValidStarts(s, n) && |s| > 1
    ensures ValidStarts(s[..|s| - 1], s[|s| - 1])
  {
    var p := s[..|s| - 1];
    assert forall j :: 0 <= j < |p| ==> p[j] == s[j];
  }

  /** Each group of `spans[..n]` merged into one span: from the start of
      its first span to the end of its last. */
  function Groups(spans: seq<Span>, s: seq<nat>, n: nat): (r: seq<Span>)
    requires ValidStarts(s, n) && n <= |spans|
    ensures |r| == |s|
    ensures r[|r| - 1] == Span(spans[s[|s| - 1]].start, spans[n - 1].end)
    decreases |s|
  {
    var m := s[|s| - 1];
    var last := Span(spans[m].start, spans[n - 1].end);
    if |s| == 1 then [last]
    else
      StartsDropLast(s, n);
      Groups(spans, s[..|s| - 1], m) + [last]
  }

  /** The groups begin with the first span and end with the last; there
      are no more groups than spans, and group `j` runs from the start of
      span `s[j]` to the end of the span before the next group start. */
  lemma GroupsShape(spans: seq<Span>, s: seq<nat>, n: nat)
    requires ValidStarts(s, n) && n <= |spans|
    ensures var r := Groups(spans, s, n);
      && 1 <= |r| <= n
      && r[0].start == spans[0].start
      && r[|r| - 1].end == spans[n - 1].end
      && (forall j :: 0 <= j < |r| ==> r[j].start == spans[s[j]].start)
      && (forall j :: 0 <= j < |r| - 1 ==> r[j].end == spans[s[j + 1] - 1].end)
  {
    GroupsCount(spans, s, n);
    GroupsStarts(spans, s, n);
    GroupsEnds(spans, s, n);
  }

  lemma {:induction false} GroupsCount(spans: seq<Span>, s: seq<nat>, n: nat)
    requires ValidStarts(s, n) && n <= |spans|
    ensures |s| <= n
    decreases |s|
  {
    if |s| > 1 {
      StartsDropLast(s, n);
      GroupsCount(spans, s[..|s| - 1], s[|s| - 1]);
    }
  }

  lemma {:induction false} GroupsStarts(spans: seq<Span>, s: seq<nat>, n: nat)
    requires ValidStarts(s, n) && n <= |spans|
    ensures forall j :: 0 <= j < |s| ==> Groups(spans, s, n)[j].start == spans[s[j]].start
    decreases |s|
  {
    if |s| > 1 {
      var p := s[..|s| - 1];
      StartsDropLast(s, n);
      GroupsStarts(spans, p, s[|s| - 1]);
      var g := Groups(spans, p, s[|s| - 1]);
      var r := Groups(spans, s, n);
      forall j | 0 <= j < |g| ensures r[j].start == spans[s[j]].start {
        assert r[j] == g[j] && p[j] == s[j];
      }
    }
  }

  lemma {:induction false} GroupsEnds(spans: seq<Span>, s: seq<nat>, n: nat)
    requires ValidStarts(s, n) && n <= |spans|
    ensures forall j :: 0 <= j < |s| - 1 ==> Groups(spans, s, n)[j].end == spans[s[j + 1] - 1].end
    decreases |s|
  {
    if |s| > 1 {
      var p := s[..|s| - 1];
      var m := s[|s| - 1];
      StartsDropLast(s, n);
      GroupsEnds(spans, p, m);
      var g := Groups(spans, p, m);
      var r := Groups(spans, s, n);
      forall j | 0 <= j < |r| - 1 ensures r[j].end == spans[s[j + 1] - 1].end {
        assert r[j] == g[j];
        if j + 1 < |g| {
          assert p[j + 1] == s[j + 1];
        } else {
          assert j == |g| - 1 && s[j + 1] == m;
          assert g[j].end == spans[m - 1].end;
        }
      }
    }
  }

  lemma StartsGrow(s: seq<nat>, n: nat)
    requires ValidStarts(s, n)
    ensures ValidStarts(s, n + 1)
    ensures ValidStarts(s + [n], n + 1)
  {
    var t := s + [n];
    assert forall j :: 0 <= j < |s| ==> t[j] == s[j];
  }

  /** Extending the last group by span `n`. */
  lemma GroupsExtend(spans: seq<Span>, s: seq<nat>, n: nat)
    requires ValidStarts(s, n) && n < |spans|
    ensures ValidStarts(s, n + 1)
    ensures var g := Groups(spans, s, n); var last := g[|g| - 1];
      Groups(spans, s, n + 1) == g[..|g| - 1] + [Span(last.start, spans[n].end)]
  {
    StartsGrow(s, n);
    if |s| > 1 {
      StartsDropLast(s, n);
    }
  }

  /** Starting a new group at span `n`. */
  lemma GroupsCut(spans: seq<Span>, s: seq<nat>, n: nat)
    requires ValidStarts(s, n) && n < |spans|
    ensures ValidStarts(s + [n], n + 1)
    ensures Groups(spans, s + [n], n + 1) == Groups(spans, s, n) + [spans[n]]
  {
    StartsGrow(s, n);
    assert (s + [n])[..|s|] == s;
  }

  /** A new merged segment starts at span `k` when it begins more than
      `gap` after the previous span ends. */
  predicate GapCut(spans: seq<Span>, gap: real, k: nat)
    requires 1 <= k < |spans|
  {
    spans[k].start > spans[k - 1].end + gap
  }

  /** The group starts of the gap merge among the first `i` spans. */
  function GapStarts(spans: seq<Span>, gap: real, i: nat): (s: seq<nat>)
    requires 1 <= i <= |spans|
    ensures ValidStarts(s, i)
    ensures forall k :: 1 <= k < i ==> (k in s <==> GapCut(spans, gap, k))
    decreases i
  {
    if i == 1 then [0]
    else
      var s := GapStarts(spans, gap, i - 1);
      if GapCut(spans, gap, i - 1) then s + [i - 1] else s
  }

  /** The gap merge of `vad_audio_segment` as a function of its input. */
  function Merged(spans: seq<Span>, gap: real): seq<Span>
  {
    if spans == [] then [] else Groups(spans, GapStarts(spans, gap, |spans|), |spans|)
  }

  /** The merge loop of `vad_audio_segment` (the webrtc model, the frame
      classification and `read_wave` happen before it): a speech span
      starting within `gap_size` of the current segment's end extends
      that segment, any other starts a new one. */
  method MergeGaps(spans: seq<Span>, gap: real) returns (out: seq<Span>)
    ensures out == Merged(spans, gap)
  {
    if |spans| == 0 {
      return [];
    }
    out := [spans[0]];
    var i := 1;
    assert out == Groups(spans, [0], 1);
    while i < |spans|
      invariant 1 <= i <= |spans|
      invariant out == Groups(spans, GapStarts(spans, gap, i), i)
    {
      var x := spans[i];
      var last := out[|out| - 1];
      if x.start <= last.end + gap {
        MergeStepExtend(spans, gap, i);
        out := out[..|out| - 1] + [Span(last.start, x.end)];
      } else {
        MergeStepCut(spans, gap, i);
        out := out + [x];
      }
      i := i + 1;
    }
  }

  /** The last merged segment so far ends where span `i - 1` ends. */
  lemma MergeLastEnd(spans: seq<Span>, gap: real, i: nat)
    requires 1 <= i <= |spans|
    ensures var g := Groups(spans, GapStarts(spans, gap, i), i); g[|g| - 1].end == spans[i - 1].end
  {
  }

  /** A span within `gap` of the last segment's end extends it. */
  lemma MergeStepExtend(spans: seq<Span>, gap: real, i: nat)
    requires 1 <= i < |spans|
    requires var g := Groups(spans, GapStarts(spans, gap, i), i); spans[i].start <= g[|g| - 1].end + gap
    ensures var g := Groups(spans, GapStarts(spans, gap, i), i); var last := g[|g| - 1];
      Groups(spans, GapStarts(spans, gap, i + 1), i + 1) == g[..|g| - 1] + [Span(last.start, spans[i].end)]
  {
    MergeLastEnd(spans, gap, i);
    var s := GapStarts(spans, gap, i);
    assert !GapCut(spans, gap, i);
    assert GapStarts(spans, gap, i + 1) == s;
    GroupsExtend(spans, s, i);
  }

  /** A span further than `gap` from the last segment's end starts a new one. */
  lemma MergeStepCut(spans: seq<Span>, gap: real, i: nat)
    requires 1 <= i < |spans|
    requires var g := Groups(spans, GapStarts(spans, gap, i), i); spans[i].start > g[|g| - 1].end + gap
    ensures Groups(spans, GapStarts(spans, gap, i + 1), i + 1) == Groups(spans, GapStarts(spans, gap, i), i) + [spans[i]]
  {
    MergeLastEnd(spans, gap, i);
    var s := GapStarts(spans, gap, i);
    assert GapCut(spans, gap, i);
    assert GapStarts(spans, gap, i + 1) == s + [i];
    GroupsCut(spans, s, i);
  }

  /** No speech gives no segments; otherwise there are no more segments
      than speech spans, the first starts where the first span starts and
      the last ends where the last span ends. */
  lemma MergedShape(spans: seq<Span>, gap: real)
    ensures Merged(spans, gap) == [] <==> spans == []
    ensures |Merged(spans, gap)| <= |spans|
    ensures spans != [] ==> Merged(spans, gap)[0].start == spans[0].start
    ensures spans != [] ==> Merged(spans, gap)[|Merged(spans, gap)| - 1].end == spans[|spans| - 1].end
  {
    if spans != [] {
      GroupsShape(spans, GapStarts(spans, gap, |spans|), |spans|);
    }
  }

  /** Consecutive merged segments are more than `gap` apart. */
  lemma MergedSeparated(spans: seq<Span>, gap: real, j: nat)
    requires j + 1 < |Merged(spans, gap)|
    ensures Merged(spans, gap)[j + 1].start > Merged(spans, gap)[j].end + gap
  {
    var s := GapStarts(spans, gap, |spans|);
    GroupsShape(spans, s, |spans|);
    var k := s[j + 1];
    assert 1 <= s[j] + 1 <= k < |spans|;
    assert k in s;
    assert GapCut(spans, gap, k);
  }

  /** Each merged segment starts at a speech span's start and ends at a
      speech span's end. */
  lemma MergedEndpoints(spans: seq<Span>, gap: real, j: nat)
    requires j < |Merged(spans, gap)|
    ensures exists i :: 0 <= i < |spans| && Merged(spans, gap)[j].start == spans[i].start
    ensures exists i :: 0 <= i < |spans| && Merged(spans, gap)[j].end == spans[i].end
  {
    var s := GapStarts(spans, gap, |spans|);
    GroupsShape(spans, s, |spans|);
    if j + 1 < |s| {
      assert s[j + 1] >= 1;
      assert Merged(spans, gap)[j].end == spans[s[j + 1] - 1].end;
    }
  }

  /** `vad_audio_segment(model, audio_file, gap_size, frame_duration)` once
      the file is open: the header checks, the framing, the classification
      of each frame and the gap merge. */
  method VadAudioSegment(h: WaveHeader, pcm: seq<byte>, isSpeech: (seq<byte>, nat) -> bool, gap: real, ms: nat)
    returns (r: Result<seq<Span>>)
    requires ms > 0
    ensures r.Err? <==> ReadWave(h, pcm).Err?
    ensures r.Err? ==> r.exc.AssertionError?
    ensures r.Ok? ==> FrameBytes(h.frameRate, ms) > 0
    ensures r.Ok? ==> r.value == Merged(SpeechSpans(Frames(pcm, h.frameRate, ms), isSpeech, h.frameRate), gap)
  {
    var wave := ReadWave(h, pcm);
    if wave.Err? {
      return Err(wave.exc);
    }
    var (audio, rate) := wave.value;
    assert rate >= 16000;
    assert FrameBytes(rate, ms) > 0 by {
      MulMono(1, ms, rate * 2);
    }
    var frames := FrameGenerator(ms, audio, rate);
    var spans := SpeechSpans(frames.value, isSpeech, rate);
    var merged := MergeGaps(spans, gap);
    return Ok(merged);
  }

  /** Audio in which no frame is speech yields no segments. */
  lemma SilenceGivesNothing(pcm: seq<byte>, rate: nat, ms: nat, isSpeech: (seq<byte>, nat) -> bool, gap: real)
    requires rate > 0 && FrameBytes(rate, ms) > 0
    requires forall i :: 0 <= i < |Frames(pcm, rate, ms)| ==> !isSpeech(Frames(pcm, rate, ms)[i].bytes, rate)
    ensures Merged(SpeechSpans(Frames(pcm, rate, ms), isSpeech, rate), gap) == []
  {
  }
}

=== FILE: wrappers.dfy ===
/** Failure-compatible wrappers shared by every module of the model.

    Python signals failure by raising; the model returns a `Result` whose
    `Err` case names the Python exception class that the source would raise
    at that point, with a short description of what triggered it.
 */
module Wrappers {

  /** Python's `None`-or-value. */
  datatype Option<+T> = None | Some(value: T) {

    predicate IsFailure() {
      None?
    }

    function PropagateFailure<U>(): Option<U>
      requires None?
    {
      None
    }

    function Extract(): T
      requires Some?
    {
      value
    }

    function GetOr(default: T): T {
      match this
      case Some(v) => v
      case None => default
    }
  }

  /** The exception a Python statement raises, named after its class. */
  datatype Exc =
    | AssertionError(msg: string)
    | KeyError(key: string)
    | TypeError(msg: string)
    | AttributeError(name: string)
    | ValueError(msg: string)
    | IndexError(msg: string)
    | NotImplementedError(msg: string)
    | ZeroDivisionError(msg: string)
    /** An opaque collaborator (an ML stage, a download) raised. */
    | Raised(origin: string)

  /** Either the value a Python call returns, or the exception it raises. */
  datatype Result<+T> = Ok(value: T) | Err(exc: Exc) {

    predicate IsFailure() {
      Err?
    }

    function PropagateFailure<U>(): Result<U>
      requires Err?
    {
      Err(exc)
    }

    function Extract(): T
      requires Ok?
    {
      value
    }

    function ToOption(): Option<T> {
      match this
      case Ok(v) => Some(v)
      case Err(_) => None
    }
  }

  /** `:- Need(c, e)` fails with `e` unless `c` holds (a Python `assert`). */
  datatype Check = Pass | Fail(exc: Exc) {

    predicate IsFailure() {
      Fail?
    }

    function PropagateFailure<U>(): Result<U>
      requires Fail?
    {
      Err(exc)
    }
  }

  function Need(condition: bool, exc: Exc): (c: Check)
  {
    if condition then Pass else Fail(exc)
  }
}
